=== FILE: README.md ===
# ashirt tray client core, modelled in Dafny

This project models the non-graphical core of the ashirt tray client, a Qt application that captures screenshots
and code blocks as *evidence* and stores them in a local SQLite database before they are uploaded to an ashirt
server. It also models the Python script that updates migration resources. Every component is a module of pure
functions over immutable datatypes, and every component comes with lemmas that state what the source promises.

The modules, in the order of the client's structure:

- `Wrappers`, `Text` and `Json`: the `Option`/`Result` types, the QString operations the client relies on
  (split with and without empty parts, trim, simplified, replace, `arg`, contains, case-insensitive compare), and
  an abstract `QJsonValue` with the `toInt`/`toString`/`toBool` conversions.
- `Models`: the tag and evidence records.
- `EvidenceFilter`: the filter language of the evidence window. It covers tokenising `key: value` text, the
  standardised keys, tri-state and date-range values, the parse and to-text round trip, and the as-written
  tokenizer.
- `DbHelpers` and `DbQueries`:
  - reading the "up" half of a migration script, and deciding which migrations still need applying;
  - batch framing under SQLite's limit of 999 bound variables;
  - the evidence-list query built from the filter criteria, evaluated by a small SQL model that includes LIKE and
    NULL;
  - the plan that `setEvidenceTags` makes.
- `Codeblocks`, `Screenshots`, `FileHelpers`, `StringHelpers`, `CreateOperation`, `SemVerModel`:
  - the code-block JSON format;
  - splitting the screenshot command into arguments;
  - random file names;
  - slugs and the operation-slug check;
  - the create-operation dialog's validation;
  - parsing a release tag and printing it back.
- `ServerItems`, `ServerRegistry`, `ConnectionForm`, `ConnectionCells`: server records and their JSON, the registry
  of servers with its file format, the connection editing form, and the cell flags of the
  connections table.
- `Configs`, `AppConfigLoader`, `FlatAppConfig`: the versioned config files and the upgrade from version 1, the
  application configuration with its defaults, and the flat key/value configuration.
- `SystemManifests`, `EvidenceManifests`, `PortingOptions`: the import/export manifest formats, and the migration of
  evidence records from an imported database.
- `Requests`, `Multipart`: the request builder (method, URL, headers, body) and the multipart form body.
- `TagsEditor`, `TagCache`, `TagColors`: the tag-entry editor as a state machine over key presses, the per-operation
  tag cache with its expiry, and the tag colours: the shared palette, the random pick for a new tag, and black or
  white text for a background.
- `EvidenceManager`: the evidence manager's helpers: the parent directory of an evidence file, the summary of a bulk
  delete, and the text each table column shows, together with the filter that a row's text selects.
- `HotkeyMap`, `KeySequence`: the hotkey table, the key sequence with its modifiers, and the mapping of Qt keys to
  native keys.
- `MigrationResource`: the Python build helper that registers a new migration file in the Qt resource descriptor,
  under the first top-level element whose prefix is "/".

Several things enter the model as parameters rather than being computed:

- random draws;
- the clock and "today";
- the rendering and parsing of dates;
- native path rendering;
- the text form of a `QKeySequence`;
- the results of file, SQL and network I/O.

Where the source has a defect whose intended behaviour is evident, the model keeps two functions: one that follows
the code as written, and one with the intended behaviour. A lemma exhibits the difference between them (see
"## Findings"). The rest of the model uses the corrected function.

One oddity is modelled as written only. In `AppConfig::importConfig` (src/appconfig.cpp:71) the guard
`key != ACCESSKEY || key != SECRETKEY || key != APIURL` holds for every key, so the branch that copies an imported
value is dead and importing erases every listed key (`FlatAppConfig.ImportGuardAlwaysTrue`,
`FlatAppConfig.ImportKeysMeaning`). No single repair is evident:
- with `&&`, the import would copy only the three credential keys and erase the other settings;
- with the branches swapped, it would copy the other settings and erase the credentials.

Nothing else in the source says which behaviour was meant, so this is not listed under "## Findings".

## Model

| member | source | states |
|---|---|---|
| ConnectionCells.FlagValues | src/forms/connections/connection_cell_data.h:15-19 | "none" is 0, error is 2 and warning is 4; the error and warning flags share no bit; different flags have different values |
| ConnectionCells.WorseOfMeaning | src/forms/connections/connection_cell_data.h:21-29 | worseOf returns one of its arguments, the more severe one; so it is commutative, associative and idempotent, with "none" as its unit |
| ConnectionCells.NewCell | src/forms/connections/connection_cell_data.h:38-42 | a newly built cell carries no flags, so it reports neither an error nor a warning |
| ConnectionCells.UpdateDataMeaning | src/forms/connections/connection_cell_data.h:44-50 | after updateData(u), isOriginalData(x) holds exactly when x is u; the uuid, the row type and the flags are untouched |
| ConnectionCells.MarkDeletedMeaning | src/forms/connections/connection_cell_data.h:52-54 | the row is marked deleted exactly when the argument is true; either way it is no longer a row to add; flags and text are kept |
| ConnectionCells.SetFlagsMeaning | src/forms/connections/connection_cell_data.h:56-57 | the stored flags become the argument and nothing else in the cell changes |
| ConnectionCells.AddFlagBits | src/forms/connections/connection_cell_data.h:59-60 | addFlag sets every bit of its argument and leaves every other bit, and every other field, as it was |
| ConnectionCells.RemoveFlagBits | src/forms/connections/connection_cell_data.h:62-63 | removeFlag clears every bit of its argument and leaves every other bit, and every other field, as it was |
| ConnectionCells.AddIdempotent | src/forms/connections/connection_cell_data.h:59-60 | adding the same flags twice is the same as adding them once |
| ConnectionCells.ErrorFlagTest | src/forms/connections/connection_cell_data.h:59-68 | hasError is true after the error flag is added and false after it is removed |
| ConnectionCells.WarningFlagTest | src/forms/connections/connection_cell_data.h:59-69 | hasWarning is true after the warning flag is added and false after it is removed |
| ConnectionCells.ErrorLeavesWarning | src/forms/connections/connection_cell_data.h:59-69 | adding or removing the error flag does not change hasWarning |
| ConnectionCells.WarningLeavesError | src/forms/connections/connection_cell_data.h:59-69 | adding or removing the warning flag does not change hasError |
| MigrationResource.FirstMatch | bin/update_migration_resource.py:17-18 | the position found is the first child whose prefix attribute is "/"; no position is found exactly when no child has that prefix |
| MigrationResource.AddEntryMeaning | bin/update_migration_resource.py:19-24 | one `<file>` child holding the new name is appended, with the closing indentation as its tail; the former last child gets the inner indentation as its tail; every other child and the element's own fields are unchanged |
| MigrationResource.UpdateMeaning | bin/update_migration_resource.py:17-25 | only the first child with prefix "/" gains the entry and the scan stops there; every other child and the root are unchanged; with no such child the tree is unchanged |
| MigrationResource.UpdateTwice | bin/update_migration_resource.py:17-25 | nothing checks for duplicates: registering a name twice adds two entries for it under the same element |
| MigrationResource.RunMeaning | bin/update_migration_resource.py:7-27 | with fewer than two arguments after the script name only the usage text results; otherwise the tree is written back to the first argument, even when no element matched |
| TagCache.SetTagsMeaning | src/components/tagging/tag_cache/tagcacheitem.cpp:14-31 | a list stored at time t reads back unchanged and is fresh exactly while the clock is below t plus 60000 ms; once stale it stays stale as the clock advances |
| TagCache.ExpireMeaning | src/components/tagging/tag_cache/tagcacheitem.cpp:10-19 | an expired item is stale at every time from the epoch on and keeps its tags |
| PortingOptions.ActionValues | src/porting/system_porting_options.h:38-43 | None is 0 and Merge is 1; reading back an action's value gives the action, and exactly 0 and 1 name an action |
| PortingOptions.IncludesAnythingMeaning | src/porting/system_porting_options.h:15-59 | an options set includes nothing exactly when every switch is off (evidence action None on import); the defaults turn everything on, with evidence merged |
| Codeblocks.MkNameShape | src/models/codeblock.cpp:27-35 | a code block's file name is "ashirt_codeblock_", then the drawn token, then ".json" |
| Codeblocks.EncodeMeaning | src/models/codeblock.cpp:54-66 | the encoded object always holds the subtype and the content; it holds "metadata" exactly when there is a source, and then that object holds the source; nothing else is written, and no top-level "source" |
| Codeblocks.SourceLostAsWritten | src/models/codeblock.cpp:11-20 | as written, decoding an encoded block gives back content and subtype but always an empty source, so a non-empty source is lost |
| Codeblocks.RoundTrip | src/models/codeblock.cpp:11-20 | when the source is read from inside "metadata", decoding an encoded block gives back every field but the file name |
| Codeblocks.SaveThenRead | src/models/codeblock.cpp:37-47 | as written, reading a saved block's file gives back every field but the source, which is lost; with the corrected decoder the block comes back whole, with the path as file name; an unparsable file gives the empty block with that file name under either reader |
| Screenshots.MkNameShape | src/helpers/screenshot.cpp:18-21 | a screenshot's file name is "ashirt_screenshot_", then the drawn token, then ".png" |
| Screenshots.QuotedProgram | src/helpers/screenshot.cpp:33-34 | a command starting with a double quote yields as program the text up to and including the first closing quote, with no quote in between; it yields nothing when there is no closing quote |
| Screenshots.PlainProgram | src/helpers/screenshot.cpp:35-36 | any other command yields as program a prefix of the command that holds no space and is followed by a space or ends the command |
| Screenshots.ArgumentsAreWords | src/helpers/screenshot.cpp:30-42 | the arguments are the whitespace-separated words left once every occurrence of the program text is removed; when no word is left there is one empty argument |
| Screenshots.NoPlaceholder | src/helpers/screenshot.cpp:30 | a command without "%file" is used unchanged |
| FileHelpers.RandomTextShape | src/helpers/file_helpers.h:35-46 | randomText gives exactly the number of characters asked for, each an ASCII letter of either case |
| FileHelpers.RandomTextReachesAll | src/helpers/file_helpers.h:35-46 | every string of ASCII letters is the outcome of some sequence of draws, so the alphabet is exactly the 52 letters |
| FileHelpers.RandomFilenameShape | src/helpers/file_helpers.h:48-68 | the name keeps the template's length; when the token occurs, only its first occurrence is replaced, by letters, and the text around it is kept; otherwise the template comes back unchanged |
| StringHelpers.RandomStringShape | src/helpers/string_helpers.h:15-20 | randomString gives the length asked for (none for a negative length), each character an ASCII letter or digit |
| StringHelpers.RandomStringReachesAll | src/helpers/string_helpers.h:15-20 | every alphanumeric string is the outcome of some sequence of draws, so the alphabet is exactly the 62 characters of the table |
| StringHelpers.ValidSlugMeaning | src/helpers/string_helpers.h:29-48 | with the pattern anchored at the very end, a slug is valid exactly when it has 1 to 128 characters, each a letter, digit, '_' or '-'; the traversal checks add nothing |
| StringHelpers.AsWrittenMeaning | src/helpers/string_helpers.h:29-48 | as written, isValidOperationSlug accepts exactly the valid slugs plus a valid slug followed by one final newline |
| StringHelpers.TrailingNewlineAccepted | src/helpers/string_helpers.h:35-36 | "abc\n" passes isValidOperationSlug as written although it is not a valid slug |
| CreateOperation.SlugShape | src/forms/add_operation/createoperation.cpp:70-75 | the slug holds only lower-case letters, digits and single inner dashes, and its letters and digits are exactly the name's, lower-cased, in order |
| CreateOperation.SlugIdempotent | src/forms/add_operation/createoperation.cpp:70-75 | a slug is its own slug |
| CreateOperation.SlugEmptyIff | src/forms/add_operation/createoperation.cpp:70-75 | the slug is empty exactly when the name has no ASCII letter or digit |
| CreateOperation.SlugIsValid | src/forms/add_operation/createoperation.cpp:70-75 | every non-empty slug of at most 128 characters passes the operation-slug check |
| CreateOperation.SlugExample | src/forms/add_operation/createoperation.cpp:70-75 | "#A&b" becomes "a-b" |
| CreateOperation.SubmitOutcome | src/forms/add_operation/createoperation.cpp:50-68 | submitting requests an operation exactly when the trimmed name has a letter or digit, and then with that name's slug; it reports an empty name exactly when the trimmed name is empty |
| SemVerModel.ParseTag | src/dtos/github_release.h:22-37 | a tag "v" a.b.c followed by a suffix parses back to exactly those three numbers and that suffix, for numbers that fit an int and a suffix that neither starts with a digit nor holds a line feed |
| SemVerModel.ParseOverflow | src/dtos/github_release.h:30-32 | a version number too large for an int is read as 0 |
| SemVerModel.ParseAnchored | src/dtos/github_release.h:23-28 | a tag starting with anything but 'v', 'V' or a digit does not match |
| SemVerModel.ToStringReadsMajor | src/dtos/github_release.h:39-44 | the description starts with "major: " and the digits right after it are the major version |
| ServerItems.NewItemMeaning | src/config/server_item.h:16-29 | the five-argument constructor gives id 0, not deleted, with the given texts; the item is valid exactly when its uuid is non-empty |
| ServerItems.DefaultInvalid | src/config/server_item.h:56-73 | the default item, with an empty uuid, is not valid |
| ServerItems.SerializeKeys | src/config/server_item.h:32-42 | the serialized object holds exactly the seven keys |
| ServerItems.RoundTrip | src/config/server_item.h:32-53 | deserializing a serialized item gives it back, for every id that fits an int |
| ServerItems.DeserializeEmpty | src/config/server_item.h:43-53 | an object without any of the keys reads as the default item, which is not valid |
| ServerRegistry.PutMeaning | src/config/server_v2.h:35 | storing an item under its uuid keeps one entry per uuid; afterwards the item is found under its uuid and every other lookup is unchanged |
| ServerRegistry.RemoveMeaning | src/config/server_v2.h:85 | erasing a uuid keeps one entry per uuid; afterwards that uuid is absent and every other lookup is unchanged |
| ServerRegistry.SortMeaning | src/config/server_v2.h:57 | the sorted listing is ordered by id and is a permutation of the entries |
| ServerRegistry.GetServersMeaning | src/config/server_v2.h:48-71 | the full listing is the entries sorted by id; without deleted servers it is that listing with the deleted ones left out; the entries do not change and the cache is clean afterwards |
| ServerRegistry.GetServerByUuidMeaning | src/config/server_v2.h:40-46 | an unknown uuid gives the default item; a valid result is a stored entry |
| ServerRegistry.DeleteServerMeaning | src/config/server_v2.h:73-90 | an unknown uuid is refused and nothing changes; otherwise the call succeeds and the entry is marked deleted, restored, or erased, according to the action; every other entry is unchanged |
| ServerRegistry.AddServerMeaning | src/config/server_v2.h:92-105 | a valid item is stored under its uuid with every field copied except the id, which exceeds every stored id (1 for an empty set), and every other entry is unchanged; an invalid item changes nothing and the call reports the current dirty flag |
| ServerRegistry.UpdateServerMeaning | src/config/server_v2.h:107-120 | for a known uuid only the name, the two keys and the host path change; an unknown uuid changes nothing; every other entry is unchanged |
| ServerRegistry.DeserializeMeaning | src/config/server_v2.h:28-38 | after reading a list, each uuid holds the last item read with it; a uuid not read keeps its old entry when merging and is absent when clearing |
| ServerRegistry.FileRoundTrip | src/config/server_v2.h:18-38 | writing the servers out and reading them into a cleared set gives every server back under its uuid, for ids that fit an int |
| Configs.ReadWrite | src/config/config_v2.h:82-96 | each setter's value is what its getter then returns, and a setter leaves every other field as it was |
| Configs.SetGet | src/config/no_config.h:18-34 | on a version-1 or version-2 config a setter's value reads back and other fields stay; on the null config every setter is ignored and every getter returns ""; setters never change the version or the error text, and setErrorText sets only the error text |
| Configs.NoConfigMeaning | src/config/no_config.h:13-25 | the null config has version 0, every field reads "", and its JSON is the empty object |
| Configs.V1JsonKeys | src/config/config_v1.h:51-63 | a version-1 file holds exactly the nine keys and no version key |
| Configs.V1RoundTrip | src/config/config_v1.h:16-24 | all nine fields survive writing a version-1 config and reading it back, with no error text |
| Configs.V1Malformed | src/config/config_v1.h:16-24 | a version-1 file that does not parse records the parser's message as the error text and leaves every field empty |
| Configs.DefaultV1Meaning | src/config/config_v1.h:27-38 | the default version-1 config has its evidence folder under the data directory; the two capture commands are set exactly on macOS; the shortcuts are empty |
| Configs.V2JsonKeys | src/config/config_v2.h:65-75 | a version-2 file holds the version and six keys; the evidence folder is stored under "evidenceBase" rather than "evidenceRepo", and only the window and code-block keys are shared with version 1 |
| Configs.V2RoundTrip | src/config/config_v2.h:22-34 | the version (when it fits an int) and all six fields survive writing a version-2 config and reading it back |
| Configs.V2VersionFromFile | src/config/basic_config.h:34-39 | a parsed version-2 config takes its version from the file, 0 when the key is absent, while a fresh one has version 2 |
| Configs.FromV1 | src/config/config_v2.h:47-62 | the conversion always gives a version-2 config with no error text |
| Configs.FromV1Meaning | src/config/config_v2.h:47-62 | every shared field of the converted config reads as it did in the old one; without an old config every field is "" |
| AppConfigLoader.ParseVersion | src/config/basic_config.h:15-31 | reading the version fails exactly on a malformed file, with "Unable to parse config file: " and the parser's message; a file without a version key reads as version 0 |
| AppConfigLoader.ParseConfigMeaning | src/appconfig.h:123-151 | a malformed file is refused with the generic message; versions 0 and 1 give a version-1 config read from the file, version 2 a version-2 config that says 2, and any other version "Unknown Config file" |
| AppConfigLoader.V1FileReparses | src/appconfig.h:123-151 | a written version-1 file has no version key, reads as version 0, and still gives every field back |
| AppConfigLoader.V2FileReparses | src/appconfig.h:123-151 | a written version-2 file that says 2 reads back as the same config |
| AppConfigLoader.UpgradeMeaning | src/appconfig.h:89-103 | a missing config is not upgraded; versions 0 and 1 are replaced by a version-2 config with the same shared fields and the call answers true; anything else is kept and it answers false; a second upgrade does nothing |
| AppConfigLoader.AsConfigV1 | src/appconfig.h:158-163 | the config is returned exactly when its version is 1 |
| AppConfigLoader.AsConfigV1OfParsed | src/appconfig.h:158-163 | among configs read from a file, the version test picks out exactly the version-1 configs |
| AppConfigLoader.SetIfEmptyMeaning | src/appconfig.h:165-188 | only the named field can change, and only when it is empty; a non-empty field leaves the config unchanged |
| AppConfigLoader.StartupWithoutFile | src/appconfig.h:51-83 | without a config file the client starts with a version-2 config holding the version-1 defaults, with the evidence folder under the data directory |
| AppConfigLoader.WriteThenStart | src/appconfig.h:38-70 | what the client writes it reads back at the next start, field for field and without an error; the null config's empty object reads back as version 1 |
| AppConfigLoader.StartupRefused | src/appconfig.h:38-47 | a refused file leaves the null config, version 0, carrying the refusal message as its error text |
| FlatAppConfig.Value | src/appconfig.cpp:35-38 | a key that is not stored reads as "" |
| FlatAppConfig.ValidateConfigMeaning | src/appconfig.cpp:18-33 | every key outside the valid set is dropped and valid keys keep their values; the evidence folder is always present afterwards, defaulted under the data location only when it was missing; off macOS nothing else is added |
| FlatAppConfig.SetValueMeaning | src/appconfig.cpp:40-52 | a key outside the settable list changes nothing; a settable key reads back the value just set; no other key changes; setting the same value twice is setting it once |
| FlatAppConfig.ExportConfigMeaning | src/appconfig.cpp:54-63 | export is refused exactly for an empty file name; otherwise every stored key is copied into the file and the file's other keys stay |
| FlatAppConfig.ImportGuardAlwaysTrue | src/appconfig.cpp:71 | the import test holds for every key, since no key equals two different names |
| FlatAppConfig.ImportKeysMeaning | src/appconfig.cpp:70-75 | as written, importing erases: every settable key the file lists reads "" afterwards and every other key keeps its value |
| FlatAppConfig.ImportConfigMeaning | src/appconfig.cpp:65-76 | an empty file name imports nothing; otherwise the keys the file lists are erased as above |
| FlatAppConfig.OperationDetailsRoundTrip | src/appconfig.cpp:78-93 | after setting the operation details the slug and the name read back, and no other setting changes |
| Requests.MethodNames | src/helpers/request_builder.h:11-20 | GET is 0 and is spelled "GET", POST is 1 and is spelled "POST"; two methods have the same name only when they are the same method |
| Requests.SettersMeaning | src/helpers/request_builder.h:102-138 | each setter's value is what the matching field then holds and no other field changes; adding a header appends it after the earlier ones |
| Requests.JoinUrlMeaning | src/helpers/request_builder.h:155-160 | the URL always ends with the endpoint; a host without a trailing slash is kept whole, and one with a trailing slash loses exactly that one character |
| Requests.BuildMeaning | src/helpers/request_builder.h:144-163 | the request makes one header assignment per header added, the raw ones first and then the known ones, each in insertion order; its URL is the host joined with the endpoint |
| Requests.FactoriesMeaning | src/helpers/request_builder.h:55-75 | newGet is a GET with no header; the two POST builders carry exactly one content-type header each, naming the form boundary or JSON; none has a body |
| EvidenceManifests.SerializeItem | src/porting/evidence_manifest.h:24-29 | an entry is written as an object holding exactly the id and the path |
| EvidenceManifests.DeserializeItem | src/porting/evidence_manifest.h:30-32 | an id read back always fits an int, since it is read with toInt |
| EvidenceManifests.ItemRoundTrip | src/porting/evidence_manifest.h:24-32 | an entry whose id fits an int reads back unchanged; a larger id reads back as 0 while the path survives |
| EvidenceManifests.Serialize | src/porting/evidence_manifest.h:41-47 | the array holds one object per entry |
| EvidenceManifests.Deserialize | src/porting/evidence_manifest.h:49-54 | the manifest read holds one entry per array element, and none for an unreadable file |
| EvidenceManifests.ManifestRoundTrip | src/porting/evidence_manifest.h:41-54 | writing a manifest and reading it back keeps the number and order of entries and every path, and every entry whose id fits an int |
| EvidenceManifests.EmptyManifest | src/porting/evidence_manifest.h:15-58 | an empty manifest writes an empty array, an unreadable file reads as the empty manifest, and an object with neither key reads as the default entry |
| SystemManifests.Serialize | src/porting/system_manifest.cpp:153-162 | the written object holds exactly the five keys for the operating system and the four paths |
| SystemManifests.RoundTrip | src/porting/system_manifest.cpp:153-173 | every written field reads back, while the manifest's own location is not carried; an empty object reads as a fresh manifest |
| SystemManifests.NamesAgree | src/porting/system_manifest.cpp:68-84 | code blocks use "json" and screenshots "png", and the import name and the export name end in that extension; any other type gets ".bin", so the import name ends in ".bin" while the export name, which adds its own dot, ends in "..bin" |
| SystemManifests.ApplyMeaning | src/porting/system_manifest.cpp:7-21 | with the corrected applyManifest, the configuration is imported, from the manifest's directory, exactly when the options ask for it and the manifest names a configuration file; the evidence is migrated exactly when the options say Merge and the manifest names a database; options that include nothing, or a manifest that names neither file, do nothing |
| SystemManifests.ApplyAsWrittenMeaning | src/porting/system_manifest.cpp:7-21 | as written, the configuration is imported exactly when the corrected version imports it, but from the manifest's stored relative name, unresolved; the database step is the same |
| SystemManifests.Details | src/db/databaseconnection.cpp:73-94 | a stored evidence id comes back as a record with that id; a missing one comes back with id -1 |
| SystemManifests.MissingRecordImportedAsWritten | src/porting/system_manifest.cpp:34-40 | as written, a manifest entry with no row in the exported database is imported as a record with id -1 and an unknown-type file name; with the corrected skip test nothing is created for it |
| SystemManifests.MigrateImportsOnlyFound | src/porting/system_manifest.cpp:31-58 | with the corrected skip test every created record carries the exported record's id, which is positive, stored in the exported database and named by some manifest entry, and at most one record is created per entry |
| SystemManifests.MigrateAllFound | src/porting/system_manifest.cpp:31-58 | when every entry is found and every copy works, each entry becomes one record, in order, equal to the exported record (its id and tags included) except for a path under the evidence folder, and no copy fails |
| SystemManifests.MigrateProgress | src/porting/system_manifest.cpp:31-59 | without copy failures the progress signals are every entry index in order and then the total |
| SystemManifests.MigrateAgrees | src/porting/system_manifest.cpp:35-36 | when every entry is found, the skip test as written and the corrected one give the same migration |
| SystemManifests.MigrateStopsAtFailure | src/porting/system_manifest.cpp:46-59 | the migration either finishes and signals the total last, or stops at an entry whose copy failed, with that entry's index as the last signal and nothing created after it |
| SystemManifests.ExportMeaning | src/porting/system_manifest.cpp:94-128 | nothing is exported exactly when the options include nothing, the output directory is empty, or it cannot be created; otherwise the kernel type is recorded, the configuration file is "config.json" when exported, the database "db.sqlite" and the evidence manifest "evidence.json" when exported, other paths stay, and the manifest goes to "<output>/system.json" |
| SystemManifests.ExportThenApply | src/porting/system_manifest.cpp:7-128 | with the corrected applyManifest, importing with the default options a manifest just exported from a fresh one imports the configuration exactly when it was exported, from "<output>/config.json", and migrates evidence exactly when the database was exported |
| SystemManifests.ExportThenApplyAsWritten | src/porting/system_manifest.cpp:7-128 | as written, importing an export that includes the configuration reads the bare name "config.json", not the exported file "<output>/config.json" (written at system_manifest.cpp:105-109) |
| SystemManifests.CopyFromCount | src/porting/system_manifest.cpp:137-149 | the evidence manifest has as many entries as there were copies that worked |
| SystemManifests.CopyFromSound | src/porting/system_manifest.cpp:137-149 | every entry belongs to a file whose copy worked, with that evidence's id and its export path |
| SystemManifests.CopyFromComplete | src/porting/system_manifest.cpp:137-149 | every file whose copy worked has its entry |
| SystemManifests.CopyFromProgress | src/porting/system_manifest.cpp:137-149 | the progress signals are 1, 2, ... up to the number of files, whether the copies work or not |
| SystemManifests.CopyAllEvidence | src/porting/system_manifest.cpp:130-151 | when every copy works the manifest lists every exported record's id, in order, and one progress signal is given per file |
| SystemManifests.AllCopied | src/porting/system_manifest.cpp:137-149 | when every copy from a position on works, the entries from that position on are exactly the export entries of those files, in order |
| DbHelpers.ExtractMigrateUpContent | src/db/databaseconnection.cpp:361-374 | the loop's result is every line before the first down marker, up markers dropped, each followed by a newline, which is the reference definition of the up section |
| DbHelpers.UpSectionHasNoMarkers | src/db/databaseconnection.cpp:364-372 | no up or down marker line survives into the up section |
| DbHelpers.UpSectionOfPlain | src/db/databaseconnection.cpp:364-372 | a script without marker lines is kept whole |
| DbHelpers.UpSectionStopsAtDown | src/db/databaseconnection.cpp:369-370 | everything from the first down marker on is dropped, whatever it holds |
| DbHelpers.PlainScriptKept | src/db/databaseconnection.cpp:361-374 | a script without marker lines comes back as it was, plus one final newline |
| DbHelpers.IndexOfItem | src/db/databaseconnection.cpp:347 | the position found is the first one holding the name, and -1 is returned exactly when the name is not listed |
| DbHelpers.RemoveAt | src/db/databaseconnection.cpp:351 | removing a position takes exactly one copy of the element there out of the list |
| DbHelpers.SqlFiles | src/db/databaseconnection.cpp:344-346 | only files ending in ".sql" are considered |
| DbHelpers.UnappliedIsDifference | src/db/databaseconnection.cpp:332-357 | the migrations to apply are the migration files minus the applied records, counted with multiplicity, and the records left over (the inconsistent state warned about) are the applied records minus the files |
| DbHelpers.UnappliedInOrder | src/db/databaseconnection.cpp:344-352 | the migrations to apply keep the directory's order |
| DbHelpers.FrameSizeFits | src/db/databaseconnection.cpp:421 | a frame holds at least one row and as many rows as fit under 999 variables, but not one more |
| DbHelpers.BatchQuery | src/db/databaseconnection.cpp:418-466 | the frames are the whole frames, the i-th holding rows i*size up to (i+1)*size, then one overflow frame holding the remaining numRows % size rows exactly when rows remain; together they encode every row index from 0 once, in order; each frame holds 1 to frame-size rows; each frame's text fills the query's slot with that many copies of the row template, final separator chopped, the default template standing in for an empty one |
| DbHelpers.FullFrames | src/db/databaseconnection.cpp:454-458 | the loop produces the asked-for number of whole frames; the i-th holds exactly the rows i*size up to (i+1)*size, so together they cover rows 0 up to that many frames' worth, in order |
| DbHelpers.DefaultPlaceholders | src/db/databaseconnection.cpp:426-435 | with the default template, n rows get exactly n times the variable count of placeholders |
| DbHelpers.FramePlaceholdersWithinLimit | src/db/databaseconnection.cpp:421-435 | a frame of default placeholders never has more than 999 of them |
| DbHelpers.DefaultRowTemplatePlaceholders | src/db/databaseconnection.cpp:411-413 | the default insert row template has exactly one placeholder per variable; with zero variables it still has one |
| DbQueries.ColumnOf | src/db/databaseconnection.h:124 | a row has a value under a name exactly when the name is one of the eight evidence columns |
| DbQueries.ErrorCriterionMeaning | src/db/databaseconnection.cpp:224-228 | with "_%" bound for Yes and the empty pattern for No, the error criterion keeps exactly the rows with an error text for Yes, without one for No, and every row for Any |
| DbQueries.CriteriaMeaning | src/db/databaseconnection.cpp:224-254 | a row passes all the corrected criteria exactly when it matches the filter's meaning: error state, upload state, operation, content type, and a recorded day from the start date to the end date inclusive |
| DbQueries.WhereMeaning | src/db/databaseconnection.cpp:218-261 | the rows the corrected WHERE clause keeps are the matching rows, in table order |
| DbQueries.EvidenceQuerySelectsMatching | src/db/databaseconnection.cpp:218-261 | the corrected query names only real columns and selects exactly the rows the filter means |
| DbQueries.SubmittedFilterFailsAsWritten | src/db/databaseconnection.cpp:230-236 | as written, any submitted filter names the missing column "upload_data", so the listing fails whatever the table holds; with neither a submitted nor a "no error" filter the query as written equals the corrected one |
| DbQueries.SubmittedYesExample | src/db/databaseconnection.cpp:230-236 | "submitted: yes" on a one-row table of uploaded evidence fails as written and lists the row when corrected |
| DbQueries.WhereNeverHolds | src/db/databaseconnection.cpp:256-260 | one criterion that no row meets empties the selection, since the parts are joined with AND |
| DbQueries.NoErrorFilterEmptyAsWritten | src/db/databaseconnection.cpp:224-228 | as written, "no error" binds a null string and "error LIKE NULL" is never true, so the listing is empty whatever the table holds; binding the empty pattern selects exactly the matching rows |
| DbQueries.NoErrorExample | src/db/databaseconnection.cpp:227 | "err: no" on a one-row table whose row has no error lists nothing as written and lists the row when corrected |
| DbQueries.EvidenceQueryBalanced | src/db/databaseconnection.cpp:224-261 | the query as written and the corrected query each bind exactly one value per "?" in their text |
| DbQueries.UnfilteredQuery | src/db/databaseconnection.cpp:218-261 | a filter with no criteria lists the whole evidence table with nothing bound |
| DbQueries.QueryTextIgnoresValues | src/db/databaseconnection.cpp:224-261 | filter values reach only the bound values: two filters that set the same criteria give the same query text |
| DbQueries.EndDateInclusive | src/db/databaseconnection.cpp:250-254 | with an end date, the last bound value is the day after it, so the whole end day is included |
| DbQueries.TagsToInsertMembers | src/db/databaseconnection.cpp:180-188 | a tag is inserted exactly when it is among the new tags and its server id is not stored yet |
| DbQueries.TagValuesShape | src/db/databaseconnection.cpp:196-200 | three values are bound per inserted tag: the evidence id, the tag's server id and its name, in that order |
| DbQueries.InsertTagsBalanced | src/db/databaseconnection.cpp:192-201 | the insert statement binds exactly one value per placeholder |
| DbQueries.EmptyTagListRefused | src/db/databaseconnection.cpp:151-152 | an empty tag list is refused before any statement runs |
| DbQueries.SetEvidenceTagsCovers | src/db/databaseconnection.cpp:149-206 | when every statement succeeds the call reports true; each new tag is either already stored or inserted, nothing inserted was stored already, and the third statement inserts exactly those tags |
| EvidenceFilter.StandardizeKey | src/forms/evidence_filter/evidencefilter.cpp:3-26 | any alias of a standard key, in any letter case, maps to that key (the first alias list containing it wins); any other key comes back unchanged |
| EvidenceFilter.StandardizeKeyIdempotent | src/forms/evidence_filter/evidencefilter.cpp:3-26 | standardising a key twice gives the same key as standardising it once |
| EvidenceFilter.ParseTriFilterValueMeaning | src/forms/evidence_filter/evidencefilter.cpp:124-133 | a yes/no value means Yes exactly when its first non-blank character is t or y in either case; Any arises only in strict mode, exactly when that character is none of t, y, f, n |
| EvidenceFilter.TriTextRoundTrip | src/forms/evidence_filter/evidencefilter.cpp:40-44 | the words "yes" and "no" that the renderer writes read back as the criterion they were written for |
| EvidenceFilter.ParseTri | src/forms/evidence_filter/evidencefilter.cpp:177-185 | only the exact text "Yes" reads as Yes and only "No" as No |
| EvidenceFilter.TriToString | src/forms/evidence_filter/evidencefilter.cpp:189-198 | a criterion is written as one of "Yes", "No", "Any" |
| EvidenceFilter.TriStringRoundTrip | src/forms/evidence_filter/evidencefilter.cpp:177-198 | writing then reading a criterion gives it back, and reading then writing any of the three words gives the word back |
| EvidenceFilter.SplitMiddle | src/forms/evidence_filter/evidencefilter.cpp:142-147 | a middle chunk yields a key exactly when it holds a word; the key is a non-empty word without spaces |
| EvidenceFilter.SplitMiddlesAsWritten | src/forms/evidence_filter/evidencefilter.cpp:142-147 | the middle chunks split as written succeed exactly when every chunk holds a word, one token per chunk |
| EvidenceFilter.SplitMiddles | src/forms/evidence_filter/evidencefilter.cpp:142-147 | the repaired split gives one token per middle chunk, an empty token for a wordless chunk |
| EvidenceFilter.Assemble | src/forms/evidence_filter/evidencefilter.cpp:138-156 | the first chunk is the first key, each middle chunk gives the next key and the previous value, and the last chunk is the last value |
| EvidenceFilter.TokenizeAsWrittenFaults | src/forms/evidence_filter/evidencefilter.cpp:135-157 | the tokenizer as written faults exactly on text with no non-empty chunk or with a wordless middle chunk; otherwise it yields one pair per chunk boundary (one pair for a single chunk) |
| EvidenceFilter.Tokenize | src/forms/evidence_filter/evidencefilter.cpp:135-157 | the repaired tokenizer yields no pair for text without chunks and otherwise one pair per chunk boundary |
| EvidenceFilter.TokenizeAgrees | src/forms/evidence_filter/evidencefilter.cpp:135-157 | wherever the tokenizer as written is defined, the repaired one returns the same pairs |
| EvidenceFilter.ColonOnlyFaults | src/forms/evidence_filter/evidencefilter.cpp:80-84 | the text ":" passes the parser's blank-text guard yet leaves the tokenizer no chunk, so the first-element read faults |
| EvidenceFilter.ApplyFieldOverwrites | src/forms/evidence_filter/evidencefilter.cpp:90-114 | a later value for the same key replaces the earlier one |
| EvidenceFilter.ApplyFieldFrame | src/forms/evidence_filter/evidencefilter.cpp:90-114 | "on" sets both date bounds to the same day, and every key changes only its own criteria |
| EvidenceFilter.ApplyAllAppend | src/forms/evidence_filter/evidencefilter.cpp:86-115 | applying the tokens of two texts in turn equals applying them all in order |
| EvidenceFilter.UnknownKeyIgnored | src/forms/evidence_filter/evidencefilter.cpp:87-114 | a key that is no alias of a filter key leaves every criterion unchanged |
| EvidenceFilter.ParseFilterAsWrittenCases | src/forms/evidence_filter/evidencefilter.cpp:78-118 | blank text gives the unfiltered criteria; other text faults exactly where the tokenizer does |
| EvidenceFilter.ParseFilterAgrees | src/forms/evidence_filter/evidencefilter.cpp:78-118 | the repaired parser gives the unfiltered criteria for blank text and the original's result wherever the original is defined |
| EvidenceFilter.ToTextEmpty | src/forms/evidence_filter/evidencefilter.cpp:28-76 | the rendered text is empty exactly when the filter constrains nothing |
| EvidenceFilter.TokenizeRendered | src/forms/evidence_filter/evidencefilter.cpp:47-73 | the original tokenizer reads rendered word segments back as the same keys and values, the last value keeping its leading space |
| EvidenceFilter.ParseRendered | src/forms/evidence_filter/evidencefilter.cpp:47-118 | the original parser reads rendered word segments back as those segments applied in order |
| EvidenceFilter.ParseToText | src/forms/evidence_filter/evidencefilter.cpp:28-118 | for a filter without dates whose slug and content type are single words, parsing its text gives the filter back, both as written and repaired |
| EvidenceFilter.LoneKeyIsItsOwnValue | src/forms/evidence_filter/evidencefilter.cpp:135-157 | a lone key such as "op" is the first key and the last value at once, so it selects the operation named "op" |
| EvidenceManager.ParentDirOf | src/forms/evidence/evidencemanager.cpp:239-244 | taking the parent of "dir/name", for a name without '/', gives "dir" back |
| EvidenceManager.ParentDirMeaning | src/forms/evidence/evidencemanager.cpp:239-244 | a path with a '/' splits into its parent, the last '/', and a name free of '/'; a path without one is its own parent; "path/to/file.txt" gives "path/to" |
| EvidenceManager.DeleteSet | src/forms/evidence/evidencemanager.cpp:246-261 | the summary lists the paths whose file was not deleted, in answer order; reports all records removed exactly when every answer says so; and lists each parent directory once, in order of first appearance |
| EvidenceManager.UndeletedMeaning | src/forms/evidence/evidencemanager.cpp:251-254 | a path is listed as undeleted exactly when some answer for it reports a failed file delete, and nothing is listed when every file went |
| EvidenceManager.DistinctMeaning | src/forms/evidence/evidencemanager.cpp:256-259 | the directory list has no repeats, holds exactly the directories of the answers, and keeps their order of first occurrence |
| EvidenceManager.DeleteSetAllGood | src/forms/evidence/evidencemanager.cpp:246-261 | when every file and record was deleted, nothing is reported undeleted and all records count as removed |
| EvidenceManager.ColumnsLineUp | src/forms/evidence/evidencemanager.cpp:20-30 | the nine column indices and the nine header labels correspond one to one, each label naming its column |
| EvidenceManager.RowTextRules | src/forms/evidence/evidencemanager.cpp:407-424 | Submitted reads Yes exactly for uploaded evidence and No otherwise; Failed reads Yes exactly when there is an error text and is blank otherwise; never-uploaded evidence shows "Never"; the error column shows the error text |
| EvidenceManager.RowTextAgreesWithFilter | src/forms/evidence/evidencemanager.cpp:407-424 | the table's Submitted and Failed cells agree with what the "submitted:" and "err:" filters select, and every row passes the filter read back from its own cells |
| HotkeyMap.WinSourceMaps | src/helpers/hotkeys/hotkeymap.h:4-117 | every virtual key the Windows switch names is reached from a Qt key |
| HotkeyMap.WinSwitchInverse | src/helpers/hotkeys/hotkeymap.h:4-117 | the Windows switch is one-to-one except that Backtab shares VK_TAB with Tab and Enter shares VK_RETURN with Return |
| HotkeyMap.WinAliases | src/helpers/hotkeys/hotkeymap.h:9-16 | Tab and Backtab both give VK_TAB; Return and Enter both give VK_RETURN |
| HotkeyMap.WinRangeBranchDead | src/helpers/hotkeys/hotkeymap.h:119-121 | every key in the range 0x01000030..0x01000047 is already mapped by the switch to the same F-key the range test would compute, so that test never decides anything |
| HotkeyMap.WinUnlisted | src/helpers/hotkeys/hotkeymap.h:4-124 | a Qt key comes back unchanged exactly when the switch does not list it |
| HotkeyMap.LinuxMaskMeaning | src/helpers/hotkeys/hotkeymap.h:186-197 | each XCB mask bit is set exactly when its modifier key (Shift, Control, Alt as Mod1, Meta as Mod4) is in the list |
| HotkeyMap.LinuxMeaning | src/helpers/hotkeys/hotkeymap.h:160-200 | no simple key gives {0, 0}; an unconvertible first simple key returns its raw code with no modifiers; otherwise the mask holds exactly the modifiers pressed |
| HotkeyMap.LinuxFirstKeyOnly | src/helpers/hotkeys/hotkeymap.h:163-184 | only the first simple key matters: dropping the others changes nothing |
| HotkeyMap.LinuxFunctionKeys | src/helpers/hotkeys/hotkeymap.h:175-177 | Qt's F1..F35 become X's F1..F35, in order |
| HotkeyMap.MacSumOfModifiers | src/helpers/hotkeys/hotkeymap.h:287-292 | over modifier keys the loop never stops early, so each Carbon modifier is added once per occurrence of its Qt key |
| HotkeyMap.MacModsMeaning | src/helpers/hotkeys/hotkeymap.h:274-294 | for a duplicate-free sequence with one mapped simple key, each Carbon modifier is counted once when its Qt key is pressed and not at all otherwise |
| HotkeyMap.MacRefuses | src/helpers/hotkeys/hotkeymap.h:280-285 | the hotkey is refused, as {0, 0}, exactly when there is not exactly one simple key or the key is not in the table |
| HotkeyMap.MacPrintIsF14 | src/helpers/hotkeys/hotkeymap.h:263 | Print and F14 give the same Carbon key |
| KeySequence.AddKeyMeaning | src/helpers/hotkeys/ukeysequence.cpp:117-129 | adding a key appends it exactly when it is positive and new; the list only grows at its end and stays duplicate-free |
| KeySequence.AddKeysMeaning | src/helpers/hotkeys/ukeysequence.cpp:117-129 | adding keys one after another keeps the list duplicate-free, extends it, and yields exactly the old keys plus the positive added ones |
| KeySequence.AddModifiersMeaning | src/helpers/hotkeys/ukeysequence.cpp:60-77 | addModifiers adds exactly the modifier keys whose flags are set, in the order Shift, Control, Alt, Meta; the NoModifier shortcut agrees with the general case |
| KeySequence.OtherModifiersAddNothing | src/helpers/hotkeys/ukeysequence.cpp:60-77 | a modifier set with none of the four flags adds nothing, whatever other bits it holds |
| KeySequence.AddKeyEventMeaning | src/helpers/hotkeys/ukeysequence.cpp:131-135 | a key event adds its key first and then its modifiers, and the list stays duplicate-free |
| KeySequence.AddKeyTextKeepsWellFormed | src/helpers/hotkeys/ukeysequence.cpp:79-115 | adding a key by its text keeps the list duplicate-free, only extends it, and adds at most one key |
| KeySequence.SeparatorsRefused | src/helpers/hotkeys/ukeysequence.cpp:81-84 | text holding '+' or ',' adds nothing |
| KeySequence.ModifierSpellings | src/helpers/hotkeys/ukeysequence.cpp:86-103 | "alt", "shift"/"shft", "control"/"ctrl" and "win"/"meta", in any ASCII letter case, add their modifier |
| KeySequence.Partition | src/helpers/hotkeys/ukeysequence.cpp:38-58 | the modifiers and the simple keys split the key list: together they hold each key exactly as often as the list does |
| KeySequence.ToStringRoundTrip | src/helpers/hotkeys/ukeysequence.cpp:16-36 | printing a duplicate-free key list and reading the text back gives the modifiers first and then the simple keys, when every simple key's name reads back as that key; printing that again gives the same text |
| KeySequence.PrintsModifiersFirst | src/helpers/hotkeys/ukeysequence.cpp:24-36 | a key pressed with Ctrl and Shift prints as "Ctrl+Shift+" and the key's name, whatever order they were added in |
| KeySequence.IndexAtSizeFaults | src/helpers/hotkeys/ukeysequence.h:25-32 | as written, the index equal to the size passes the guard and reads past the end; the corrected operator returns Key_unknown there |
| KeySequence.IndexAgrees | src/helpers/hotkeys/ukeysequence.h:25-32 | where the operator as written reads inside the list it agrees with the corrected one; it reads out of range exactly for indices from the size up whose 32-bit conversion is at most the size |
| KeySequence.IndexOfAdded | src/helpers/hotkeys/ukeysequence.h:25-32 | a key that addKey appends is found at the old size, and earlier positions are unchanged |
| TagsEditor.QRemove | src/components/githubtags/tags.cpp:319-331 | QString::remove never lengthens the text |
| TagsEditor.QRemoveMeaning | src/components/githubtags/tags.cpp:319-331 | inside the text remove deletes exactly the given range, at position -1 it deletes the last character, and a non-positive count deletes nothing |
| TagsEditor.MoveCursor | src/components/githubtags/tags.cpp:343-359 | moving the cursor leaves the tags and the editing index alone and puts the cursor at the position |
| TagsEditor.MoveCursorMeaning | src/components/githubtags/tags.cpp:343-359 | a marked move selects exactly the characters between the anchor and the new cursor and keeps the anchor for the next marked move, so moving back to it selects nothing; an unmarked move drops the selection; a move inside the text keeps the state valid |
| TagsEditor.RemoveSelectionMeaning | src/components/githubtags/tags.cpp:319-323 | removing the selection deletes exactly the selected characters of the current tag, puts the cursor at their start, touches no other tag and keeps the state valid |
| TagsEditor.BackspaceAtStartAsWritten | src/components/githubtags/tags.cpp:325-331 | as written, Home then Backspace in the tag "ab" deletes the last character, leaving "a" with the cursor at -1, outside the text |
| TagsEditor.RemoveBackwardOneMeaning | src/components/githubtags/tags.cpp:325-331 | corrected, Backspace removes the selection if there is one, otherwise the character before the cursor, and does nothing at the start; away from the start it equals the code as written, and it keeps the state valid |
| TagsEditor.EditEmptyTagWrapsAsWritten | src/components/githubtags/tags.cpp:253-262 | as written, Home or End in the fresh widget erases its only, empty tag and wraps the editing index to the largest size_t, outside the now empty list; the corrected version leaves the fresh widget as it is |
| TagsEditor.SetEditingIndexMeaning | src/components/githubtags/tags.cpp:253-262 | switching tags erases an empty current tag and lands on the chosen tag, shifted down when the erased one came before it, except that the empty first tag chosen again is kept; the text, cursor and selection are untouched; the corrected version equals the code as written in every other case |
| TagsEditor.EndAfterSetTags | src/components/githubtags/tags.cpp:612-619 | after setting the tags ["a"] the editor holds "a" and an empty tag being edited, and End then drops that empty tag and edits "a" |
| TagsEditor.EditTagValid | src/components/githubtags/tags.cpp:405-409 | editTag(i) edits the tag it lands on with the cursor at its end, drops the selection, and keeps the state valid |
| TagsEditor.EditNeighbourValid | src/components/githubtags/tags.cpp:391-403 | editing the previous tag edits the one before with the cursor at its end, editing the next tag edits the one after with the cursor at its start; both keep the state valid |
| TagsEditor.EditNewTagMeaning | src/components/githubtags/tags.cpp:288-292 | a new empty tag is appended and edited from cursor 0 with nothing selected; the tag left is dropped if it was empty and every other tag stays |
| TagsEditor.TypeTextMeaning | src/components/githubtags/tags.cpp:640-646 | typed text goes in at the cursor and the cursor ends right after it |
| TagsEditor.SpaceMeaning | src/components/githubtags/tags.cpp:628-634 | Space after a non-empty tag inserts an empty tag right after it and edits that tag from cursor 0 |
| TagsEditor.KeyPressKeepsValid | src/components/githubtags/tags.cpp:573-646 | with the corrected helpers (`SetEditingIndex`, `RemoveBackwardOne`), every key the widget handles, and typed text, keeps the editing state valid; as written, Home or End in a fresh widget breaks it (`TagsEditor.EditEmptyTagWrapsAsWritten`) |
| TagsEditor.SkipEmpty | src/components/githubtags/tags.cpp:68-98 | the skipping iterator stops at the first non-empty tag at or after its start, or at the end, and everything it passes is empty |
| TagsEditor.VisitIsNonEmpty | src/components/githubtags/tags.cpp:68-98 | stepping the skipping iterator to the end visits exactly the non-empty texts, in order |
| TagsEditor.SetThenGet | src/components/githubtags/tags.cpp:675-701 | after the setter the list is the given tags plus one empty tag being edited at cursor 0, and the getter returns the given tags without empty strings, so exactly them when none is empty |
| TagsEditor.GetTagsMeaning | src/components/githubtags/tags.cpp:692-701 | the getter returns exactly the non-empty texts, in list order |
| TagsEditor.InitMeaning | src/components/githubtags/tags.cpp:112-122 | the fresh widget is valid, edits an empty tag with nothing selected, and holds no tags |
| TagColors.RandomColor | src/components/tagging/tagwidget.h:65-69 | the name drawn at any position below the number of names is a palette name |
| TagColors.PaletteDistinct | src/components/tagging/tagwidget.h:12-34 | the palette has twenty names, no two alike |
| TagColors.PaletteNames | src/components/tagging/tagwidget.h:36-42 | listing the palette's names gives each palette name exactly once, as allColorsNames must |
| TagColors.FontColorMeaning | src/components/tagging/tagwidget.h:71-74 | the brightness stays within 0..255, the text is white exactly when the weighted channel sum is below 128000, and black and white backgrounds get white and black text |
| TagColors.FontColorMonotone | src/components/tagging/tagwidget.h:71-74 | brightening any channel never turns black text into white |
| TagColors.PaletteContrast | src/components/tagging/tagwidget.h:12-34 | the ten dark palette colours take white text and the ten light ones black |
| ConnectionForm.NameRule | src/components/servers_editor/connection_properties.cpp:117-118 | the name pattern ^[^"]+$ accepts a text exactly when it is non-empty and has no double quote |
| ConnectionForm.ResetForm | src/components/servers_editor/connection_properties.cpp:145-152 | resetting the boxes leaves the loaded and last items alone |
| ConnectionForm.DirtyMeaning | src/components/servers_editor/connection_properties.cpp:159-164 | the form is dirty exactly when a reset would change a box; a reset form is clean, and resetting twice is resetting once |
| ConnectionForm.ClearFormMeaning | src/components/servers_editor/connection_properties.cpp:154-157 | clearing loads the empty item, empties every box, keeps the last saved item and leaves a clean form |
| ConnectionForm.LoadItemMeaning | src/components/servers_editor/connection_properties.cpp:134-143 | loading an item fills the boxes from it and leaves a clean form; the last saved item is kept only when it has the same uuid |
| ConnectionForm.OnSaveMeaning | src/components/servers_editor/connection_properties.cpp:116-131 | saving is refused, changing nothing, exactly when the trimmed name is empty or holds a double quote; otherwise the emitted item keeps the loaded id, uuid and deleted flag, takes the trimmed name and the other boxes as typed, and the loaded item becomes the last saved |
| ConnectionForm.SaveThenLoad | src/components/servers_editor/connection_properties.cpp:116-143 | loading the saved item back keeps the remembered item and leaves a clean form holding what was typed, the name trimmed |
| Multipart.BoundaryShape | src/helpers/multipartparser.cpp:15-17 | the boundary is "----ASHIRTTrayApp" followed by 16 ASCII letters and digits, 33 characters in all |
| Multipart.FileName | src/helpers/multipartparser.cpp:28-29 | the file name has no '/' and ends the path |
| Multipart.PartTypeOfName | src/helpers/multipartparser.cpp:28-39 | the content type depends only on the file name: for "dir/stem.ext" with a dot-free stem it is decided by the lower-cased extension, whatever dots the directory holds, and a name without a dot is an octet stream |
| Multipart.TypeForSuffixMeaning | src/helpers/multipartparser.cpp:30-39 | only three types come out; "JPG" and "JPEG" in any case are JPEG images, a suffix ending in "log" or "txt" is text, and "jpg.zip" is an octet stream |
| Multipart.ConcatAppend | src/helpers/multipartparser.cpp:19-46 | appending one more text to the laid-out parts appends it to the result |
| Multipart.ConcatSplit | src/helpers/multipartparser.cpp:19-46 | laying out two runs of parts one after the other is laying out each and joining them |
| Multipart.ParamParts | src/helpers/multipartparser.cpp:22-26 | one part per parameter, in insertion order, each the boundary line, the parameter's headers and its value |
| Multipart.FileParts | src/helpers/multipartparser.cpp:27-43 | one part per file, in insertion order, each the boundary line, the file's headers and its contents |
| Multipart.AppendAll | src/helpers/multipartparser.cpp:22-43 | appending the parts one by one to an empty buffer gives the parts laid end to end |
| Multipart.GenerateBody | src/helpers/multipartparser.cpp:19-46 | the previous body is discarded; the body is the parameters' parts, then the files' parts, then the closing boundary line it ends with |
| Multipart.BodyLayout | src/helpers/multipartparser.cpp:19-46 | the body has one part per parameter and then one per file, each starting with the boundary line, and the two runs are laid out in that order |
| Multipart.UnreadableFilePart | src/helpers/multipartparser.cpp:32-42 | a file that cannot be opened contributes only its boundary line and headers |
| Json.ToInt | src/config/server_item.h:45 | reading a number with toInt gives it back when it is whole and fits an int, and 0 for a fraction, an out-of-range number or a non-number |
| Json.ToIntOfInt | src/config/server_item.h:45 | an int written as a JSON number reads back unchanged through toInt |
| Json.ToIntRefuses | src/porting/evidence_manifest.h:31 | 3.5 and 2^31 read as 0 through toInt, while -2 reads as -2 |
| KeySequence.SimpleKeys | src/helpers/hotkeys/ukeysequence.cpp:38-47 | the simple keys are exactly the keys of the list that are not modifiers |
| KeySequence.Modifiers | src/helpers/hotkeys/ukeysequence.cpp:49-58 | the modifiers are exactly the keys of the list that are Shift, Control, Alt or Meta |

## Left out

- Text.Lower: case mapping is ASCII only. Qt's `toLower` and `Qt::CaseInsensitive` map all of Unicode; for
  example, U+212A KELVIN SIGN lowers to "k" in Qt but is unchanged here.
- Text.ToLower: ASCII-only for the same reason. This affects `CreateOperation.MakeSlugFromName`,
  `EvidenceFilter.StandardizeKey`, the modifier spellings of `KeySequence` and the case-insensitive matching in
  `DbHelpers`.
- TagsEditor.PreviousPosition: the cursor moves one character at a time. The widget moves by QTextLayout grapheme
  positions over UTF-16 code units, so a surrogate pair or a combining sequence counts as more than one step there.
- TagsEditor.NextPosition: one character per step, for the same reason.
- TagsEditor.SetEditingIndex: requires an index below the number of tags. The source asserts only that the index is
  at most the size, but no caller passes the size itself.
- TagsEditor.EditTag: requires an index below the number of tags, for the same reason.
- DbHelpers.BatchQuery: requires 1 to 999 variables per row. The source divides by the variable count and then by
  the frame size, and both are zero outside that range.
- DbHelpers.FrameSizeFits: requires 1 to 999 variables per row, for the same reason.
- KeySequence.IndexAsWritten: the index is a `size_t`, so it is required to be below 2^64.
- ServerItems.RoundTrip: the id is required to fit in 32 bits, because `toInt` reads ids back as `int`.
- ServerRegistry.FileRoundTrip: every id is required to fit in 32 bits, for the same reason.
- SemVerModel.ParseTag: the round trip is stated for numbers within `int` range and for an extra part that does not
  start with a digit and holds no line feed. Other tags do not come back the same.
- Json.ToInt: a JSON number is an exact real. The rounding of a double (integers above 2^53, decimal fractions) is
  not modelled.
- Codeblocks.VariantText: a whole number's text is its decimal digits. The text of a non-whole number is "", because
  Qt's shortest round-trip decimal form is not modelled.
- FileHelpers.RandomFilename: the default "XXXXXX" token is not modelled; the token is always passed.
- DbQueries.SetEvidenceTags: the tag-id list that the source binds to one placeholder is modelled as a NULL binding.
- The error column is treated as text: a stored NULL error reads as "".
- SQL execution and SQLite itself are left out. The statements are modelled as values, and the query filter is
  evaluated over an in-memory table.
- The `migrateDB` file loop, `readManifest` and `getDirname` are left out, because they are file system I/O. Their
  results are parameters.
- QDate, locale and "today" parsing and rendering are parameters, because they are clock and locale dependent.
- The operations page's duplicate-slug lookup and `onRequestComplete` are left out, because they read network
  replies.
- Networking and HMAC request signing are left out: this is network I/O and cryptography.
- The widgets are left out: painting, the completer, cursor blinking, mouse clicks in the tag editor, and the
  typed-text acceptability test. These are user-interface behaviour.
- `qint64` widths are left out: ids are unbounded integers, except where a 32-bit `toInt` matters.
- QKeySequence parsing and printing are parameters. Native key constants are symbolic, because they are
  platform-specific values.
- JSON text syntax is left out: values are abstract `QJsonValue` trees.
- QDir path cleaning and `toNativeSeparators` are a parameter.
- The multipart templates' exact byte layout and UTF-8 encoding are left out; parts are modelled as strings.
- `createFullEvidence` is left out, because the new ids it returns come from the database.
- Signals, status texts and concurrency are left out, because they have no functional content.
- `std::unordered_map` iteration order is left out: the list of all colour names may be any listing of the table.
- The full server list cache is left out, because it is a performance detail.
- The XML resource file I/O of the migration script is left out: the parsed tree is a parameter. Reading the file, parsing it (including the parse error on malformed XML) and writing it back are not modelled.
- The file I/O functions of `file_helpers` are left out, because they are file system I/O.

## Findings

| source | as written | input that shows it | evidently intended | confidence | as-written member | corrected member |
|---|---|---|---|---|---|---|
| src/components/githubtags/tags.cpp:253-262 | `setEditingIndex` erases the empty edited tag and then decrements `i`, a `size_t` | Home or End in a fresh editor: tags [""], editing 0, i 0, so `i` wraps to 2^64-1 | the editor should keep one empty tag being edited at index 0 | not executed | TagsEditor.EditEmptyTagWrapsAsWritten | TagsEditor.SetEditingIndexMeaning |
| src/components/githubtags/tags.cpp:325-331 | `removeBackwardOne` calls `remove(--cursor, 1)` even at cursor 0 | Backspace at cursor 0 in "ab": `remove(-1, 1)` deletes the last character and the cursor becomes -1 | Backspace at the start deletes nothing | not executed | TagsEditor.BackspaceAtStartAsWritten | TagsEditor.RemoveBackwardOneMeaning |
| src/forms/evidence_filter/evidencefilter.cpp:135-157 | `tokenizeFilterText` calls `list.first()` on the parts of the text split at ":" | filter text ":" splits into an empty list, and `first()` on it is undefined | text without a key yields no pairs | not executed | EvidenceFilter.ColonOnlyFaults | EvidenceFilter.TokenizeAgrees |
| src/helpers/string_helpers.h:35-36 | the pattern `^[a-zA-Z0-9_-]+$` is matched with PCRE, where `$` also matches before a final line feed | "abc\n" is accepted as an operation slug | only letters, digits, "_" and "-" are accepted | not executed | StringHelpers.TrailingNewlineAccepted | StringHelpers.ValidSlugMeaning |
| src/models/codeblock.cpp:11-20 | `fromJson` reads "source" at the top level, while `toJson` writes it inside "metadata" | a code block with source "s" comes back with an empty source | reading back a saved code block gives the same code block | not executed | Codeblocks.SourceLostAsWritten | Codeblocks.RoundTrip |
| src/porting/system_manifest.cpp:34-36 | an import record is skipped when its id is 0, but a missing record comes back with id -1 (src/db/databaseconnection.cpp:90-92) | a manifest entry whose evidence is not in the exported database is imported as a record with id -1 | records missing from the exported database are skipped | not executed | SystemManifests.MissingRecordImportedAsWritten | SystemManifests.MigrateImportsOnlyFound |
| src/helpers/hotkeys/ukeysequence.h:25-32 | `operator[]` returns `Key_unknown` only for `n > size`, so `n == size` reads past the end | index equal to the number of keys | an index at or past the end gives `Key_unknown` | not executed | KeySequence.IndexAtSizeFaults | KeySequence.IndexOfAdded |
| src/db/databaseconnection.cpp:230-236 | the submitted filter names the column `upload_data`, but the table's column is `upload_date` | any filter with "submitted: yes" or "submitted: no" makes the query fail | filter on whether `upload_date` is NULL | not executed | DbQueries.SubmittedFilterFailsAsWritten | DbQueries.EvidenceQuerySelectsMatching |
| src/db/databaseconnection.cpp:224-228 | for "error: no" the filter binds `QString()`, which the Qt 5 SQLite driver binds as NULL, and `error LIKE NULL` never holds | filter "error: no" selects no rows, even evidence with an empty error | select the rows whose error text is empty | not executed; holds under Qt 5, since Qt 6 binds a null QString as "" | DbQueries.NoErrorFilterEmptyAsWritten | DbQueries.EvidenceQuerySelectsMatching |
| src/porting/system_manifest.cpp:12-15 | `applyManifest` passes the stored relative `configPath` ("config.json") to `importConfig` directly, while the database and evidence manifest go through `pathToFile` (system_manifest.cpp:26, :29) | importing an export that includes the configuration: the settings file is looked up as "config.json" in the working directory, not next to the manifest | the configuration is read from "<manifest dir>/config.json", like the other exported files | not executed | SystemManifests.ExportThenApplyAsWritten | SystemManifests.ExportThenApply |

=== FILE: app_config_loader.dfy ===
/**
 * The configuration singleton of the versioned family: choosing a config
 * class from the file's version, upgrading old versions, reading the file
 * at start-up, and the "set only if empty" helper.
 */
module AppConfigLoader {
  import opened Wrappers
  import opened Json
  import opened Configs

  /**
   * BasicConfig::parseVersion: the integer under "version" (0 when absent
   * or not an int); a malformed document is an error whose text carries
   * the parser's reason.
   */
  function ParseVersion(doc: Document): (r: Result<int, string>)
    ensures r.Failure? <==> doc.Malformed?
    ensures doc.Malformed? ==> r.error == "Unable to parse config file: " + doc.reason
    ensures doc.Parsed? && KeyVersion !in DocObject(doc) ==> r == Success(0)
  {
    match doc
    case Malformed(reason) => Failure("Unable to parse config file: " + reason)
    case Parsed(_) => Success(ToInt(Get(DocObject(doc), KeyVersion)))
  }

  /**
   * AppConfig::parseConfig: versions 0 and 1 are read as ConfigV1 and 2 as
   * ConfigV2; anything else, an unreadable version, or a config that
   * reports an error is refused with the message the source throws.
   */
  function ParseConfig(doc: Document): Result<Config, string> {
    match ParseVersion(doc)
    case Failure(_) => Failure("Unable to parse config file")
    case Success(version) =>
      var parsed: Option<Config> :=
        if version == 0 || version == 1 then Some(V1FromJson(doc))
        else if version == 2 then Some(V2FromJson(doc))
        else None;
      if parsed.None? then Failure("Unknown Config file")
      else if parsed.value.errorText != "" then Failure("Unable to parse config file")
      else Success(parsed.value)
  }

  /**
   * Dispatch by version: a well-formed file with version 0 or 1 gives a
   * version-1 config, version 2 a version-2 config that says 2, any other
   * version "Unknown Config file", and a malformed file the generic parse
   * error. The later error-text test never fires, since a file whose
   * version was read parsed cleanly.
   */
  lemma ParseConfigMeaning(doc: Document)
    ensures var r := ParseConfig(doc);
      && (doc.Malformed? ==> r == Failure("Unable to parse config file"))
      && (doc.Parsed? ==>
            var v := ToInt(Get(DocObject(doc), KeyVersion));
            && ((v == 0 || v == 1) ==> r == Success(V1FromObject(DocObject(doc))))
            && (v == 2 ==> r.Success? && r.value.V2? && Version(r.value) == 2)
            && (v != 0 && v != 1 && v != 2 ==> r == Failure("Unknown Config file")))
  {
  }

  /**
   * A version-1 file holds no version key, so it reads as version 0, which
   * is still dispatched to version 1: every field comes back.
   */
  lemma V1FileReparses(c: Config)
    requires c.V1?
    ensures ParseVersion(Parsed(Object(V1Json(c)))) == Success(0)
    ensures ParseConfig(Parsed(Object(V1Json(c)))) == Success(V1(c.settings, c.accessKey, c.secretKey, c.apiURL, ""))
  {
    V1JsonKeys(c);
    V1RoundTrip(c);
  }

  /** A version-2 file that says 2 reads back as the same config. */
  lemma V2FileReparses(c: Config)
    requires c.V2? && c.parsedVersion == 2
    ensures ParseConfig(Parsed(Object(V2Json(c)))) == Success(V2(2, c.settings, ""))
  {
    V2RoundTrip(c);
  }

  /**
   * AppConfig::upgrade on the current config (None for a null pointer):
   * versions 0 and 1 are replaced by their version-2 conversion and the
   * answer is true; anything else is kept and the answer is false.
   */
  function Upgrade(current: Option<Config>): (r: (bool, Option<Config>)) {
    if current.None? then (false, current)
    else if Version(current.value) == 0 || Version(current.value) == 1 then (true, Some(FromV1(current)))
    else (false, current)
  }

  /**
   * Upgrading keeps every shared field and leaves a version-2 config, so a
   * second upgrade does nothing; the null object upgrades to an empty
   * version-2 config.
   */
  lemma UpgradeMeaning(current: Option<Config>, f: Field)
    ensures var (upgraded, r) := Upgrade(current);
      && (current.None? ==> !upgraded && r.None?)
      && (upgraded <==> current.Some? && (Version(current.value) == 0 || Version(current.value) == 1))
      && (!upgraded ==> r == current)
      && (upgraded ==> r.Some? && Version(r.value) == 2 && GetField(r.value, f) == GetField(current.value, f))
      && (upgraded ==> Upgrade(r) == (false, r))
  {
  }

  /** AppConfig::asConfigV1: the config itself when its version is 1, otherwise none. */
  function AsConfigV1(c: Config): (r: Option<Config>)
    ensures r.Some? <==> Version(c) == 1
    ensures r.Some? ==> r.value == c
  {
    if Version(c) == 1 then Some(c) else None
  }

  /** Among parsed configs, the version test picks out exactly the version-1 objects. */
  lemma AsConfigV1OfParsed(doc: Document)
    requires ParseConfig(doc).Success?
    ensures AsConfigV1(ParseConfig(doc).value).Some? <==> ParseConfig(doc).value.V1?
  {
    ParseConfigMeaning(doc);
  }

  /** AppConfig::setIfEmpty, branch by branch. */
  function SetIfEmpty(c: Config, field: Field, newVal: string): Config {
    if field == EvidenceRepo && GetField(c, EvidenceRepo) == "" then SetField(c, EvidenceRepo, newVal)
    else if field == CaptureCodeblockShortcut && GetField(c, CaptureCodeblockShortcut) == "" then SetField(c, CaptureCodeblockShortcut, newVal)
    else if field == CaptureScreenAreaCmd && GetField(c, CaptureScreenAreaCmd) == "" then SetField(c, CaptureScreenAreaCmd, newVal)
    else if field == CaptureScreenAreaShortcut && GetField(c, CaptureScreenAreaShortcut) == "" then SetField(c, CaptureScreenAreaShortcut, newVal)
    else if field == CaptureScreenWindowCmd && GetField(c, CaptureScreenWindowCmd) == "" then SetField(c, CaptureScreenWindowCmd, newVal)
    else if field == CaptureScreenWindowShortcut && GetField(c, CaptureScreenWindowShortcut) == "" then SetField(c, CaptureScreenWindowShortcut, newVal)
    else c
  }

  /** Only the named field changes, and only when it is empty. */
  lemma SetIfEmptyMeaning(c: Config, field: Field, other: Field, newVal: string)
    ensures SetIfEmpty(c, field, newVal) == (if GetField(c, field) == "" then SetField(c, field, newVal) else c)
    ensures other != field ==> GetField(SetIfEmpty(c, field, newVal), other) == GetField(c, other)
    ensures GetField(c, field) != "" ==> SetIfEmpty(c, field, newVal) == c
    ensures GetField(c, field) == "" && !c.NoConfig? ==> GetField(SetIfEmpty(c, field, newVal), field) == newVal
  {
  }

  /** What reading the configuration file can give. */
  datatype FileRead =
    | Missing                      // the file cannot be opened and does not exist
    | Unreadable(message: string)  // opening or reading failed; the message of the error raised
    | Contents(doc: Document)      // the bytes read, as a JSON document

  /** toJsonString: the object each kind of config writes. */
  function ConfigJson(c: Config): Obj {
    match c
    case NoConfig(_) => NoConfigJson()
    case V1(_, _, _, _, _) => V1Json(c)
    case V2(_, _, _) => V2Json(c)
  }

  /**
   * The constructor: start from the null object and read the file. A
   * missing file gives the default version-1 config upgraded to version 2
   * (writing it back is best effort and does not change the outcome); a
   * file error or a refused parse leaves the null object carrying the
   * error's text. `dataDir` stands for the application data directory.
   */
  function Startup(file: FileRead, dataDir: string, onMac: bool): Config {
    match file
    case Missing => Upgrade(Some(DefaultV1(dataDir, onMac))).1.value
    case Unreadable(message) => NoConfig(message)
    case Contents(doc) =>
      match ParseConfig(doc)
      case Success(c) => c
      case Failure(e) => NoConfig(e)
  }

  /** Without a file the client starts with a version-2 config holding the defaults. */
  lemma StartupWithoutFile(dataDir: string, onMac: bool, f: Field)
    ensures var c := Startup(Missing, dataDir, onMac);
      && c.V2? && Version(c) == 2 && c.errorText == ""
      && GetField(c, f) == GetField(DefaultV1(dataDir, onMac), f)
      && GetField(c, EvidenceRepo) == dataDir + "/evidence"
  {
    UpgradeMeaning(Some(DefaultV1(dataDir, onMac)), f);
  }

  /**
   * What the client writes it reads back at the next start: the same
   * fields, with no error. The null object writes an empty object, which
   * reads back as an empty version-1 config.
   */
  lemma WriteThenStart(c: Config, dataDir: string, onMac: bool, f: Field)
    requires !c.V2? || c.parsedVersion == 2
    ensures var d := Startup(Contents(Parsed(Object(ConfigJson(c)))), dataDir, onMac);
      && d.errorText == "" && Version(d) == (if c.NoConfig? then 1 else Version(c))
      && GetField(d, f) == GetField(c, f)
  {
    match c
    case NoConfig(_) =>
    case V1(_, _, _, _, _) => V1FileReparses(c);
    case V2(_, _, _) => V2FileReparses(c);
  }

  /** A refused file leaves the null object: version 0, every field "", the reason kept. */
  lemma StartupRefused(doc: Document, dataDir: string, onMac: bool)
    requires ParseConfig(doc).Failure?
    ensures var c := Startup(Contents(doc), dataDir, onMac);
      && c == NoConfig(ParseConfig(doc).error) && Version(c) == 0 && c.errorText != ""
  {
  }
}

=== FILE: codeblock.dfy ===
/**
 * A code block captured as evidence: its text, its language (subtype) and
 * an optional source, stored as one JSON object per file.
 */
module Codeblocks {
  import opened Json
  import opened Text

  datatype Codeblock = Codeblock(filename: string, content: string, subtype: string, source: string)

  /** A default-constructed code block: every text empty. */
  const Empty: Codeblock := Codeblock("", "", "", "")

  const Extension: string := "json"
  const ContentType: string := "codeblock"

  /** mkName: "ashirt_codeblock_", the drawn token (six characters), ".json". */
  function MkName(token: string): string {
    "ashirt_codeblock_" + token + "." + Extension
  }

  lemma MkNameShape(token: string)
    ensures var n := MkName(token);
      && |n| == 17 + |token| + 5
      && n[..17] == "ashirt_codeblock_" && n[17..17 + |token|] == token
      && n[17 + |token|..] == ".json"
  {
  }

  /** encode: subtype and content always, "metadata" holding the source only when there is one. */
  function Encode(cb: Codeblock): Obj {
    var root := map["contentSubtype" := Str(cb.subtype), "content" := Str(cb.content)];
    var metadata: Obj := if cb.source != "" then map["source" := Str(cb.source)] else map[];
    if metadata != map[] then root["metadata" := Object(metadata)] else root
  }

  lemma EncodeMeaning(cb: Codeblock)
    ensures var o := Encode(cb);
      && Get(o, "contentSubtype") == Str(cb.subtype) && Get(o, "content") == Str(cb.content)
      && ("metadata" in o <==> cb.source != "")
      && (cb.source != "" ==> o["metadata"] == Object(map["source" := Str(cb.source)]))
      && o.Keys <= {"contentSubtype", "content", "metadata"}
      && "source" !in o
  {
    assert |"metadata"| != |"content"| && |"metadata"| != |"contentSubtype"|;
    if cb.source != "" {
      var metadata: Obj := map["source" := Str(cb.source)];
      assert "source" in metadata;
    }
  }

  /**
   * value.toVariant().toString(): the text of a string, "true"/"false" for
   * a boolean, the decimal digits of a whole number, "" for anything else.
   */
  function VariantText(v: Value): string {
    match v
    case Str(s) => s
    case Bool(b) => if b then "true" else "false"
    case Number(n) => if IsWhole(n) then IntToString(n.Floor) else ""
    case _ => ""
  }

  /**
   * fromJson as written: when a non-empty "metadata" object is present the
   * source is taken from a top-level "source" member, which encode never
   * writes.
   */
  function FromJsonAsWritten(o: Obj): Codeblock {
    var meta := ToObject(Get(o, "metadata"));
    Codeblock("", VariantText(Get(o, "content")), ToStr(Get(o, "contentSubtype")),
              if meta != map[] then ToStr(Get(o, "source")) else "")
  }

  /** fromJson reading the source from inside "metadata", where encode puts it. */
  function FromJson(o: Obj): Codeblock {
    var meta := ToObject(Get(o, "metadata"));
    Codeblock("", VariantText(Get(o, "content")), ToStr(Get(o, "contentSubtype")),
              if meta != map[] then ToStr(Get(meta, "source")) else "")
  }

  /** As written, a saved code block comes back without its source. */
  lemma SourceLostAsWritten(cb: Codeblock)
    ensures FromJsonAsWritten(Encode(cb)) == Codeblock("", cb.content, cb.subtype, "")
    ensures cb.source != "" ==> FromJsonAsWritten(Encode(cb)).source != cb.source
  {
    EncodeMeaning(cb);
  }

  /** Read from inside "metadata", every field comes back. */
  lemma RoundTrip(cb: Codeblock)
    ensures FromJson(Encode(cb)) == cb.(filename := "")
  {
    EncodeMeaning(cb);
  }

  /**
   * readCodeblock as written: a file that does not parse gives the empty
   * code block, one that parses goes through the as-written fromJson;
   * either way the file name is the path read.
   */
  function ReadCodeblockAsWritten(doc: Document, filepath: string): Codeblock {
    var parsed := if doc.Malformed? then Empty else FromJsonAsWritten(DocObject(doc));
    parsed.(filename := filepath)
  }

  /** readCodeblock with the corrected decoder, which reads the source from "metadata". */
  function ReadCodeblock(doc: Document, filepath: string): Codeblock {
    var parsed := if doc.Malformed? then Empty else FromJson(DocObject(doc));
    parsed.(filename := filepath)
  }

  /**
   * Saving a code block to its file and reading that file back: as written
   * every field but the source comes back and the source is lost; with the
   * corrected decoder the block comes back whole. An unparsable file gives
   * the empty block under either reader.
   */
  lemma SaveThenRead(cb: Codeblock)
    ensures ReadCodeblockAsWritten(Parsed(Object(Encode(cb))), cb.filename) == cb.(source := "")
    ensures ReadCodeblock(Parsed(Object(Encode(cb))), cb.filename) == cb
    ensures ReadCodeblockAsWritten(Malformed("x"), cb.filename) == Empty.(filename := cb.filename)
    ensures ReadCodeblock(Malformed("x"), cb.filename) == Empty.(filename := cb.filename)
  {
    SourceLostAsWritten(cb);
    RoundTrip(cb);
  }
}

=== FILE: configs.dfy ===
/**
 * The versioned configuration objects behind the Config interface: the
 * null object (no configuration), the version-1 file layout, and the
 * version-2 layout built on BasicConfig, which keeps the version number
 * and an error text. A JSON text is represented by the object it holds.
 */
module Configs {
  import opened Wrappers
  import opened Json

  /** The six settings every configuration offers. */
  datatype Field =
    | EvidenceRepo
    | CaptureScreenAreaCmd
    | CaptureScreenAreaShortcut
    | CaptureScreenWindowCmd
    | CaptureScreenWindowShortcut
    | CaptureCodeblockShortcut

  datatype Settings = Settings(
    evidenceRepo: string,
    areaCmd: string,
    areaShortcut: string,
    windowCmd: string,
    windowShortcut: string,
    codeblockShortcut: string)

  const NoSettings: Settings := Settings("", "", "", "", "", "")

  function Read(s: Settings, f: Field): string {
    match f
    case EvidenceRepo => s.evidenceRepo
    case CaptureScreenAreaCmd => s.areaCmd
    case CaptureScreenAreaShortcut => s.areaShortcut
    case CaptureScreenWindowCmd => s.windowCmd
    case CaptureScreenWindowShortcut => s.windowShortcut
    case CaptureCodeblockShortcut => s.codeblockShortcut
  }

  function Write(s: Settings, f: Field, v: string): Settings {
    match f
    case EvidenceRepo => s.(evidenceRepo := v)
    case CaptureScreenAreaCmd => s.(areaCmd := v)
    case CaptureScreenAreaShortcut => s.(areaShortcut := v)
    case CaptureScreenWindowCmd => s.(windowCmd := v)
    case CaptureScreenWindowShortcut => s.(windowShortcut := v)
    case CaptureCodeblockShortcut => s.(codeblockShortcut := v)
  }

  /** Each setter/getter pair round-trips, and a setter touches no other field. */
  lemma ReadWrite(s: Settings, f: Field, g: Field, v: string)
    ensures Read(Write(s, f, v), f) == v
    ensures g != f ==> Read(Write(s, f, v), g) == Read(s, g)
  {
  }

  /**
   * NoConfig keeps only an error text. The version-1 config also keeps the
   * deprecated server credentials and never stores a version: it is 1.
   * The version-2 config keeps whatever version it was given or read.
   */
  datatype Config =
    | NoConfig(errorText: string)
    | V1(settings: Settings, accessKey: string, secretKey: string, apiURL: string, errorText: string)
    | V2(parsedVersion: int, settings: Settings, errorText: string)

  function Version(c: Config): int {
    match c
    case NoConfig(_) => 0
    case V1(_, _, _, _, _) => 1
    case V2(v, _, _) => v
  }

  /** A getter: NoConfig answers "" to all of them. */
  function GetField(c: Config, f: Field): string {
    if c.NoConfig? then "" else Read(c.settings, f)
  }

  /** A setter: NoConfig ignores all of them. */
  function SetField(c: Config, f: Field, v: string): Config {
    if c.NoConfig? then c else c.(settings := Write(c.settings, f, v))
  }

  function SetErrorText(c: Config, text: string): Config {
    c.(errorText := text)
  }

  /**
   * A real configuration gives back what was set and keeps everything else;
   * the null object keeps answering "" and does not change. The error text
   * round-trips for all three.
   */
  lemma SetGet(c: Config, f: Field, g: Field, v: string, text: string)
    ensures !c.NoConfig? ==> GetField(SetField(c, f, v), f) == v
    ensures g != f ==> GetField(SetField(c, f, v), g) == GetField(c, g)
    ensures c.NoConfig? ==> SetField(c, f, v) == c && GetField(SetField(c, f, v), f) == ""
    ensures Version(SetField(c, f, v)) == Version(c) && SetField(c, f, v).errorText == c.errorText
    ensures SetErrorText(c, text).errorText == text && Version(SetErrorText(c, text)) == Version(c)
  {
  }

  /** The null object's version is 0 and every field reads "". */
  lemma NoConfigMeaning(text: string, f: Field)
    ensures Version(NoConfig(text)) == 0 && GetField(NoConfig(text), f) == ""
    ensures NoConfigJson() == map[]
  {
  }

  /** The null object's JSON: an empty object. */
  function NoConfigJson(): Obj {
    map[]
  }

  // ---------------------------------------------------------------- version 1

  const KeyEvidenceRepo: string := "evidenceRepo"
  const KeyAccessKey: string := "accessKey"
  const KeySecretKey: string := "secretKey"
  const KeyApiUrl: string := "apiURL"
  const KeyScreenshotCommand: string := "screenshotCommand"
  const KeyScreenshotShortcut: string := "screenshotShortcut"
  const KeyCaptureWindowExec: string := "captureWindowExec"
  const KeyCaptureWindowShortcut: string := "captureWindowShortcut"
  const KeyCaptureCodeblockShortcut: string := "captureCodeblockShortcut"

  const V1Keys: set<string> := {KeyEvidenceRepo, KeyAccessKey, KeySecretKey, KeyApiUrl,
    KeyScreenshotCommand, KeyScreenshotShortcut, KeyCaptureWindowExec,
    KeyCaptureWindowShortcut, KeyCaptureCodeblockShortcut}

  /** A version-1 config with every field empty. */
  const EmptyV1: Config := V1(NoSettings, "", "", "", "")

  /** ConfigV1::toJsonObject. */
  function V1Json(c: Config): Obj
    requires c.V1?
  {
    var s := c.settings;
    map[
      KeyEvidenceRepo := Str(s.evidenceRepo),
      KeyAccessKey := Str(c.accessKey),
      KeySecretKey := Str(c.secretKey),
      KeyApiUrl := Str(c.apiURL),
      KeyScreenshotCommand := Str(s.areaCmd),
      KeyScreenshotShortcut := Str(s.areaShortcut),
      KeyCaptureWindowExec := Str(s.windowCmd),
      KeyCaptureWindowShortcut := Str(s.windowShortcut),
      KeyCaptureCodeblockShortcut := Str(s.codeblockShortcut)]
  }

  /** ConfigV1's private fromJson: the nine keys read leniently. */
  function V1FromObject(o: Obj): Config {
    V1(Settings(
         ToStr(Get(o, KeyEvidenceRepo)),
         ToStr(Get(o, KeyScreenshotCommand)),
         ToStr(Get(o, KeyScreenshotShortcut)),
         ToStr(Get(o, KeyCaptureWindowExec)),
         ToStr(Get(o, KeyCaptureWindowShortcut)),
         ToStr(Get(o, KeyCaptureCodeblockShortcut))),
       ToStr(Get(o, KeyAccessKey)),
       ToStr(Get(o, KeySecretKey)),
       ToStr(Get(o, KeyApiUrl)),
       "")
  }

  /**
   * ConfigV1::fromJson(bytes): a new config, then parseConfig, which on a
   * parse error records the error text and reads no field.
   */
  function V1FromJson(doc: Document): Config {
    match doc
    case Malformed(reason) => V1(NoSettings, "", "", "", reason)
    case Parsed(_) => V1FromObject(DocObject(doc))
  }

  /** The file has the nine keys and no version key. */
  lemma V1JsonKeys(c: Config)
    requires c.V1?
    ensures V1Json(c).Keys == V1Keys
    ensures "version" !in V1Json(c)
  {
  }

  /** All nine fields survive writing and reading back; the error text is not written. */
  lemma V1RoundTrip(c: Config)
    requires c.V1?
    ensures V1FromJson(Parsed(Object(V1Json(c)))) == V1(c.settings, c.accessKey, c.secretKey, c.apiURL, "")
  {
  }

  /** On a parse error the text is recorded and every field stays empty. */
  lemma V1Malformed(reason: string, f: Field)
    ensures V1FromJson(Malformed(reason)).errorText == reason
    ensures GetField(V1FromJson(Malformed(reason)), f) == ""
  {
  }

  /**
   * ConfigV1::generateDefaultConfig: the evidence repository under the
   * application data directory (`dataDir` stands for that location), and
   * on macOS the two screencapture commands.
   */
  function DefaultV1(dataDir: string, onMac: bool): Config {
    var s := NoSettings.(evidenceRepo := dataDir + "/evidence");
    if onMac then
      V1(s.(areaCmd := "screencapture -s %file", windowCmd := "screencapture -w %file"), "", "", "", "")
    else V1(s, "", "", "", "")
  }

  lemma DefaultV1Meaning(dataDir: string, onMac: bool)
    ensures var c := DefaultV1(dataDir, onMac);
      && Version(c) == 1 && c.errorText == ""
      && GetField(c, EvidenceRepo) == dataDir + "/evidence"
      && (GetField(c, CaptureScreenAreaCmd) != "" <==> onMac)
      && (GetField(c, CaptureScreenWindowCmd) != "" <==> onMac)
      && GetField(c, CaptureScreenAreaShortcut) == "" && GetField(c, CaptureScreenWindowShortcut) == ""
      && GetField(c, CaptureCodeblockShortcut) == ""
  {
  }

  // ---------------------------------------------------------------- version 2

  const KeyVersion: string := "version"
  const KeyEvidenceBase: string := "evidenceBase"
  const KeyCaptureAreaCmd: string := "captureAreaCmd"
  const KeyCaptureAreaShortcut: string := "captureAreaShortcut"

  const V2Keys: set<string> := {KeyVersion, KeyEvidenceBase, KeyCaptureAreaCmd, KeyCaptureAreaShortcut,
    KeyCaptureWindowExec, KeyCaptureWindowShortcut, KeyCaptureCodeblockShortcut}

  /** A new ConfigV2: version 2, every field empty. */
  const NewV2: Config := V2(2, NoSettings, "")

  /** BasicConfig::buildJsonObject plus ConfigV2's six keys. */
  function V2Json(c: Config): Obj
    requires c.V2?
  {
    var s := c.settings;
    map[
      KeyVersion := Number(c.parsedVersion as real),
      KeyEvidenceBase := Str(s.evidenceRepo),
      KeyCaptureAreaCmd := Str(s.areaCmd),
      KeyCaptureAreaShortcut := Str(s.areaShortcut),
      KeyCaptureWindowExec := Str(s.windowCmd),
      KeyCaptureWindowShortcut := Str(s.windowShortcut),
      KeyCaptureCodeblockShortcut := Str(s.codeblockShortcut)]
  }

  /**
   * ConfigV2::fromJson: BasicConfig records a parse error but still takes
   * the version from the (then empty) object; the six fields are read
   * either way.
   */
  function V2FromJson(doc: Document): Config {
    var o := DocObject(doc);
    V2(ToInt(Get(o, KeyVersion)),
       Settings(
         ToStr(Get(o, KeyEvidenceBase)),
         ToStr(Get(o, KeyCaptureAreaCmd)),
         ToStr(Get(o, KeyCaptureAreaShortcut)),
         ToStr(Get(o, KeyCaptureWindowExec)),
         ToStr(Get(o, KeyCaptureWindowShortcut)),
         ToStr(Get(o, KeyCaptureCodeblockShortcut))),
       if doc.Malformed? then doc.reason else "")
  }

  /**
   * The file has the version and six keys; the evidence folder is stored
   * under "evidenceBase" where version 1 used "evidenceRepo", while the
   * window and code-block keys are the same in both layouts.
   */
  lemma V2JsonKeys(c: Config)
    requires c.V2?
    ensures V2Json(c).Keys == V2Keys
    ensures KeyEvidenceRepo !in V2Json(c) && KeyEvidenceBase !in V1Keys
    ensures V1Keys * V2Keys == {KeyCaptureWindowExec, KeyCaptureWindowShortcut, KeyCaptureCodeblockShortcut}
  {
  }

  /** All six fields and the version (when it fits an int) survive writing and reading back. */
  lemma V2RoundTrip(c: Config)
    requires c.V2? && InInt32(c.parsedVersion)
    ensures V2FromJson(Parsed(Object(V2Json(c)))) == V2(c.parsedVersion, c.settings, "")
  {
  }

  /** After parsing, the version is whatever the file says (0 when absent), not a fixed 2. */
  lemma V2VersionFromFile(o: Obj)
    ensures Version(V2FromJson(Parsed(Object(o)))) == ToInt(Get(o, KeyVersion))
    ensures KeyVersion !in o ==> Version(V2FromJson(Parsed(Object(o)))) == 0
    ensures Version(NewV2) == 2
  {
  }

  /**
   * ConfigV2::fromV1: a new version-2 config holding the six shared
   * fields of `old` (any configuration), or an empty one for no argument.
   */
  function FromV1(prior: Option<Config>): (r: Config)
    ensures r.V2? && Version(r) == 2 && r.errorText == ""
  {
    match prior
    case None => NewV2
    case Some(c) => V2(2, Settings(
                           GetField(c, EvidenceRepo),
                           GetField(c, CaptureScreenAreaCmd),
                           GetField(c, CaptureScreenAreaShortcut),
                           GetField(c, CaptureScreenWindowCmd),
                           GetField(c, CaptureScreenWindowShortcut),
                           GetField(c, CaptureCodeblockShortcut)), "")
  }

  /** Every shared field reads the same after the conversion; no argument gives all "". */
  lemma FromV1Meaning(prior: Option<Config>, f: Field)
    ensures prior.Some? ==> GetField(FromV1(prior), f) == GetField(prior.value, f)
    ensures prior.None? ==> GetField(FromV1(prior), f) == ""
  {
  }
}

=== FILE: connection_cell_data.dfy ===
/**
 * One cell of the connections table: the text it was loaded with, the
 * server it belongs to, whether the row is new or marked for deletion,
 * and a set of status flags kept as the bits of an unsigned int.
 */
module ConnectionCells {
  type Bits = bv32

  datatype CellType = Invalid | Normal | Delete | Add

  datatype CellFlag = FlagNone | FlagError | FlagWarning

  /** The enumerators' values: none is 0, error is 2 << 0 (2), warning is 2 << 1 (4). */
  function FlagBits(f: CellFlag): Bits {
    match f
    case FlagNone => 0
    case FlagError => 2
    case FlagWarning => 4
  }

  const ErrorBit: Bits := 2
  const WarningBit: Bits := 4

  /** The two flags are single, different bits, and "none" has no bit. */
  lemma FlagValues()
    ensures FlagBits(FlagNone) == 0 && ErrorBit == 2 && WarningBit == 4
    ensures ErrorBit & WarningBit == 0
    ensures forall f, g :: f != g ==> FlagBits(f) != FlagBits(g)
  {
  }

  /** Error beats warning, warning beats none. */
  function WorseOf(a: CellFlag, b: CellFlag): CellFlag {
    if a == FlagError || b == FlagError then FlagError
    else if a == FlagWarning || b == FlagWarning then FlagWarning
    else FlagNone
  }

  /** How bad a flag is, as a number. */
  function Severity(f: CellFlag): nat {
    match f
    case FlagNone => 0
    case FlagWarning => 1
    case FlagError => 2
  }

  /**
   * WorseOf picks the more severe of the two; hence it is commutative,
   * associative and idempotent, and "none" is its unit.
   */
  lemma WorseOfMeaning(a: CellFlag, b: CellFlag, c: CellFlag)
    ensures Severity(WorseOf(a, b)) == if Severity(a) >= Severity(b) then Severity(a) else Severity(b)
    ensures WorseOf(a, b) == a || WorseOf(a, b) == b
    ensures WorseOf(a, b) == WorseOf(b, a)
    ensures WorseOf(WorseOf(a, b), c) == WorseOf(a, WorseOf(b, c))
    ensures WorseOf(a, a) == a && WorseOf(a, FlagNone) == a
  {
  }

  datatype Cell = Cell(originalData: string, serverUuid: string, cellType: CellType, flags: Bits)

  /** A default cell: empty texts, a normal row, no flags. */
  const DefaultCell: Cell := Cell("", "", Normal, 0)

  /** The three-argument constructor; the type defaults to Normal at the call sites that omit it. */
  function NewCell(id: string, data: string, startingType: CellType): (c: Cell)
    ensures c.flags == 0 && !HasError(c) && !HasWarning(c)
  {
    Cell(data, id, startingType, 0)
  }

  predicate IsOriginalData(c: Cell, update: string) {
    update == c.originalData
  }

  function UpdateData(c: Cell, update: string): Cell {
    c.(originalData := update)
  }

  /** After an update the new text is the original one, and no other text is. */
  lemma UpdateDataMeaning(c: Cell, update: string, other: string)
    ensures IsOriginalData(UpdateData(c, update), other) <==> other == update
    ensures UpdateData(c, update).serverUuid == c.serverUuid
    ensures UpdateData(c, update).cellType == c.cellType && UpdateData(c, update).flags == c.flags
  {
  }

  function MarkDeleted(c: Cell, deleted: bool): Cell {
    c.(cellType := if deleted then Delete else Normal)
  }

  predicate IsMarkedDeleted(c: Cell) { c.cellType == Delete }
  predicate IsMarkedToAdd(c: Cell) { c.cellType == Add }

  /**
   * Marking sets the deleted state to the argument, and either way the row
   * is no longer one to add (an Add row unmarked becomes Normal).
   */
  lemma MarkDeletedMeaning(c: Cell, deleted: bool)
    ensures IsMarkedDeleted(MarkDeleted(c, deleted)) <==> deleted
    ensures !IsMarkedToAdd(MarkDeleted(c, deleted))
    ensures MarkDeleted(c, deleted).flags == c.flags
    ensures MarkDeleted(c, deleted).originalData == c.originalData
  {
  }

  function SetFlags(c: Cell, flags: Bits): Cell { c.(flags := flags) }
  function AddFlag(c: Cell, flags: Bits): Cell { c.(flags := c.flags | flags) }
  function RemoveFlag(c: Cell, flags: Bits): Cell { c.(flags := c.flags & !flags) }

  predicate HasError(c: Cell) { ErrorBit & c.flags > 0 }
  predicate HasWarning(c: Cell) { WarningBit & c.flags > 0 }

  /**
   * AddFlag sets every bit of the argument and leaves every other bit as it
   * was; together the two masks determine the result.
   */
  lemma AddFlagBits(c: Cell, flags: Bits)
    ensures AddFlag(c, flags).flags & flags == flags
    ensures AddFlag(c, flags).flags & !flags == c.flags & !flags
    ensures AddFlag(c, flags).(flags := c.flags) == c
  {
  }

  /** RemoveFlag clears every bit of the argument and leaves every other bit as it was. */
  lemma RemoveFlagBits(c: Cell, flags: Bits)
    ensures RemoveFlag(c, flags).flags & flags == 0
    ensures RemoveFlag(c, flags).flags & !flags == c.flags & !flags
    ensures RemoveFlag(c, flags).(flags := c.flags) == c
  {
  }

  /** The flags read back are the ones last set, and setting touches nothing else. */
  lemma SetFlagsMeaning(c: Cell, flags: Bits)
    ensures SetFlags(c, flags).flags == flags
    ensures SetFlags(c, flags).(flags := c.flags) == c
  {
  }

  /** Adding the error flag makes the error test true, removing it makes it false. */
  lemma ErrorFlagTest(c: Cell)
    ensures HasError(AddFlag(c, ErrorBit)) && !HasError(RemoveFlag(c, ErrorBit))
  {
  }

  lemma WarningFlagTest(c: Cell)
    ensures HasWarning(AddFlag(c, WarningBit)) && !HasWarning(RemoveFlag(c, WarningBit))
  {
  }

  /** The warning test sees only its own bit: adding or removing the error flag leaves it as it was. */
  lemma ErrorLeavesWarning(c: Cell)
    ensures HasWarning(RemoveFlag(c, ErrorBit)) == HasWarning(c)
    ensures HasWarning(AddFlag(c, ErrorBit)) == HasWarning(c)
  {
  }

  /** And the other way round. */
  lemma WarningLeavesError(c: Cell)
    ensures HasError(RemoveFlag(c, WarningBit)) == HasError(c)
    ensures HasError(AddFlag(c, WarningBit)) == HasError(c)
  {
  }

  /** Adding flags twice is adding them once. */
  lemma AddIdempotent(c: Cell, flags: Bits)
    ensures AddFlag(AddFlag(c, flags), flags) == AddFlag(c, flags)
  {
  }
}

=== FILE: connection_properties.dfy ===
/**
 * The connection editor's form: the item it was loaded from, the item it
 * last saved, and the four text boxes the user edits.
 */
module ConnectionForm {
  import opened Wrappers
  import opened Text
  import opened ServerItems

  datatype Form = Form(
    loaded: ServerItem,
    last: ServerItem,
    name: string,
    accessKey: string,
    secretKey: string,
    hostPath: string)

  /** A form that has never been loaded: both remembered items are the empty item, every box empty. */
  const Initial: Form := Form(Default, Default, "", "", "", "")

  /**
   * The pattern ^[^"]+$ : a non-empty run of characters other than '"',
   * anchored at the start and at the end, where the end anchor also
   * matches just before a final line feed.
   */
  predicate NameMatches(t: string) {
    exists n :: 0 < n <= |t| && '"' !in t[..n] && (n == |t| || t[n..] == "\n")
  }

  /** The rule the save button applies to the trimmed name: non-empty, without a double quote. */
  lemma NameRule(t: string)
    ensures NameMatches(t) <==> t != "" && '"' !in t
  {
    if t != "" && '"' !in t {
      assert t[..|t|] == t;
    }
    if NameMatches(t) {
      var n :| 0 < n <= |t| && '"' !in t[..n] && (n == |t| || t[n..] == "\n");
      assert t == t[..n] + t[n..];
      if n < |t| {
        assert t[n..] == "\n";
        assert forall i :: 0 <= i < |t| ==> (i < n ==> t[i] == t[..n][i]) && (i >= n ==> t[i] == '\n');
      } else {
        assert t[..n] == t;
      }
    }
  }

  /** Fills the four boxes from the loaded item; nothing else changes. */
  function ResetForm(f: Form): (r: Form)
    ensures r.loaded == f.loaded && r.last == f.last
  {
    f.(name := f.loaded.serverName, accessKey := f.loaded.accessKey,
       secretKey := f.loaded.secretKey, hostPath := f.loaded.hostPath)
  }

  /** Any box differs from the loaded item. */
  predicate IsDirty(f: Form) {
    f.loaded.serverName != f.name || f.loaded.accessKey != f.accessKey
    || f.loaded.secretKey != f.secretKey || f.loaded.hostPath != f.hostPath
  }

  /** The form is dirty exactly when resetting it would change something, and a reset form is clean. */
  lemma DirtyMeaning(f: Form)
    ensures IsDirty(f) <==> ResetForm(f) != f
    ensures !IsDirty(ResetForm(f))
    ensures ResetForm(ResetForm(f)) == ResetForm(f)
  {
  }

  /** Loads the empty item; the remembered last item stays. */
  function ClearForm(f: Form): (r: Form) {
    ResetForm(f.(loaded := Default))
  }

  lemma ClearFormMeaning(f: Form)
    ensures var r := ClearForm(f);
      && r.loaded == Default && r.last == f.last
      && r.name == "" && r.accessKey == "" && r.secretKey == "" && r.hostPath == ""
      && !IsDirty(r)
  {
  }

  /**
   * Shows `item`: it becomes the loaded item and fills the boxes; the
   * remembered last item is forgotten unless it has the same uuid.
   */
  function LoadItem(f: Form, item: ServerItem): (r: Form) {
    var sameItem := f.last.uuid == item.uuid;
    ResetForm(f.(loaded := item, last := if sameItem then f.last else Default))
  }

  lemma LoadItemMeaning(f: Form, item: ServerItem)
    ensures var r := LoadItem(f, item);
      && r.loaded == item && !IsDirty(r)
      && r.name == item.serverName && r.accessKey == item.accessKey
      && r.secretKey == item.secretKey && r.hostPath == item.hostPath
      && (f.last.uuid == item.uuid ==> r.last == f.last)
      && (f.last.uuid != item.uuid ==> r.last == Default)
  {
  }

  /**
   * The save button: the trimmed name must match the name rule, otherwise
   * nothing is emitted and the form stays as it was; on success the
   * emitted item is paired with the form, which now remembers the loaded
   * item as the last one saved.
   */
  function OnSave(f: Form): (r: (Option<ServerItem>, Form)) {
    var nameText := Trim(f.name);
    if !NameMatches(nameText) then (None, f)
    else
      var item := ServerItem(f.loaded.id, f.loaded.uuid, nameText, f.accessKey, f.secretKey, f.hostPath, f.loaded.deleted);
      (Some(item), f.(last := f.loaded))
  }

  /**
   * Save is refused exactly for a name that trims to nothing or holds a
   * double quote; an emitted item keeps the loaded id, uuid and deleted
   * flag and takes the trimmed name and the other three boxes verbatim.
   */
  lemma OnSaveMeaning(f: Form)
    ensures var (emitted, r) := OnSave(f);
      && (emitted.None? <==> Trim(f.name) == "" || '"' in Trim(f.name))
      && (emitted.None? ==> r == f)
      && (emitted.Some? ==>
            && emitted.value.id == f.loaded.id && emitted.value.uuid == f.loaded.uuid
            && emitted.value.deleted == f.loaded.deleted
            && emitted.value.serverName == Trim(f.name)
            && emitted.value.accessKey == f.accessKey && emitted.value.secretKey == f.secretKey
            && emitted.value.hostPath == f.hostPath
            && r == f.(last := f.loaded))
  {
    NameRule(Trim(f.name));
  }

  /**
   * Saving and loading the saved item back keeps the remembered item
   * (same uuid) and leaves a clean form whose boxes are what was typed,
   * with the name trimmed.
   */
  lemma SaveThenLoad(f: Form)
    requires Trim(f.name) != "" && '"' !in Trim(f.name)
    ensures var (emitted, r) := OnSave(f);
      && emitted.Some?
      && var g := LoadItem(r, emitted.value);
      && g.last == f.loaded && !IsDirty(g)
      && g == f.(loaded := emitted.value, last := f.loaded, name := Trim(f.name))
  {
    NameRule(Trim(f.name));
  }
}

=== FILE: create_operation.dfy ===
/**
 * Creating an operation: the slug derived from the operation's name, and
 * the decision the submit button makes before any request is sent. The
 * first-run wizard derives its slugs with the same expression.
 */
module CreateOperation {
  import opened Text
  import StringHelpers

  /**
   * Each maximal run of characters other than ASCII letters and digits
   * becomes one '-'; `inRun` says a '-' has just been written for a run
   * that is still going on.
   */
  function DashRuns(s: string, inRun: bool): string
    decreases |s|
  {
    if |s| == 0 then ""
    else if IsAsciiAlnum(s[0]) then [s[0]] + DashRuns(s[1..], false)
    else if inRun then DashRuns(s[1..], true)
    else "-" + DashRuns(s[1..], true)
  }

  /** Removing "^-" and then "-$": a leading and a trailing dash, when present. */
  function StripDashes(s: string): string {
    var t := if |s| > 0 && s[0] == '-' then s[1..] else s;
    if |t| > 0 && t[|t| - 1] == '-' then t[..|t| - 1] else t
  }

  /** makeSlugFromName: lower-case, dash the runs of other characters, strip outer dashes. */
  function MakeSlugFromName(name: string): string {
    StripDashes(DashRuns(ToLower(name), false))
  }

  predicate SlugChar(c: char) {
    IsAsciiLower(c) || IsDigit(c) || c == '-'
  }

  /** What a slug looks like: lower-case letters, digits and single inner dashes. */
  predicate SlugShaped(s: string) {
    && (forall i :: 0 <= i < |s| ==> SlugChar(s[i]))
    && (forall i :: 0 <= i < |s| - 1 ==> !(s[i] == '-' && s[i + 1] == '-'))
    && (|s| > 0 ==> s[0] != '-' && s[|s| - 1] != '-')
  }

  /** The letters and digits of a text, in order. */
  function Alnums(s: string): string
    decreases |s|
  {
    if |s| == 0 then "" else (if IsAsciiAlnum(s[0]) then [s[0]] else "") + Alnums(s[1..])
  }

  predicate LowerOrDigit(s: string) {
    forall i :: 0 <= i < |s| ==> IsAsciiLower(s[i]) || IsDigit(s[i]) || !IsAsciiAlnum(s[i])
  }

  /** What the dashing step produces: slug characters, no two dashes in a row, no leading dash after a dash. */
  lemma {:induction false} DashRunsShape(s: string, inRun: bool)
    requires LowerOrDigit(s)
    ensures var r := DashRuns(s, inRun);
      && (forall i :: 0 <= i < |r| ==> SlugChar(r[i]))
      && (forall i :: 0 <= i < |r| - 1 ==> !(r[i] == '-' && r[i + 1] == '-'))
      && (inRun && |r| > 0 ==> r[0] != '-')
      && Alnums(r) == Alnums(s)
    decreases |s|
  {
    if |s| > 0 {
      var rest := if IsAsciiAlnum(s[0]) then DashRuns(s[1..], false) else DashRuns(s[1..], true);
      DashRunsShape(s[1..], !IsAsciiAlnum(s[0]));
      var r := DashRuns(s, inRun);
      if IsAsciiAlnum(s[0]) {
        assert r == [s[0]] + rest;
        AlnumsCons(s[0], rest);
      } else if !inRun {
        assert r == "-" + rest;
        AlnumsCons('-', rest);
      }
    }
  }

  lemma AlnumsCons(c: char, s: string)
    ensures Alnums([c] + s) == (if IsAsciiAlnum(c) then [c] else "") + Alnums(s)
  {
    assert ([c] + s)[1..] == s;
  }

  lemma {:induction false} AlnumsAppend(a: string, b: string)
    ensures Alnums(a + b) == Alnums(a) + Alnums(b)
    decreases |a|
  {
    if |a| > 0 {
      assert (a + b)[1..] == a[1..] + b;
      AlnumsAppend(a[1..], b);
    } else {
      assert a + b == b;
    }
  }

  lemma ToLowerShape(s: string)
    ensures LowerOrDigit(ToLower(s))
    ensures Alnums(ToLower(s)) == ToLower(Alnums(s))
  {
    LowerAlnums(s);
  }

  lemma {:induction false} LowerAlnums(s: string)
    ensures Alnums(ToLower(s)) == ToLower(Alnums(s))
    decreases |s|
  {
    if |s| > 0 {
      LowerAlnums(s[1..]);
      assert ToLower(s) == [Lower(s[0])] + ToLower(s[1..]);
      AlnumsCons(Lower(s[0]), ToLower(s[1..]));
      ToLowerAppend(if IsAsciiAlnum(s[0]) then [s[0]] else "", Alnums(s[1..]));
    }
  }

  predicate DashedShape(s: string) {
    && (forall i :: 0 <= i < |s| ==> SlugChar(s[i]))
    && (forall i :: 0 <= i < |s| - 1 ==> !(s[i] == '-' && s[i + 1] == '-'))
  }

  lemma DropLeadingDash(s: string)
    requires DashedShape(s)
    ensures var t := if |s| > 0 && s[0] == '-' then s[1..] else s;
      DashedShape(t) && (|t| > 0 ==> t[0] != '-') && Alnums(t) == Alnums(s)
  {
    if |s| > 0 && s[0] == '-' {
      var t := s[1..];
      assert s == "-" + t;
      AlnumsCons('-', t);
      if |t| > 0 {
        assert t[0] == s[1];
      }
    }
  }

  lemma DropTrailingDash(t: string)
    requires DashedShape(t) && (|t| > 0 ==> t[0] != '-')
    ensures var u := if |t| > 0 && t[|t| - 1] == '-' then t[..|t| - 1] else t;
      SlugShaped(u) && Alnums(u) == Alnums(t)
  {
    if |t| > 0 && t[|t| - 1] == '-' {
      var u := t[..|t| - 1];
      assert t == u + "-";
      AlnumsAppend(u, "-");
      assert Alnums("-") == "";
      if |u| > 0 {
        assert u[|u| - 1] == t[|t| - 2];
      }
    }
  }

  lemma StripDashesShape(s: string)
    requires DashedShape(s)
    ensures SlugShaped(StripDashes(s))
    ensures Alnums(StripDashes(s)) == Alnums(s)
  {
    DropLeadingDash(s);
    DropTrailingDash(if |s| > 0 && s[0] == '-' then s[1..] else s);
  }

  /**
   * The slug holds only lower-case ASCII letters, digits and '-', never two
   * dashes in a row, never a dash at either end, and exactly the name's
   * letters and digits, lower-cased, in order.
   */
  lemma SlugShape(name: string)
    ensures SlugShaped(MakeSlugFromName(name))
    ensures Alnums(MakeSlugFromName(name)) == ToLower(Alnums(name))
  {
    ToLowerShape(name);
    DashRunsShape(ToLower(name), false);
    StripDashesShape(DashRuns(ToLower(name), false));
  }

  lemma {:induction false} DashRunsKeepsSlug(s: string, inRun: bool)
    requires forall i :: 0 <= i < |s| ==> SlugChar(s[i])
    requires forall i :: 0 <= i < |s| - 1 ==> !(s[i] == '-' && s[i + 1] == '-')
    requires inRun ==> |s| == 0 || s[0] != '-'
    ensures DashRuns(s, inRun) == s
    decreases |s|
  {
    if |s| > 0 {
      DashRunsKeepsSlug(s[1..], !IsAsciiAlnum(s[0]));
      assert s == [s[0]] + s[1..];
    }
  }

  lemma ToLowerKeepsSlug(s: string)
    requires forall i :: 0 <= i < |s| ==> SlugChar(s[i])
    ensures ToLower(s) == s
  {
  }

  /** A slug is its own slug, so makeSlugFromName is idempotent. */
  lemma SlugIdempotent(name: string)
    ensures MakeSlugFromName(MakeSlugFromName(name)) == MakeSlugFromName(name)
  {
    var s := MakeSlugFromName(name);
    SlugShape(name);
    ToLowerKeepsSlug(s);
    DashRunsKeepsSlug(s, false);
  }

  /** A slug-shaped text has a letter or digit whenever it is not empty. */
  lemma SlugNonEmptyHasAlnum(s: string)
    requires SlugShaped(s)
    ensures s != "" <==> Alnums(s) != ""
  {
    if s != "" {
      assert s[0] != '-';
      assert Alnums(s) == [s[0]] + Alnums(s[1..]);
    } else {
      assert Alnums(s) == "";
    }
  }

  /** The slug is empty exactly when the name has no ASCII letter or digit. */
  lemma SlugEmptyIff(name: string)
    ensures MakeSlugFromName(name) == "" <==> Alnums(name) == ""
  {
    SlugShape(name);
    SlugNonEmptyHasAlnum(MakeSlugFromName(name));
  }

  /** Every non-empty slug of at most 128 characters passes the operation-slug check. */
  lemma SlugIsValid(name: string)
    requires MakeSlugFromName(name) != "" && |MakeSlugFromName(name)| <= StringHelpers.MaxSlugLength
    ensures StringHelpers.IsValidOperationSlug(MakeSlugFromName(name))
  {
    var s := MakeSlugFromName(name);
    SlugShape(name);
    StringHelpers.ValidSlugMeaning(s);
  }

  // ---------------------------------------------------------------- submit

  /** What pressing submit does: show one of two messages, or request the operation. */
  datatype Submission =
    | NameEmpty
    | NameWithoutLettersOrDigits
    | Create(name: string, slug: string)

  /** submitButtonClicked: trims the name, derives the slug, and refuses an empty slug. */
  function Submit(text: string): Submission {
    var name := Trim(text);
    var slug := MakeSlugFromName(name);
    if slug == "" then (if name == "" then NameEmpty else NameWithoutLettersOrDigits)
    else Create(name, slug)
  }

  /**
   * A request is made exactly when the trimmed name has a letter or digit;
   * otherwise the message tells an empty name from one without letters
   * or digits.
   */
  lemma SubmitOutcome(text: string)
    ensures Submit(text).Create? <==> Alnums(Trim(text)) != ""
    ensures Submit(text) == NameEmpty <==> Trim(text) == ""
    ensures Submit(text).Create? ==> Submit(text).slug == MakeSlugFromName(Trim(text))
  {
    SlugEmptyIff(Trim(text));
    if Trim(text) == "" {
      assert Alnums(Trim(text)) == "";
    }
  }

  /** "#A&b" becomes "a-b". */
  lemma SlugExample()
    ensures MakeSlugFromName("#A&b") == "a-b"
  {
    assert ToLower("#A&b") == "#a&b";
    assert DashRuns("#a&b", false) == "-" + DashRuns("a&b", true);
    assert DashRuns("a&b", true) == "a" + DashRuns("&b", false);
    assert DashRuns("&b", false) == "-" + DashRuns("b", true);
  }
}

=== FILE: db_helpers.dfy ===
/**
 * The pure parts of the local evidence database: reading the "up" half of a
 * migration script, deciding which migrations still need applying, and
 * cutting a batch of rows into queries that respect SQLite's variable
 * limit. Executing SQL is not modelled; each operation yields the text it
 * would hand to the database.
 */
module DbHelpers {
  import opened Wrappers
  import opened Text
  import EvidenceFilter

  // ---------------------------------------------------------------- migration scripts

  /** A line that, trimmed and lower-cased, is "-- +migrate up". */
  predicate IsUpMarker(line: string) {
    ToLower(Trim(line)) == "-- +migrate up"
  }

  /** A line that, trimmed and lower-cased, is "-- +migrate down". */
  predicate IsDownMarker(line: string) {
    ToLower(Trim(line)) == "-- +migrate down"
  }

  /** Reference definition: the lines before the first down marker, up markers dropped. */
  function UpSection(lines: seq<string>): seq<string>
    decreases |lines|
  {
    if |lines| == 0 then []
    else if IsUpMarker(lines[0]) then UpSection(lines[1..])
    else if IsDownMarker(lines[0]) then []
    else [lines[0]] + UpSection(lines[1..])
  }

  /** Each line followed by a newline, one after the other. */
  function Terminated(lines: seq<string>): string
    decreases |lines|
  {
    if |lines| == 0 then "" else lines[0] + "\n" + Terminated(lines[1..])
  }

  /**
   * The up script of a migration file: every line up to the first down
   * marker, except up markers, each followed by a newline.
   */
  method ExtractMigrateUpContent(allContent: string) returns (upContent: string)
    ensures upContent == Terminated(UpSection(Split(allContent, '\n')))
  {
    var lines := Split(allContent, '\n');
    upContent := "";
    var i := 0;
    while i < |lines|
      invariant 0 <= i <= |lines|
      invariant upContent + Terminated(UpSection(lines[i..])) == Terminated(UpSection(lines))
    {
      var line := lines[i];
      assert lines[i..][1..] == lines[i + 1..];
      if IsUpMarker(line) {
        i := i + 1;
        continue;
      } else if IsDownMarker(line) {
        break;
      }
      upContent := upContent + line + "\n";
      i := i + 1;
    }
  }

  /** Neither kind of marker survives into the up section. */
  lemma {:induction false} UpSectionHasNoMarkers(lines: seq<string>)
    ensures forall i :: 0 <= i < |UpSection(lines)| ==> !IsUpMarker(UpSection(lines)[i]) && !IsDownMarker(UpSection(lines)[i])
    decreases |lines|
  {
    if |lines| > 0 {
      UpSectionHasNoMarkers(lines[1..]);
    }
  }

  /** A script without marker lines is kept whole. */
  lemma {:induction false} UpSectionOfPlain(lines: seq<string>)
    requires forall i :: 0 <= i < |lines| ==> !IsUpMarker(lines[i]) && !IsDownMarker(lines[i])
    ensures UpSection(lines) == lines
    decreases |lines|
  {
    if |lines| > 0 {
      UpSectionOfPlain(lines[1..]);
    }
  }

  /** Everything after the first down marker is dropped, whatever it holds. */
  lemma {:induction false} UpSectionStopsAtDown(before: seq<string>, down: string, after: seq<string>)
    requires IsDownMarker(down)
    ensures UpSection(before + [down] + after) == UpSection(before)
    decreases |before|
  {
    if |before| == 0 {
      assert before + [down] + after == [down] + after;
    } else {
      assert (before + [down] + after)[1..] == before[1..] + [down] + after;
      UpSectionStopsAtDown(before[1..], down, after);
    }
  }

  lemma {:induction false} TerminatedJoin(parts: seq<string>)
    requires |parts| > 0
    ensures Terminated(parts) == Join(parts, "\n") + "\n"
    decreases |parts|
  {
    if |parts| > 1 {
      TerminatedJoin(parts[1..]);
    }
  }

  /** A script without marker lines comes back whole, with one newline appended. */
  lemma PlainScriptKept(allContent: string)
    requires forall i :: 0 <= i < |Split(allContent, '\n')| ==>
      !IsUpMarker(Split(allContent, '\n')[i]) && !IsDownMarker(Split(allContent, '\n')[i])
    ensures Terminated(UpSection(Split(allContent, '\n'))) == allContent + "\n"
  {
    var lines := Split(allContent, '\n');
    UpSectionOfPlain(lines);
    TerminatedJoin(lines);
    JoinSplit(allContent, '\n');
  }

  // ---------------------------------------------------------------- pending migrations

  /** QStringList::indexOf: the first position holding `x`, or -1. */
  function IndexOfItem(xs: seq<string>, x: string): (r: int)
    ensures r == -1 <==> x !in xs
    ensures r != -1 ==> 0 <= r < |xs| && xs[r] == x && x !in xs[..r]
    decreases |xs|
  {
    if |xs| == 0 then -1
    else if xs[0] == x then 0
    else
      var k := IndexOfItem(xs[1..], x);
      assert xs[1..][..if k == -1 then 0 else k] == xs[1..1 + if k == -1 then 0 else k];
      if k == -1 then -1 else k + 1
  }

  function RemoveAt(xs: seq<string>, i: int): (r: seq<string>)
    requires 0 <= i < |xs|
    ensures multiset(r) == multiset(xs) - multiset{xs[i]}
  {
    assert xs == xs[..i] + [xs[i]] + xs[i + 1..];
    xs[..i] + xs[i + 1..]
  }

  predicate IsSqlFile(name: string) {
    EndsWith(name, ".sql")
  }

  /** The migration files proper, in directory order. */
  function SqlFiles(files: seq<string>): (r: seq<string>)
    ensures forall i :: 0 <= i < |r| ==> IsSqlFile(r[i])
    decreases |files|
  {
    if |files| == 0 then []
    else if IsSqlFile(files[0]) then [files[0]] + SqlFiles(files[1..])
    else SqlFiles(files[1..])
  }

  /**
   * The migrations still to apply and the applied records no file accounted
   * for; a non-empty remainder is the "inconsistent state" the source warns
   * about.
   */
  datatype MigrationDiff = MigrationDiff(toApply: seq<string>, unmatched: seq<string>)

  /** Walks the files in order; each file matching an applied record consumes that record. */
  function UnappliedMigrations(files: seq<string>, applied: seq<string>): MigrationDiff
    decreases |files|
  {
    if |files| == 0 then MigrationDiff([], applied)
    else if !IsSqlFile(files[0]) then UnappliedMigrations(files[1..], applied)
    else
      var found := IndexOfItem(applied, files[0]);
      if found == -1 then
        var rest := UnappliedMigrations(files[1..], applied);
        rest.(toApply := [files[0]] + rest.toApply)
      else UnappliedMigrations(files[1..], RemoveAt(applied, found))
  }

  /** `a` lists some of the elements of `b`, in the same order. */
  predicate IsSubsequence(a: seq<string>, b: seq<string>)
    decreases |b|
  {
    if |a| == 0 then true
    else if |b| == 0 then false
    else if a[0] == b[0] then IsSubsequence(a[1..], b[1..])
    else IsSubsequence(a, b[1..])
  }

  /**
   * The migrations to apply are exactly the migration files minus the applied
   * records, counted with multiplicity; the unmatched records are the applied
   * ones minus the files.
   */
  lemma {:induction false} UnappliedIsDifference(files: seq<string>, applied: seq<string>)
    ensures var d := UnappliedMigrations(files, applied);
      multiset(d.toApply) == multiset(SqlFiles(files)) - multiset(applied)
      && multiset(d.unmatched) == multiset(applied) - multiset(SqlFiles(files))
    decreases |files|
  {
    if |files| > 0 {
      var m := files[0];
      var found := IndexOfItem(applied, m);
      assert files == [m] + files[1..];
      if !IsSqlFile(m) {
        UnappliedIsDifference(files[1..], applied);
      } else if found == -1 {
        UnappliedIsDifference(files[1..], applied);
        AddUnmatched(multiset(SqlFiles(files[1..])), multiset(applied), m);
      } else {
        UnappliedIsDifference(files[1..], RemoveAt(applied, found));
        AddMatched(multiset(SqlFiles(files[1..])), multiset(applied), m);
      }
    }
  }

  /** A file with no applied record adds itself to the difference and leaves the remainder alone. */
  lemma AddUnmatched(s: multiset<string>, a: multiset<string>, m: string)
    requires a[m] == 0
    ensures (multiset{m} + s) - a == multiset{m} + (s - a)
    ensures a - (multiset{m} + s) == a - s
  {
  }

  /** A file with an applied record consumes one copy of it. */
  lemma AddMatched(s: multiset<string>, a: multiset<string>, m: string)
    requires a[m] > 0
    ensures (multiset{m} + s) - a == s - (a - multiset{m})
    ensures a - (multiset{m} + s) == (a - multiset{m}) - s
  {
  }

  /** The migrations to apply keep the directory order. */
  lemma {:induction false} UnappliedInOrder(files: seq<string>, applied: seq<string>)
    ensures IsSubsequence(UnappliedMigrations(files, applied).toApply, SqlFiles(files))
    decreases |files|
  {
    if |files| > 0 {
      var found := IndexOfItem(applied, files[0]);
      if !IsSqlFile(files[0]) {
        UnappliedInOrder(files[1..], applied);
      } else if found == -1 {
        UnappliedInOrder(files[1..], applied);
      } else {
        UnappliedInOrder(files[1..], RemoveAt(applied, found));
        SubsequenceOfTail(UnappliedMigrations(files[1..], RemoveAt(applied, found)).toApply, files[0], SqlFiles(files[1..]));
      }
    }
  }

  lemma SubsequenceOfTail(a: seq<string>, x: string, b: seq<string>)
    requires IsSubsequence(a, b)
    ensures IsSubsequence(a, [x] + b)
    decreases |b|, 1
  {
    assert ([x] + b)[1..] == b;
    if |a| > 0 && a[0] == x {
      SubsequenceDropHead(a, b);
    }
  }

  lemma SubsequenceDropHead(a: seq<string>, b: seq<string>)
    requires |a| > 0 && IsSubsequence(a, b)
    ensures IsSubsequence(a[1..], b)
    decreases |b|, 0
  {
    if a[0] == b[0] {
      SubsequenceOfTail(a[1..], b[0], b[1..]);
    } else {
      SubsequenceDropHead(a, b[1..]);
      SubsequenceOfTail(a[1..], b[0], b[1..]);
    }
    assert [b[0]] + b[1..] == b;
  }

  // ---------------------------------------------------------------- batched queries

  /** The most variables SQLite binds in one statement. */
  const SqliteMaxVars: nat := 999

  /**
   * A query text with a single "%1" slot, kept as the text before and after
   * the slot; filling it is QString::arg with one argument.
   */
  datatype QueryTemplate = QueryTemplate(before: string, after: string) {
    function Fill(x: string): (r: string)
      ensures |r| == |before| + |x| + |after|
    {
      before + x + after
    }
  }

  /** QString::chop(1): the last character dropped, if any. */
  function ChopLast(s: string): (r: string)
    ensures |s| > 0 ==> r == s[..|s| - 1]
    ensures |s| == 0 ==> r == ""
  {
    if |s| == 0 then s else s[..|s| - 1]
  }

  /** The placeholders for `rows` rows: the per-row template repeated, trailing separator chopped. */
  function PrepArgString(template: string, rows: nat): string {
    ChopLast(Repeat(template, rows))
  }

  /** The default per-row template of a batch query: "?," once per variable. */
  function DefaultVariableTemplate(varsPerRow: nat): string {
    Repeat("?,", varsPerRow)
  }

  /** The default per-row template of a batch insert: "(?,?,...,?)," with one "?" per variable. */
  function DefaultRowTemplate(varsPerRow: nat): string {
    "(" + Repeat("?,", if varsPerRow > 0 then varsPerRow - 1 else 0) + "?),"
  }

  /** How many rows fit in one statement. */
  function FrameSize(varsPerRow: nat): nat
    requires 1 <= varsPerRow <= SqliteMaxVars
  {
    SqliteMaxVars / varsPerRow
  }

  /** A frame holds at least one row, and as many rows as fit under the limit but not one more. */
  lemma FrameSizeFits(varsPerRow: nat)
    requires 1 <= varsPerRow <= SqliteMaxVars
    ensures var r := FrameSize(varsPerRow);
      r >= 1 && r * varsPerRow <= SqliteMaxVars < (r + 1) * varsPerRow
  {
  }

  /** One statement of a batch: its text and the row indices whose values it binds, in order. */
  datatype Frame = Frame(query: string, rows: seq<nat>)

  /** The row indices from `start` up to but excluding `end`. */
  function Range(start: nat, end: nat): (r: seq<nat>)
    requires start <= end
    ensures |r| == end - start
    ensures forall i :: 0 <= i < |r| ==> r[i] == start + i
  {
    seq(end - start, i requires 0 <= i < end - start => start + i)
  }

  function AllRows(frames: seq<Frame>): seq<nat>
    decreases |frames|
  {
    if |frames| == 0 then [] else AllRows(frames[..|frames| - 1]) + frames[|frames| - 1].rows
  }

  lemma AllRowsSnoc(frames: seq<Frame>, f: Frame)
    ensures AllRows(frames + [f]) == AllRows(frames) + f.rows
  {
    assert (frames + [f])[..|frames|] == frames;
  }

  lemma RangeAppend(a: nat, b: nat, c: nat)
    requires a <= b <= c
    ensures Range(a, b) + Range(b, c) == Range(a, c)
  {
  }

  /**
   * batchQuery: as many full frames of FrameSize rows as fit, then one
   * overflow frame for the remaining rows if there are any. The row
   * encoder is called once per row, in increasing order, so each frame is
   * described by the indices it encodes. An empty template stands for the
   * default one. The source divides by the variable count and then by the
   * frame size, so it needs 1 to 999 variables per row.
   */
  method BatchQuery(baseQuery: QueryTemplate, varsPerRow: nat, numRows: nat, variableTemplate: string)
    returns (frames: seq<Frame>)
    requires 1 <= varsPerRow <= SqliteMaxVars
    ensures var size := FrameSize(varsPerRow);
      |frames| == numRows / size + (if numRows % size > 0 then 1 else 0)
    ensures AllRows(frames) == Range(0, numRows)
    ensures forall i :: 0 <= i < |frames| ==> 1 <= |frames[i].rows| <= FrameSize(varsPerRow)
    ensures Shaped(frames, FrameSize(varsPerRow), numRows)
    ensures var t := if variableTemplate == "" then DefaultVariableTemplate(varsPerRow) else variableTemplate;
      forall i :: 0 <= i < |frames| ==> frames[i].query == baseQuery.Fill(PrepArgString(t, |frames[i].rows|))
  {
    var frameSize := SqliteMaxVars / varsPerRow;
    assert frameSize == FrameSize(varsPerRow);
    FrameSizeFits(varsPerRow);
    var numFullFrames := numRows / frameSize;
    var template := if variableTemplate == "" then DefaultVariableTemplate(varsPerRow) else variableTemplate;
    var full := FullFrames(baseQuery, template, frameSize, numFullFrames);
    frames := OverflowFrame(full, baseQuery, template, frameSize, numRows);
  }

  /** After the whole frames, one more frame for the rows that remain, if any. */
  method OverflowFrame(full: seq<Frame>, baseQuery: QueryTemplate, template: string, size: nat, numRows: nat)
    returns (frames: seq<Frame>)
    requires size >= 1 && |full| == numRows / size
    requires WellFramed(full, baseQuery, template, size, |full| * size)
    requires forall i :: 0 <= i < |full| ==> full[i].rows == Range(i * size, i * size + size)
    ensures |frames| == numRows / size + (if numRows % size > 0 then 1 else 0)
    ensures WellFramed(frames, baseQuery, template, size, numRows)
    ensures Shaped(frames, size, numRows)
  {
    var finalRowOffset := |full| * size;
    var overflow := numRows - finalRowOffset;
    BatchTail(numRows, size, |full|, finalRowOffset);
    frames := full;
    if overflow > 0 {
      PushFrame(full, baseQuery, template, size, finalRowOffset, overflow);
      frames := full + [NextFrame(baseQuery, template, finalRowOffset, overflow)];
    }
    FramesShape(full, frames, size, numRows);
  }

  /**
   * The split of `numRows` rows into frames of `size`: the first
   * numRows / size frames are whole, the i-th holding rows i * size up to
   * (i + 1) * size, and when rows remain the last frame holds exactly the
   * remainder.
   */
  predicate Shaped(frames: seq<Frame>, size: nat, numRows: nat)
    requires size >= 1
  {
    && numRows / size <= |frames|
    && (forall i :: 0 <= i < numRows / size ==> frames[i].rows == Range(i * size, i * size + size))
    && (numRows % size > 0 ==> |frames| > 0 && frames[|frames| - 1].rows == Range(numRows - numRows % size, numRows))
  }

  /** The whole frames followed, when rows remain, by one frame of the remaining rows are shaped. */
  lemma FramesShape(full: seq<Frame>, frames: seq<Frame>, size: nat, numRows: nat)
    requires size >= 1 && |full| == numRows / size
    requires forall i :: 0 <= i < |full| ==> full[i].rows == Range(i * size, i * size + size)
    requires numRows % size == 0 ==> frames == full
    requires numRows % size > 0 ==>
      && |frames| == |full| + 1 && frames[..|full|] == full
      && frames[|full|].rows == Range(numRows - numRows % size, numRows)
    ensures Shaped(frames, size, numRows)
  {
    if numRows % size > 0 {
      assert forall i :: 0 <= i < |full| ==> frames[i] == frames[..|full|][i];
    }
  }

  /** The loop over the whole frames: `count` frames of `size` rows each, one after the other. */
  method FullFrames(baseQuery: QueryTemplate, template: string, size: nat, count: nat) returns (frames: seq<Frame>)
    requires size >= 1
    ensures |frames| == count
    ensures WellFramed(frames, baseQuery, template, size, count * size)
    ensures forall i :: 0 <= i < count ==> frames[i].rows == Range(i * size, i * size + size)
  {
    var runningRowIndex := 0;
    frames := [];
    var frameIndex := 0;
    while frameIndex < count
      invariant 0 <= frameIndex <= count
      invariant |frames| == frameIndex
      invariant runningRowIndex == frameIndex * size
      invariant WellFramed(frames, baseQuery, template, size, runningRowIndex)
      invariant forall i :: 0 <= i < frameIndex ==> frames[i].rows == Range(i * size, i * size + size)
    {
      NextMultiple(frameIndex, size);
      PushFrame(frames, baseQuery, template, size, runningRowIndex, size);
      frames := frames + [NextFrame(baseQuery, template, runningRowIndex, size)];
      runningRowIndex := runningRowIndex + size;
      frameIndex := frameIndex + 1;
    }
  }

  /**
   * The frames built so far: consecutive row ranges from 0 to `upTo`,
   * each of 1 to `size` rows, each query sized for its own row count.
   */
  predicate WellFramed(frames: seq<Frame>, baseQuery: QueryTemplate, template: string, size: nat, upTo: nat) {
    && AllRows(frames) == Range(0, upTo)
    && (forall i :: 0 <= i < |frames| ==> 1 <= |frames[i].rows| <= size)
    && (forall i :: 0 <= i < |frames| ==> frames[i].query == baseQuery.Fill(PrepArgString(template, |frames[i].rows|)))
  }

  /** One more frame of `n` rows starting at `upTo` keeps the frames well formed. */
  lemma PushFrame(frames: seq<Frame>, baseQuery: QueryTemplate, template: string, size: nat, upTo: nat, n: nat)
    requires WellFramed(frames, baseQuery, template, size, upTo)
    requires 1 <= n <= size
    ensures WellFramed(frames + [NextFrame(baseQuery, template, upTo, n)], baseQuery, template, size, upTo + n)
  {
    var next := NextFrame(baseQuery, template, upTo, n);
    var r := frames + [next];
    AllRowsSnoc(frames, next);
    RangeAppend(0, upTo, upTo + n);
    forall i | 0 <= i < |r|
      ensures 1 <= |r[i].rows| <= size
      ensures r[i].query == baseQuery.Fill(PrepArgString(template, |r[i].rows|))
    {
      if i < |frames| {
        assert r[i] == frames[i];
      }
    }
  }

  /** The frame for `n` rows starting at row `upTo`. */
  function NextFrame(baseQuery: QueryTemplate, template: string, upTo: nat, n: nat): Frame {
    Frame(baseQuery.Fill(PrepArgString(template, n)), Range(upTo, upTo + n))
  }

  /** After the whole frames, what is left is the remainder of the division. */
  lemma BatchTail(numRows: nat, size: nat, k: nat, running: nat)
    requires size >= 1 && k == numRows / size && running == k * size
    ensures running <= numRows
    ensures numRows - running == numRows % size < size
  {
    DivisionParts(numRows, size);
  }

  lemma NextMultiple(k: nat, size: nat)
    ensures (k + 1) * size == k * size + size
  {
  }

  /** Euclidean division splits n into whole frames and a remainder smaller than a frame. */
  lemma DivisionParts(n: nat, size: nat)
    requires size >= 1
    ensures (n / size) * size + n % size == n
    ensures n % size < size
  {
  }

  /** With the default template, `rows` rows get exactly rows * varsPerRow placeholders. */
  lemma DefaultPlaceholders(varsPerRow: nat, rows: nat)
    ensures Count(PrepArgString(DefaultVariableTemplate(varsPerRow), rows), '?') == rows * varsPerRow
  {
    var s := DefaultVariableTemplate(varsPerRow);
    CountRepeat("?,", varsPerRow, '?');
    assert Count("?,", '?') == 1;
    CountRepeat(s, rows, '?');
    if rows > 0 && varsPerRow > 0 {
      ChopDropsComma("?,", varsPerRow);
      ChopDropsComma(s, rows);
    }
    ChopKeepsCount(Repeat(s, rows), '?');
  }

  /** Chopping a final character other than `c` keeps the count of `c`. */
  lemma ChopKeepsCount(s: string, c: char)
    requires |s| > 0 ==> s[|s| - 1] != c
    ensures Count(ChopLast(s), c) == Count(s, c)
  {
    if |s| > 0 {
      CountAppend(s[..|s| - 1], [s[|s| - 1]], c);
      assert s[..|s| - 1] + [s[|s| - 1]] == s;
    }
  }

  /** A repeated template ending in a comma ends in a comma. */
  lemma ChopDropsComma(s: string, rows: nat)
    requires |s| > 0 && s[|s| - 1] == ','
    requires rows > 0
    ensures var all := Repeat(s, rows); all[|all| - 1] == ','
  {
    if rows > 1 {
      ChopDropsComma(s, rows - 1);
    }
  }

  /** A frame of default placeholders never exceeds SQLite's limit. */
  lemma FramePlaceholdersWithinLimit(varsPerRow: nat, rows: nat)
    requires 1 <= varsPerRow <= SqliteMaxVars && rows <= FrameSize(varsPerRow)
    ensures Count(PrepArgString(DefaultVariableTemplate(varsPerRow), rows), '?') <= SqliteMaxVars
  {
    DefaultPlaceholders(varsPerRow, rows);
    FrameSizeFits(varsPerRow);
    MulMono(rows, FrameSize(varsPerRow), varsPerRow);
  }

  lemma MulMono(a: nat, b: nat, c: nat)
    requires a <= b
    ensures a * c <= b * c
  {
  }

  /**
   * The default row template of a batch insert holds one "?" per variable;
   * with no variables it still holds one.
   */
  lemma DefaultRowTemplatePlaceholders(varsPerRow: nat)
    ensures Count(DefaultRowTemplate(varsPerRow), '?') == if varsPerRow == 0 then 1 else varsPerRow
  {
    var n := if varsPerRow > 0 then varsPerRow - 1 else 0;
    var middle := Repeat("?,", n);
    CountRepeat("?,", n, '?');
    assert Count("?,", '?') == 1;
    CountAppend("(" + middle, "?),", '?');
    CountAppend("(", middle, '?');
    assert Count("?),", '?') == 1;
  }
}

=== FILE: db_queries.dfy ===
/**
 * The statements the local database connection builds from user input: the
 * evidence-list query for a set of filter criteria, and the delete / select /
 * insert sequence that replaces an evidence item's tags. Each statement is
 * its SQL text plus the values bound to its "?" placeholders, in order.
 *
 * To say what a query selects, the WHERE clause is also kept as a list of
 * criteria, and a small evaluator gives SQLite's meaning of each criterion
 * on an evidence row (three-valued logic collapsed to "the row is kept").
 */
module DbQueries {
  import opened Wrappers
  import opened Text
  import opened EvidenceFilter
  import opened Models

  /** A value bound to a placeholder; a null QString is bound as SQL NULL. */
  datatype Arg = IdArg(id: int) | IdListArg(ids: seq<int>) | TextArg(text: string) | DateArg(date: Date) | NullArg

  /** A statement and its bound values. */
  datatype DBQuery = DBQuery(query: string, values: seq<Arg>)

  const Placeholder: string := "?"

  // ---------------------------------------------------------------- the evidence table

  const EvidenceColumns: seq<string> :=
    ["id", "path", "operation_slug", "content_type", "description", "error", "recorded_date", "upload_date"]

  /** The select every evidence listing starts from. */
  const SelectEvidence: string := SelectHead + SelectTail
  const SelectHead: string := "SELECT id, " + "path, " + "operation_slug, " + "content_type, "
  const SelectTail: string := "description, " + "error, " + "recorded_date, " + "upload_date " + "FROM evidence"

  lemma SelectHasNoPlaceholder()
    ensures '?' !in SelectEvidence
  {
    SelectHeadHasNoPlaceholder();
    SelectTailHasNoPlaceholder();
  }

  lemma SelectHeadHasNoPlaceholder()
    ensures '?' !in SelectHead
  {
    assert '?' !in "SELECT id, ";
    assert '?' !in "path, ";
    assert '?' !in "operation_slug, ";
    assert '?' !in "content_type, ";
  }

  lemma SelectTailHasNoPlaceholder()
    ensures '?' !in SelectTail
  {
    assert '?' !in "description, ";
    assert '?' !in "error, ";
    assert '?' !in "recorded_date, ";
    assert '?' !in "upload_date ";
    assert '?' !in "FROM evidence";
  }

  /** The column the "submitted" criterion names in the source. */
  const SubmittedColumnAsWritten: string := "upload_data"

  /** The column that records when evidence was uploaded. */
  const SubmittedColumn: string := "upload_date"

  /**
   * The pattern the source binds for "no error": a null QString, which the
   * Qt 5 SQLite driver binds as NULL (Qt 6 binds it as the empty string).
   */
  const NoErrorPatternAsWritten: Arg := NullArg

  /** The pattern that matches exactly the empty error text. */
  const NoErrorPattern: Arg := TextArg("")

  /** A stored value as SQLite sees it. */
  datatype Cell = Null | IntCell(n: int) | TextCell(text: string) | DayCell(day: int)

  function DateCell(d: Date): Cell {
    if d.IsValid() then DayCell(d.number) else Null
  }

  /** The value a row holds in a named column; unknown names have none. */
  function ColumnOf(e: Evidence, name: string): (r: Option<Cell>)
    ensures r.Some? <==> name in EvidenceColumns
  {
    match name
    case "id" => Some(IntCell(e.id))
    case "path" => Some(TextCell(e.path))
    case "operation_slug" => Some(TextCell(e.operationSlug))
    case "content_type" => Some(TextCell(e.contentType))
    case "description" => Some(TextCell(e.description))
    case "error" => Some(TextCell(e.errorText))
    case "recorded_date" => Some(DateCell(e.recordedDate))
    case "upload_date" => Some(DateCell(e.uploadDate))
    case _ => None
  }

  function ArgCell(a: Arg): Cell {
    match a
    case IdArg(n) => IntCell(n)
    case IdListArg(_) => Null
    case TextArg(t) => TextCell(t)
    case DateArg(d) => DateCell(d)
    case NullArg => Null
  }

  // ---------------------------------------------------------------- LIKE

  /**
   * SQLite's LIKE without ESCAPE: '%' matches any run of characters, '_'
   * exactly one, and other characters match ignoring ASCII case.
   */
  predicate LikeMatch(t: string, p: string)
    decreases |t| + |p|
  {
    if |p| == 0 then |t| == 0
    else if p[0] == '%' then LikeMatch(t, p[1..]) || (|t| > 0 && LikeMatch(t[1..], p))
    else |t| > 0 && (p[0] == '_' || Lower(p[0]) == Lower(t[0])) && LikeMatch(t[1..], p[1..])
  }

  lemma {:induction false} LikeAnything(t: string)
    ensures LikeMatch(t, "%")
    decreases |t|
  {
    if |t| > 0 {
      LikeAnything(t[1..]);
    }
  }

  /** "_%" matches exactly the non-empty texts. */
  lemma LikeSomething(t: string)
    ensures LikeMatch(t, "_%") <==> t != ""
  {
    if |t| > 0 {
      LikeAnything(t[1..]);
      assert "_%"[1..] == "%";
    }
  }

  /** The empty pattern matches exactly the empty text. */
  lemma LikeNothing(t: string)
    ensures LikeMatch(t, "") <==> t == ""
  {
  }

  // ---------------------------------------------------------------- criteria

  datatype Comparison = Like | IsNull | IsNotNull | Equal | AtLeast | Before

  /** Whether the comparison takes a bound value. */
  predicate Binds(op: Comparison) {
    op.Like? || op.Equal? || op.AtLeast? || op.Before?
  }

  /** One term of the WHERE clause: a column, a comparison, and the value it binds if any. */
  datatype Criterion = Criterion(column: string, op: Comparison, value: Option<Arg>)

  function OpText(op: Comparison): string {
    match op
    case Like => " LIKE " + Placeholder + " "
    case IsNull => " IS NULL"
    case IsNotNull => " IS NOT NULL"
    case Equal => " = " + Placeholder + " "
    case AtLeast => " >= " + Placeholder + " "
    case Before => " < " + Placeholder + " "
  }

  /** The text of one criterion, as the source writes each part. */
  function ClauseText(c: Criterion): string {
    " " + c.column + OpText(c.op)
  }

  /** Whether a row satisfies a criterion on a known column. */
  predicate Holds(e: Evidence, c: Criterion) {
    var cell := ColumnOf(e, c.column).GetOr(Null);
    var arg := if c.value.Some? then ArgCell(c.value.value) else Null;
    match c.op
    case IsNull => cell.Null?
    case IsNotNull => !cell.Null?
    case Like => cell.TextCell? && arg.TextCell? && LikeMatch(cell.text, arg.text)
    case Equal => !cell.Null? && cell == arg
    case AtLeast => cell.DayCell? && arg.DayCell? && cell.day >= arg.day
    case Before => cell.DayCell? && arg.DayCell? && cell.day < arg.day
  }

  predicate AllHold(e: Evidence, cs: seq<Criterion>) {
    forall c :: c in cs ==> Holds(e, c)
  }

  predicate KnownColumns(cs: seq<Criterion>) {
    forall c :: c in cs ==> c.column in EvidenceColumns
  }

  /** The rows the criteria keep, in table order. */
  function Where(rows: seq<Evidence>, cs: seq<Criterion>): seq<Evidence>
    decreases |rows|
  {
    if |rows| == 0 then []
    else (if AllHold(rows[0], cs) then [rows[0]] else []) + Where(rows[1..], cs)
  }

  /**
   * Running a select over the evidence table: SQLite refuses to prepare a
   * statement naming an unknown column, so the caller's result loop sees
   * no rows; otherwise the rows the criteria keep.
   */
  function Select(rows: seq<Evidence>, cs: seq<Criterion>): Result<seq<Evidence>, string> {
    if KnownColumns(cs) then Success(Where(rows, cs)) else Failure("no such column")
  }

  // ---------------------------------------------------------------- the evidence-list query

  /** "error LIKE ?" with "_%" (at least one character) for Yes and the given pattern for No. */
  function ErrorCriteria(f: Filters, noError: Arg): seq<Criterion> {
    if f.hasError == Any then []
    else [Criterion("error", Like, Some(if f.hasError == Yes then TextArg("_%") else noError))]
  }

  function SubmittedCriteria(f: Filters, column: string): seq<Criterion> {
    if f.submitted == Any then []
    else [Criterion(column, if f.submitted == Yes then IsNotNull else IsNull, None)]
  }

  function OperationCriteria(f: Filters): seq<Criterion> {
    if f.operationSlug == "" then [] else [Criterion("operation_slug", Equal, Some(TextArg(f.operationSlug)))]
  }

  function ContentTypeCriteria(f: Filters): seq<Criterion> {
    if f.contentType == "" then [] else [Criterion("content_type", Equal, Some(TextArg(f.contentType)))]
  }

  function StartCriteria(f: Filters): seq<Criterion> {
    if f.startDate.IsValid() then [Criterion("recorded_date", AtLeast, Some(DateArg(f.startDate)))] else []
  }

  /** The end date is inclusive: rows recorded before the following day. */
  function EndCriteria(f: Filters): seq<Criterion> {
    if f.endDate.IsValid() then [Criterion("recorded_date", Before, Some(DateArg(f.endDate.AddDays(1))))] else []
  }

  /** The criteria in the order the source appends them. */
  function FilterCriteria(f: Filters, submittedColumn: string, noError: Arg): seq<Criterion> {
    ErrorCriteria(f, noError) + SubmittedCriteria(f, submittedColumn) + OperationCriteria(f)
      + ContentTypeCriteria(f) + StartCriteria(f) + EndCriteria(f)
  }

  function AndClauses(cs: seq<Criterion>): string
    decreases |cs|
  {
    if |cs| == 0 then "" else " AND " + ClauseText(cs[0]) + AndClauses(cs[1..])
  }

  /** " WHERE " before the first part, " AND " before each later one; nothing without parts. */
  function WhereClause(cs: seq<Criterion>): string {
    if |cs| == 0 then "" else " WHERE " + ClauseText(cs[0]) + AndClauses(cs[1..])
  }

  function BoundValues(cs: seq<Criterion>): seq<Arg>
    decreases |cs|
  {
    if |cs| == 0 then [] else (if cs[0].value.Some? then [cs[0].value.value] else []) + BoundValues(cs[1..])
  }

  function QueryOf(cs: seq<Criterion>): DBQuery {
    DBQuery(SelectEvidence + WhereClause(cs), BoundValues(cs))
  }

  /** buildGetEvidenceWithFiltersQuery as written: the submitted criterion names "upload_data". */
  function EvidenceQueryAsWritten(f: Filters): DBQuery {
    QueryOf(FilterCriteria(f, SubmittedColumnAsWritten, NoErrorPatternAsWritten))
  }

  /** buildGetEvidenceWithFiltersQuery with the submitted criterion on the upload date column. */
  function EvidenceQuery(f: Filters): DBQuery {
    QueryOf(FilterCriteria(f, SubmittedColumn, NoErrorPattern))
  }

  /** What a filter means for one row, independently of any SQL. */
  predicate Matches(e: Evidence, f: Filters) {
    && (f.hasError == Yes ==> e.errorText != "")
    && (f.hasError == No ==> e.errorText == "")
    && (f.submitted == Yes ==> e.uploadDate.IsValid())
    && (f.submitted == No ==> !e.uploadDate.IsValid())
    && (f.operationSlug != "" ==> e.operationSlug == f.operationSlug)
    && (f.contentType != "" ==> e.contentType == f.contentType)
    && (f.startDate.IsValid() ==> e.recordedDate.IsValid() && e.recordedDate.number >= f.startDate.number)
    && (f.endDate.IsValid() ==> e.recordedDate.IsValid() && e.recordedDate.number <= f.endDate.number)
  }

  /** Reference definition: the rows a filter means, in table order. */
  function Matching(rows: seq<Evidence>, f: Filters): seq<Evidence>
    decreases |rows|
  {
    if |rows| == 0 then []
    else (if Matches(rows[0], f) then [rows[0]] else []) + Matching(rows[1..], f)
  }

  lemma AllHoldAppend(e: Evidence, a: seq<Criterion>, b: seq<Criterion>)
    ensures AllHold(e, a + b) <==> AllHold(e, a) && AllHold(e, b)
  {
  }

  lemma AllHoldOne(e: Evidence, c: Criterion)
    ensures AllHold(e, [c]) <==> Holds(e, c)
  {
  }

  lemma ErrorCriterionMeaning(e: Evidence, f: Filters)
    ensures AllHold(e, ErrorCriteria(f, NoErrorPattern)) <==>
      (f.hasError == Yes ==> e.errorText != "") && (f.hasError == No ==> e.errorText == "")
  {
    if f.hasError != Any {
      var c := ErrorCriteria(f, NoErrorPattern)[0];
      AllHoldOne(e, c);
      assert ColumnOf(e, "error") == Some(TextCell(e.errorText));
      LikeSomething(e.errorText);
      LikeNothing(e.errorText);
    }
  }

  lemma SubmittedCriterionMeaning(e: Evidence, f: Filters)
    ensures AllHold(e, SubmittedCriteria(f, SubmittedColumn)) <==>
      (f.submitted == Yes ==> e.uploadDate.IsValid()) && (f.submitted == No ==> !e.uploadDate.IsValid())
  {
    if f.submitted != Any {
      AllHoldOne(e, SubmittedCriteria(f, SubmittedColumn)[0]);
      assert ColumnOf(e, SubmittedColumn) == Some(DateCell(e.uploadDate));
    }
  }

  lemma OperationCriterionMeaning(e: Evidence, f: Filters)
    ensures AllHold(e, OperationCriteria(f)) <==> (f.operationSlug != "" ==> e.operationSlug == f.operationSlug)
  {
    if f.operationSlug != "" {
      AllHoldOne(e, OperationCriteria(f)[0]);
      assert ColumnOf(e, "operation_slug") == Some(TextCell(e.operationSlug));
    }
  }

  lemma ContentTypeCriterionMeaning(e: Evidence, f: Filters)
    ensures AllHold(e, ContentTypeCriteria(f)) <==> (f.contentType != "" ==> e.contentType == f.contentType)
  {
    if f.contentType != "" {
      AllHoldOne(e, ContentTypeCriteria(f)[0]);
      assert ColumnOf(e, "content_type") == Some(TextCell(e.contentType));
    }
  }

  lemma DateCriteriaMeaning(e: Evidence, f: Filters)
    ensures AllHold(e, StartCriteria(f) + EndCriteria(f)) <==>
      && (f.startDate.IsValid() ==> e.recordedDate.IsValid() && e.recordedDate.number >= f.startDate.number)
      && (f.endDate.IsValid() ==> e.recordedDate.IsValid() && e.recordedDate.number <= f.endDate.number)
  {
    AllHoldAppend(e, StartCriteria(f), EndCriteria(f));
    assert ColumnOf(e, "recorded_date") == Some(DateCell(e.recordedDate));
    if f.startDate.IsValid() {
      AllHoldOne(e, StartCriteria(f)[0]);
    }
    if f.endDate.IsValid() {
      AllHoldOne(e, EndCriteria(f)[0]);
    }
  }

  /** A row passes the WHERE clause exactly when it matches the filter. */
  lemma CriteriaMeaning(e: Evidence, f: Filters)
    ensures AllHold(e, FilterCriteria(f, SubmittedColumn, NoErrorPattern)) <==> Matches(e, f)
  {
    var a := ErrorCriteria(f, NoErrorPattern);
    var b := SubmittedCriteria(f, SubmittedColumn);
    var c := OperationCriteria(f);
    var d := ContentTypeCriteria(f);
    var dates := StartCriteria(f) + EndCriteria(f);
    assert FilterCriteria(f, SubmittedColumn, NoErrorPattern) == a + b + c + d + dates;
    AllHoldAppend(e, a + b + c + d, dates);
    AllHoldAppend(e, a + b + c, d);
    AllHoldAppend(e, a + b, c);
    AllHoldAppend(e, a, b);
    ErrorCriterionMeaning(e, f);
    SubmittedCriterionMeaning(e, f);
    OperationCriterionMeaning(e, f);
    ContentTypeCriterionMeaning(e, f);
    DateCriteriaMeaning(e, f);
  }

  lemma {:induction false} WhereMeaning(rows: seq<Evidence>, f: Filters)
    ensures Where(rows, FilterCriteria(f, SubmittedColumn, NoErrorPattern)) == Matching(rows, f)
    decreases |rows|
  {
    if |rows| > 0 {
      CriteriaMeaning(rows[0], f);
      WhereMeaning(rows[1..], f);
    }
  }

  /** The corrected query names only real columns and selects exactly the rows the filter means. */
  lemma EvidenceQuerySelectsMatching(rows: seq<Evidence>, f: Filters)
    ensures Select(rows, FilterCriteria(f, SubmittedColumn, NoErrorPattern)) == Success(Matching(rows, f))
  {
    WhereMeaning(rows, f);
  }

  /**
   * As written, any filter on submission names the missing column
   * "upload_data", so the listing fails whatever the table holds; without
   * that criterion, and without a "no error" criterion, the two queries
   * coincide.
   */
  lemma SubmittedFilterFailsAsWritten(rows: seq<Evidence>, f: Filters)
    ensures f.submitted != Any ==> Select(rows, FilterCriteria(f, SubmittedColumnAsWritten, NoErrorPatternAsWritten)).Failure?
    ensures f.submitted == Any && f.hasError != No ==> EvidenceQueryAsWritten(f) == EvidenceQuery(f)
  {
    if f.submitted != Any {
      var c := SubmittedCriteria(f, SubmittedColumnAsWritten)[0];
      assert c in FilterCriteria(f, SubmittedColumnAsWritten, NoErrorPatternAsWritten);
      assert SubmittedColumnAsWritten !in EvidenceColumns;
    }
  }

  /** Concrete witness: "submitted:yes" on a one-row table lists nothing as written, the row when corrected. */
  lemma SubmittedYesExample()
    ensures var f := Unfiltered.(submitted := Yes);
      var row := Evidence(1, "a.png", "op", "image", "", "", Day(10), Day(11), []);
      Select([row], FilterCriteria(f, SubmittedColumnAsWritten, NoErrorPatternAsWritten)).Failure?
      && Select([row], FilterCriteria(f, SubmittedColumn, NoErrorPattern)) == Success([row])
  {
    var f := Unfiltered.(submitted := Yes);
    var row := Evidence(1, "a.png", "op", "image", "", "", Day(10), Day(11), []);
    SubmittedFilterFailsAsWritten([row], f);
    EvidenceQuerySelectsMatching([row], f);
    assert Matches(row, f);
    assert Matching([row], f) == [row];
  }

  /** A criterion no row satisfies leaves nothing for the WHERE clause to keep. */
  lemma {:induction false} WhereNeverHolds(rows: seq<Evidence>, cs: seq<Criterion>, c: Criterion)
    requires c in cs
    requires forall e :: !Holds(e, c)
    ensures Where(rows, cs) == []
    decreases |rows|
  {
    if |rows| > 0 {
      assert !AllHold(rows[0], cs);
      WhereNeverHolds(rows[1..], cs, c);
    }
  }

  /**
   * As written, "no error" binds a null string, and "error LIKE NULL" is
   * never true: the listing is empty whatever the table holds, even with the
   * submitted criterion on the right column. Binding the empty pattern
   * instead keeps exactly the rows without an error.
   */
  lemma NoErrorFilterEmptyAsWritten(rows: seq<Evidence>, f: Filters)
    requires f.hasError == No
    ensures Select(rows, FilterCriteria(f, SubmittedColumn, NoErrorPatternAsWritten)) == Success([])
    ensures Select(rows, FilterCriteria(f, SubmittedColumn, NoErrorPattern)) == Success(Matching(rows, f))
  {
    var cs := FilterCriteria(f, SubmittedColumn, NoErrorPatternAsWritten);
    var c := ErrorCriteria(f, NoErrorPatternAsWritten)[0];
    assert c in cs;
    assert KnownColumns(cs) by {
      FilterCriteriaKnown(f, NoErrorPatternAsWritten);
    }
    WhereNeverHolds(rows, cs, c);
    EvidenceQuerySelectsMatching(rows, f);
  }

  /** The corrected column names and the error criterion name only real columns, whatever "no error" binds. */
  lemma FilterCriteriaKnown(f: Filters, noError: Arg)
    ensures KnownColumns(FilterCriteria(f, SubmittedColumn, noError))
  {
  }

  /** Concrete witness: "err:no" on a one-row table without an error lists nothing as written, the row when corrected. */
  lemma NoErrorExample()
    ensures var f := Unfiltered.(hasError := No);
      var row := Evidence(1, "a.png", "op", "image", "", "", Day(10), Day(11), []);
      && Select([row], FilterCriteria(f, SubmittedColumn, NoErrorPatternAsWritten)) == Success([])
      && Select([row], FilterCriteria(f, SubmittedColumn, NoErrorPattern)) == Success([row])
  {
    var f := Unfiltered.(hasError := No);
    var row := Evidence(1, "a.png", "op", "image", "", "", Day(10), Day(11), []);
    NoErrorFilterEmptyAsWritten([row], f);
    assert Matches(row, f);
    assert Matching([row], f) == [row];
  }

  // ---------------------------------------------------------------- query text

  /** A criterion carries a value exactly when its comparison has a placeholder. */
  predicate WellFormed(c: Criterion) {
    (c.value.Some? <==> Binds(c.op)) && Placeholder[0] !in c.column
  }

  lemma OnePlaceholder(a: string, b: string)
    requires '?' !in a && '?' !in b
    ensures Count(a + Placeholder + b, '?') == 1
  {
    CountAppend(a + Placeholder, b, '?');
    CountAppend(a, Placeholder, '?');
    CountAbsent(a, '?');
    CountAbsent(b, '?');
  }

  /** A comparison that binds a value has one placeholder in its text, one that does not has none. */
  lemma OpPlaceholders(op: Comparison)
    ensures Count(OpText(op), '?') == if Binds(op) then 1 else 0
  {
    if Binds(op) {
      BoundOpPlaceholder(op);
    } else {
      UnboundOpPlaceholder(op);
    }
  }

  lemma BoundOpPlaceholder(op: Comparison)
    requires Binds(op)
    ensures Count(OpText(op), '?') == 1
  {
    var word := match op
      case Like => " LIKE "
      case Equal => " = "
      case AtLeast => " >= "
      case _ => " < ";
    assert OpText(op) == word + Placeholder + " ";
    OnePlaceholder(word, " ");
  }

  lemma UnboundOpPlaceholder(op: Comparison)
    requires !Binds(op)
    ensures Count(OpText(op), '?') == 0
  {
    CountAbsent(OpText(op), '?');
  }

  lemma ClausePlaceholders(c: Criterion)
    requires WellFormed(c)
    ensures Count(ClauseText(c), '?') == |if c.value.Some? then [c.value.value] else []|
  {
    CountAppend(" " + c.column, OpText(c.op), '?');
    CountAppend(" ", c.column, '?');
    CountAbsent(c.column, '?');
    OpPlaceholders(c.op);
  }

  lemma {:induction false} AndClausesPlaceholders(cs: seq<Criterion>)
    requires forall c :: c in cs ==> WellFormed(c)
    ensures Count(AndClauses(cs), '?') == |BoundValues(cs)|
    decreases |cs|
  {
    if |cs| > 0 {
      assert cs[0] in cs;
      AndClausesPlaceholders(cs[1..]);
      ClausePlaceholders(cs[0]);
      CountAppend(" AND " + ClauseText(cs[0]), AndClauses(cs[1..]), '?');
      CountAppend(" AND ", ClauseText(cs[0]), '?');
    }
  }

  /** Every placeholder of a well-formed query has exactly one bound value. */
  lemma QueryPlaceholders(cs: seq<Criterion>)
    requires forall c :: c in cs ==> WellFormed(c)
    ensures Count(QueryOf(cs).query, '?') == |QueryOf(cs).values|
  {
    SelectHasNoPlaceholder();
    CountAbsent(SelectEvidence, '?');
    CountAppend(SelectEvidence, WhereClause(cs), '?');
    WherePlaceholders(cs);
  }

  lemma WherePlaceholders(cs: seq<Criterion>)
    requires forall c :: c in cs ==> WellFormed(c)
    ensures Count(WhereClause(cs), '?') == |BoundValues(cs)|
  {
    if |cs| > 0 {
      assert cs[0] in cs;
      AndClausesPlaceholders(cs[1..]);
      ClausePlaceholders(cs[0]);
      CountAppend(" WHERE " + ClauseText(cs[0]), AndClauses(cs[1..]), '?');
      CountAppend(" WHERE ", ClauseText(cs[0]), '?');
    }
  }

  /** The filter's criteria are well formed, so the evidence query binds one value per placeholder. */
  lemma EvidenceQueryBalanced(f: Filters)
    ensures Count(EvidenceQuery(f).query, '?') == |EvidenceQuery(f).values|
    ensures Count(EvidenceQueryAsWritten(f).query, '?') == |EvidenceQueryAsWritten(f).values|
  {
    assert '?' !in SubmittedColumn;
    assert '?' !in SubmittedColumnAsWritten;
    FilterCriteriaWellFormed(f, SubmittedColumn, NoErrorPattern);
    FilterCriteriaWellFormed(f, SubmittedColumnAsWritten, NoErrorPatternAsWritten);
    QueryPlaceholders(FilterCriteria(f, SubmittedColumn, NoErrorPattern));
    QueryPlaceholders(FilterCriteria(f, SubmittedColumnAsWritten, NoErrorPatternAsWritten));
  }

  lemma FilterCriteriaWellFormed(f: Filters, column: string, noError: Arg)
    requires '?' !in column
    ensures forall c :: c in FilterCriteria(f, column, noError) ==> WellFormed(c)
  {
    var a := ErrorCriteria(f, noError);
    var b := SubmittedCriteria(f, column);
    var c := OperationCriteria(f);
    var d := ContentTypeCriteria(f);
    var dates := StartCriteria(f) + EndCriteria(f);
    assert FilterCriteria(f, column, noError) == a + b + c + d + dates;
    TextCriteriaWellFormed(f, noError);
    DateCriteriaWellFormed(f);
  }

  lemma TextCriteriaWellFormed(f: Filters, noError: Arg)
    ensures forall c :: c in ErrorCriteria(f, noError) + OperationCriteria(f) + ContentTypeCriteria(f) ==> WellFormed(c)
  {
    assert '?' !in "error";
    assert '?' !in "operation_slug";
    assert '?' !in "content_type";
  }

  lemma DateCriteriaWellFormed(f: Filters)
    ensures forall c :: c in StartCriteria(f) + EndCriteria(f) ==> WellFormed(c)
  {
    assert '?' !in "recorded_date";
  }

  /** A filter with no criteria lists the whole table with nothing bound. */
  lemma UnfilteredQuery()
    ensures EvidenceQuery(Unfiltered) == DBQuery(SelectEvidence, [])
  {
  }

  /**
   * Filter values never reach the query text, only the bound values: two
   * filters that set the same criteria produce the same text.
   */
  lemma QueryTextIgnoresValues(f: Filters, g: Filters)
    requires f.hasError == g.hasError && f.submitted == g.submitted
    requires (f.operationSlug == "") == (g.operationSlug == "")
    requires (f.contentType == "") == (g.contentType == "")
    requires f.startDate.IsValid() == g.startDate.IsValid() && f.endDate.IsValid() == g.endDate.IsValid()
    ensures EvidenceQuery(f).query == EvidenceQuery(g).query
  {
    var a := FilterCriteria(f, SubmittedColumn, NoErrorPattern);
    var b := FilterCriteria(g, SubmittedColumn, NoErrorPattern);
    assert Shape(ErrorCriteria(f, NoErrorPattern)) == Shape(ErrorCriteria(g, NoErrorPattern));
    assert Shape(SubmittedCriteria(f, SubmittedColumn)) == Shape(SubmittedCriteria(g, SubmittedColumn));
    assert Shape(OperationCriteria(f)) == Shape(OperationCriteria(g));
    assert Shape(ContentTypeCriteria(f)) == Shape(ContentTypeCriteria(g));
    assert Shape(StartCriteria(f)) == Shape(StartCriteria(g));
    assert Shape(EndCriteria(f)) == Shape(EndCriteria(g));
    ShapeOfFilter(f);
    ShapeOfFilter(g);
    TextOnlyFromShape(a, b);
  }

  /** The columns and comparisons of the criteria, without their values. */
  function Shape(cs: seq<Criterion>): seq<(string, Comparison)>
    decreases |cs|
  {
    if |cs| == 0 then [] else [(cs[0].column, cs[0].op)] + Shape(cs[1..])
  }

  lemma {:induction false} ShapeAppend(a: seq<Criterion>, b: seq<Criterion>)
    ensures Shape(a + b) == Shape(a) + Shape(b)
    decreases |a|
  {
    if |a| > 0 {
      assert (a + b)[1..] == a[1..] + b;
      ShapeAppend(a[1..], b);
    } else {
      assert a + b == b;
    }
  }

  lemma ShapeOfFilter(f: Filters)
    ensures Shape(FilterCriteria(f, SubmittedColumn, NoErrorPattern)) ==
      Shape(ErrorCriteria(f, NoErrorPattern)) + Shape(SubmittedCriteria(f, SubmittedColumn)) + Shape(OperationCriteria(f))
      + Shape(ContentTypeCriteria(f)) + Shape(StartCriteria(f)) + Shape(EndCriteria(f))
  {
    var a := ErrorCriteria(f, NoErrorPattern);
    var b := SubmittedCriteria(f, SubmittedColumn);
    var c := OperationCriteria(f);
    var d := ContentTypeCriteria(f);
    var s := StartCriteria(f);
    ShapeAppend(a + b + c + d + s, EndCriteria(f));
    ShapeAppend(a + b + c + d, s);
    ShapeAppend(a + b + c, d);
    ShapeAppend(a + b, c);
    ShapeAppend(a, b);
  }

  lemma {:induction false} TextOnlyFromShape(a: seq<Criterion>, b: seq<Criterion>)
    requires Shape(a) == Shape(b)
    ensures WhereClause(a) == WhereClause(b) && AndClauses(a) == AndClauses(b)
    decreases |a|
  {
    if |a| > 0 {
      assert Shape(a)[0] == Shape(b)[0];
      assert Shape(a[1..]) == Shape(a)[1..];
      assert Shape(b[1..]) == Shape(b)[1..];
      TextOnlyFromShape(a[1..], b[1..]);
    }
  }

  /** The end date is bound as the following day, so the whole end day is included. */
  lemma EndDateInclusive(f: Filters)
    requires f.endDate.IsValid()
    ensures |EvidenceQuery(f).values| > 0
    ensures EvidenceQuery(f).values[|EvidenceQuery(f).values| - 1] == DateArg(Day(f.endDate.number + 1))
  {
    var cs := FilterCriteria(f, SubmittedColumn, NoErrorPattern);
    var init := ErrorCriteria(f, NoErrorPattern) + SubmittedCriteria(f, SubmittedColumn) + OperationCriteria(f)
      + ContentTypeCriteria(f) + StartCriteria(f);
    assert cs == init + EndCriteria(f);
    BoundValuesAppend(init, EndCriteria(f));
  }

  lemma {:induction false} BoundValuesAppend(a: seq<Criterion>, b: seq<Criterion>)
    ensures BoundValues(a + b) == BoundValues(a) + BoundValues(b)
    decreases |a|
  {
    if |a| > 0 {
      assert (a + b)[1..] == a[1..] + b;
      BoundValuesAppend(a[1..], b);
    } else {
      assert a + b == b;
    }
  }

  // ---------------------------------------------------------------- replacing tags

  /** The tags not yet stored for the evidence, in the order given, duplicates kept. */
  function TagsToInsert(newTags: seq<Tag>, currentTags: seq<int>): seq<Tag>
    decreases |newTags|
  {
    if |newTags| == 0 then []
    else (if newTags[0].serverTagId in currentTags then [] else [newTags[0]]) + TagsToInsert(newTags[1..], currentTags)
  }

  lemma {:induction false} TagsToInsertMembers(newTags: seq<Tag>, currentTags: seq<int>)
    ensures forall t :: t in TagsToInsert(newTags, currentTags) <==> t in newTags && t.serverTagId !in currentTags
    decreases |newTags|
  {
    if |newTags| > 0 {
      TagsToInsertMembers(newTags[1..], currentTags);
      assert newTags == [newTags[0]] + newTags[1..];
    }
  }

  const InsertTagsPrefix: string := "INSERT INTO tags " + "(evidence_id, tag_id, name) " + "VALUES "
  const TagRow: string := "(?,?,?)"
  const MoreTagRow: string := ", " + TagRow

  lemma InsertPrefixHasNoPlaceholder()
    ensures '?' !in InsertTagsPrefix
  {
    assert '?' !in "INSERT INTO tags ";
    assert '?' !in "(evidence_id, tag_id, name) ";
    assert '?' !in "VALUES ";
  }

  function TagValues(evidenceID: int, items: seq<Tag>): seq<Arg>
    decreases |items|
  {
    if |items| == 0 then []
    else [IdArg(evidenceID), IdArg(items[0].serverTagId), TextArg(items[0].tagName)] + TagValues(evidenceID, items[1..])
  }

  /** One row of three placeholders per tag, values evidence id, tag id and name for each. */
  function InsertTagsQuery(evidenceID: int, items: seq<Tag>): DBQuery
    requires |items| > 0
  {
    DBQuery(InsertTagsPrefix + TagRow + Repeat(MoreTagRow, |items| - 1), TagValues(evidenceID, items))
  }

  lemma {:induction false} TagValuesShape(evidenceID: int, items: seq<Tag>)
    ensures |TagValues(evidenceID, items)| == 3 * |items|
    ensures forall i :: 0 <= i < |items| ==>
      && TagValues(evidenceID, items)[3 * i] == IdArg(evidenceID)
      && TagValues(evidenceID, items)[3 * i + 1] == IdArg(items[i].serverTagId)
      && TagValues(evidenceID, items)[3 * i + 2] == TextArg(items[i].tagName)
    decreases |items|
  {
    if |items| > 0 {
      TagValuesShape(evidenceID, items[1..]);
      var v := TagValues(evidenceID, items);
      forall i | 1 <= i < |items|
        ensures v[3 * i] == IdArg(evidenceID) && v[3 * i + 1] == IdArg(items[i].serverTagId)
          && v[3 * i + 2] == TextArg(items[i].tagName)
      {
        assert items[1..][i - 1] == items[i];
        assert 3 * i == 3 + 3 * (i - 1);
      }
    }
  }

  lemma ThreePlaceholders()
    ensures Count(TagRow, '?') == 3 && Count(MoreTagRow, '?') == 3
  {
    assert Count("(?,?,?)", '?') == 3;
    CountAppend(", ", TagRow, '?');
    CountAbsent(", ", '?');
  }

  /** The insert statement binds exactly one value per placeholder. */
  lemma InsertTagsBalanced(evidenceID: int, items: seq<Tag>)
    requires |items| > 0
    ensures Count(InsertTagsQuery(evidenceID, items).query, '?') == |InsertTagsQuery(evidenceID, items).values|
  {
    ThreePlaceholders();
    CountRepeat(MoreTagRow, |items| - 1, '?');
    InsertPrefixHasNoPlaceholder();
    CountAbsent(InsertTagsPrefix, '?');
    CountAppend(InsertTagsPrefix + TagRow, Repeat(MoreTagRow, |items| - 1), '?');
    CountAppend(InsertTagsPrefix, TagRow, '?');
    TagValuesShape(evidenceID, items);
  }

  function ServerIds(tags: seq<Tag>): seq<int>
    decreases |tags|
  {
    if |tags| == 0 then [] else [tags[0].serverTagId] + ServerIds(tags[1..])
  }

  /** What setEvidenceTags reports and the statements it issues, in order. */
  datatype TagUpdate = TagUpdate(ok: bool, statements: seq<DBQuery>)

  /**
   * setEvidenceTags: refuses an empty list; otherwise deletes the tags not
   * in the new list, reads back the evidence's remaining tag ids
   * (`currentTags`, supplied by the database), and inserts the new tags
   * not among them. Each statement's failure (`deleteOk`, `selectOk`,
   * `insertOk` false) stops it with false.
   */
  function SetEvidenceTags(newTags: seq<Tag>, evidenceID: int, deleteOk: bool, currentTags: seq<int>,
                           selectOk: bool, insertOk: bool): TagUpdate
  {
    if |newTags| == 0 then TagUpdate(false, [])
    else
      var del := DBQuery("DELETE FROM tags WHERE tag_id NOT IN (?) AND evidence_id = ?",
                         [IdListArg(ServerIds(newTags)), IdArg(evidenceID)]);
      var sel := DBQuery("SELECT tag_id FROM tags WHERE evidence_id = ?", [IdArg(evidenceID)]);
      var toInsert := TagsToInsert(newTags, currentTags);
      if !deleteOk then TagUpdate(false, [del])
      else if !selectOk then TagUpdate(false, [del, sel])
      else if |toInsert| == 0 then TagUpdate(true, [del, sel])
      else TagUpdate(insertOk, [del, sel, InsertTagsQuery(evidenceID, toInsert)])
  }

  /** An empty tag list is refused before anything runs. */
  lemma EmptyTagListRefused(evidenceID: int, deleteOk: bool, currentTags: seq<int>, selectOk: bool, insertOk: bool)
    ensures SetEvidenceTags([], evidenceID, deleteOk, currentTags, selectOk, insertOk) == TagUpdate(false, [])
  {
  }

  /**
   * When every statement succeeds, each new tag's id is either already
   * stored or inserted, and nothing inserted was already stored.
   */
  lemma SetEvidenceTagsCovers(newTags: seq<Tag>, evidenceID: int, currentTags: seq<int>)
    requires |newTags| > 0
    ensures var u := SetEvidenceTags(newTags, evidenceID, true, currentTags, true, true);
      var inserted := TagsToInsert(newTags, currentTags);
      && u.ok
      && (forall t :: t in newTags ==> t.serverTagId in currentTags || t in inserted)
      && (forall t :: t in inserted ==> t.serverTagId !in currentTags)
      && (|inserted| > 0 ==> u.statements[2] == InsertTagsQuery(evidenceID, inserted))
  {
    TagsToInsertMembers(newTags, currentTags);
  }
}

=== FILE: evidence_filter.dfy ===
/**
 * The evidence filter: the criteria that narrow the evidence list, the
 * free-text form the user types ("op: demo type: image err: no"), the parser
 * that turns such text into criteria and the renderer that turns criteria
 * back into text.
 *
 * Dates are abstract: reading "today", "yesterday" or "yyyy-MM-dd" needs the
 * clock and QDate, so the parser takes the date reader as a parameter and the
 * renderer takes the date writer.
 */
module EvidenceFilter {
  import opened Wrappers
  import opened Text

  /** A three-valued criterion: no constraint, must hold, must not hold. */
  datatype Tri = Any | Yes | No

  /** A QDate: either invalid (the "no bound" default) or a day number. */
  datatype Date = InvalidDate | Day(number: int) {
    predicate IsValid() { Day? }

    /** QDate::addDays: moves a valid date, leaves an invalid one invalid. */
    function AddDays(n: int): (d: Date)
      ensures IsValid() ==> d.IsValid() && d.number - number == n
      ensures !IsValid() ==> !d.IsValid()
    {
      if Day? then Day(number + n) else InvalidDate
    }
  }

  datatype Filters = Filters(
    operationSlug: string,
    contentType: string,
    hasError: Tri,
    submitted: Tri,
    startDate: Date,
    endDate: Date)

  /** The criteria of a default-constructed filter: everything matches. */
  const Unfiltered := Filters("", "", Any, Any, InvalidDate, InvalidDate)

  // The standard keys are "err", "submitted", "to", "from", "on", "op" and "type".

  /**
   * The words accepted for each standard key, in the order they are tried.
   * Matching ignores letter case, so each list holds the lower-case spelling
   * of its aliases ("contenttype" stands for "contentType").
   */
  const ErrorAliases: seq<string> := ["err", "error", "failed", "fail"]
  const SubmittedAliases: seq<string> := ["submitted"]
  const ToAliases: seq<string> := ["to", "before", "til", "until"]
  const FromAliases: seq<string> := ["from", "after"]
  const OnAliases: seq<string> := ["on"]
  const OperationAliases: seq<string> := ["op", "operation"]
  const ContentTypeAliases: seq<string> := ["type", "contenttype"]

  /** Reference table: the standard key each alias stands for. */
  function StandardKeyOf(alias: string): (r: Option<string>)
  {
    match alias
    case "err" => Some("err")
    case "error" => Some("err")
    case "failed" => Some("err")
    case "fail" => Some("err")
    case "submitted" => Some("submitted")
    case "to" => Some("to")
    case "before" => Some("to")
    case "til" => Some("to")
    case "until" => Some("to")
    case "from" => Some("from")
    case "after" => Some("from")
    case "on" => Some("on")
    case "op" => Some("op")
    case "operation" => Some("op")
    case "type" => Some("type")
    case "contenttype" => Some("type")
    case _ => None
  }

  /**
   * Maps any alias of a standard key, in any letter case, to that standard
   * key; any other key comes back unchanged.
   */
  function StandardizeKey(key: string): (r: string)
    ensures r == StandardKeyOf(ToLower(key)).GetOr(key)
  {
    var k := ToLower(key);
    if k in ErrorAliases then "err"
    else if k in SubmittedAliases then "submitted"
    else if k in ToAliases then "to"
    else if k in FromAliases then "from"
    else if k in OnAliases then "on"
    else if k in OperationAliases then "op"
    else if k in ContentTypeAliases then "type"
    else key
  }

  /** A standard key is its own standard form, so standardising twice changes nothing. */
  lemma StandardizeKeyIdempotent(key: string)
    ensures StandardizeKey(StandardizeKey(key)) == StandardizeKey(key)
  {
    var r := StandardizeKey(key);
    if StandardKeyOf(ToLower(key)).Some? {
      assert r in {"err", "submitted", "to", "from", "on", "op", "type"};
      ToLowerOfLower(r);
    }
  }

  /** The word the renderer writes for a Yes or No criterion. */
  function TriText(t: Tri): string {
    if t == Yes then "yes" else "no"
  }

  /**
   * Reads a yes/no criterion: text whose first non-blank character is t or y
   * (either case) means Yes; otherwise No, except that in strict mode only a
   * leading f or n means No and anything else means Any.
   */
  function ParseTriFilterValue(text: string, strict: bool): Tri {
    var v := Trim(ToLower(text));
    if StartsWith(v, "t") || StartsWith(v, "y") then Yes
    else if strict then (if StartsWith(v, "f") || StartsWith(v, "n") then No else Any)
    else No
  }

  /**
   * Yes exactly when the first non-blank character is t or y in either case;
   * Any only in strict mode, and there exactly when it is none of t, y, f, n.
   */
  lemma ParseTriFilterValueMeaning(text: string, strict: bool)
    ensures var v := Trim(ToLower(text));
      var r := ParseTriFilterValue(text, strict);
      (r == Yes <==> StartsWith(v, "t") || StartsWith(v, "y"))
      && (r == Any <==> strict && !(StartsWith(v, "t") || StartsWith(v, "y") || StartsWith(v, "f") || StartsWith(v, "n")))
  {
  }

  /** The renderer's yes/no words have no blanks and no capitals. */
  lemma TriTextPlain(t: Tri)
    ensures Trim(TriText(t)) == TriText(t)
    ensures ToLower(TriText(t)) == TriText(t)
  {
    var w := TriText(t);
    TrimNoSpace(w);
    ToLowerOfLower(w);
  }

  /** The renderer's words read back as the criterion they were written for. */
  lemma TriTextRoundTrip(t: Tri, strict: bool)
    requires t != Any
    ensures ParseTriFilterValue(TriText(t), strict) == t
  {
    TriTextPlain(t);
  }

  /** Reads "Yes" or "No" exactly; anything else is Any. */
  function ParseTri(text: string): (r: Tri)
    ensures r == Yes <==> text == "Yes"
    ensures r == No <==> text == "No"
  {
    if text == "Yes" then Yes else if text == "No" then No else Any
  }

  function TriToString(t: Tri): (r: string)
    ensures r in {"Yes", "No", "Any"}
  {
    match t
    case Yes => "Yes"
    case No => "No"
    case Any => "Any"
  }

  /** TriToString and ParseTri are inverse on the three words. */
  lemma TriStringRoundTrip(t: Tri, s: string)
    ensures ParseTri(TriToString(t)) == t
    ensures s in {"Yes", "No", "Any"} ==> TriToString(ParseTri(s)) == s
  {
  }

  // ---------------------------------------------------------------- tokenizing

  /** A key with the value typed after it. */
  datatype Token = Token(key: string, value: string)

  /**
   * A middle chunk "value words key" of the filter text: its last word is
   * the next key, the other words joined by single spaces the previous value.
   * None when the chunk holds no word at all.
   */
  function SplitMiddle(chunk: string): (r: Option<Token>)
    ensures r.None? <==> SplitSkipEmpty(chunk, ' ') == []
    ensures r.Some? ==> r.value.key != "" && ' ' !in r.value.key
  {
    var words := SplitSkipEmpty(chunk, ' ');
    if |words| == 0 then None
    else Some(Token(words[|words| - 1], Join(words[..|words| - 1], " ")))
  }

  /** Splits every middle chunk; None as soon as one holds no word. */
  function SplitMiddlesAsWritten(chunks: seq<string>): (r: Option<seq<Token>>)
    ensures r.Some? ==> |r.value| == |chunks|
    ensures r.Some? <==> forall i :: 0 <= i < |chunks| ==> SplitMiddle(chunks[i]).Some?
    ensures r.Some? ==> forall i :: 0 <= i < |chunks| ==> r.value[i] == SplitMiddle(chunks[i]).value
  {
    if |chunks| == 0 then Some([])
    else
      match SplitMiddle(chunks[0])
      case None => None
      case Some(t) =>
        match SplitMiddlesAsWritten(chunks[1..])
        case None => None
        case Some(rest) => Some([t] + rest)
  }

  /** Splits every middle chunk; a chunk without a word yields an empty key and value. */
  function SplitMiddles(chunks: seq<string>): (r: seq<Token>)
    ensures |r| == |chunks|
    ensures forall i :: 0 <= i < |chunks| ==> r[i] == SplitMiddle(chunks[i]).GetOr(Token("", ""))
  {
    seq(|chunks|, i requires 0 <= i < |chunks| => SplitMiddle(chunks[i]).GetOr(Token("", "")))
  }

  /** Pairs the first key, the middle chunks' keys and values, and the final value. */
  function Assemble(first: string, middles: seq<Token>, last: string): (r: seq<Token>)
    ensures |r| == |middles| + 1
    ensures r[0].key == first && r[|middles|].value == last
    ensures forall i {:trigger r[i]} :: 1 <= i <= |middles| ==> r[i].key == middles[i - 1].key
    ensures forall i {:trigger r[i]} :: 0 <= i < |middles| ==> r[i].value == middles[i].value
  {
    seq(|middles| + 1, i requires 0 <= i <= |middles| =>
      Token(if i == 0 then first else middles[i - 1].key,
            if i == |middles| then last else middles[i].value))
  }

  /** The colon-separated chunks of the filter text, empty ones dropped. */
  function Chunks(text: string): seq<string> {
    SplitSkipEmpty(text, ':')
  }

  function Middle(list: seq<string>): seq<string> {
    if |list| >= 2 then list[1..|list| - 1] else []
  }

  /**
   * The tokenizer as written: None stands for the two inputs on which it
   * reads the first or last element of an empty list, a text with no
   * non-empty chunk (such as ":") and a middle chunk with no word (such as
   * the " " in "op: :x").
   */
  function TokenizeAsWritten(text: string): Option<seq<Token>> {
    var list := Chunks(text);
    if |list| == 0 then None
    else
      match SplitMiddlesAsWritten(Middle(list))
      case None => None
      case Some(middles) => Some(Assemble(list[0], middles, list[|list| - 1]))
  }

  /**
   * The tokenizer faults exactly on a text without chunks or with a wordless
   * middle chunk; otherwise it yields one key/value pair per chunk boundary.
   */
  lemma TokenizeAsWrittenFaults(text: string)
    ensures var list := Chunks(text);
      var r := TokenizeAsWritten(text);
      (r.None? <==> |list| == 0 || exists i :: 0 <= i < |Middle(list)| && SplitMiddle(Middle(list)[i]).None?)
      && (r.Some? ==> |r.value| == if |list| == 1 then 1 else |list| - 1)
  {
  }

  /** The tokenizer with both faults repaired: it pairs every key with a value for every text. */
  function Tokenize(text: string): (r: seq<Token>)
    ensures |Chunks(text)| == 0 ==> r == []
    ensures |Chunks(text)| > 0 ==> |r| == if |Chunks(text)| == 1 then 1 else |Chunks(text)| - 1
  {
    var list := Chunks(text);
    if |list| == 0 then []
    else Assemble(list[0], SplitMiddles(Middle(list)), list[|list| - 1])
  }

  /** Wherever the tokenizer as written is defined, the repaired one agrees with it. */
  lemma TokenizeAgrees(text: string)
    ensures TokenizeAsWritten(text).Some? ==> Tokenize(text) == TokenizeAsWritten(text).value
  {
  }

  /** ":" passes the blank-text guard of the parser yet leaves the tokenizer no chunk to read. */
  lemma ColonOnlyFaults()
    ensures Trim(":") != ""
    ensures TokenizeAsWritten(":") == None
  {
    TrimKeepsNonSpace(":", 0);
    assert Split(":", ':') == ["", ""] by {
      assert ":" == "" + [':'] + "";
      SplitAround("", ':', "");
    }
  }

  // ---------------------------------------------------------------- parsing

  /** Applies one typed key/value pair; keys that are not filter keys are ignored. */
  function ApplyToken(f: Filters, t: Token, parseDate: string -> Date): (r: Filters)
  {
    ApplyField(f, NormalizeKey(t.key), Trim(t.value), parseDate)
  }

  /** A typed key as the parser reads it: lower-cased, trimmed, then standardised. */
  function NormalizeKey(key: string): string {
    StandardizeKey(Trim(ToLower(key)))
  }

  /** Sets the criterion a standard key names from an already-trimmed value. */
  function ApplyField(f: Filters, key: string, value: string, parseDate: string -> Date): (r: Filters)
  {
    if key == "err" then f.(hasError := ParseTriFilterValue(ToLower(value), false))
    else if key == "submitted" then f.(submitted := ParseTriFilterValue(ToLower(value), false))
    else if key == "op" then f.(operationSlug := value)
    else if key == "to" then f.(endDate := parseDate(value))
    else if key == "from" then f.(startDate := parseDate(value))
    else if key == "on" then f.(startDate := parseDate(value), endDate := parseDate(value))
    else if key == "type" then f.(contentType := value)
    else f
  }

  /** A later value for the same key replaces the earlier one. */
  lemma ApplyFieldOverwrites(f: Filters, key: string, first: string, second: string, parseDate: string -> Date)
    ensures ApplyField(ApplyField(f, key, first, parseDate), key, second, parseDate) == ApplyField(f, key, second, parseDate)
  {
  }

  /** "on" bounds the range on both sides by the same day; every key touches only its own criteria. */
  lemma ApplyFieldFrame(f: Filters, key: string, value: string, parseDate: string -> Date)
    ensures var r := ApplyField(f, key, value, parseDate);
      (key == "on" ==> r.startDate == r.endDate == parseDate(value))
      && (key != "op" ==> r.operationSlug == f.operationSlug)
      && (key != "type" ==> r.contentType == f.contentType)
      && (key != "err" ==> r.hasError == f.hasError)
      && (key != "submitted" ==> r.submitted == f.submitted)
      && (key != "from" && key != "on" ==> r.startDate == f.startDate)
      && (key != "to" && key != "on" ==> r.endDate == f.endDate)
  {
  }

  function ApplyAll(f: Filters, ts: seq<Token>, parseDate: string -> Date): Filters
    decreases |ts|
  {
    if |ts| == 0 then f else ApplyAll(ApplyToken(f, ts[0], parseDate), ts[1..], parseDate)
  }

  lemma {:induction false} ApplyAllAppend(f: Filters, a: seq<Token>, b: seq<Token>, parseDate: string -> Date)
    ensures ApplyAll(f, a + b, parseDate) == ApplyAll(ApplyAll(f, a, parseDate), b, parseDate)
    decreases |a|
  {
    if |a| > 0 {
      assert (a + b)[1..] == a[1..] + b;
      ApplyAllAppend(ApplyToken(f, a[0], parseDate), a[1..], b, parseDate);
    } else {
      assert a + b == b;
    }
  }

  /** Keys that are not filter keys leave every criterion as it was. */
  lemma UnknownKeyIgnored(f: Filters, t: Token, parseDate: string -> Date)
    requires StandardKeyOf(ToLower(Trim(ToLower(t.key)))).None?
    ensures ApplyToken(f, t, parseDate) == f
  {
    var k := Trim(ToLower(t.key));
    assert NormalizeKey(t.key) == k;
    NotStandardKey(k);
    OtherField(f, k, Trim(t.value), parseDate);
  }

  /** A word that is no alias of a standard key is in particular no standard key. */
  lemma NotStandardKey(k: string)
    requires StandardKeyOf(ToLower(k)).None?
    ensures k != "err" && k != "submitted" && k != "to" && k != "from"
    ensures k != "on" && k != "op" && k != "type"
  {
    StandardKeysAreAliases();
  }

  /** Every standard key, in lower case, is an alias of itself. */
  lemma StandardKeysAreAliases()
    ensures StandardKeyOf(ToLower("err")) == Some("err")
    ensures StandardKeyOf(ToLower("submitted")) == Some("submitted")
    ensures StandardKeyOf(ToLower("to")) == Some("to")
    ensures StandardKeyOf(ToLower("from")) == Some("from")
    ensures StandardKeyOf(ToLower("on")) == Some("on")
    ensures StandardKeyOf(ToLower("op")) == Some("op")
    ensures StandardKeyOf(ToLower("type")) == Some("type")
  {
    ToLowerOfLower("err");
    ToLowerOfLower("submitted");
    ToLowerOfLower("to");
    ToLowerOfLower("from");
    ToLowerOfLower("on");
    ToLowerOfLower("op");
    ToLowerOfLower("type");
  }

  lemma OtherField(f: Filters, key: string, value: string, parseDate: string -> Date)
    requires key != "err" && key != "submitted" && key != "to" && key != "from"
    requires key != "on" && key != "op" && key != "type"
    ensures ApplyField(f, key, value, parseDate) == f
  {
  }

  /**
   * The parser as written: blank text gives the unfiltered criteria;
   * otherwise every token is applied in order. None where the tokenizer
   * faults.
   */
  function ParseFilterAsWritten(text: string, parseDate: string -> Date): Option<Filters> {
    if Trim(text) == "" then Some(Unfiltered)
    else
      match TokenizeAsWritten(text)
      case None => None
      case Some(ts) => Some(ApplyAll(Unfiltered, ts, parseDate))
  }

  /** The parser over the repaired tokenizer: defined for every text, equal to the original where that is. */
  function ParseFilter(text: string, parseDate: string -> Date): Filters {
    if Trim(text) == "" then Unfiltered else ApplyAll(Unfiltered, Tokenize(text), parseDate)
  }

  /** Blank text leaves every criterion open; otherwise the parser faults exactly where the tokenizer does. */
  lemma ParseFilterAsWrittenCases(text: string, parseDate: string -> Date)
    ensures Trim(text) == "" ==> ParseFilterAsWritten(text, parseDate) == Some(Unfiltered)
    ensures Trim(text) != "" ==> (ParseFilterAsWritten(text, parseDate).None? <==> TokenizeAsWritten(text).None?)
  {
  }

  /** The repaired parser agrees with the original wherever the original is defined. */
  lemma ParseFilterAgrees(text: string, parseDate: string -> Date)
    ensures Trim(text) == "" ==> ParseFilter(text, parseDate) == Unfiltered
    ensures ParseFilterAsWritten(text, parseDate).Some? ==> ParseFilter(text, parseDate) == ParseFilterAsWritten(text, parseDate).value
  {
    TokenizeAgrees(text);
  }

  // ---------------------------------------------------------------- rendering

  /** The key/value segments the renderer writes for a filter, in order. */
  function Segments(f: Filters, dateText: Date -> string): seq<Token> {
    OperationSegment(f) + ContentTypeSegment(f) + ErrorSegment(f) + DateSegments(f, dateText) + SubmittedSegment(f)
  }

  function OperationSegment(f: Filters): seq<Token> {
    if f.operationSlug != "" then [Token("op", f.operationSlug)] else []
  }

  function ContentTypeSegment(f: Filters): seq<Token> {
    if f.contentType != "" then [Token("type", f.contentType)] else []
  }

  function ErrorSegment(f: Filters): seq<Token> {
    if f.hasError != Any then [Token("err", TriText(f.hasError))] else []
  }

  function SubmittedSegment(f: Filters): seq<Token> {
    if f.submitted != Any then [Token("submitted", TriText(f.submitted))] else []
  }

  /** One "on" segment for a single-day range, otherwise "from" and/or "to" for each valid bound. */
  function DateSegments(f: Filters, dateText: Date -> string): seq<Token>
  {
    if !f.startDate.IsValid() && !f.endDate.IsValid() then []
    else if f.startDate == f.endDate then [Token("on", dateText(f.startDate))]
    else
      (if f.startDate.IsValid() then [Token("from", dateText(f.startDate))] else [])
      + (if f.endDate.IsValid() then [Token("to", dateText(f.endDate))] else [])
  }

  /** One segment as the renderer writes it: " key: value". */
  function SegmentText(t: Token): string {
    (" " + t.key) + [':'] + (" " + t.value)
  }

  /** The segments written one after the other. */
  function Render(segments: seq<Token>): string {
    if |segments| == 0 then ""
    else Render(segments[..|segments| - 1]) + SegmentText(segments[|segments| - 1])
  }

  /** The filter's text form: its segments rendered and trimmed. */
  function ToText(f: Filters, dateText: Date -> string): string {
    Trim(Render(Segments(f, dateText)))
  }

  /** The text is empty exactly when the filter constrains nothing. */
  lemma ToTextEmpty(f: Filters, dateText: Date -> string)
    ensures ToText(f, dateText) == "" <==> (f.operationSlug == "" && f.contentType == "" && f.hasError == Any
                                            && f.submitted == Any && !f.startDate.IsValid() && !f.endDate.IsValid())
  {
    var segments := Segments(f, dateText);
    if |segments| > 0 {
      var n := |segments|;
      var s := Render(segments);
      var last := SegmentText(segments[n - 1]);
      assert s == Render(segments[..n - 1]) + last;
      var i := |s| - |last| + |segments[n - 1].key| + 1;
      assert s[i] == last[|segments[n - 1].key| + 1] == ':';
      TrimKeepsNonSpace(s, i);
    }
  }

  // ---------------------------------------------------------------- round trip

  /** A single word: non-empty, no colon, no whitespace. */
  predicate IsWord(s: string) {
    s != "" && ':' !in s && NoSpace(s)
  }

  predicate WordSegments(segments: seq<Token>) {
    forall i :: 0 <= i < |segments| ==> IsWord(segments[i].key) && IsWord(segments[i].value)
  }

  /** The colon-separated chunks of rendered segments: "key", then " value key" pairs, then " value". */
  function RenderedChunks(segments: seq<Token>): (r: seq<string>)
    requires |segments| > 0
    ensures |r| == |segments| + 1
  {
    [segments[0].key] + MiddleChunks(segments) + [" " + segments[|segments| - 1].value]
  }

  /** The chunks between two colons: each value followed by the next key. */
  function MiddleChunks(segments: seq<Token>): (r: seq<string>)
    requires |segments| > 0
    ensures |r| == |segments| - 1
    ensures forall i :: 0 <= i < |segments| - 1 ==> r[i] == " " + segments[i].value + " " + segments[i + 1].key
  {
    seq(|segments| - 1, i requires 0 <= i < |segments| - 1 => " " + segments[i].value + " " + segments[i + 1].key)
  }

  /** Appending a segment extends the last chunk by " key" and adds a final " value" chunk. */
  lemma RenderedChunksSnoc(init: seq<Token>, s: Token)
    requires |init| > 0
    ensures var p := RenderedChunks(init);
      RenderedChunks(init + [s]) == p[..|p| - 1] + [p[|p| - 1] + (" " + s.key)] + [" " + s.value]
  {
    var segments := init + [s];
    var n := |segments|;
    var p := RenderedChunks(init);
    var q := RenderedChunks(segments);
    var r := p[..|p| - 1] + [p[|p| - 1] + (" " + s.key)] + [" " + s.value];
    assert |q| == |r| == n + 1;
    forall i | 0 <= i < n + 1 ensures q[i] == r[i] {
      if i == 0 {
      } else if i < n - 1 {
        assert q[i] == " " + segments[i - 1].value + " " + segments[i].key;
        assert p[i] == " " + init[i - 1].value + " " + init[i].key;
      } else if i == n - 1 {
        assert q[i] == " " + init[n - 2].value + " " + s.key;
      }
    }
  }

  lemma {:induction false} SplitRendered(segments: seq<Token>)
    requires |segments| > 0 && WordSegments(segments)
    ensures Split(Render(segments)[1..], ':') == RenderedChunks(segments)
    decreases |segments|
  {
    var n := |segments|;
    var last := segments[n - 1];
    var init := segments[..n - 1];
    assert init + [last] == segments;
    if n == 1 {
      SplitRenderedOne(last);
    } else {
      assert WordSegments(init);
      SplitRendered(init);
      SplitRenderedStep(init, last);
    }
  }

  lemma SplitRenderedOne(s: Token)
    requires IsWord(s.key) && IsWord(s.value)
    ensures Split(Render([s])[1..], ':') == RenderedChunks([s])
  {
    RenderSnoc([], s);
    assert [] + [s] == [s];
    assert Render([s])[1..] == s.key + [':'] + (" " + s.value);
    SplitAround(s.key, ':', " " + s.value);
    SplitNoSeparator(s.key, ':');
    SplitNoSeparator(" " + s.value, ':');
  }

  lemma SplitRenderedStep(init: seq<Token>, last: Token)
    requires |init| > 0 && |init[0].key| > 0 && IsWord(last.key) && IsWord(last.value)
    requires Split(Render(init)[1..], ':') == RenderedChunks(init)
    ensures Split(Render(init + [last])[1..], ':') == RenderedChunks(init + [last])
  {
    var b := " " + last.key;
    var c := " " + last.value;
    var x := Render(init)[1..];
    RenderTail(init, last);
    assert Render(init + [last])[1..] == x + b + [':'] + c;
    assert ':' !in b && ':' !in c;
    SplitChunkStep(x, b, c);
    RenderedChunksSnoc(init, last);
  }

  lemma RenderTail(init: seq<Token>, last: Token)
    requires |init| > 0 && |init[0].key| > 0
    ensures Render(init + [last])[1..] == Render(init)[1..] + SegmentText(last)
  {
    RenderSnoc(init, last);
    RenderShape(init);
  }

  /** Splitting text extended by "b:c" on colons, neither b nor c holding one, extends the last chunk by b and adds c. */
  lemma SplitChunkStep(a: string, b: string, c: string)
    requires ':' !in b && ':' !in c
    ensures var p := Split(a, ':');
      Split(a + b + [':'] + c, ':') == p[..|p| - 1] + [p[|p| - 1] + b] + [c]
  {
    SplitAround(a + b, ':', c);
    SplitNoSeparator(c, ':');
    SplitExtendLast(a, ':', b);
  }

  /** Rendering one more segment appends its text. */
  lemma RenderSnoc(init: seq<Token>, s: Token)
    ensures Render(init + [s]) == Render(init) + SegmentText(s)
  {
    assert (init + [s])[..|init|] == init;
  }

  /** A rendering starts with a blank then the first key, and ends with the last value. */
  lemma {:induction false} RenderShape(segments: seq<Token>)
    requires |segments| > 0 && |segments[0].key| > 0
    ensures var r := Render(segments);
      |r| >= 2 && r[0] == ' ' && r[1] == segments[0].key[0]
      && r[|r| - |segments[|segments| - 1].value|..] == segments[|segments| - 1].value
    decreases |segments|
  {
    var n := |segments|;
    var init := segments[..n - 1];
    if n > 1 {
      RenderShape(init);
    } else {
      assert Render(init) == "";
    }
  }

  lemma {:induction false} NonEmptyOfNonEmpty(parts: seq<string>)
    requires forall i :: 0 <= i < |parts| ==> parts[i] != ""
    ensures NonEmpty(parts) == parts
  {
    if |parts| > 0 {
      NonEmptyOfNonEmpty(parts[1..]);
      assert parts == [parts[0]] + parts[1..];
    }
  }

  lemma SplitMiddleOfRendered(v: string, k: string)
    requires IsWord(v) && IsWord(k)
    ensures SplitMiddle(" " + v + " " + k) == Some(Token(k, v))
  {
    assert " " + v + " " + k == "" + [' '] + (v + [' '] + k);
    SplitAround("", ' ', v + [' '] + k);
    SplitAround(v, ' ', k);
    SplitNoSeparator(v, ' ');
    SplitNoSeparator(k, ' ');
    assert Split(" " + v + " " + k, ' ') == ["", v, k];
    assert NonEmpty(["", v, k]) == [v, k] by {
      assert ["", v, k][1..] == [v, k];
      NonEmptyOfNonEmpty([v, k]);
    }
  }

  lemma MiddleChunkAt(segments: seq<Token>, i: int)
    requires 0 <= i < |segments| - 1
    ensures Middle(RenderedChunks(segments))[i] == " " + segments[i].value + " " + segments[i + 1].key
  {
    var list := RenderedChunks(segments);
    assert list[1..|list| - 1] == MiddleChunks(segments);
  }

  /** The middle chunks of rendered segments split into each next key and each previous value. */
  lemma MiddlesOfRendered(segments: seq<Token>)
    requires |segments| > 0 && WordSegments(segments)
    ensures SplitMiddlesAsWritten(Middle(RenderedChunks(segments))) == Some(MiddleTokens(segments))
  {
    var n := |segments|;
    var mid := Middle(RenderedChunks(segments));
    assert |mid| == n - 1;
    forall i | 0 <= i < n - 1
      ensures SplitMiddle(mid[i]) == Some(Token(segments[i + 1].key, segments[i].value))
    {
      MiddleChunkAt(segments, i);
      SplitMiddleOfRendered(segments[i].value, segments[i + 1].key);
    }
    var r := SplitMiddlesAsWritten(mid);
    var expected := MiddleTokens(segments);
    assert r.Some?;
    assert forall i :: 0 <= i < n - 1 ==> r.value[i] == expected[i];
    assert r.value == expected;
  }

  /** What each middle chunk reads as: the next segment's key with this segment's value. */
  function MiddleTokens(segments: seq<Token>): (r: seq<Token>)
    requires |segments| > 0
    ensures |r| == |segments| - 1
    ensures forall i :: 0 <= i < |segments| - 1 ==> r[i] == Token(segments[i + 1].key, segments[i].value)
  {
    seq(|segments| - 1, i requires 0 <= i < |segments| - 1 => Token(segments[i + 1].key, segments[i].value))
  }

  /** The tokens read back from rendered segments: the segments, with the final value still carrying its leading space. */
  lemma TokenizeRendered(segments: seq<Token>)
    requires |segments| > 0 && WordSegments(segments)
    ensures var n := |segments|;
      TokenizeAsWritten(Render(segments)[1..])
        == Some(segments[..n - 1] + [Token(segments[n - 1].key, " " + segments[n - 1].value)])
  {
    var n := |segments|;
    var text := Render(segments)[1..];
    var list := RenderedChunks(segments);
    var middles := MiddleTokens(segments);
    var first, last := segments[0].key, " " + segments[n - 1].value;
    assert Chunks(text) == list by { ChunksOfRendered(segments); }
    assert SplitMiddlesAsWritten(Middle(list)) == Some(middles) by { MiddlesOfRendered(segments); }
    assert list[0] == first && list[|list| - 1] == last by { RenderedChunksEnds(segments); }
    assert TokenizeAsWritten(text) == Some(Assemble(first, middles, last)) by {
      TokenizeOfChunks(text, list, middles);
    }
    AssembleRendered(segments, middles);
  }

  lemma RenderedChunksEnds(segments: seq<Token>)
    requires |segments| > 0
    ensures var list := RenderedChunks(segments);
      list[0] == segments[0].key && list[|list| - 1] == " " + segments[|segments| - 1].value
  {
  }

  lemma ChunksOfRendered(segments: seq<Token>)
    requires |segments| > 0 && WordSegments(segments)
    ensures Chunks(Render(segments)[1..]) == RenderedChunks(segments)
  {
    var list := RenderedChunks(segments);
    SplitRendered(segments);
    assert IsWord(segments[0].key);
    assert forall i :: 0 <= i < |list| ==> list[i] != "" by {
      forall i | 0 <= i < |list| ensures list[i] != "" {
        if i > 0 {
          assert list[i][0] == ' ';
        }
      }
    }
    NonEmptyOfNonEmpty(list);
  }

  /** The tokenizer on text whose chunks and middle tokens are known. */
  lemma TokenizeOfChunks(text: string, list: seq<string>, middles: seq<Token>)
    requires Chunks(text) == list && |list| > 0
    requires SplitMiddlesAsWritten(Middle(list)) == Some(middles)
    ensures TokenizeAsWritten(text) == Some(Assemble(list[0], middles, list[|list| - 1]))
  {
  }

  lemma AssembleRendered(segments: seq<Token>, middles: seq<Token>)
    requires |segments| > 0
    requires |middles| == |segments| - 1
    requires forall i :: 0 <= i < |middles| ==> middles[i] == Token(segments[i + 1].key, segments[i].value)
    ensures var n := |segments|;
      Assemble(segments[0].key, middles, " " + segments[n - 1].value)
        == segments[..n - 1] + [Token(segments[n - 1].key, " " + segments[n - 1].value)]
  {
    var n := |segments|;
    var got := Assemble(segments[0].key, middles, " " + segments[n - 1].value);
    var expected := segments[..n - 1] + [Token(segments[n - 1].key, " " + segments[n - 1].value)];
    assert |got| == n == |expected|;
    forall i | 0 <= i < n ensures got[i] == expected[i] {
      if i < n - 1 {
        assert expected[i] == segments[i];
        assert middles[i] == Token(segments[i + 1].key, segments[i].value);
      } else {
        assert got[i].value == " " + segments[n - 1].value;
      }
      if i > 0 {
        assert middles[i - 1] == Token(segments[i].key, segments[i - 1].value);
      } else {
        assert got[i].key == segments[0].key;
      }
    }
  }

  lemma ApplyTokenTrimsValue(f: Filters, k: string, v: string, parseDate: string -> Date)
    requires IsWord(v)
    ensures ApplyToken(f, Token(k, " " + v), parseDate) == ApplyToken(f, Token(k, v), parseDate)
  {
    TrimLeadingSpace(v);
    TrimNoSpace(v);
  }

  lemma SegmentsAreWords(f: Filters, dateText: Date -> string)
    requires !f.startDate.IsValid() && !f.endDate.IsValid()
    requires f.operationSlug == "" || IsWord(f.operationSlug)
    requires f.contentType == "" || IsWord(f.contentType)
    ensures WordSegments(Segments(f, dateText))
  {
    assert IsWord("yes") && IsWord("no");
    assert IsWord("op") && IsWord("type") && IsWord("err") && IsWord("submitted");
    var a, b, c := OperationSegment(f), ContentTypeSegment(f), ErrorSegment(f);
    var d, e := DateSegments(f, dateText), SubmittedSegment(f);
    assert d == [];
    assert WordSegments(a) && WordSegments(b) && WordSegments(c) && WordSegments(e);
    WordSegmentsAppend(a, b);
    WordSegmentsAppend(a + b, c);
    WordSegmentsAppend(a + b + c, d);
    WordSegmentsAppend(a + b + c + d, e);
  }

  lemma WordSegmentsAppend(a: seq<Token>, b: seq<Token>)
    requires WordSegments(a) && WordSegments(b)
    ensures WordSegments(a + b)
  {
    forall i | 0 <= i < |a + b| ensures IsWord((a + b)[i].key) && IsWord((a + b)[i].value) {
      if i < |a| {
        assert (a + b)[i] == a[i];
      } else {
        assert (a + b)[i] == b[i - |a|];
      }
    }
  }

  /** A word of lower-case letters survives lower-casing and trimming unchanged. */
  lemma PlainWordRead(k: string)
    requires forall i :: 0 <= i < |k| ==> IsAsciiLower(k[i])
    ensures Trim(ToLower(k)) == k
  {
    ToLowerOfLower(k);
    assert NoSpace(k);
    TrimNoSpace(k);
  }

  lemma OperationKeyRead()
    ensures NormalizeKey("op") == "op"
  {
    PlainWordRead("op");
    assert StandardizeKey("op") == "op";
  }

  lemma ContentTypeKeyRead()
    ensures NormalizeKey("type") == "type"
  {
    PlainWordRead("type");
    assert StandardizeKey("type") == "type";
  }

  lemma ErrorKeyRead()
    ensures NormalizeKey("err") == "err"
  {
    PlainWordRead("err");
    assert StandardizeKey("err") == "err";
  }

  lemma SubmittedKeyRead()
    ensures NormalizeKey("submitted") == "submitted"
  {
    PlainWordRead("submitted");
    assert StandardizeKey("submitted") == "submitted";
  }

  /** The renderer's yes/no words, lower-cased by the parser, read back as the criterion. */
  lemma TriTextRead(t: Tri)
    requires t != Any
    ensures ParseTriFilterValue(ToLower(TriText(t)), false) == t
  {
    TriTextPlain(t);
    TriTextRoundTrip(t, false);
  }

  lemma ErrorField(f: Filters, value: string, parseDate: string -> Date)
    ensures ApplyField(f, "err", value, parseDate) == f.(hasError := ParseTriFilterValue(ToLower(value), false))
  {
  }

  lemma SubmittedField(f: Filters, value: string, parseDate: string -> Date)
    ensures ApplyField(f, "submitted", value, parseDate) == f.(submitted := ParseTriFilterValue(ToLower(value), false))
  {
  }

  lemma ApplyOperation(f: Filters, slug: string, parseDate: string -> Date)
    requires IsWord(slug)
    ensures ApplyToken(f, Token("op", slug), parseDate) == f.(operationSlug := slug)
  {
    OperationKeyRead();
    TrimNoSpace(slug);
  }

  lemma ApplyContentType(f: Filters, ty: string, parseDate: string -> Date)
    requires IsWord(ty)
    ensures ApplyToken(f, Token("type", ty), parseDate) == f.(contentType := ty)
  {
    ContentTypeKeyRead();
    TrimNoSpace(ty);
  }

  lemma ApplyError(f: Filters, t: Tri, parseDate: string -> Date)
    requires t != Any
    ensures ApplyToken(f, Token("err", TriText(t)), parseDate) == f.(hasError := t)
  {
    var w := TriText(t);
    ErrorKeyRead();
    TriTextPlain(t);
    ErrorField(f, w, parseDate);
    TriTextRead(t);
  }

  lemma ApplySubmitted(f: Filters, t: Tri, parseDate: string -> Date)
    requires t != Any
    ensures ApplyToken(f, Token("submitted", TriText(t)), parseDate) == f.(submitted := t)
  {
    var w := TriText(t);
    SubmittedKeyRead();
    TriTextPlain(t);
    SubmittedField(f, w, parseDate);
    TriTextRead(t);
  }

  /** Applying at most one token. */
  function ApplyOptional(f: Filters, ts: seq<Token>, parseDate: string -> Date): Filters
    requires |ts| <= 1
  {
    if |ts| == 0 then f else ApplyToken(f, ts[0], parseDate)
  }

  lemma ApplyAllOptional(f: Filters, ts: seq<Token>, parseDate: string -> Date)
    requires |ts| <= 1
    ensures ApplyAll(f, ts, parseDate) == ApplyOptional(f, ts, parseDate)
  {
  }

  /** Applying a filter's own segments to the unfiltered criteria rebuilds the filter. */
  lemma ApplySegments(f: Filters, dateText: Date -> string, parseDate: string -> Date)
    requires !f.startDate.IsValid() && !f.endDate.IsValid()
    requires f.operationSlug == "" || IsWord(f.operationSlug)
    requires f.contentType == "" || IsWord(f.contentType)
    ensures ApplyAll(Unfiltered, Segments(f, dateText), parseDate) == f
  {
    var op, ty, er, su := OperationSegment(f), ContentTypeSegment(f), ErrorSegment(f), SubmittedSegment(f);
    assert DateSegments(f, dateText) == [];
    DropEmpty(op + ty + er, su);
    ApplyAllAppend4(Unfiltered, op, ty, er, su, parseDate);
    var f1 := ApplyAll(Unfiltered, op, parseDate);
    ApplyOperationSegment(Unfiltered, f, parseDate);
    var f2 := ApplyAll(f1, ty, parseDate);
    ApplyContentTypeSegment(f1, f, parseDate);
    var f3 := ApplyAll(f2, er, parseDate);
    ApplyErrorSegment(f2, f, parseDate);
    ApplySubmittedSegment(f3, f, parseDate);
  }

  lemma DropEmpty(a: seq<Token>, b: seq<Token>)
    ensures a + [] + b == a + b
  {
  }

  lemma ApplyAllAppend4(g: Filters, a: seq<Token>, b: seq<Token>, c: seq<Token>, d: seq<Token>, parseDate: string -> Date)
    ensures ApplyAll(g, a + b + c + d, parseDate)
      == ApplyAll(ApplyAll(ApplyAll(ApplyAll(g, a, parseDate), b, parseDate), c, parseDate), d, parseDate)
  {
    ApplyAllAppend(g, a + b + c, d, parseDate);
    ApplyAllAppend(g, a + b, c, parseDate);
    ApplyAllAppend(g, a, b, parseDate);
  }

  lemma ApplyOperationSegment(g: Filters, f: Filters, parseDate: string -> Date)
    requires f.operationSlug == "" || IsWord(f.operationSlug)
    requires g.operationSlug == ""
    ensures ApplyAll(g, OperationSegment(f), parseDate) == g.(operationSlug := f.operationSlug)
  {
    ApplyAllOptional(g, OperationSegment(f), parseDate);
    if f.operationSlug != "" { ApplyOperation(g, f.operationSlug, parseDate); }
  }

  lemma ApplyContentTypeSegment(g: Filters, f: Filters, parseDate: string -> Date)
    requires f.contentType == "" || IsWord(f.contentType)
    requires g.contentType == ""
    ensures ApplyAll(g, ContentTypeSegment(f), parseDate) == g.(contentType := f.contentType)
  {
    ApplyAllOptional(g, ContentTypeSegment(f), parseDate);
    if f.contentType != "" { ApplyContentType(g, f.contentType, parseDate); }
  }

  lemma ApplyErrorSegment(g: Filters, f: Filters, parseDate: string -> Date)
    requires g.hasError == Any
    ensures ApplyAll(g, ErrorSegment(f), parseDate) == g.(hasError := f.hasError)
  {
    ApplyAllOptional(g, ErrorSegment(f), parseDate);
    if f.hasError != Any { ApplyError(g, f.hasError, parseDate); }
  }

  lemma ApplySubmittedSegment(g: Filters, f: Filters, parseDate: string -> Date)
    requires g.submitted == Any
    ensures ApplyAll(g, SubmittedSegment(f), parseDate) == g.(submitted := f.submitted)
  {
    ApplyAllOptional(g, SubmittedSegment(f), parseDate);
    if f.submitted != Any { ApplySubmitted(g, f.submitted, parseDate); }
  }

  /** A rendered non-empty filter is its segment text without the leading blank. */
  lemma ToTextBody(f: Filters, dateText: Date -> string)
    requires WordSegments(Segments(f, dateText)) && |Segments(f, dateText)| > 0
    ensures ToText(f, dateText) == Render(Segments(f, dateText))[1..]
  {
    var segments := Segments(f, dateText);
    var n := |segments|;
    var s := Render(segments);
    var body := s[1..];
    assert IsWord(segments[0].key) && IsWord(segments[n - 1].value);
    RenderShape(segments);
    assert s == " " + body;
    var lastValue := segments[n - 1].value;
    assert body[|body| - 1] == s[|s| - 1] == lastValue[|lastValue| - 1];
    TrimLeadingSpace(body);
  }

  /**
   * Round trip: for a filter without dates whose operation slug and content
   * type are single words (or empty), parsing the rendered text gives the
   * filter back, and the original tokenizer does not fault on that text.
   */
  lemma {:induction false} ParseToText(f: Filters, dateText: Date -> string, parseDate: string -> Date)
    requires !f.startDate.IsValid() && !f.endDate.IsValid()
    requires f.operationSlug == "" || IsWord(f.operationSlug)
    requires f.contentType == "" || IsWord(f.contentType)
    ensures ParseFilterAsWritten(ToText(f, dateText), parseDate) == Some(f)
    ensures ParseFilter(ToText(f, dateText), parseDate) == f
  {
    var text := ToText(f, dateText);
    var segments := Segments(f, dateText);
    ParseFilterAgrees(text, parseDate);
    ApplySegments(f, dateText, parseDate);
    if |segments| == 0 {
      assert text == Trim("") == "";
    } else {
      SegmentsAreWords(f, dateText);
      ParseRendered(segments, parseDate);
      ToTextBody(f, dateText);
    }
  }

  /** The parser reads rendered word segments back as the segments applied in order. */
  lemma ParseRendered(segments: seq<Token>, parseDate: string -> Date)
    requires |segments| > 0 && WordSegments(segments)
    ensures ParseFilterAsWritten(Render(segments)[1..], parseDate) == Some(ApplyAll(Unfiltered, segments, parseDate))
  {
    var text := Render(segments)[1..];
    var n := |segments|;
    var last := segments[n - 1];
    var init := segments[..n - 1];
    var ts := init + [Token(last.key, " " + last.value)];
    TokenizeRendered(segments);
    RenderedBodyNotBlank(segments);
    ParseOfTokens(text, ts, parseDate);
    assert IsWord(last.value);
    DropLast(segments);
    ApplyLastPadded(Unfiltered, init, last, parseDate);
  }

  /** A non-empty sequence is its front followed by its last element. */
  lemma DropLast<T>(s: seq<T>)
    requires |s| > 0
    ensures s[..|s| - 1] + [s[|s| - 1]] == s
  {
  }

  lemma RenderedBodyNotBlank(segments: seq<Token>)
    requires |segments| > 0 && IsWord(segments[0].key)
    ensures Trim(Render(segments)[1..]) != ""
  {
    var text := Render(segments)[1..];
    RenderShape(segments);
    assert text[0] == segments[0].key[0];
    TrimKeepsNonSpace(text, 0);
  }

  /** Non-blank text the tokenizer reads without fault is parsed by applying its tokens in order. */
  lemma ParseOfTokens(text: string, ts: seq<Token>, parseDate: string -> Date)
    requires Trim(text) != "" && TokenizeAsWritten(text) == Some(ts)
    ensures ParseFilterAsWritten(text, parseDate) == Some(ApplyAll(Unfiltered, ts, parseDate))
  {
  }

  lemma ApplyLastPadded(g: Filters, init: seq<Token>, last: Token, parseDate: string -> Date)
    requires IsWord(last.value)
    ensures ApplyAll(g, init + [Token(last.key, " " + last.value)], parseDate) == ApplyAll(g, init + [last], parseDate)
  {
    ApplyAllAppend(g, init, [Token(last.key, " " + last.value)], parseDate);
    ApplyAllAppend(g, init, [last], parseDate);
    ApplyTokenTrimsValue(ApplyAll(g, init, parseDate), last.key, last.value, parseDate);
  }

  /** A lone known key is read as its own value: "op" alone selects the operation named "op". */
  lemma LoneKeyIsItsOwnValue(parseDate: string -> Date)
    ensures ParseFilter("op", parseDate).operationSlug == "op"
  {
    SplitNoSeparator("op", ':');
    NonEmptyOfNonEmpty(["op"]);
    assert Chunks("op") == ["op"];
    TrimNoSpace("op");
    assert Tokenize("op") == [Token("op", "op")];
    assert IsWord("op");
    ApplyOperation(Unfiltered, "op", parseDate);
  }
}

=== FILE: evidence_manager.dfy ===
/**
 * The evidence manager's table helpers: the parent directory of an evidence
 * file, the summary of a bulk delete, the table's columns and the text each
 * column shows for an evidence row. Dates are rendered by the locale and
 * paths by the platform's separator rule; both are parameters here.
 */
module EvidenceManager {
  import opened Wrappers
  import opened Text
  import Models
  import EvidenceFilter
  import DbQueries

  /** parentDir: the text before the last '/'; a path without one is returned whole, as left(-1) does. */
  function ParentDir(path: string): (r: string) {
    Left(path, LastIndexOf(path, '/'))
  }

  /** Taking the parent undoes appending "/" and a file name. */
  lemma ParentDirOf(dir: string, name: string)
    requires '/' !in name
    ensures ParentDir(dir + "/" + name) == dir
  {
    var path := dir + "/" + name;
    assert path[|dir|] == '/';
    assert path[|dir| + 1..] == name;
    assert path[..|dir|] == dir;
  }

  /**
   * A path with a '/' is its parent, the last '/', and a name free of '/';
   * a path without one is its own parent.
   */
  lemma ParentDirMeaning(path: string)
    ensures '/' !in path ==> ParentDir(path) == path
    ensures '/' in path ==>
      var r := ParentDir(path);
      && |r| < |path| && path[..|r|] == r && path[|r|] == '/' && '/' !in path[|r| + 1..]
    ensures ParentDir("path/to/file.txt") == "path/to"
  {
    ParentDirOf("path/to", "file.txt");
    assert "path/to" + "/" + "file.txt" == "path/to/file.txt";
  }

  /** One entry of the editor's answer to a bulk delete. */
  datatype DeleteResponse = DeleteResponse(
    fileDeleteSuccess: bool,
    dbDeleteSuccess: bool,
    errorText: string,
    model: Models.Evidence)

  /** What deleteSet gathers from the answers. */
  datatype DeleteSummary = DeleteSummary(undeletedFiles: seq<string>, removedAllDbRecords: bool, paths: seq<string>)

  /** The paths whose file could not be deleted, in answer order. */
  function Undeleted(rs: seq<DeleteResponse>): seq<string> {
    if rs == [] then []
    else
      var last := rs[|rs| - 1];
      Undeleted(rs[..|rs| - 1]) + (if last.fileDeleteSuccess then [] else [last.model.path])
  }

  predicate AllDbRemoved(rs: seq<DeleteResponse>) {
    forall i :: 0 <= i < |rs| ==> rs[i].dbDeleteSuccess
  }

  /** QStringList's "append unless contains". */
  function AddNew(ps: seq<string>, p: string): seq<string> {
    if p in ps then ps else ps + [p]
  }

  /** The list with later repeats dropped. */
  function Distinct(xs: seq<string>): seq<string> {
    if xs == [] then [] else AddNew(Distinct(xs[..|xs| - 1]), xs[|xs| - 1])
  }

  function ParentDirs(rs: seq<DeleteResponse>): (ds: seq<string>)
    ensures |ds| == |rs|
  {
    seq(|rs|, i requires 0 <= i < |rs| => ParentDir(rs[i].model.path))
  }

  /** deleteSet's loop over the answers. */
  method DeleteSet(responses: seq<DeleteResponse>) returns (s: DeleteSummary)
    ensures s.undeletedFiles == Undeleted(responses)
    ensures s.removedAllDbRecords <==> AllDbRemoved(responses)
    ensures s.paths == Distinct(ParentDirs(responses))
  {
    var undeleted: seq<string> := [];
    var removedAll := true;
    var paths: seq<string> := [];
    var i := 0;
    while i < |responses|
      invariant 0 <= i <= |responses|
      invariant undeleted == Undeleted(responses[..i])
      invariant removedAll <==> AllDbRemoved(responses[..i])
      invariant paths == Distinct(ParentDirs(responses[..i]))
    {
      var response := responses[i];
      assert responses[..i + 1] == responses[..i] + [response];
      UndeletedSnoc(responses[..i], response);
      AllDbRemovedSnoc(responses[..i], response);
      ParentDirsSnoc(responses[..i], response);
      DistinctSnoc(ParentDirs(responses[..i]), ParentDir(response.model.path));
      if !response.fileDeleteSuccess {
        undeleted := undeleted + [response.model.path];
      }
      removedAll := removedAll && response.dbDeleteSuccess;
      var parentPath := ParentDir(response.model.path);
      if parentPath !in paths {
        paths := paths + [parentPath];
      }
      assert paths == AddNew(Distinct(ParentDirs(responses[..i])), parentPath);
      i := i + 1;
    }
    assert responses[..|responses|] == responses;
    s := DeleteSummary(undeleted, removedAll, paths);
  }

  lemma UndeletedSnoc(rs: seq<DeleteResponse>, r: DeleteResponse)
    ensures Undeleted(rs + [r]) == Undeleted(rs) + (if r.fileDeleteSuccess then [] else [r.model.path])
  {
    assert (rs + [r])[..|rs|] == rs;
  }

  lemma AllDbRemovedSnoc(rs: seq<DeleteResponse>, r: DeleteResponse)
    ensures AllDbRemoved(rs + [r]) <==> AllDbRemoved(rs) && r.dbDeleteSuccess
  {
    if AllDbRemoved(rs) && r.dbDeleteSuccess {
      forall i | 0 <= i < |rs| + 1 ensures (rs + [r])[i].dbDeleteSuccess {
        if i < |rs| {
          assert (rs + [r])[i] == rs[i];
        }
      }
    }
    if AllDbRemoved(rs + [r]) {
      assert (rs + [r])[|rs|] == r;
      forall i | 0 <= i < |rs| ensures rs[i].dbDeleteSuccess {
        assert (rs + [r])[i] == rs[i];
      }
    }
  }

  lemma ParentDirsSnoc(rs: seq<DeleteResponse>, r: DeleteResponse)
    ensures ParentDirs(rs + [r]) == ParentDirs(rs) + [ParentDir(r.model.path)]
  {
  }

  lemma DistinctSnoc(xs: seq<string>, x: string)
    ensures Distinct(xs + [x]) == AddNew(Distinct(xs), x)
  {
    assert (xs + [x])[..|xs|] == xs;
  }

  /**
   * The undeleted files are exactly the paths of the answers whose file
   * delete failed, one per such answer; none when every file went.
   */
  lemma {:induction false} UndeletedMeaning(rs: seq<DeleteResponse>)
    ensures |Undeleted(rs)| <= |rs|
    ensures forall i :: 0 <= i < |rs| && !rs[i].fileDeleteSuccess ==> rs[i].model.path in Undeleted(rs)
    ensures forall p :: p in Undeleted(rs) ==> exists i :: 0 <= i < |rs| && !rs[i].fileDeleteSuccess && rs[i].model.path == p
    ensures (forall i :: 0 <= i < |rs| ==> rs[i].fileDeleteSuccess) ==> Undeleted(rs) == []
  {
    if rs != [] {
      var init := rs[..|rs| - 1];
      UndeletedMeaning(init);
      forall p | p in Undeleted(rs)
        ensures exists i :: 0 <= i < |rs| && !rs[i].fileDeleteSuccess && rs[i].model.path == p
      {
        if p in Undeleted(init) {
          var i :| 0 <= i < |init| && !init[i].fileDeleteSuccess && init[i].model.path == p;
          assert rs[i] == init[i];
        } else {
          assert !rs[|rs| - 1].fileDeleteSuccess && rs[|rs| - 1].model.path == p;
        }
      }
      forall i | 0 <= i < |rs| && !rs[i].fileDeleteSuccess
        ensures rs[i].model.path in Undeleted(rs)
      {
        if i < |rs| - 1 {
          assert init[i] == rs[i];
        }
      }
    }
  }

  /** The position of the first occurrence. */
  function FirstIndex(xs: seq<string>, x: string): (k: nat)
    requires x in xs
    ensures k < |xs| && xs[k] == x && x !in xs[..k]
  {
    if xs[0] == x then 0 else 1 + FirstIndex(xs[1..], x)
  }

  lemma {:induction false} FirstIndexAppend(xs: seq<string>, x: string, y: string)
    requires y in xs
    ensures FirstIndex(xs + [x], y) == FirstIndex(xs, y)
  {
    if xs[0] != y {
      assert (xs + [x])[1..] == xs[1..] + [x];
      FirstIndexAppend(xs[1..], x, y);
    }
  }

  /** `d` holds each element of `xs` once, nothing else, in the order of first occurrence. */
  ghost predicate ListsFirstOccurrences(d: seq<string>, xs: seq<string>) {
    && (forall i, j :: 0 <= i < j < |d| ==> d[i] != d[j])
    && (forall x :: x in d <==> x in xs)
    && (forall i, j :: 0 <= i < j < |d| ==> FirstIndex(xs, d[i]) < FirstIndex(xs, d[j]))
  }

  /**
   * The parent-directory list holds every directory once, nothing else, and
   * in the order of each directory's first occurrence.
   */
  lemma {:induction false} DistinctMeaning(xs: seq<string>)
    ensures var d := Distinct(xs);
      && (forall i, j :: 0 <= i < j < |d| ==> d[i] != d[j])
      && (forall x :: x in d <==> x in xs)
      && (forall i, j :: 0 <= i < j < |d| ==> FirstIndex(xs, d[i]) < FirstIndex(xs, d[j]))
  {
    if xs != [] {
      var init := xs[..|xs| - 1];
      var x := xs[|xs| - 1];
      DistinctMeaning(init);
      assert xs == init + [x];
      DistinctSnoc(init, x);
      DistinctStep(Distinct(init), init, x);
    }
  }

  /** Appending one element to the list keeps the listing of first occurrences. */
  lemma DistinctStep(d0: seq<string>, init: seq<string>, x: string)
    requires ListsFirstOccurrences(d0, init)
    ensures ListsFirstOccurrences(AddNew(d0, x), init + [x])
  {
    var xs := init + [x];
    forall y | y in init ensures FirstIndex(xs, y) == FirstIndex(init, y) {
      FirstIndexAppend(init, x, y);
    }
    if x !in d0 {
      var d := d0 + [x];
      assert x !in init;
      forall i, j | 0 <= i < j < |d| ensures FirstIndex(xs, d[i]) < FirstIndex(xs, d[j]) {
        if j == |d| - 1 {
          assert FirstIndex(xs, x) == |init| by {
            assert xs[|init|] == x && x !in xs[..|init|];
          }
          assert d[i] == d0[i] && d0[i] in init;
        } else {
          assert d[i] == d0[i] && d[j] == d0[j];
        }
      }
    }
  }


  /** A bulk delete where every record and file went reports nothing undeleted. */
  lemma DeleteSetAllGood(rs: seq<DeleteResponse>)
    requires forall i :: 0 <= i < |rs| ==> rs[i].fileDeleteSuccess && rs[i].dbDeleteSuccess
    ensures Undeleted(rs) == [] && AllDbRemoved(rs)
  {
    UndeletedMeaning(rs);
  }

  /** The evidence table's columns (the ColumnIndexes enum). */
  datatype Column = DateCaptured | Operation | Path | ContentType | Description
                  | Submitted | DateSubmitted | Failed | ErrorMsg

  function ColumnIndex(c: Column): (n: nat)
    ensures n < 9
  {
    match c
    case DateCaptured => 0
    case Operation => 1
    case Path => 2
    case ContentType => 3
    case Description => 4
    case Submitted => 5
    case DateSubmitted => 6
    case Failed => 7
    case ErrorMsg => 8
  }

  /** The column an index names, if any. */
  function ColumnAt(n: int): Option<Column> {
    if n == 0 then Some(DateCaptured)
    else if n == 1 then Some(Operation)
    else if n == 2 then Some(Path)
    else if n == 3 then Some(ContentType)
    else if n == 4 then Some(Description)
    else if n == 5 then Some(Submitted)
    else if n == 6 then Some(DateSubmitted)
    else if n == 7 then Some(Failed)
    else if n == 8 then Some(ErrorMsg)
    else None
  }

  /** The header labels, in column order. */
  const ColumnNames: seq<string> := [
    "Date Captured", "Operation", "Path", "Content Type", "Description",
    "Submitted", "Date Submitted", "Failed", "Error"]

  /**
   * The enum's indices and the header labels line up one to one: every
   * column has its own index below the number of labels, and each label
   * names its column.
   */
  lemma ColumnsLineUp(c: Column, n: int)
    ensures |ColumnNames| == 9
    ensures ColumnAt(ColumnIndex(c)) == Some(c)
    ensures ColumnAt(n).Some? <==> 0 <= n < |ColumnNames|
    ensures ColumnAt(n).Some? ==> ColumnIndex(ColumnAt(n).value) == n
    ensures ColumnNames[ColumnIndex(DateCaptured)] == "Date Captured" && ColumnNames[ColumnIndex(Operation)] == "Operation"
    ensures ColumnNames[ColumnIndex(Path)] == "Path" && ColumnNames[ColumnIndex(ContentType)] == "Content Type"
    ensures ColumnNames[ColumnIndex(Description)] == "Description" && ColumnNames[ColumnIndex(Submitted)] == "Submitted"
    ensures ColumnNames[ColumnIndex(DateSubmitted)] == "Date Submitted" && ColumnNames[ColumnIndex(Failed)] == "Failed"
    ensures ColumnNames[ColumnIndex(ErrorMsg)] == "Error"
  {
  }

  /** setRowText: the text one column shows for an evidence row. */
  function CellText(m: Models.Evidence, c: Column, renderDate: EvidenceFilter.Date -> string,
                    nativePath: string -> string): string
  {
    match c
    case DateCaptured => renderDate(m.recordedDate)
    case Operation => m.operationSlug
    case Path => nativePath(m.path)
    case ContentType => m.contentType
    case Description => m.description
    case Submitted => if m.uploadDate.IsValid() then "Yes" else "No"
    case DateSubmitted => if m.uploadDate.IsValid() then renderDate(m.uploadDate) else "Never"
    case Failed => if m.errorText == "" then "" else "Yes"
    case ErrorMsg => m.errorText
  }

  /**
   * Submitted says Yes exactly for uploaded evidence and No otherwise;
   * Failed says Yes exactly when there is an error text and is blank
   * otherwise; evidence never uploaded shows "Never" as its upload date; the
   * error column shows the error text itself.
   */
  lemma RowTextRules(m: Models.Evidence, renderDate: EvidenceFilter.Date -> string, nativePath: string -> string)
    ensures CellText(m, Submitted, renderDate, nativePath) in {"Yes", "No"}
    ensures CellText(m, Submitted, renderDate, nativePath) == "Yes" <==> m.uploadDate.IsValid()
    ensures CellText(m, Failed, renderDate, nativePath) in {"Yes", ""}
    ensures CellText(m, Failed, renderDate, nativePath) == "Yes" <==> m.errorText != ""
    ensures !m.uploadDate.IsValid() ==> CellText(m, DateSubmitted, renderDate, nativePath) == "Never"
    ensures CellText(m, ErrorMsg, renderDate, nativePath) == m.errorText
  {
  }

  /**
   * The table and the filter agree on what a row shows: for a yes/no
   * criterion t, the row passes the filter "submitted: t" exactly when its
   * Submitted cell reads t, and passes "err: t" exactly when its Failed cell
   * is "Yes" for t = Yes and blank for t = No. A row also passes the filter
   * read back from its own operation, content type, Submitted and Failed
   * cells.
   */
  lemma RowTextAgreesWithFilter(m: Models.Evidence, t: EvidenceFilter.Tri,
                                renderDate: EvidenceFilter.Date -> string, nativePath: string -> string)
    requires t != EvidenceFilter.Any
    ensures DbQueries.Matches(m, EvidenceFilter.Unfiltered.(submitted := t))
            <==> CellText(m, Submitted, renderDate, nativePath) == EvidenceFilter.TriToString(t)
    ensures DbQueries.Matches(m, EvidenceFilter.Unfiltered.(hasError := t))
            <==> (CellText(m, Failed, renderDate, nativePath) == "Yes" <==> t == EvidenceFilter.Yes)
    ensures var failed := if CellText(m, Failed, renderDate, nativePath) == "Yes" then EvidenceFilter.Yes else EvidenceFilter.No;
      DbQueries.Matches(m, EvidenceFilter.Unfiltered.(
        operationSlug := CellText(m, Operation, renderDate, nativePath),
        contentType := CellText(m, ContentType, renderDate, nativePath),
        hasError := failed,
        submitted := EvidenceFilter.ParseTri(CellText(m, Submitted, renderDate, nativePath))))
  {
  }
}

=== FILE: evidence_manifest.dfy ===
/**
 * The evidence manifest of an export: for every exported evidence row, its
 * id and where its file was copied, written as a JSON array of objects.
 */
module EvidenceManifests {
  import opened Json

  /** One manifest entry: the evidence id (a qint64 in the source) and the export-relative path. */
  datatype EvidenceItem = EvidenceItem(evidenceId: int, exportPath: string)

  /** A default-constructed entry: id 0, empty path. */
  const DefaultItem: EvidenceItem := EvidenceItem(0, "")

  datatype EvidenceManifest = EvidenceManifest(entries: seq<EvidenceItem>)

  const KeyId: string := "evidenceID"
  const KeyPath: string := "path"

  /** EvidenceItem::serialize: the id and the path, nothing else. */
  function SerializeItem(item: EvidenceItem): (o: Obj)
    ensures o.Keys == {KeyId, KeyPath}
  {
    map[KeyId := Number(item.evidenceId as real), KeyPath := Str(item.exportPath)]
  }

  /** EvidenceItem::deserialize: the id through toInt, the path through toString. */
  function DeserializeItem(o: Obj): (item: EvidenceItem)
    ensures InInt32(item.evidenceId)
  {
    EvidenceItem(ToInt(Get(o, KeyId)), ToStr(Get(o, KeyPath)))
  }

  /**
   * An entry survives the trip through JSON exactly when its id fits in 32
   * bits; a wider id reads back as 0, with the path kept.
   */
  lemma ItemRoundTrip(item: EvidenceItem)
    ensures InInt32(item.evidenceId) ==> DeserializeItem(SerializeItem(item)) == item
    ensures !InInt32(item.evidenceId) ==> DeserializeItem(SerializeItem(item)) == EvidenceItem(0, item.exportPath)
  {
    assert KeyId != KeyPath;
  }

  /** EvidenceManifest::serialize: one object per entry, in order. */
  function Serialize(m: EvidenceManifest): (a: seq<Value>)
    ensures |a| == |m.entries|
  {
    seq(|m.entries|, i requires 0 <= i < |m.entries| => Object(SerializeItem(m.entries[i])))
  }

  /**
   * EvidenceManifest::deserialize over the parsed file: a file that does not
   * parse gives no entries; otherwise one entry per element of the root
   * array (non-objects reading as empty objects).
   */
  function Deserialize(doc: Document): (m: EvidenceManifest)
    ensures doc.Malformed? ==> m.entries == []
    ensures |m.entries| == |DocArray(doc)|
  {
    if doc.Malformed? then EvidenceManifest([])
    else
      var items := DocArray(doc);
      EvidenceManifest(seq(|items|, i requires 0 <= i < |items| => DeserializeItem(ToObject(items[i]))))
  }

  predicate IdsFit(m: EvidenceManifest) {
    forall i :: 0 <= i < |m.entries| ==> InInt32(m.entries[i].evidenceId)
  }

  /**
   * Writing a manifest and reading the file back keeps the count, the order
   * and every path, and gives back the manifest itself when every id fits
   * in 32 bits.
   */
  lemma ManifestRoundTrip(m: EvidenceManifest)
    ensures var back := Deserialize(Parsed(Array(Serialize(m))));
      && |back.entries| == |m.entries|
      && (forall i :: 0 <= i < |m.entries| ==> back.entries[i].exportPath == m.entries[i].exportPath)
      && (IdsFit(m) ==> back == m)
  {
    var back := Deserialize(Parsed(Array(Serialize(m))));
    forall i | 0 <= i < |m.entries|
      ensures back.entries[i].exportPath == m.entries[i].exportPath
      ensures InInt32(m.entries[i].evidenceId) ==> back.entries[i] == m.entries[i]
    {
      ItemRoundTrip(m.entries[i]);
    }
  }

  /** A default manifest writes an empty array, and an unreadable file reads as that empty manifest. */
  lemma EmptyManifest(reason: string)
    ensures Serialize(EvidenceManifest([])) == []
    ensures Deserialize(Malformed(reason)) == EvidenceManifest([])
    ensures DeserializeItem(map[]) == DefaultItem
  {
  }
}

=== FILE: file_helpers.dfy ===
/** FileHelpers: random letters, and file names made from a template by replacing a token with them. */
module FileHelpers {
  import opened Text
  import StringHelpers

  /** Draw k of bounded(52): the first 26 give 'A'..'Z', the rest 'a'..'z'. */
  function Letter(k: nat): (c: char)
    requires k < 52
  {
    var base := if k < 26 then 'A' as int else 'a' as int;
    (base + k % 26) as char
  }

  predicate IsAsciiLetter(c: char) {
    IsAsciiUpper(c) || IsAsciiLower(c)
  }

  function LetterIndex(c: char): (k: nat)
    requires IsAsciiLetter(c)
    ensures k < 52 && Letter(k) == c
  {
    if IsAsciiUpper(c) then c as int - 'A' as int else c as int - 'a' as int + 26
  }

  /** randomText: one letter per draw. */
  function RandomText(numChars: nat, draws: seq<nat>): string
    requires |draws| >= numChars && StringHelpers.Draws(draws, 52)
  {
    seq(numChars, i requires 0 <= i < numChars => Letter(draws[i]))
  }

  /** The length asked for, every character an ASCII letter of either case. */
  lemma RandomTextShape(numChars: nat, draws: seq<nat>)
    requires |draws| >= numChars && StringHelpers.Draws(draws, 52)
    ensures var r := RandomText(numChars, draws);
      |r| == numChars && forall i :: 0 <= i < |r| ==> IsAsciiLetter(r[i])
  {
  }

  /** Every string of ASCII letters can come out. */
  lemma RandomTextReachesAll(s: string)
    requires forall i :: 0 <= i < |s| ==> IsAsciiLetter(s[i])
    ensures var draws := seq(|s|, i requires 0 <= i < |s| => LetterIndex(s[i]));
      StringHelpers.Draws(draws, 52) && RandomText(|s|, draws) == s
  {
  }

  /**
   * randomFilename: the first occurrence of the token replaced by as many
   * random letters; a template without the token comes back unchanged. The
   * token's default argument ("XXXXXX") is not modelled: the token is always
   * passed.
   */
  function RandomFilename(templateStr: string, replaceToken: string, draws: seq<nat>): string
    requires |draws| >= |replaceToken| && StringHelpers.Draws(draws, 52)
  {
    var templateIndex := IndexOf(templateStr, replaceToken);
    if templateIndex == -1 then templateStr
    else
      var replacement := RandomText(|replaceToken|, draws);
      templateStr[..templateIndex] + replacement + templateStr[templateIndex + |replaceToken|..]
  }

  /**
   * The name keeps the template's length; where the token occurs, the text
   * before its first occurrence and after it is kept and only letters take
   * its place; where it does not, the template is returned as is.
   */
  lemma RandomFilenameShape(templateStr: string, replaceToken: string, draws: seq<nat>)
    requires |draws| >= |replaceToken| && StringHelpers.Draws(draws, 52)
    ensures var r := RandomFilename(templateStr, replaceToken, draws);
      var k := IndexOf(templateStr, replaceToken);
      && |r| == |templateStr|
      && (k == -1 ==> r == templateStr)
      && (k != -1 ==>
            && r[..k] == templateStr[..k]
            && r[k + |replaceToken|..] == templateStr[k + |replaceToken|..]
            && (forall i :: k <= i < k + |replaceToken| ==> IsAsciiLetter(r[i]))
            && (forall j :: 0 <= j < k ==> !OccursAt(templateStr, replaceToken, j)))
  {
    var r := RandomFilename(templateStr, replaceToken, draws);
    var k := IndexOf(templateStr, replaceToken);
    if k != -1 {
      var replacement := RandomText(|replaceToken|, draws);
      RandomTextShape(|replaceToken|, draws);
      assert r == templateStr[..k] + replacement + templateStr[k + |replaceToken|..];
      assert r[..k] == templateStr[..k];
      assert r[k + |replaceToken|..] == templateStr[k + |replaceToken|..];
      forall i | k <= i < k + |replaceToken|
        ensures IsAsciiLetter(r[i])
      {
        assert r[i] == replacement[i - k];
      }
    }
  }
}

=== FILE: flat_app_config.dfy ===
/**
 * The newer AppConfig: a flat, whitelisted key–value store (a JSON-backed
 * QSettings) plus a second settings store for the current operation. The
 * key names are declared in a header that is not part of this model, so
 * they are parameters here.
 */
module FlatAppConfig {
  import opened Wrappers

  /** A settings file: text values by key. */
  type Store = map<string, string>

  /** The key names the store uses. */
  datatype Names = Names(
    valid: set<string>,       // the keys a config file may hold
    settable: set<string>,    // the keys setValue accepts
    evidenceRepo: string,
    screenshotCommand: string,
    captureWindowCommand: string,
    accessKey: string,
    secretKey: string,
    apiUrl: string,
    opName: string,           // the operation-name setting
    opSlug: string)           // the operation-slug setting

  /** AppConfig::value: the stored text, or "" when the key is absent. */
  function Value(store: Store, key: string): (r: string)
    ensures key !in store ==> r == ""
  {
    if key in store then store[key] else ""
  }

  /**
   * AppConfig::validateConfig: drop every key outside the valid set, then
   * give the evidence folder a default under the generic data location
   * (`dataDir`) when it has none, and on macOS the two capture commands.
   */
  function ValidateConfig(store: Store, names: Names, dataDir: string, onMac: bool): Store {
    var kept := map k | k in store && k in names.valid :: store[k];
    var withRepo := if names.evidenceRepo in kept then kept else kept[names.evidenceRepo := dataDir + "/ashirt/evidence"];
    if !onMac then withRepo
    else
      var withShot := if names.screenshotCommand in withRepo then withRepo
                      else withRepo[names.screenshotCommand := "screencapture -s %file"];
      if names.captureWindowCommand in withShot then withShot
      else withShot[names.captureWindowCommand := "screencapture -w %file"]
  }

  /**
   * Every invalid key is gone, valid keys keep their values, and the
   * evidence folder is always present afterwards (the default only when it
   * was missing). Off macOS nothing else is added.
   */
  lemma ValidateConfigMeaning(store: Store, names: Names, dataDir: string, onMac: bool, k: string)
    ensures var r := ValidateConfig(store, names, dataDir, onMac);
      && names.evidenceRepo in r
      && (names.evidenceRepo in store && names.evidenceRepo in names.valid ==> r[names.evidenceRepo] == store[names.evidenceRepo])
      && (!(names.evidenceRepo in store && names.evidenceRepo in names.valid) ==> r[names.evidenceRepo] == dataDir + "/ashirt/evidence")
      && (k in store && k in names.valid ==> k in r && r[k] == store[k])
      && (k in r ==> k in names.valid || k == names.evidenceRepo
                     || (onMac && (k == names.screenshotCommand || k == names.captureWindowCommand)))
      && (!onMac ==> r.Keys == (store.Keys * names.valid) + {names.evidenceRepo})
  {
  }

  /**
   * AppConfig::setValue: ignored for a key outside the settable list and
   * when the value is unchanged; an empty value removes the key.
   */
  function SetValue(store: Store, names: Names, key: string, value: string): Store {
    if key !in names.settable then store
    else if Value(store, key) == value then store
    else if value == "" then store - {key}
    else store[key := value]
  }

  /**
   * A settable key reads back the value just set and no other key changes;
   * an unknown key changes nothing; a non-empty value is stored, an empty
   * one leaves the key absent or empty.
   */
  lemma SetValueMeaning(store: Store, names: Names, key: string, value: string, other: string)
    ensures key !in names.settable ==> SetValue(store, names, key, value) == store
    ensures key in names.settable ==> Value(SetValue(store, names, key, value), key) == value
    ensures other != key ==> Value(SetValue(store, names, key, value), other) == Value(store, other)
    ensures other != key && other in store ==> other in SetValue(store, names, key, value)
    ensures SetValue(SetValue(store, names, key, value), names, key, value) == SetValue(store, names, key, value)
  {
  }

  /**
   * AppConfig::exportConfig: refused for an empty file name; otherwise every
   * key is copied into the file, whose other keys (`existing`) stay.
   */
  function ExportConfig(store: Store, fileName: string, existing: Store): (r: Option<Store>) {
    if fileName == "" then None else Some(existing + store)
  }

  lemma ExportConfigMeaning(store: Store, fileName: string, existing: Store, k: string)
    ensures ExportConfig(store, fileName, existing).None? <==> fileName == ""
    ensures fileName != "" ==>
      var file := ExportConfig(store, fileName, existing).value;
      && (k in store ==> k in file && file[k] == store[k])
      && (k !in store ==> Value(file, k) == Value(existing, k))
  {
  }

  /**
   * The test guarding the import of one key, as written: a key cannot equal
   * all three names at once, so the test holds for every key once two of
   * the names differ.
   */
  predicate ImportGuard(key: string, names: Names) {
    key != names.accessKey || key != names.secretKey || key != names.apiUrl
  }

  lemma ImportGuardAlwaysTrue(key: string, names: Names)
    requires names.accessKey != names.secretKey
    ensures ImportGuard(key, names)
  {
  }

  /**
   * AppConfig::importConfig over the keys of the imported file (in the
   * order QSettings lists them) and their values: a guarded key is set to
   * "" (removed), otherwise to its imported value.
   */
  function ImportKeys(store: Store, names: Names, keys: seq<string>, imported: Store): Store
    decreases |keys|
  {
    if keys == [] then store
    else
      var k := keys[0];
      var next := if ImportGuard(k, names) then SetValue(store, names, k, "")
                  else SetValue(store, names, k, Value(imported, k));
      ImportKeys(next, names, keys[1..], imported)
  }

  function ImportConfig(store: Store, names: Names, fileName: string, keys: seq<string>, imported: Store): Store {
    if fileName == "" then store else ImportKeys(store, names, keys, imported)
  }

  /**
   * Because the guard always holds, importing erases: every settable key
   * the file lists reads "" afterwards, and every other key keeps its
   * value. An empty file name imports nothing.
   */
  lemma {:induction false} ImportKeysMeaning(store: Store, names: Names, keys: seq<string>, imported: Store, j: string)
    requires names.accessKey != names.secretKey
    ensures Value(ImportKeys(store, names, keys, imported), j)
      == if j in keys && j in names.settable then "" else Value(store, j)
    decreases |keys|
  {
    if keys != [] {
      var k := keys[0];
      ImportGuardAlwaysTrue(k, names);
      var next := SetValue(store, names, k, "");
      SetValueMeaning(store, names, k, "", j);
      ImportKeysMeaning(next, names, keys[1..], imported, j);
      assert j in keys <==> j == k || j in keys[1..];
    }
  }

  lemma ImportConfigMeaning(store: Store, names: Names, fileName: string, keys: seq<string>, imported: Store, j: string)
    requires names.accessKey != names.secretKey
    ensures fileName == "" ==> ImportConfig(store, names, fileName, keys, imported) == store
    ensures fileName != "" ==>
      (Value(ImportConfig(store, names, fileName, keys, imported), j)
         == if j in keys && j in names.settable then "" else Value(store, j))
  {
    if fileName != "" {
      ImportKeysMeaning(store, names, keys, imported, j);
    }
  }

  /** The operation store: operationName and operationSlug read it, "" when unset. */
  function OperationName(settings: Store, names: Names): string { Value(settings, names.opName) }
  function OperationSlug(settings: Store, names: Names): string { Value(settings, names.opSlug) }

  function SetOperationDetails(settings: Store, names: Names, slug: string, name: string): Store {
    settings[names.opName := name][names.opSlug := slug]
  }

  /** After setting the details both read back, and other settings are untouched. */
  lemma OperationDetailsRoundTrip(settings: Store, names: Names, slug: string, name: string, other: string)
    requires names.opName != names.opSlug
    ensures OperationSlug(SetOperationDetails(settings, names, slug, name), names) == slug
    ensures OperationName(SetOperationDetails(settings, names, slug, name), names) == name
    ensures other != names.opName && other != names.opSlug ==>
      Value(SetOperationDetails(settings, names, slug, name), other) == Value(settings, other)
  {
  }
}

=== FILE: hotkeymap.dfy ===
/**
 * HotkeyMap: translating Qt key codes into the native codes each desktop's
 * hotkey registration takes. The native constants (Windows virtual keys,
 * X keysyms and XCB masks, Carbon key codes and modifier bits) are
 * symbolic: only which one comes out matters, never its number.
 */
module HotkeyMap {
  import opened Wrappers
  import opened KeySequence

  // Qt::Key codes of the keys the tables name.
  const KeyEscape: Key := 0x0100_0000
  const KeyTab: Key := 0x0100_0001
  const KeyBacktab: Key := 0x0100_0002
  const KeyBackspace: Key := 0x0100_0003
  const KeyReturn: Key := 0x0100_0004
  const KeyEnter: Key := 0x0100_0005
  const KeyInsert: Key := 0x0100_0006
  const KeyDelete: Key := 0x0100_0007
  const KeyPause: Key := 0x0100_0008
  const KeyPrint: Key := 0x0100_0009
  const KeySysReq: Key := 0x0100_000A
  const KeyClear: Key := 0x0100_000B
  const KeyHome: Key := 0x0100_0010
  const KeyEnd: Key := 0x0100_0011
  const KeyLeft: Key := 0x0100_0012
  const KeyUp: Key := 0x0100_0013
  const KeyRight: Key := 0x0100_0014
  const KeyDown: Key := 0x0100_0015
  const KeyPageUp: Key := 0x0100_0016
  const KeyPageDown: Key := 0x0100_0017
  /** Key_F1 .. Key_F35 are consecutive from here. */
  const KeyF1: Key := 0x0100_0030
  const KeyF14: Key := 0x0100_003D
  const KeyF24: Key := 0x0100_0047
  const KeyF35: Key := 0x0100_0052
  const KeySpace: Key := 0x20
  const KeyAsterisk: Key := 0x2A
  const KeyPlus: Key := 0x2B
  const KeyComma: Key := 0x2C
  const KeyMinus: Key := 0x2D
  const KeySlash: Key := 0x2F
  const Key0: Key := 0x30
  const Key9: Key := 0x39
  const KeyA: Key := 0x41
  const KeyZ: Key := 0x5A
  const KeyQuoteLeft: Key := 0x60
  const KeyVolumeDown: Key := 0x0100_0070
  const KeyVolumeMute: Key := 0x0100_0071
  const KeyVolumeUp: Key := 0x0100_0072
  const KeyMediaPlay: Key := 0x0100_0080
  const KeyMediaStop: Key := 0x0100_0081
  const KeyMediaPrevious: Key := 0x0100_0082
  const KeyMediaNext: Key := 0x0100_0083

  // ---------------------------------------------------------------- Windows

  /** Windows virtual-key codes; VkF(n) is VK_Fn, and VK_F1 .. VK_F24 are consecutive. */
  datatype Vk =
    | VkEscape | VkTab | VkBack | VkReturn | VkInsert | VkDelete | VkPause
    | VkSnapshot | VkClear | VkHome | VkEnd | VkLeft | VkUp | VkRight | VkDown
    | VkPrior | VkNext | VkF(n: nat) | VkSpace | VkMultiply | VkAdd | VkSeparator
    | VkSubtract | VkDivide | VkMediaNextTrack | VkMediaPrevTrack | VkMediaPlayPause
    | VkMediaStop | VkVolumeDown | VkVolumeUp | VkVolumeMute

  /** What QtKeyToWin returns: a virtual key, or the Qt code itself. */
  datatype WinCode = Native(vk: Vk) | Unchanged(key: Key)

  /** The switch statement; the twenty-four F-key cases are written as one range. */
  function WinSwitch(key: Key): Option<Vk> {
    if key == KeyEscape then Some(VkEscape)
    else if key == KeyTab || key == KeyBacktab then Some(VkTab)
    else if key == KeyBackspace then Some(VkBack)
    else if key == KeyReturn || key == KeyEnter then Some(VkReturn)
    else if key == KeyInsert then Some(VkInsert)
    else if key == KeyDelete then Some(VkDelete)
    else if key == KeyPause then Some(VkPause)
    else if key == KeyPrint then Some(VkSnapshot)
    else if key == KeyClear then Some(VkClear)
    else if key == KeyHome then Some(VkHome)
    else if key == KeyEnd then Some(VkEnd)
    else if key == KeyLeft then Some(VkLeft)
    else if key == KeyUp then Some(VkUp)
    else if key == KeyRight then Some(VkRight)
    else if key == KeyDown then Some(VkDown)
    else if key == KeyPageUp then Some(VkPrior)
    else if key == KeyPageDown then Some(VkNext)
    else if KeyF1 <= key <= KeyF24 then Some(VkF(key - KeyF1 + 1))
    else if key == KeySpace then Some(VkSpace)
    else if key == KeyAsterisk then Some(VkMultiply)
    else if key == KeyPlus then Some(VkAdd)
    else if key == KeyComma then Some(VkSeparator)
    else if key == KeyMinus then Some(VkSubtract)
    else if key == KeySlash then Some(VkDivide)
    else if key == KeyMediaNext then Some(VkMediaNextTrack)
    else if key == KeyMediaPrevious then Some(VkMediaPrevTrack)
    else if key == KeyMediaPlay then Some(VkMediaPlayPause)
    else if key == KeyMediaStop then Some(VkMediaStop)
    else if key == KeyVolumeDown then Some(VkVolumeDown)
    else if key == KeyVolumeUp then Some(VkVolumeUp)
    else if key == KeyVolumeMute then Some(VkVolumeMute)
    else None
  }

  /** QtKeyToWin: the switch, then the F-key range as VK_F1 plus the offset, then the key itself. */
  function QtKeyToWin(key: Key): WinCode {
    match WinSwitch(key)
    case Some(v) => Native(v)
    case None =>
      if 0x0100_0030 <= key <= 0x0100_0047 then Native(VkF(key - KeyF1 + 1))
      else Unchanged(key)
  }

  /** The virtual keys the switch can produce. */
  predicate WinTarget(v: Vk) {
    v.VkF? ==> 1 <= v.n <= 24
  }

  /** The first Qt key the switch lists for each virtual key. */
  function WinSource(v: Vk): Key
    requires WinTarget(v)
  {
    match v
    case VkEscape => KeyEscape
    case VkTab => KeyTab
    case VkBack => KeyBackspace
    case VkReturn => KeyReturn
    case VkInsert => KeyInsert
    case VkDelete => KeyDelete
    case VkPause => KeyPause
    case VkSnapshot => KeyPrint
    case VkClear => KeyClear
    case VkHome => KeyHome
    case VkEnd => KeyEnd
    case VkLeft => KeyLeft
    case VkUp => KeyUp
    case VkRight => KeyRight
    case VkDown => KeyDown
    case VkPrior => KeyPageUp
    case VkNext => KeyPageDown
    case VkF(n) => KeyF1 + n - 1
    case VkSpace => KeySpace
    case VkMultiply => KeyAsterisk
    case VkAdd => KeyPlus
    case VkSeparator => KeyComma
    case VkSubtract => KeyMinus
    case VkDivide => KeySlash
    case VkMediaNextTrack => KeyMediaNext
    case VkMediaPrevTrack => KeyMediaPrevious
    case VkMediaPlayPause => KeyMediaPlay
    case VkMediaStop => KeyMediaStop
    case VkVolumeDown => KeyVolumeDown
    case VkVolumeUp => KeyVolumeUp
    case VkVolumeMute => KeyVolumeMute
  }

  /** Every virtual key the switch names is reached from its first Qt key. */
  lemma WinSourceMaps(v: Vk)
    requires WinTarget(v)
    ensures WinSwitch(WinSource(v)) == Some(v)
  {
  }

  /**
   * The switch is one-to-one except for two pairs: Backtab shares VK_TAB
   * with Tab and Enter shares VK_RETURN with Return.
   */
  lemma WinSwitchInverse(key: Key)
    requires WinSwitch(key).Some?
    ensures var v := WinSwitch(key).value;
      WinTarget(v)
      && (key == WinSource(v) || (key == KeyBacktab && v == VkTab) || (key == KeyEnter && v == VkReturn))
  {
  }

  lemma WinAliases()
    ensures QtKeyToWin(KeyTab) == QtKeyToWin(KeyBacktab) == Native(VkTab)
    ensures QtKeyToWin(KeyReturn) == QtKeyToWin(KeyEnter) == Native(VkReturn)
  {
  }

  /**
   * The range test after the switch never decides anything: every key in
   * 0x01000030..0x01000047 is F1..F24, which the switch already maps to
   * the same virtual key.
   */
  lemma WinRangeBranchDead(key: Key)
    requires 0x0100_0030 <= key <= 0x0100_0047
    ensures WinSwitch(key) == Some(VkF(key - KeyF1 + 1))
  {
  }

  /** A key the switch does not list comes back unchanged. */
  lemma WinUnlisted(key: Key)
    ensures WinSwitch(key).None? <==> QtKeyToWin(key) == Unchanged(key)
  {
  }

  // ---------------------------------------------------------------- Linux (X11)

  /** The X keysyms the Linux table names. */
  datatype Xk =
    | XkEscape | XkTab | XkBackSpace | XkReturn | XkInsert | XkDelete | XkPause
    | XkPrint | XkSysReq | XkClear | XkHome | XkEnd | XkLeft | XkUp | XkRight
    | XkDown | XkPageUp | XkPageDown

  /** A keysym: a named one, XK_Fn (consecutive from XK_F1), or a number passed through. */
  datatype Keysym = Named(x: Xk) | XkF(n: nat) | Code(value: int)

  datatype XcbMod = ModShift | ModControl | Mod1 | Mod4

  datatype LinuxKeyData = LinuxKeyData(key: Keysym, mods: set<XcbMod>)

  /** KEY_MAP: Return and Enter both give XK_Return. */
  function LinuxTable(key: Key): Option<Xk> {
    if key == KeyEscape then Some(XkEscape)
    else if key == KeyTab then Some(XkTab)
    else if key == KeyBackspace then Some(XkBackSpace)
    else if key == KeyReturn || key == KeyEnter then Some(XkReturn)
    else if key == KeyInsert then Some(XkInsert)
    else if key == KeyDelete then Some(XkDelete)
    else if key == KeyPause then Some(XkPause)
    else if key == KeyPrint then Some(XkPrint)
    else if key == KeySysReq then Some(XkSysReq)
    else if key == KeyClear then Some(XkClear)
    else if key == KeyHome then Some(XkHome)
    else if key == KeyEnd then Some(XkEnd)
    else if key == KeyLeft then Some(XkLeft)
    else if key == KeyUp then Some(XkUp)
    else if key == KeyRight then Some(XkRight)
    else if key == KeyDown then Some(XkDown)
    else if key == KeyPageUp then Some(XkPageUp)
    else if key == KeyPageDown then Some(XkPageDown)
    else None
  }

  /** The mask bits for a list of modifier keys, OR-ed together. */
  function LinuxMask(mods: seq<Key>): set<XcbMod> {
    if |mods| == 0 then {}
    else
      var bit :=
        if mods[0] == KeyShift then {ModShift}
        else if mods[0] == KeyControl then {ModControl}
        else if mods[0] == KeyAlt then {Mod1}
        else if mods[0] == KeyMeta then {Mod4}
        else {};
      bit + LinuxMask(mods[1..])
  }

  /**
   * QtKeyToLinux: the first simple key, looked up in the table, else moved
   * from Qt's F-key range to X's, else passed through from the printable
   * range; any other key returns at once, carrying the raw Qt code and no
   * modifiers. Without a simple key the result is {0, 0}.
   */
  function QtKeyToLinux(keys: seq<Key>): LinuxKeyData {
    var simple := SimpleKeys(keys);
    if |simple| == 0 then LinuxKeyData(Code(0), {})
    else LinuxConvert(simple[0], Modifiers(keys))
  }

  /** The conversion of one simple key with the sequence's modifiers. */
  function LinuxConvert(k: Key, mods: seq<Key>): LinuxKeyData {
    match LinuxTable(k)
    case Some(x) => LinuxKeyData(Named(x), LinuxMask(mods))
    case None =>
      if KeyF1 <= k <= KeyF35 then LinuxKeyData(XkF(k - KeyF1 + 1), LinuxMask(mods))
      else if KeySpace <= k <= KeyQuoteLeft then LinuxKeyData(Code(k), LinuxMask(mods))
      else LinuxKeyData(Code(k), {})
  }

  /** A key the conversion knows: in the table, an F key, or in Space..QuoteLeft. */
  predicate LinuxConvertible(k: Key) {
    LinuxTable(k).Some? || KeyF1 <= k <= KeyF35 || KeySpace <= k <= KeyQuoteLeft
  }

  /** Each mask bit is present exactly when its modifier key is in the list. */
  lemma {:induction false} LinuxMaskMeaning(mods: seq<Key>)
    ensures ModShift in LinuxMask(mods) <==> KeyShift in mods
    ensures ModControl in LinuxMask(mods) <==> KeyControl in mods
    ensures Mod1 in LinuxMask(mods) <==> KeyAlt in mods
    ensures Mod4 in LinuxMask(mods) <==> KeyMeta in mods
  {
    if |mods| > 0 {
      LinuxMaskMeaning(mods[1..]);
      assert mods == [mods[0]] + mods[1..];
    }
  }

  /**
   * The result: no simple key gives {0, 0}; otherwise the first simple key
   * decides the keysym, and the modifiers present are in the mask exactly
   * when that key is convertible.
   */
  lemma LinuxMeaning(keys: seq<Key>)
    ensures var d := QtKeyToLinux(keys); var simple := SimpleKeys(keys);
      && (|simple| == 0 ==> d == LinuxKeyData(Code(0), {}))
      && (|simple| > 0 && LinuxConvertible(simple[0]) ==>
            && (ModShift in d.mods <==> KeyShift in keys)
            && (ModControl in d.mods <==> KeyControl in keys)
            && (Mod1 in d.mods <==> KeyAlt in keys)
            && (Mod4 in d.mods <==> KeyMeta in keys))
      && (|simple| > 0 && !LinuxConvertible(simple[0]) ==> d == LinuxKeyData(Code(simple[0]), {}))
  {
    var simple := SimpleKeys(keys);
    if |simple| > 0 {
      LinuxMaskMeaning(Modifiers(keys));
    }
  }

  /** Only the first simple key counts: the others can be dropped without changing the result. */
  lemma LinuxFirstKeyOnly(keys: seq<Key>)
    requires |SimpleKeys(keys)| > 0
    ensures QtKeyToLinux(keys) == QtKeyToLinux(Modifiers(keys) + [SimpleKeys(keys)[0]])
  {
    var ms := Modifiers(keys);
    var s := [SimpleKeys(keys)[0]];
    ModifiersAppend(ms, s);
    SimpleAppend(ms, s);
    OnlyModifiers(ms);
    NoModifiers(s);
    assert SimpleKeys(ms + s) == s && Modifiers(ms + s) == ms;
  }

  /** Qt's F1..F35 land on X's F1..F35, in order. */
  lemma LinuxFunctionKeys(n: nat)
    requires 1 <= n <= 35
    ensures QtKeyToLinux([KeyF1 + n - 1]).key == XkF(n)
  {
    assert SimpleKeys([KeyF1 + n - 1]) == [KeyF1 + n - 1];
  }

  // ---------------------------------------------------------------- macOS (Carbon)

  /** Carbon virtual key codes: kVK_ANSI_<letter>, kVK_ANSI_<digit>, kVK_F<n>. */
  datatype MacVk = AnsiLetter(c: char) | AnsiDigit(d: nat) | MacF(n: nat)

  datatype MacMod = ShiftKey | OptionKey | ControlKey | CmdKey

  /**
   * The key and the modifier bits summed. A refused hotkey is {0, 0}, shown
   * here as no key and no modifiers.
   */
  datatype MacKeyData = MacKeyData(key: Option<MacVk>, mods: multiset<MacMod>)

  /** KEY_MAP: letters, digits, F1..F14, and Print, which also gives kVK_F14. */
  function MacTable(key: Key): Option<MacVk> {
    if KeyA <= key <= KeyZ then Some(AnsiLetter(key as char))
    else if Key0 <= key <= Key9 then Some(AnsiDigit(key - Key0))
    else if KeyF1 <= key <= KeyF14 then Some(MacF(key - KeyF1 + 1))
    else if key == KeyPrint then Some(MacF(14))
    else None
  }

  /** MOD_MAP on the keys getModifiers can return. */
  function MacModOf(key: Key): Option<MacMod> {
    if key == KeyShift then Some(ShiftKey)
    else if key == KeyAlt then Some(OptionKey)
    else if key == KeyControl then Some(ControlKey)
    else if key == KeyMeta then Some(CmdKey)
    else None
  }

  /** The modifier loop: add each one's bits, stopping at the first one the map lacks. */
  function MacSum(mods: seq<Key>, acc: multiset<MacMod>): multiset<MacMod>
    decreases |mods|
  {
    if |mods| == 0 then acc
    else match MacModOf(mods[0])
      case None => acc
      case Some(m) => MacSum(mods[1..], acc + multiset{m})
  }

  /** QtKeyToMac: exactly one simple key, found in the table, else {0, 0}. */
  function QtKeyToMac(keys: seq<Key>): MacKeyData {
    var simple := SimpleKeys(keys);
    if |simple| == 1 && MacTable(simple[0]).Some? then
      MacKeyData(MacTable(simple[0]), MacSum(Modifiers(keys), multiset{}))
    else MacKeyData(None, multiset{})
  }

  /** The Qt key each Carbon modifier comes from. */
  function MacModKey(m: MacMod): Key {
    match m
    case ShiftKey => KeyShift
    case OptionKey => KeyAlt
    case ControlKey => KeyControl
    case CmdKey => KeyMeta
  }

  /** Over modifier keys the loop never stops early: each key adds its own modifier once. */
  lemma {:induction false} MacSumOfModifiers(mods: seq<Key>, acc: multiset<MacMod>)
    requires forall i :: 0 <= i < |mods| ==> IsModifier(mods[i])
    ensures forall m :: MacSum(mods, acc)[m] == acc[m] + multiset(mods)[MacModKey(m)]
    decreases |mods|
  {
    if |mods| > 0 {
      var m0 := MacModOf(mods[0]).value;
      MacSumOfModifiers(mods[1..], acc + multiset{m0});
      assert mods == [mods[0]] + mods[1..];
      forall m
        ensures multiset{m0}[m] == multiset([mods[0]])[MacModKey(m)]
      {
      }
    }
  }

  /** A duplicate-free list holds each key at most once. */
  lemma OnceEach(keys: seq<Key>, k: Key)
    requires WellFormed(keys)
    ensures multiset(keys)[k] == (if k in keys then 1 else 0)
    decreases |keys|
  {
    if |keys| > 0 {
      OnceEach(keys[1..], k);
      assert keys == [keys[0]] + keys[1..];
      assert keys[0] !in keys[1..];
    }
  }

  /**
   * For a duplicate-free key list with one mapped simple key, each Carbon
   * modifier is counted exactly once when its Qt key is present and not at
   * all otherwise, so the sum of the bits is their union and the early
   * return for an unknown modifier is never taken.
   */
  lemma MacModsMeaning(keys: seq<Key>)
    requires WellFormed(keys)
    requires |SimpleKeys(keys)| == 1 && MacTable(SimpleKeys(keys)[0]).Some?
    ensures forall m :: QtKeyToMac(keys).mods[m] == (if MacModKey(m) in keys then 1 else 0)
  {
    var ms := Modifiers(keys);
    FiltersWellFormed(keys);
    MacSumOfModifiers(ms, multiset{});
    forall m
      ensures multiset(ms)[MacModKey(m)] == (if MacModKey(m) in keys then 1 else 0)
    {
      OnceEach(ms, MacModKey(m));
    }
  }

  /** No simple key, two simple keys, or an unmapped one: the hotkey is refused. */
  lemma MacRefuses(keys: seq<Key>)
    ensures QtKeyToMac(keys).key.None? <==>
      |SimpleKeys(keys)| != 1 || MacTable(SimpleKeys(keys)[0]).None?
    ensures QtKeyToMac(keys).key.None? ==> QtKeyToMac(keys).mods == multiset{}
  {
  }

  /** Print and F14 give the same Carbon key. */
  lemma MacPrintIsF14()
    ensures MacTable(KeyPrint) == MacTable(KeyF14) == Some(MacF(14))
  {
  }
}

=== FILE: json.dfy ===
/**
 * The slice of Qt's JSON classes the configuration, server and manifest code
 * use: a value tree, the lenient accessors (`toInt`, `toString`, `toBool`,
 * `toObject`, `toArray`) that fall back to a default on a type mismatch, and
 * the outcome of parsing a document. The text syntax of JSON is not modelled.
 */
module Json {

  /**
   * A QJsonValue; a number is a double, modelled as an exact real, and
   * `Undefined` is what a missing key reads as.
   */
  datatype Value =
    | Undefined
    | Null
    | Bool(b: bool)
    | Number(n: real)
    | Str(s: string)
    | Array(items: seq<Value>)
    | Object(fields: map<string, Value>)

  type Obj = map<string, Value>

  /** The outcome of QJsonDocument::fromJson: a parse error or a document root. */
  datatype Document = Malformed(reason: string) | Parsed(root: Value)

  const Int32Min: int := -0x8000_0000
  const Int32Max: int := 0x7fff_ffff

  predicate InInt32(n: int) { Int32Min <= n <= Int32Max }

  /** A number with no fractional part. */
  predicate IsWhole(x: real) { x.Floor as real == x }

  /**
   * QJsonValue::toInt: the number when it is whole and fits an int, 0
   * otherwise (3.5, 2^31 and a string all read as 0).
   */
  function ToInt(v: Value): (r: int)
    ensures InInt32(r)
    ensures v.Number? && IsWhole(v.n) && InInt32(v.n.Floor) ==> r as real == v.n
    ensures !(v.Number? && IsWhole(v.n) && InInt32(v.n.Floor)) ==> r == 0
  {
    if v.Number? && IsWhole(v.n) && InInt32(v.n.Floor) then v.n.Floor else 0
  }

  /** An int written as a JSON number reads back through toInt. */
  lemma ToIntOfInt(n: int)
    requires InInt32(n)
    ensures ToInt(Number(n as real)) == n
  {
  }

  /** A fraction or a whole number outside the int range reads as 0. */
  lemma ToIntRefuses()
    ensures ToInt(Number(3.5)) == 0
    ensures ToInt(Number(0x8000_0000 as real)) == 0
    ensures ToInt(Number(-2.0)) == -2
  {
    assert !IsWhole(3.5) by {
      assert 3.5.Floor == 3;
    }
  }

  /** QJsonValue::toString: the text of a string value, "" for anything else. */
  function ToStr(v: Value): (r: string)
    ensures v.Str? ==> r == v.s
    ensures !v.Str? ==> r == ""
  {
    if v.Str? then v.s else ""
  }

  /** QJsonValue::toBool: the boolean of a bool value, false for anything else. */
  function ToBool(v: Value): (r: bool)
    ensures r <==> v == Bool(true)
  {
    v.Bool? && v.b
  }

  /** QJsonValue::toObject: the members of an object, empty for anything else. */
  function ToObject(v: Value): (r: Obj)
    ensures v.Object? ==> r == v.fields
    ensures !v.Object? ==> r == map[]
  {
    if v.Object? then v.fields else map[]
  }

  /** QJsonValue::toArray: the elements of an array, empty for anything else. */
  function ToArray(v: Value): (r: seq<Value>)
    ensures v.Array? ==> r == v.items
    ensures !v.Array? ==> r == []
  {
    if v.Array? then v.items else []
  }

  /** QJsonObject::value: the member under `key`, Undefined when absent. */
  function Get(o: Obj, key: string): (r: Value)
    ensures key in o ==> r == o[key]
    ensures key !in o ==> r == Undefined
  {
    if key in o then o[key] else Undefined
  }

  /** QJsonDocument::object: the root object, empty when the root is not one or parsing failed. */
  function DocObject(d: Document): (r: Obj)
    ensures d.Parsed? && d.root.Object? ==> r == d.root.fields
    ensures !(d.Parsed? && d.root.Object?) ==> r == map[]
  {
    if d.Parsed? then ToObject(d.root) else map[]
  }

  /** QJsonDocument::array: the root array, empty when the root is not one or parsing failed. */
  function DocArray(d: Document): (r: seq<Value>)
    ensures d.Parsed? && d.root.Array? ==> r == d.root.items
    ensures !(d.Parsed? && d.root.Array?) ==> r == []
  {
    if d.Parsed? then ToArray(d.root) else []
  }
}

=== FILE: migration_resource.dfy ===
/**
 * The build helper that registers a new migration file in the Qt resource
 * descriptor: it adds a `<file>` entry under the first top-level element
 * whose `prefix` attribute is "/". Reading and writing the XML file are not
 * part of this model: the parsed tree is a parameter and the outcome says
 * what would be written where.
 */
module MigrationResource {
  import opened Wrappers

  /** An ElementTree element: tag, attributes, text, tail and children. */
  datatype Element = Element(
    tag: string,
    attrib: map<string, string>,
    text: Option<string>,
    tail: Option<string>,
    children: seq<Element>)

  /** Either the usage message (nothing read or written) or the tree written back to the descriptor file. */
  datatype Outcome = Usage(message: string) | Written(path: string, tree: Element)

  const UsageMessage: string := "Project root not provided."
  const EntryTail: string := "\n    "
  const PreviousTail: string := "\n        "

  /** `child.attrib.get('prefix') == '/'`. */
  predicate IsRootPrefix(e: Element) {
    "prefix" in e.attrib && e.attrib["prefix"] == "/"
  }

  /** The first child from position i on with prefix "/", if any. */
  function FirstMatch(children: seq<Element>, i: nat): (r: Option<nat>)
    requires i <= |children|
    ensures r.Some? ==> i <= r.value < |children| && IsRootPrefix(children[r.value])
    ensures r.Some? ==> forall j :: i <= j < r.value ==> !IsRootPrefix(children[j])
    ensures r.None? ==> forall j :: i <= j < |children| ==> !IsRootPrefix(children[j])
    decreases |children| - i
  {
    if i == |children| then None
    else if IsRootPrefix(children[i]) then Some(i)
    else FirstMatch(children, i + 1)
  }

  /**
   * The new `<file>` entry goes last; when the element then has more than
   * one child, the former last child's tail is reset for indentation.
   */
  function AddEntry(e: Element, filename: string): (r: Element) {
    var entry := Element("file", map[], Some(filename), Some(EntryTail), []);
    var kids := e.children + [entry];
    if |kids| > 1 then
      e.(children := kids[|kids| - 2 := kids[|kids| - 2].(tail := Some(PreviousTail))])
    else
      e.(children := kids)
  }

  /** The loop over the root's children: only the first match changes, and the scan stops there. */
  function Update(root: Element, filename: string): (r: Element) {
    match FirstMatch(root.children, 0)
    case None => root
    case Some(k) => root.(children := root.children[k := AddEntry(root.children[k], filename)])
  }

  /** The script's main: too few command-line arguments print the usage text; otherwise the updated tree is written back. */
  function Run(argv: seq<string>, parsed: Element): (r: Outcome) {
    if |argv| < 3 then Usage(UsageMessage) else Written(argv[1], Update(parsed, argv[2]))
  }

  /**
   * The new entry is a `<file>` holding the file name, with the closing
   * indentation as its tail; every earlier child keeps everything but, when
   * it was the last one, its tail; the element's own fields stay.
   */
  lemma AddEntryMeaning(e: Element, filename: string)
    ensures var r := AddEntry(e, filename);
      && |r.children| == |e.children| + 1
      && r.children[|e.children|] == Element("file", map[], Some(filename), Some(EntryTail), [])
      && (forall j :: 0 <= j < |e.children| - 1 ==> r.children[j] == e.children[j])
      && (|e.children| > 0 ==> r.children[|e.children| - 1] == e.children[|e.children| - 1].(tail := Some(PreviousTail)))
      && r.tag == e.tag && r.attrib == e.attrib && r.text == e.text && r.tail == e.tail
  {
  }

  /**
   * Only the first child with prefix "/" gains the entry; every other child,
   * and the root itself, stay as they were. Without such a child the tree is
   * unchanged.
   */
  lemma UpdateMeaning(root: Element, filename: string)
    ensures var r := Update(root, filename);
      && |r.children| == |root.children|
      && r.tag == root.tag && r.attrib == root.attrib && r.text == root.text && r.tail == root.tail
      && (FirstMatch(root.children, 0).None? ==> r == root)
      && (FirstMatch(root.children, 0).Some? ==>
            var k := FirstMatch(root.children, 0).value;
            && (forall j :: 0 <= j < k ==> !IsRootPrefix(root.children[j]))
            && r.children[k] == AddEntry(root.children[k], filename)
            && (forall j :: 0 <= j < |root.children| && j != k ==> r.children[j] == root.children[j]))
  {
  }

  /**
   * There is no duplicate check: registering the same file twice adds two
   * entries for it to the same element, which still has prefix "/".
   */
  lemma UpdateTwice(root: Element, filename: string)
    requires FirstMatch(root.children, 0).Some?
    ensures var k := FirstMatch(root.children, 0).value;
      var twice := Update(Update(root, filename), filename);
      && FirstMatch(Update(root, filename).children, 0) == Some(k)
      && |twice.children[k].children| == |root.children[k].children| + 2
      && twice.children[k].children[|root.children[k].children|].text == Some(filename)
      && twice.children[k].children[|root.children[k].children| + 1].text == Some(filename)
  {
    var k := FirstMatch(root.children, 0).value;
    var once := Update(root, filename);
    UpdateMeaning(root, filename);
    assert IsRootPrefix(once.children[k]);
    forall j | 0 <= j < k ensures !IsRootPrefix(once.children[j]) {
      assert once.children[j] == root.children[j];
    }
    UpdateMeaning(once, filename);
    AddEntryMeaning(root.children[k], filename);
    AddEntryMeaning(once.children[k], filename);
  }

  /**
   * With fewer than two arguments after the script name nothing is read or
   * written; otherwise the first argument names the file written back, even
   * when no element matched, and the second is the registered name.
   */
  lemma RunMeaning(argv: seq<string>, parsed: Element)
    ensures |argv| < 3 <==> Run(argv, parsed) == Usage(UsageMessage)
    ensures |argv| >= 3 ==> Run(argv, parsed) == Written(argv[1], Update(parsed, argv[2]))
    ensures |argv| >= 3 && FirstMatch(parsed.children, 0).None? ==> Run(argv, parsed) == Written(argv[1], parsed)
  {
  }
}

=== FILE: models.dfy ===
/** The client's plain data records: tags and evidence as the local database stores them. */
module Models {
  import EvidenceFilter

  /**
   * A tag: its local row id, the server's id for it, its name, and the
   * evidence it is attached to.
   */
  datatype Tag = Tag(id: int, serverTagId: int, tagName: string, evidenceId: int)

  /**
   * One evidence record: a row of the evidence table plus the tags attached
   * to it. Timestamps are kept at day granularity; an invalid date stands
   * for SQL NULL (evidence not yet uploaded).
   */
  datatype Evidence = Evidence(
    id: int,
    path: string,
    operationSlug: string,
    contentType: string,
    description: string,
    errorText: string,
    recordedDate: EvidenceFilter.Date,
    uploadDate: EvidenceFilter.Date,
    tags: seq<Tag>)
}

=== FILE: multipart.dfy ===
/**
 * The multipart/form-data body of an evidence upload: a random boundary,
 * one part per form parameter and then one part per file, and a closing
 * boundary line. The texts of the part headers come from templates that
 * are not part of this model, so they are parameters here; bytes are
 * modelled as characters.
 */
module Multipart {
  import opened Wrappers
  import opened Text
  import StringHelpers

  const BoundaryPrefix: string := "----ASHIRTTrayApp"

  /** The constructor's boundary: the prefix and 16 random alphanumerics. */
  function Boundary(draws: seq<nat>): string
    requires |draws| >= 16 && StringHelpers.Draws(draws, StringHelpers.AlphabetSize)
  {
    BoundaryPrefix + StringHelpers.RandomString(16, draws)
  }

  lemma BoundaryShape(draws: seq<nat>)
    requires |draws| >= 16 && StringHelpers.Draws(draws, StringHelpers.AlphabetSize)
    ensures var b := Boundary(draws);
      && |b| == 33 && StartsWith(b, BoundaryPrefix)
      && forall i :: 17 <= i < 33 ==> IsAsciiAlnum(b[i])
  {
    StringHelpers.RandomStringShape(16, draws);
  }

  /** The part-header templates, each already filled in with its arguments. */
  datatype Templates = Templates(
    header: string -> string,                    // the boundary line, given the boundary
    param: string -> string,                     // a parameter's headers, given its name
    file: (string, string, string) -> string)    // a file's headers, given field name, file name and type

  /** QFileInfo::fileName: the text after the last '/'. */
  function FileName(path: string): (name: string)
    ensures '/' !in name && EndsWith(path, name)
  {
    path[LastIndexOf(path, '/') + 1..]
  }

  /** QFileInfo::completeSuffix: everything after the first '.' of the file name, "" without one. */
  function CompleteSuffix(name: string): string {
    var k := IndexOf(name, ".");
    if k == -1 then "" else name[k + 1..]
  }

  /** The content type for a lower-cased complete suffix. */
  function TypeForSuffix(ext: string): string {
    if EndsWith(ext, "jpg") || EndsWith(ext, "jpeg") then "image/jpeg"
    else if EndsWith(ext, "txt") || EndsWith(ext, "log") then "text/plain"
    else "application/octet-stream"
  }

  /** The part's content type, from the lower-cased complete suffix of the file name. */
  function PartType(path: string): string {
    TypeForSuffix(ToLower(CompleteSuffix(FileName(path))))
  }

  /**
   * The type is taken from the file name alone: for "<dir>/<stem>.<ext>"
   * with a stem free of dots it is decided by the lower-cased extension,
   * whatever dots the directory holds, and a name without a dot is an
   * octet stream.
   */
  lemma {:induction false} PartTypeOfName(dir: string, stem: string, ext: string)
    requires '/' !in stem && '.' !in stem && '/' !in ext
    ensures PartType(dir + "/" + stem + "." + ext) == TypeForSuffix(ToLower(ext))
    ensures PartType(dir + "/" + stem) == "application/octet-stream"
  {
    SuffixAfterStem(dir, stem, "." + ext);
    assert ("." + ext)[1..] == ext;
    assert dir + "/" + stem + "." + ext == dir + "/" + stem + ("." + ext);
    SuffixAfterStem(dir, stem, "");
    assert dir + "/" + stem + "" == dir + "/" + stem;
    assert !EndsWith("", "jpg") && !EndsWith("", "jpeg") && !EndsWith("", "txt") && !EndsWith("", "log");
  }

  /** ".jpg" and ".jpeg" in any letter case give a JPEG image, ".txt" and ".log" plain text. */
  lemma TypeForSuffixMeaning(ext: string)
    ensures TypeForSuffix(ext) in {"image/jpeg", "text/plain", "application/octet-stream"}
    ensures TypeForSuffix(ToLower("JPG")) == "image/jpeg" && TypeForSuffix(ToLower("JPEG")) == "image/jpeg"
    ensures TypeForSuffix("tar.log") == "text/plain" && TypeForSuffix("txt") == "text/plain"
    ensures TypeForSuffix("jpg.zip") == "application/octet-stream"
  {
    UpperJpeg();
    LastExtensionDecides();
  }

  lemma UpperJpeg()
    ensures TypeForSuffix(ToLower("JPG")) == "image/jpeg" && TypeForSuffix(ToLower("JPEG")) == "image/jpeg"
  {
    assert ToLower("JPG") == "jpg";
    assert ToLower("JPEG") == "jpeg";
  }

  lemma LastExtensionDecides()
    ensures TypeForSuffix("tar.log") == "text/plain" && TypeForSuffix("txt") == "text/plain"
    ensures TypeForSuffix("jpg.zip") == "application/octet-stream"
  {
    assert "tar.log"[4..] == "log";
    assert "jpg.zip"[4..] == "zip" && "jpg.zip"[3..] == ".zip";
  }

  lemma SuffixAfterStem(dir: string, stem: string, e: string)
    requires '/' !in stem && '.' !in stem
    requires e == "" || (e[0] == '.' && '/' !in e)
    ensures FileName(dir + "/" + stem + e) == stem + e
    ensures CompleteSuffix(stem + e) == (if e == "" then "" else e[1..])
  {
    assert dir + "/" + stem + e == dir + "/" + (stem + e);
    FileNameAfterSlash(dir, stem + e);
    FirstDotAfterStem(stem, e);
  }

  lemma FileNameAfterSlash(dir: string, name: string)
    requires '/' !in name
    ensures FileName(dir + "/" + name) == name
  {
    var path := dir + "/" + name;
    assert path[|dir|] == '/';
    assert path[|dir| + 1..] == name;
  }

  lemma FirstDotAfterStem(stem: string, e: string)
    requires '.' !in stem
    requires e == "" || e[0] == '.'
    ensures CompleteSuffix(stem + e) == (if e == "" then "" else e[1..])
  {
    var name := stem + e;
    forall j | 0 <= j < |stem| ensures !OccursAt(name, ".", j) {
      assert name[j..j + 1] == [stem[j]];
    }
    if e != "" {
      assert name[|stem|..|stem| + 1] == ".";
      assert OccursAt(name, ".", |stem|);
    } else {
      assert name == stem;
    }
  }

  /** A parameter's part: the boundary line, the parameter's headers, its value. */
  function ParamPart(t: Templates, boundary: string, p: (string, string)): string {
    t.header(boundary) + t.param(p.0) + p.1
  }

  /**
   * A file's part: the boundary line, the file's headers, and the file's
   * contents; `read` gives the contents, None when the file cannot be
   * opened, which contributes no data.
   */
  function FilePart(t: Templates, boundary: string, f: (string, string), read: string -> Option<string>): string {
    t.header(boundary) + t.file(f.0, FileName(f.1), PartType(f.1)) + read(f.1).GetOr("")
  }

  /** The closing boundary line. */
  function Closing(boundary: string): string {
    "\r\n--" + boundary + "--\r\n"
  }

  /** The texts laid end to end. */
  function Concat(parts: seq<string>): (r: string) {
    if parts == [] then "" else parts[0] + Concat(parts[1..])
  }

  lemma {:induction false} ConcatAppend(parts: seq<string>, x: string)
    ensures Concat(parts + [x]) == Concat(parts) + x
  {
    if parts != [] {
      assert (parts + [x])[1..] == parts[1..] + [x];
      ConcatAppend(parts[1..], x);
    }
  }

  lemma {:induction false} ConcatSplit(a: seq<string>, b: seq<string>)
    ensures Concat(a + b) == Concat(a) + Concat(b)
  {
    if a != [] {
      assert (a + b)[1..] == a[1..] + b;
      ConcatSplit(a[1..], b);
    } else {
      assert a + b == b;
    }
  }

  /** The parameters' parts, in insertion order. */
  function ParamParts(t: Templates, boundary: string, params: seq<(string, string)>): (r: seq<string>)
    ensures |r| == |params|
    ensures forall k :: 0 <= k < |params| ==> r[k] == ParamPart(t, boundary, params[k])
  {
    seq(|params|, i requires 0 <= i < |params| => ParamPart(t, boundary, params[i]))
  }

  /** The files' parts, in insertion order. */
  function FileParts(t: Templates, boundary: string, files: seq<(string, string)>, read: string -> Option<string>): (r: seq<string>)
    ensures |r| == |files|
    ensures forall k :: 0 <= k < |files| ==> r[k] == FilePart(t, boundary, files[k], read)
  {
    seq(|files|, i requires 0 <= i < |files| => FilePart(t, boundary, files[i], read))
  }

  /** Every part of the body, in order: the parameters' parts, then the files' parts. */
  function Parts(t: Templates, boundary: string, params: seq<(string, string)>, files: seq<(string, string)>,
                 read: string -> Option<string>): (r: seq<string>)
  {
    ParamParts(t, boundary, params) + FileParts(t, boundary, files, read)
  }

  /** The texts appended one by one to an empty buffer, as generateBody's loops do. */
  method AppendAll(parts: seq<string>) returns (r: string)
    ensures r == Concat(parts)
  {
    r := "";
    var i := 0;
    while i < |parts|
      invariant 0 <= i <= |parts|
      invariant r == Concat(parts[..i])
    {
      assert parts[..i + 1] == parts[..i] + [parts[i]];
      ConcatAppend(parts[..i], parts[i]);
      r := r + parts[i];
      i := i + 1;
    }
    assert parts[..|parts|] == parts;
  }

  /**
   * generateBody: the previous body is discarded, the parameters' parts and
   * then the files' parts are appended in insertion order, and the closing
   * line ends the body.
   */
  method GenerateBody(t: Templates, boundary: string, params: seq<(string, string)>, files: seq<(string, string)>,
                      read: string -> Option<string>, previous: string) returns (body: string)
    ensures body == Concat(Parts(t, boundary, params, files, read)) + Closing(boundary)
    ensures EndsWith(body, Closing(boundary))
  {
    var paramParts := ParamParts(t, boundary, params);
    var fileParts := FileParts(t, boundary, files, read);
    var paramsText := AppendAll(paramParts);
    var filesText := AppendAll(fileParts);
    ConcatSplit(paramParts, fileParts);
    body := paramsText + filesText + Closing(boundary);
  }

  /**
   * The body is the parameters' parts, then the files' parts, then the
   * closing line: each part begins with the boundary line.
   */
  lemma BodyLayout(t: Templates, boundary: string, params: seq<(string, string)>, files: seq<(string, string)>,
                   read: string -> Option<string>)
    ensures var parts := Parts(t, boundary, params, files, read);
      && |parts| == |params| + |files|
      && (forall k :: 0 <= k < |params| ==> parts[k] == ParamPart(t, boundary, params[k]))
      && (forall k :: 0 <= k < |files| ==> parts[|params| + k] == FilePart(t, boundary, files[k], read))
      && (forall k :: 0 <= k < |parts| ==> StartsWith(parts[k], t.header(boundary)))
      && Concat(parts) == Concat(ParamParts(t, boundary, params)) + Concat(FileParts(t, boundary, files, read))
  {
    PartsStartWithHeader(t, boundary, params, files, read);
    ConcatSplit(ParamParts(t, boundary, params), FileParts(t, boundary, files, read));
  }

  lemma PartsStartWithHeader(t: Templates, boundary: string, params: seq<(string, string)>, files: seq<(string, string)>,
                             read: string -> Option<string>)
    ensures var parts := Parts(t, boundary, params, files, read);
      forall k :: 0 <= k < |parts| ==> StartsWith(parts[k], t.header(boundary))
  {
    var parts := Parts(t, boundary, params, files, read);
    forall k | 0 <= k < |parts| ensures StartsWith(parts[k], t.header(boundary)) {
      if k < |params| {
        assert parts[k] == ParamPart(t, boundary, params[k]);
        PrefixOfConcat(t.header(boundary), t.param(params[k].0), params[k].1);
      } else {
        var f := files[k - |params|];
        assert parts[k] == FilePart(t, boundary, f, read);
        PrefixOfConcat(t.header(boundary), t.file(f.0, FileName(f.1), PartType(f.1)), read(f.1).GetOr(""));
      }
    }
  }

  lemma PrefixOfConcat(a: string, b: string, c: string)
    ensures StartsWith(a + b + c, a)
  {
    assert (a + b + c)[..|a|] == a;
  }

  /** A file that cannot be read adds only its boundary line and headers. */
  lemma UnreadableFilePart(t: Templates, boundary: string, f: (string, string), read: string -> Option<string>)
    requires read(f.1).None?
    ensures FilePart(t, boundary, f, read) == t.header(boundary) + t.file(f.0, FileName(f.1), PartType(f.1))
  {
    var head := t.header(boundary) + t.file(f.0, FileName(f.1), PartType(f.1));
    assert read(f.1).GetOr("") == "";
    assert head + "" == head;
  }
}

=== FILE: porting_options.dfy ===
/**
 * The switches of an export and of an import of the client's data: which
 * parts (configuration, database with evidence, servers) take part.
 */
module PortingOptions {
  import Wrappers

  datatype ExportOptions = ExportOptions(exportConfig: bool, exportServers: bool, exportDb: bool)

  /** How evidence is imported: not at all (0) or merged into the running database (1). */
  datatype ImportAction = None | Merge

  datatype ImportOptions = ImportOptions(importConfig: bool, importServers: bool, importDb: ImportAction)

  /** Every export switch defaults to on. */
  const DefaultExport: ExportOptions := ExportOptions(true, true, true)

  /** Every import switch defaults to on, with evidence merged. */
  const DefaultImport: ImportOptions := ImportOptions(true, true, Merge)

  /** The enumerator's integer value. */
  function ActionValue(a: ImportAction): (n: int)
    ensures 0 <= n <= 1
  {
    match a
    case None => 0
    case Merge => 1
  }

  /** The enumerator an integer names, if any. */
  function ActionOf(n: int): (a: Wrappers.Option<ImportAction>)
  {
    if n == 0 then Wrappers.Some(None) else if n == 1 then Wrappers.Some(Merge) else Wrappers.None
  }

  lemma ActionValues(a: ImportAction, n: int)
    ensures ActionValue(None) == 0 && ActionValue(Merge) == 1
    ensures ActionOf(ActionValue(a)) == Wrappers.Some(a)
    ensures ActionOf(n).Some? <==> n == 0 || n == 1
    ensures ActionOf(n).Some? ==> ActionValue(ActionOf(n).value) == n
  {
  }

  /** SystemManifestExportOptions::includesAnything. */
  predicate ExportIncludesAnything(o: ExportOptions) {
    o.exportConfig || o.exportDb || o.exportServers
  }

  /** SystemManifestImportOptions::includesAnything. */
  predicate ImportIncludesAnything(o: ImportOptions) {
    o.importConfig || o.importDb != None || o.importServers
  }

  /**
   * Each options set includes something unless every switch is off, and
   * the defaults include everything.
   */
  lemma IncludesAnythingMeaning(e: ExportOptions, i: ImportOptions)
    ensures !ExportIncludesAnything(e) <==> e == ExportOptions(false, false, false)
    ensures !ImportIncludesAnything(i) <==> i == ImportOptions(false, false, None)
    ensures ExportIncludesAnything(DefaultExport) && ImportIncludesAnything(DefaultImport)
    ensures DefaultImport.importDb == Merge && ActionValue(DefaultImport.importDb) == 1
  {
  }
}

=== FILE: request_builder.dfy ===
/**
 * The builder every API call goes through: method, host, endpoint, body
 * and headers are collected by chained setters, and `build` turns them
 * into a request with a URL and an ordered list of header assignments.
 * Sending the request is not part of this model.
 */
module Requests {
  import opened Wrappers
  import opened Text

  /** RequestMethod: GET is 0 and POST is 1. */
  datatype Method = Get | Post

  /** RequestMethodToString: the method's name, looked up by its enumerator value. */
  function MethodName(m: Method): string {
    ["GET", "POST"][MethodValue(m)]
  }

  function MethodValue(m: Method): (n: nat)
    ensures n < 2
  {
    match m
    case Get => 0
    case Post => 1
  }

  /** Each method has its own name, the one the HTTP verb is spelled with. */
  lemma MethodNames(a: Method, b: Method)
    ensures MethodName(Get) == "GET" && MethodName(Post) == "POST"
    ensures MethodName(a) == MethodName(b) <==> a == b
    ensures MethodValue(Get) == 0 && MethodValue(Post) == 1
  {
  }

  /** The QNetworkRequest known headers; only the content type is named by this code. */
  datatype KnownHeader = ContentTypeHeader | OtherKnownHeader(code: nat)

  /**
   * The builder's fields. The method (`verb`) of a default-constructed builder is
   * uninitialised in the source and is None here; the body defaults to
   * empty.
   */
  datatype Builder = Builder(
    verb: Option<Method>,
    body: string,
    host: string,
    endpoint: string,
    rawHeaders: seq<(string, string)>,
    knownHeaders: seq<(KnownHeader, string)>)

  const Default: Builder := Builder(None, "", "", "", [], [])

  function SetMethod(b: Builder, m: Method): Builder { b.(verb := Some(m)) }
  function SetBody(b: Builder, body: string): Builder { b.(body := body) }
  function SetHost(b: Builder, host: string): Builder { b.(host := host) }
  function SetEndpoint(b: Builder, endpoint: string): Builder { b.(endpoint := endpoint) }

  /** addRawHeader and addKnownHeader append, so headers keep the order they were added in. */
  function AddRawHeader(b: Builder, name: string, value: string): Builder {
    b.(rawHeaders := b.rawHeaders + [(name, value)])
  }

  function AddKnownHeader(b: Builder, h: KnownHeader, value: string): Builder {
    b.(knownHeaders := b.knownHeaders + [(h, value)])
  }

  /**
   * Each getter returns the value last set, and every setter leaves the
   * other fields as they were.
   */
  lemma SettersMeaning(b: Builder, m: Method, body: string, host: string, endpoint: string, name: string, value: string, h: KnownHeader)
    ensures SetMethod(b, m).verb == Some(m) && SetMethod(b, m).(verb := b.verb) == b
    ensures SetBody(b, body).body == body && SetBody(b, body).(body := b.body) == b
    ensures SetHost(b, host).host == host && SetHost(b, host).(host := b.host) == b
    ensures SetEndpoint(b, endpoint).endpoint == endpoint && SetEndpoint(b, endpoint).(endpoint := b.endpoint) == b
    ensures var r := AddRawHeader(b, name, value);
      r.rawHeaders[..|b.rawHeaders|] == b.rawHeaders && r.rawHeaders[|b.rawHeaders|..] == [(name, value)]
      && r.(rawHeaders := b.rawHeaders) == b
    ensures var r := AddKnownHeader(b, h, value);
      r.knownHeaders[..|b.knownHeaders|] == b.knownHeaders && r.knownHeaders[|b.knownHeaders|..] == [(h, value)]
      && r.(knownHeaders := b.knownHeaders) == b
    ensures SetHost(SetHost(b, host), host) == SetHost(b, host)
  {
  }

  /** newGet: a GET with no headers. */
  function NewGet(): Builder { SetMethod(Default, Get) }

  /** newFormPost: a POST whose content type names the form boundary. */
  function NewFormPost(formBoundary: string): Builder {
    AddKnownHeader(SetMethod(Default, Post), ContentTypeHeader, "multipart/form-data; boundary=" + formBoundary)
  }

  /** newJSONPost: a POST whose content type is JSON. */
  function NewJsonPost(): Builder {
    AddKnownHeader(SetMethod(Default, Post), ContentTypeHeader, "application/json")
  }

  /** One header assignment made by build, in the order build makes them. */
  datatype HeaderSet = Raw(name: string, value: string) | Known(header: KnownHeader, value: string)

  datatype Request = Request(headers: seq<HeaderSet>, url: string)

  /** The host with one trailing slash removed, if it has one, then the endpoint verbatim. */
  function JoinUrl(host: string, endpoint: string): string {
    if |host| > 0 && host[|host| - 1] == '/' then host[..|host| - 1] + endpoint else host + endpoint
  }

  /** build: every raw header, then every known header, each in insertion order; then the URL. */
  function Build(b: Builder): Request {
    Request(
      seq(|b.rawHeaders|, i requires 0 <= i < |b.rawHeaders| => Raw(b.rawHeaders[i].0, b.rawHeaders[i].1))
        + seq(|b.knownHeaders|, i requires 0 <= i < |b.knownHeaders| => Known(b.knownHeaders[i].0, b.knownHeaders[i].1)),
      JoinUrl(b.host, b.endpoint))
  }

  /**
   * The URL always ends with the endpoint. A host without a trailing slash
   * is kept whole, a host with one loses exactly that one character, so
   * "h/" and "h" give the same URL and "h//" keeps one slash.
   */
  lemma JoinUrlMeaning(host: string, endpoint: string)
    ensures EndsWith(JoinUrl(host, endpoint), endpoint)
    ensures !EndsWith(host, "/") ==> JoinUrl(host, endpoint) == host + endpoint
    ensures !EndsWith(host, "/") ==> JoinUrl(host + "/", endpoint) == JoinUrl(host, endpoint)
    ensures EndsWith(host, "/") ==> |JoinUrl(host, endpoint)| == |host| - 1 + |endpoint|
    ensures JoinUrl("", endpoint) == endpoint
  {
    if EndsWith(host, "/") {
      assert host[|host| - 1] == '/';
    } else if |host| > 0 {
      assert host[|host| - 1..] != "/";
      assert host[|host| - 1] != '/';
    }
    var h := host + "/";
    assert h[..|h| - 1] == host;
  }

  /**
   * The built request makes one header assignment per header added: the
   * raw ones first in insertion order, then the known ones in insertion
   * order.
   */
  lemma BuildMeaning(b: Builder)
    ensures var r := Build(b);
      && |r.headers| == |b.rawHeaders| + |b.knownHeaders|
      && (forall i :: 0 <= i < |b.rawHeaders| ==> r.headers[i] == Raw(b.rawHeaders[i].0, b.rawHeaders[i].1))
      && (forall i :: 0 <= i < |b.knownHeaders| ==>
            r.headers[|b.rawHeaders| + i] == Known(b.knownHeaders[i].0, b.knownHeaders[i].1))
      && (forall i :: 0 <= i < |r.headers| ==> (r.headers[i].Raw? <==> i < |b.rawHeaders|))
      && r.url == JoinUrl(b.host, b.endpoint)
  {
  }

  /**
   * The ready-made builders: GET with no header, and the two POSTs with
   * exactly one content-type header each; none has a body.
   */
  lemma FactoriesMeaning(formBoundary: string)
    ensures NewGet().verb == Some(Get) && Build(NewGet()).headers == [] && NewGet().body == ""
    ensures NewFormPost(formBoundary).verb == Some(Post) && NewFormPost(formBoundary).body == ""
    ensures Build(NewFormPost(formBoundary)).headers == [Known(ContentTypeHeader, "multipart/form-data; boundary=" + formBoundary)]
    ensures NewJsonPost().verb == Some(Post) && NewJsonPost().body == ""
    ensures Build(NewJsonPost()).headers == [Known(ContentTypeHeader, "application/json")]
  {
  }
}

=== FILE: screenshot.dfy ===
/**
 * Screenshots: the file name a capture gets, and how the configured
 * capture command is turned into a program and its arguments.
 */
module Screenshots {
  import opened Text

  const Extension: string := "png"
  const ContentType: string := "image"

  /** mkName: "ashirt_screenshot_", the drawn token (six characters), ".png". */
  function MkName(token: string): string {
    "ashirt_screenshot_" + token + "." + Extension
  }

  lemma MkNameShape(token: string)
    ensures var n := MkName(token);
      && |n| == 18 + |token| + 4
      && n[..18] == "ashirt_screenshot_" && n[18..18 + |token|] == token
      && n[18 + |token|..] == ".png"
  {
  }

  /**
   * The program part of the command: through the closing quote when the
   * command starts with a double quote (nothing when there is none), and
   * otherwise everything before the first space (all of it when there is
   * no space).
   */
  function Program(cmd: string): string {
    if StartsWith(cmd, "\"") then Left(cmd, IndexFrom(cmd, "\"", 1) + 1)
    else Left(cmd, IndexOf(cmd, " "))
  }

  /**
   * basicScreenshot's command handling: every "%file" becomes the temporary
   * path, the program is cut out, every occurrence of the program text is
   * removed from the command, and the simplified remainder is split on
   * single spaces.
   */
  function SplitCommand(cmdProto: string, tempFile: string): (r: (string, seq<string>)) {
    var cmd := ReplaceAll(cmdProto, "%file", tempFile);
    var app := Program(cmd);
    var rest := Simplified(RemoveAll(cmd, app));
    (app, Split(rest, ' '))
  }

  /** A quoted program runs through the first closing quote; without one it is empty. */
  lemma QuotedProgram(cmd: string)
    requires StartsWith(cmd, "\"")
    ensures var app := Program(cmd);
      && (app == "" <==> forall j :: 1 <= j < |cmd| ==> cmd[j] != '"')
      && (app != "" ==>
            && 2 <= |app| <= |cmd| && app == cmd[..|app|]
            && app[0] == '"' && app[|app| - 1] == '"'
            && forall j :: 1 <= j < |app| - 1 ==> app[j] != '"')
  {
    var k := IndexFrom(cmd, "\"", 1);
    if k == -1 {
      forall j | 1 <= j < |cmd| ensures cmd[j] != '"' {
        assert !OccursAt(cmd, "\"", j);
        assert cmd[j..j + 1] == [cmd[j]];
      }
    } else {
      assert OccursAt(cmd, "\"", k);
      assert cmd[k..k + 1] == "\"";
      assert cmd[k] == '"';
      forall j | 1 <= j < k ensures cmd[j] != '"' {
        assert !OccursAt(cmd, "\"", j);
        assert cmd[j..j + 1] == [cmd[j]];
      }
    }
  }

  /** An unquoted program is the text up to the first space, or the whole command. */
  lemma PlainProgram(cmd: string)
    requires !StartsWith(cmd, "\"")
    ensures var app := Program(cmd);
      && app <= cmd && ' ' !in app
      && (|app| < |cmd| ==> cmd[|app|] == ' ')
  {
    var k := IndexOf(cmd, " ");
    forall j | 0 <= j < |Program(cmd)| ensures Program(cmd)[j] != ' ' {
      assert !OccursAt(cmd, " ", j);
      assert cmd[j..j + 1] == [cmd[j]];
    }
    if k != -1 {
      assert OccursAt(cmd, " ", k);
      assert cmd[k..k + 1] == " ";
    }
  }

  lemma {:induction false} WordsHaveNoSpace(s: string)
    ensures forall i :: 0 <= i < |Words(s)| ==> ' ' !in Words(s)[i] && Words(s)[i] != ""
    decreases |s|
  {
    if |s| > 0 {
      if IsSpace(s[0]) {
        WordsHaveNoSpace(s[1..]);
      } else {
        var w := FirstWord(s);
        WordsHaveNoSpace(s[|w|..]);
        assert ' ' !in w;
      }
    }
  }

  /**
   * The arguments are the whitespace-separated words left once the
   * program text is removed; with no word left there is one empty
   * argument.
   */
  lemma ArgumentsAreWords(cmdProto: string, tempFile: string)
    ensures var cmd := ReplaceAll(cmdProto, "%file", tempFile);
      var ws := Words(RemoveAll(cmd, Program(cmd)));
      && SplitCommand(cmdProto, tempFile).0 == Program(cmd)
      && SplitCommand(cmdProto, tempFile).1 == (if ws == [] then [""] else ws)
  {
    var cmd := ReplaceAll(cmdProto, "%file", tempFile);
    var ws := Words(RemoveAll(cmd, Program(cmd)));
    WordsHaveNoSpace(RemoveAll(cmd, Program(cmd)));
    if ws != [] {
      SplitJoin(ws, ' ');
    }
  }

  /** A command without "%file" is used as it is. */
  lemma NoPlaceholder(cmdProto: string, tempFile: string)
    requires forall j :: !OccursAt(cmdProto, "%file", j)
    ensures ReplaceAll(cmdProto, "%file", tempFile) == cmdProto
  {
    ReplaceAllAbsent(cmdProto, "%file", tempFile);
  }
}

=== FILE: semver.dfy ===
/**
 * SemVer: a release tag read as major.minor.patch plus whatever follows,
 * and its one-line description.
 */
module SemVerModel {
  import opened Wrappers
  import opened Text

  const IntMax: nat := 0x7fff_ffff

  datatype SemVer = SemVer(major: int, minor: int, patch: int, extra: string)

  /** The longest prefix of ASCII digits ("\d+" matches greedily, and only ASCII digits). */
  function DigitRun(s: string): (r: string)
    ensures r <= s && forall i :: 0 <= i < |r| ==> IsDigit(r[i])
    ensures |r| < |s| ==> !IsDigit(s[|r|])
    decreases |s|
  {
    if |s| > 0 && IsDigit(s[0]) then [s[0]] + DigitRun(s[1..]) else ""
  }

  /** "(.*)": everything up to the first line feed, which "." does not match. */
  function LineHead(s: string): (r: string)
    ensures r <= s && '\n' !in r
    ensures |r| < |s| ==> s[|r|] == '\n'
    decreases |s|
  {
    if |s| > 0 && s[0] != '\n' then [s[0]] + LineHead(s[1..]) else ""
  }

  /** QString::toInt on a digit run: its value, or 0 when it does not fit an int. */
  function ToInt(digits: string): int
    requires forall i :: 0 <= i < |digits| ==> IsDigit(digits[i])
  {
    var v := DigitsValue(digits);
    if v <= IntMax then v else 0
  }

  /** One "(\d+)" group followed by `next` (a '.' or nothing): the digits and the text after them. */
  function Group(s: string, dotAfter: bool): Option<(string, string)> {
    var d := DigitRun(s);
    if d == "" then None
    else if !dotAfter then Some((d, s[|d|..]))
    else if |d| < |s| && s[|d|] == '.' then Some((d, s[|d| + 1..]))
    else None
  }

  /**
   * SemVer::parse with "^[vV]?(\d+)\.(\d+)\.(\d+)(.*)": no match is a
   * failure (the source leaves the numbers uninitialised).
   */
  function Parse(strTag: string): Option<SemVer> {
    ParseBody(if |strTag| > 0 && (strTag[0] == 'v' || strTag[0] == 'V') then strTag[1..] else strTag)
  }

  /** The match after the optional 'v'. */
  function ParseBody(s: string): Option<SemVer> {
    match Group(s, true)
    case None => None
    case Some((d1, r1)) =>
      match Group(r1, true)
      case None => None
      case Some((d2, r2)) =>
        match Group(r2, false)
        case None => None
        case Some((d3, r3)) => Some(SemVer(ToInt(d1), ToInt(d2), ToInt(d3), LineHead(r3)))
  }

  predicate Digits(d: string) {
    |d| > 0 && forall i :: 0 <= i < |d| ==> IsDigit(d[i])
  }

  /** The tag a release of version a.b.c with the given suffix carries. */
  function Tag(a: nat, b: nat, c: nat, extra: string): string {
    "v" + (NatToString(a) + ("." + (NatToString(b) + ("." + (NatToString(c) + extra)))))
  }

  lemma {:induction false} DigitRunOf(d: string, rest: string)
    requires forall i :: 0 <= i < |d| ==> IsDigit(d[i])
    requires |rest| == 0 || !IsDigit(rest[0])
    ensures DigitRun(d + rest) == d
    decreases |d|
  {
    if |d| > 0 {
      assert (d + rest)[1..] == d[1..] + rest;
      DigitRunOf(d[1..], rest);
    } else {
      assert d + rest == rest;
    }
  }

  lemma {:induction false} LineHeadOf(s: string)
    requires '\n' !in s
    ensures LineHead(s) == s
    decreases |s|
  {
    if |s| > 0 {
      LineHeadOf(s[1..]);
    }
  }

  lemma DottedGroup(d: string, rest: string)
    requires Digits(d)
    ensures Group(d + ("." + rest), true) == Some((d, rest))
  {
    DigitRunOf(d, "." + rest);
    assert (d + ("." + rest))[|d| + 1..] == rest;
  }

  lemma LastGroup(d: string, rest: string)
    requires Digits(d) && (|rest| == 0 || !IsDigit(rest[0]))
    ensures Group(d + rest, false) == Some((d, rest))
  {
    DigitRunOf(d, rest);
    assert (d + rest)[|d|..] == rest;
  }

  /** Three digit runs separated by dots, then a suffix that does not start with a digit. */
  lemma ParseBodyOf(d1: string, d2: string, d3: string, rest: string)
    requires Digits(d1) && Digits(d2) && Digits(d3) && (|rest| == 0 || !IsDigit(rest[0]))
    ensures ParseBody(d1 + ("." + (d2 + ("." + (d3 + rest))))) == Some(SemVer(ToInt(d1), ToInt(d2), ToInt(d3), LineHead(rest)))
  {
    var r2 := d3 + rest;
    var r1 := d2 + ("." + r2);
    DottedGroup(d1, r1);
    DottedGroup(d2, r2);
    LastGroup(d3, rest);
  }

  lemma ToIntOf(n: nat)
    requires n <= IntMax
    ensures Digits(NatToString(n)) && ToInt(NatToString(n)) == n
  {
    DigitsValueOfNatToString(n);
  }

  /**
   * Reading back a tag: the three numbers (each fitting an int) and the
   * suffix come back exactly, provided the suffix does not continue the
   * patch number with a digit and holds no line feed.
   */
  lemma ParseTag(a: nat, b: nat, c: nat, extra: string)
    requires a <= IntMax && b <= IntMax && c <= IntMax
    requires (|extra| == 0 || !IsDigit(extra[0])) && '\n' !in extra
    ensures Parse(Tag(a, b, c, extra)) == Some(SemVer(a, b, c, extra))
  {
    var s := NatToString(a) + ("." + (NatToString(b) + ("." + (NatToString(c) + extra))));
    assert ("v" + s)[1..] == s;
    ToIntOf(a);
    ToIntOf(b);
    ToIntOf(c);
    ParseBodyOf(NatToString(a), NatToString(b), NatToString(c), extra);
    LineHeadOf(extra);
  }

  /** A number too large for an int is read as 0, as QString::toInt reports failure. */
  lemma ParseOverflow(extra: string)
    requires (|extra| == 0 || !IsDigit(extra[0])) && '\n' !in extra
    ensures Parse(Tag(IntMax + 1, 0, 0, extra)) == Some(SemVer(0, 0, 0, extra))
  {
    var big := NatToString(IntMax + 1);
    var s := big + ("." + (NatToString(0) + ("." + (NatToString(0) + extra))));
    assert ("v" + s)[1..] == s;
    DigitsValueOfNatToString(IntMax + 1);
    ToIntOf(0);
    ParseBodyOf(big, NatToString(0), NatToString(0), extra);
    LineHeadOf(extra);
  }

  /** The match is anchored: a tag starting with anything but 'v', 'V' or a digit never parses. */
  lemma ParseAnchored(strTag: string)
    requires |strTag| > 0 && strTag[0] != 'v' && strTag[0] != 'V' && !IsDigit(strTag[0])
    ensures Parse(strTag) == None
  {
  }

  /** SemVer::toString. */
  function ToString(v: SemVer): string {
    "major: " + IntToString(v.major) + AfterMajor(v)
  }

  /** The part of toString after the major version. */
  function AfterMajor(v: SemVer): string {
    " minor: " + IntToString(v.minor) + " patch: " + IntToString(v.patch) + " extra: " + v.extra
  }

  /** The major version can be read back from the description: the digits right after "major: ". */
  lemma ToStringReadsMajor(v: SemVer)
    requires v.major >= 0
    ensures var s := ToString(v); var d := DigitRun(s[7..]);
      |s| >= 7 && s[..7] == "major: " && (forall i :: 0 <= i < |d| ==> IsDigit(d[i])) && DigitsValue(d) == v.major
  {
    var s := ToString(v);
    var m := NatToString(v.major);
    var rest := AfterMajor(v);
    assert s == "major: " + (m + rest);
    assert s[7..] == m + rest;
    DigitRunOf(m, rest);
    DigitsValueOfNatToString(v.major);
  }
}

=== FILE: server_item.dfy ===
/**
 * ServerItem: one saved server connection, and its JSON form in the
 * servers file.
 */
module ServerItems {
  import opened Json

  /** `id` orders the list; `uuid` identifies the server for good. */
  datatype ServerItem = ServerItem(
    id: int,
    uuid: string,
    serverName: string,
    accessKey: string,
    secretKey: string,
    hostPath: string,
    deleted: bool)

  /** The default-constructed item: every text empty, id 0, not deleted. */
  const Default: ServerItem := ServerItem(0, "", "", "", "", "", false)

  /**
   * The five-argument constructor (id 0, not deleted); the four-argument one
   * passes a fresh uuid, which is the `uuid` argument here.
   */
  function NewItem(uuid: string, name: string, accessKey: string, secretKey: string, hostPath: string): ServerItem {
    ServerItem(0, uuid, name, accessKey, secretKey, hostPath, false)
  }

  predicate IsValid(item: ServerItem) {
    item.uuid != ""
  }

  /** A new item is valid exactly when its uuid is non-empty, as a generated uuid always is. */
  lemma NewItemMeaning(uuid: string, name: string, accessKey: string, secretKey: string, hostPath: string)
    ensures var item := NewItem(uuid, name, accessKey, secretKey, hostPath);
      && item.id == 0 && !item.deleted
      && (IsValid(item) <==> uuid != "")
  {
  }

  lemma DefaultInvalid()
    ensures !IsValid(Default)
  {
  }

  function Serialize(item: ServerItem): Obj {
    map[
      "id" := Number(item.id as real),
      "serverUuid" := Str(item.uuid),
      "serverName" := Str(item.serverName),
      "accessKey" := Str(item.accessKey),
      "secretKey" := Str(item.secretKey),
      "hostPath" := Str(item.hostPath),
      "deleted" := Bool(item.deleted)]
  }

  /** Each field read back with the lenient accessors: a missing or mistyped member gives the default. */
  function Deserialize(o: Obj): ServerItem {
    ServerItem(
      ToInt(Get(o, "id")),
      ToStr(Get(o, "serverUuid")),
      ToStr(Get(o, "serverName")),
      ToStr(Get(o, "accessKey")),
      ToStr(Get(o, "secretKey")),
      ToStr(Get(o, "hostPath")),
      ToBool(Get(o, "deleted")))
  }

  /** The object holds exactly the seven keys. */
  lemma SerializeKeys(item: ServerItem)
    ensures Serialize(item).Keys == {"id", "serverUuid", "serverName", "accessKey", "secretKey", "hostPath", "deleted"}
  {
  }

  /** Every field survives the JSON round trip, the id because it is a C++ int. */
  lemma RoundTrip(item: ServerItem)
    requires InInt32(item.id)
    ensures Deserialize(Serialize(item)) == item
  {
  }

  /** An object with none of the keys reads as the default, invalid item. */
  lemma DeserializeEmpty()
    ensures Deserialize(map[]) == Default
    ensures !IsValid(Deserialize(map[]))
  {
  }
}

=== FILE: servers_v2.dfy ===
/**
 * ServersV2: the set of saved servers, keyed by uuid, listed by ascending
 * id, with soft delete, restore and permanent delete.
 */
module ServerRegistry {
  import opened Wrappers
  import opened Json
  import opened ServerItems

  datatype DeleteType = PlainDelete | Restore | PermanentDelete

  /**
   * The servers, one per uuid (the unordered map, as a list), and the
   * sorted listing cached while `dirty` is false.
   */
  datatype Registry = Registry(entries: seq<ServerItem>, dirty: bool, cache: seq<ServerItem>)

  const Empty: Registry := Registry([], true, [])

  predicate UniqueUuids(entries: seq<ServerItem>) {
    forall i, j :: 0 <= i < j < |entries| ==> entries[i].uuid != entries[j].uuid
  }

  /** What every operation keeps: one entry per uuid, and a clean cache is the sorted listing. */
  predicate Valid(r: Registry) {
    UniqueUuids(r.entries) && (!r.dirty ==> r.cache == SortById(r.entries))
  }

  // ---------------------------------------------------------------- the map

  /** The entry stored under `uuid`. */
  function Find(entries: seq<ServerItem>, uuid: string): (r: Option<ServerItem>)
    ensures r.Some? ==> r.value in entries && r.value.uuid == uuid
    ensures r.None? ==> forall i :: 0 <= i < |entries| ==> entries[i].uuid != uuid
  {
    if |entries| == 0 then None
    else if entries[0].uuid == uuid then Some(entries[0])
    else Find(entries[1..], uuid)
  }

  function FindIndex(entries: seq<ServerItem>, uuid: string): (i: int)
    ensures -1 <= i < |entries|
    ensures i == -1 <==> Find(entries, uuid).None?
    ensures i >= 0 ==> entries[i] == Find(entries, uuid).value
  {
    if |entries| == 0 then -1
    else if entries[0].uuid == uuid then 0
    else var j := FindIndex(entries[1..], uuid); if j == -1 then -1 else j + 1
  }

  /** With one entry per uuid, the entry at any position is the one found under its uuid. */
  lemma {:induction false} FindAt(entries: seq<ServerItem>, i: int)
    requires UniqueUuids(entries) && 0 <= i < |entries|
    ensures Find(entries, entries[i].uuid) == Some(entries[i])
    ensures FindIndex(entries, entries[i].uuid) == i
  {
    if i > 0 {
      FindAt(entries[1..], i - 1);
      assert entries[1..][i - 1] == entries[i];
    }
  }

  /** `entries[uuid] = item`: overwrite in place, or add. */
  function Put(entries: seq<ServerItem>, item: ServerItem): seq<ServerItem> {
    var i := FindIndex(entries, item.uuid);
    if i == -1 then entries + [item] else entries[i := item]
  }

  /** `entries.erase(uuid)`: the entry with that uuid taken out. */
  function Remove(entries: seq<ServerItem>, uuid: string): seq<ServerItem> {
    if |entries| == 0 then []
    else if entries[0].uuid == uuid then entries[1..]
    else [entries[0]] + Remove(entries[1..], uuid)
  }

  /** Replacing the entry at position i by one with the same uuid. */
  lemma {:induction false} FindAfterReplace(entries: seq<ServerItem>, i: int, item: ServerItem, u: string)
    requires UniqueUuids(entries) && 0 <= i < |entries| && entries[i].uuid == item.uuid
    ensures UniqueUuids(entries[i := item])
    ensures Find(entries[i := item], u) == if u == item.uuid then Some(item) else Find(entries, u)
  {
    var e := entries[i := item];
    assert forall j :: 0 <= j < |e| ==> e[j].uuid == entries[j].uuid;
    FindAt(e, i);
    if u != item.uuid {
      FindSameUuids(entries, e, u);
    }
  }

  /** Two lists with the same uuids, agreeing away from `u`'s... position: lookups of other uuids agree. */
  lemma {:induction false} FindSameUuids(a: seq<ServerItem>, b: seq<ServerItem>, u: string)
    requires |a| == |b| && forall j :: 0 <= j < |a| ==> a[j].uuid == b[j].uuid && (a[j].uuid == u ==> a[j] == b[j])
    ensures Find(a, u) == Find(b, u)
  {
    if |a| > 0 {
      FindSameUuids(a[1..], b[1..], u);
    }
  }

  lemma {:induction false} FindAppend(a: seq<ServerItem>, b: seq<ServerItem>, u: string)
    ensures Find(a + b, u) == if Find(a, u).Some? then Find(a, u) else Find(b, u)
  {
    if |a| > 0 {
      assert (a + b)[1..] == a[1..] + b;
      FindAppend(a[1..], b, u);
    } else {
      assert a + b == b;
    }
  }

  /** After Put the item is found under its uuid and every other lookup is unchanged. */
  lemma PutMeaning(entries: seq<ServerItem>, item: ServerItem, u: string)
    requires UniqueUuids(entries)
    ensures UniqueUuids(Put(entries, item))
    ensures Find(Put(entries, item), u) == if u == item.uuid then Some(item) else Find(entries, u)
  {
    var i := FindIndex(entries, item.uuid);
    if i == -1 {
      FindAppend(entries, [item], u);
    } else {
      FindAfterReplace(entries, i, item, u);
    }
  }

  /** After Remove the uuid is gone and every other lookup is unchanged. */
  lemma {:induction false} RemoveMeaning(entries: seq<ServerItem>, uuid: string, u: string)
    requires UniqueUuids(entries)
    ensures UniqueUuids(Remove(entries, uuid))
    ensures Find(Remove(entries, uuid), u) == if u == uuid then None else Find(entries, u)
  {
    if |entries| > 0 {
      RemoveMeaning(entries[1..], uuid, u);
      var rest := Remove(entries[1..], uuid);
      if entries[0].uuid != uuid {
        RemoveMeaning(entries[1..], uuid, entries[0].uuid);
        var e := [entries[0]] + rest;
        assert e[1..] == rest;
        forall i, j | 0 <= i < j < |e|
          ensures e[i].uuid != e[j].uuid
        {
          if i == 0 {
            assert Find(rest, entries[0].uuid).None?;
          }
        }
      } else {
        assert Find(entries[1..], uuid).None?;
      }
    }
  }

  // ---------------------------------------------------------------- listing

  predicate SortedById(s: seq<ServerItem>) {
    forall i, j :: 0 <= i < j < |s| ==> s[i].id <= s[j].id
  }

  function InsertById(x: ServerItem, s: seq<ServerItem>): seq<ServerItem> {
    if |s| == 0 || x.id <= s[0].id then [x] + s else [s[0]] + InsertById(x, s[1..])
  }

  /** Ascending id; the order among equal ids is whatever std::sort leaves, here the list order. */
  function SortById(s: seq<ServerItem>): seq<ServerItem> {
    if |s| == 0 then [] else InsertById(s[0], SortById(s[1..]))
  }

  lemma {:induction false} InsertSorted(x: ServerItem, s: seq<ServerItem>)
    requires SortedById(s)
    ensures var r := InsertById(x, s);
      SortedById(r) && |r| > 0 && (r[0] == x || (|s| > 0 && r[0] == s[0]))
  {
    if |s| > 0 && x.id > s[0].id {
      InsertSorted(x, s[1..]);
      var t := InsertById(x, s[1..]);
      var r := [s[0]] + t;
      assert s[0].id <= t[0].id;
      forall i, j | 0 <= i < j < |r|
        ensures r[i].id <= r[j].id
      {
        if i == 0 {
          assert t[0].id <= r[j].id;
        } else {
          assert r[i] == t[i - 1] && r[j] == t[j - 1];
        }
      }
    }
  }

  lemma {:induction false} InsertMultiset(x: ServerItem, s: seq<ServerItem>)
    ensures multiset(InsertById(x, s)) == multiset(s) + multiset{x}
  {
    if |s| > 0 && x.id > s[0].id {
      InsertMultiset(x, s[1..]);
      assert s == [s[0]] + s[1..];
    }
  }

  /** The listing is sorted by id and holds each entry exactly once. */
  lemma {:induction false} SortMeaning(s: seq<ServerItem>)
    ensures SortedById(SortById(s)) && multiset(SortById(s)) == multiset(s)
  {
    if |s| > 0 {
      SortMeaning(s[1..]);
      InsertSorted(s[0], SortById(s[1..]));
      InsertMultiset(s[0], SortById(s[1..]));
      assert s == [s[0]] + s[1..];
    }
  }

  /** Inserting an item whose uuid is new: it is found under its uuid, the rest as before. */
  lemma {:induction false} InsertFind(x: ServerItem, s: seq<ServerItem>, u: string)
    requires UniqueUuids(s) && Find(s, x.uuid).None?
    ensures UniqueUuids(InsertById(x, s))
    ensures Find(InsertById(x, s), u) == if u == x.uuid then Some(x) else Find(s, u)
  {
    if |s| > 0 && x.id > s[0].id {
      InsertFind(x, s[1..], u);
      InsertFind(x, s[1..], s[0].uuid);
      var t := InsertById(x, s[1..]);
      var e := [s[0]] + t;
      assert e[1..] == t;
      forall i, j | 0 <= i < j < |e|
        ensures e[i].uuid != e[j].uuid
      {
        if i == 0 {
          assert Find(t, s[0].uuid).None?;
        }
      }
    } else {
      var e := [x] + s;
      assert e[1..] == s;
    }
  }

  /** Sorting keeps one entry per uuid and every lookup. */
  lemma {:induction false} SortFind(s: seq<ServerItem>, u: string)
    requires UniqueUuids(s)
    ensures UniqueUuids(SortById(s)) && Find(SortById(s), u) == Find(s, u)
  {
    if |s| > 0 {
      SortFind(s[1..], u);
      SortFind(s[1..], s[0].uuid);
      InsertFind(s[0], SortById(s[1..]), u);
    }
  }

  /** The entries not soft-deleted, in order. */
  function Live(s: seq<ServerItem>): (r: seq<ServerItem>)
    ensures forall x :: x in r <==> x in s && !x.deleted
  {
    if |s| == 0 then [] else (if s[0].deleted then [] else [s[0]]) + Live(s[1..])
  }

  datatype Listing = Listing(servers: seq<ServerItem>, registry: Registry)

  /** getServers: re-sort when dirty, then all entries or only the live ones. */
  function GetServers(r: Registry, includeDeleted: bool): Listing {
    var r1 := if r.dirty then Registry(r.entries, false, SortById(r.entries)) else r;
    Listing(if includeDeleted then r1.cache else Live(r1.cache), r1)
  }

  /**
   * The full listing is the entries sorted by id; without deleted entries it
   * is the same listing with those left out. The entries themselves do not
   * change.
   */
  lemma GetServersMeaning(r: Registry, includeDeleted: bool)
    requires Valid(r)
    ensures var l := GetServers(r, includeDeleted);
      && Valid(l.registry) && l.registry.entries == r.entries
      && (includeDeleted ==> SortedById(l.servers) && multiset(l.servers) == multiset(r.entries))
      && (!includeDeleted ==> l.servers == Live(GetServers(r, true).servers))
  {
    SortMeaning(r.entries);
  }

  /** getServerByUuid: the stored entry, or the default (invalid) item. */
  function GetServerByUuid(r: Registry, uuid: string): ServerItem {
    Find(r.entries, uuid).GetOr(Default)
  }

  lemma GetServerByUuidMeaning(r: Registry, uuid: string)
    ensures IsValid(GetServerByUuid(r, uuid)) ==> Find(r.entries, uuid).Some?
    ensures Find(r.entries, uuid).None? ==> GetServerByUuid(r, uuid) == Default
  {
  }

  // ---------------------------------------------------------------- changes

  /** What an editing call returns and the registry it leaves. */
  datatype Change = Change(result: bool, registry: Registry)

  /** deleteServer: an unknown uuid is refused; otherwise mark, unmark or erase. */
  function DeleteServer(r: Registry, uuid: string, action: DeleteType): Change {
    var i := FindIndex(r.entries, uuid);
    if i == -1 then Change(false, r)
    else
      var entries :=
        match action
        case PlainDelete => r.entries[i := r.entries[i].(deleted := true)]
        case Restore => r.entries[i := r.entries[i].(deleted := false)]
        case PermanentDelete => Remove(r.entries, uuid);
      Change(true, Registry(entries, true, r.cache))
  }

  lemma DeleteServerMeaning(r: Registry, uuid: string, action: DeleteType, u: string)
    requires Valid(r)
    ensures var c := DeleteServer(r, uuid, action); var prev := Find(r.entries, uuid);
      && Valid(c.registry)
      && (c.result <==> prev.Some?)
      && (prev.None? ==> c.registry == r)
      && (u != uuid ==> Find(c.registry.entries, u) == Find(r.entries, u))
      && (prev.Some? ==> (
            Find(c.registry.entries, uuid) ==
              match action
              case PlainDelete => Some(prev.value.(deleted := true))
              case Restore => Some(prev.value.(deleted := false))
              case PermanentDelete => None))
  {
    var i := FindIndex(r.entries, uuid);
    if i >= 0 {
      match action
      case PlainDelete =>
        FindAfterReplace(r.entries, i, r.entries[i].(deleted := true), u);
        FindAfterReplace(r.entries, i, r.entries[i].(deleted := true), uuid);
      case Restore =>
        FindAfterReplace(r.entries, i, r.entries[i].(deleted := false), u);
        FindAfterReplace(r.entries, i, r.entries[i].(deleted := false), uuid);
      case PermanentDelete =>
        RemoveMeaning(r.entries, uuid, u);
        RemoveMeaning(r.entries, uuid, uuid);
    }
  }

  /** The id a new server gets: one past the last id of the sorted listing, or 1 for an empty set. */
  function NextId(known: seq<ServerItem>): int {
    if |known| > 0 then known[|known| - 1].id + 1 else 1
  }

  /** addServer: a valid item is stored under its uuid with the next id; the result is the dirty flag. */
  function AddServer(r: Registry, item: ServerItem): Change {
    if IsValid(item) then
      var l := GetServers(r, true);
      var copy := item.(id := NextId(l.servers));
      Change(true, Registry(Put(l.registry.entries, copy), true, l.registry.cache))
    else Change(r.dirty, r)
  }

  /** The last id of a sorted listing of the entries is their largest. */
  lemma NextIdIsMax(entries: seq<ServerItem>)
    ensures var n := NextId(SortById(entries));
      && (forall i :: 0 <= i < |entries| ==> entries[i].id < n)
      && (|entries| > 0 ==> exists i :: 0 <= i < |entries| && entries[i].id == n - 1)
      && (|entries| == 0 ==> n == 1)
  {
    var s := SortById(entries);
    SortMeaning(entries);
    forall i | 0 <= i < |entries|
      ensures entries[i].id < NextId(s)
    {
      SortedBelowLast(entries, s, i);
    }
    if |entries| > 0 {
      assert |s| == |entries| by {
        assert |multiset(s)| == |multiset(entries)|;
      }
      assert s[|s| - 1] in multiset(entries);
      var k :| 0 <= k < |entries| && entries[k] == s[|s| - 1];
    }
  }

  lemma SortedBelowLast(entries: seq<ServerItem>, s: seq<ServerItem>, i: int)
    requires SortedById(s) && multiset(s) == multiset(entries) && 0 <= i < |entries|
    ensures |s| > 0 && entries[i].id <= s[|s| - 1].id
  {
    assert entries[i] in multiset(s);
    var j :| 0 <= j < |s| && s[j] == entries[i];
  }

  /**
   * A valid item is stored, under its uuid, with every field copied except
   * the id, which is one more than the largest id stored (1 for an empty
   * set); nothing else changes. An invalid item changes nothing and the
   * call reports the current dirty flag.
   */
  lemma AddServerMeaning(r: Registry, item: ServerItem, u: string)
    requires Valid(r)
    ensures var c := AddServer(r, item);
      && Valid(c.registry)
      && (!IsValid(item) ==> c == Change(r.dirty, r))
      && (IsValid(item) ==>
            && c.result
            && (u != item.uuid ==> Find(c.registry.entries, u) == Find(r.entries, u))
            && var stored := Find(c.registry.entries, item.uuid);
               && stored.Some? && stored.value.(id := item.id) == item
               && (forall i :: 0 <= i < |r.entries| ==> r.entries[i].id < stored.value.id)
               && (|r.entries| == 0 ==> stored.value.id == 1))
  {
    if IsValid(item) {
      var l := GetServers(r, true);
      var copy := item.(id := NextId(l.servers));
      NextIdIsMax(r.entries);
      PutMeaning(r.entries, copy, u);
      PutMeaning(r.entries, copy, item.uuid);
    }
  }

  /** updateServer: only the four editable fields of an existing entry change. */
  function UpdateServer(r: Registry, item: ServerItem): Change {
    var i := FindIndex(r.entries, item.uuid);
    if i == -1 then Change(r.dirty, r)
    else
      var e := r.entries[i];
      var updated := e.(serverName := item.serverName, accessKey := item.accessKey,
                        secretKey := item.secretKey, hostPath := item.hostPath);
      Change(true, Registry(r.entries[i := updated], true, r.cache))
  }

  lemma UpdateServerMeaning(r: Registry, item: ServerItem, u: string)
    requires Valid(r)
    ensures var c := UpdateServer(r, item); var prev := Find(r.entries, item.uuid);
      && Valid(c.registry)
      && (prev.None? ==> c == Change(r.dirty, r))
      && (u != item.uuid ==> Find(c.registry.entries, u) == Find(r.entries, u))
      && (prev.Some? ==>
            && c.result
            && Find(c.registry.entries, item.uuid) == Some(prev.value.(
                 serverName := item.serverName, accessKey := item.accessKey,
                 secretKey := item.secretKey, hostPath := item.hostPath)))
  {
    var i := FindIndex(r.entries, item.uuid);
    if i >= 0 {
      var e := r.entries[i];
      var updated := e.(serverName := item.serverName, accessKey := item.accessKey,
                        secretKey := item.secretKey, hostPath := item.hostPath);
      FindAfterReplace(r.entries, i, updated, u);
      FindAfterReplace(r.entries, i, updated, item.uuid);
    }
  }

  // ---------------------------------------------------------------- the file

  /** Storing each item in turn, so a later one with the same uuid wins. */
  function PutAll(entries: seq<ServerItem>, items: seq<ServerItem>): seq<ServerItem>
    decreases |items|
  {
    if |items| == 0 then entries else PutAll(Put(entries, items[0]), items[1..])
  }

  /** The last item with the uuid, if any. */
  function LastWithUuid(items: seq<ServerItem>, u: string): Option<ServerItem>
    decreases |items|
  {
    if |items| == 0 then None
    else if items[|items| - 1].uuid == u then Some(items[|items| - 1])
    else LastWithUuid(items[..|items| - 1], u)
  }

  lemma {:induction false} LastWithUuidCons(x: ServerItem, items: seq<ServerItem>, u: string)
    ensures LastWithUuid([x] + items, u) ==
      if LastWithUuid(items, u).Some? then LastWithUuid(items, u) else if x.uuid == u then Some(x) else None
    decreases |items|
  {
    var xs := [x] + items;
    if |items| > 0 {
      assert xs[..|xs| - 1] == [x] + items[..|items| - 1];
      LastWithUuidCons(x, items[..|items| - 1], u);
    } else {
      assert xs[..|xs| - 1] == [];
    }
  }

  /** A lookup after storing a list of items finds the last of them with that uuid, else the old entry. */
  lemma {:induction false} PutAllMeaning(entries: seq<ServerItem>, items: seq<ServerItem>, u: string)
    requires UniqueUuids(entries)
    ensures UniqueUuids(PutAll(entries, items))
    ensures Find(PutAll(entries, items), u) ==
      if LastWithUuid(items, u).Some? then LastWithUuid(items, u) else Find(entries, u)
    decreases |items|
  {
    if |items| > 0 {
      PutMeaning(entries, items[0], u);
      PutAllMeaning(Put(entries, items[0]), items[1..], u);
      assert items == [items[0]] + items[1..];
      LastWithUuidCons(items[0], items[1..], u);
    }
  }

  /** serialize: the full sorted listing, one object per server. */
  function Serialize(r: Registry): Value {
    var servers := GetServers(r, true).servers;
    Array(seq(|servers|, i requires 0 <= i < |servers| => Object(ServerItems.Serialize(servers[i]))))
  }

  /** parseJSONList: the items of the document's array, or none on a parse error. */
  function ParseList(doc: Document): seq<ServerItem> {
    var arr := DocArray(doc);
    seq(|arr|, i requires 0 <= i < |arr| => ServerItems.Deserialize(ToObject(arr[i])))
  }

  /** deserialize: store every parsed item by uuid, into an emptied set unless asked to merge. */
  function Deserialize(r: Registry, doc: Document, clearServers: bool): Registry {
    Registry(PutAll(if clearServers then [] else r.entries, ParseList(doc)), true, r.cache)
  }

  lemma DeserializeMeaning(r: Registry, doc: Document, clearServers: bool, u: string)
    requires Valid(r)
    ensures var d := Deserialize(r, doc, clearServers); var last := LastWithUuid(ParseList(doc), u);
      && Valid(d)
      && (last.Some? ==> Find(d.entries, u) == last)
      && (last.None? ==> Find(d.entries, u) == if clearServers then None else Find(r.entries, u))
  {
    PutAllMeaning(if clearServers then [] else r.entries, ParseList(doc), u);
  }

  /** In a list with one item per uuid, the last item with a uuid is the only one. */
  lemma {:induction false} LastIsFind(items: seq<ServerItem>, u: string)
    requires UniqueUuids(items)
    ensures LastWithUuid(items, u) == Find(items, u)
    decreases |items|
  {
    if |items| > 0 {
      LastIsFind(items[1..], u);
      assert items == [items[0]] + items[1..];
      LastWithUuidCons(items[0], items[1..], u);
      if items[0].uuid == u {
        assert Find(items[1..], u).None?;
      }
    }
  }

  /**
   * Writing the servers file and reading it back gives every server under
   * its uuid exactly as it was: the file round trip loses nothing.
   */
  lemma FileRoundTrip(r: Registry, u: string)
    requires Valid(r)
    requires forall i :: 0 <= i < |r.entries| ==> InInt32(r.entries[i].id)
    ensures Find(Deserialize(Empty, Parsed(Serialize(r)), true).entries, u) == Find(r.entries, u)
  {
    var servers := GetServers(r, true).servers;
    SortMeaning(r.entries);
    var parsed := ParseList(Parsed(Serialize(r)));
    assert parsed == servers by {
      forall i | 0 <= i < |servers|
        ensures parsed[i] == servers[i]
      {
        assert servers[i] in multiset(r.entries);
        var k :| 0 <= k < |r.entries| && r.entries[k] == servers[i];
        ServerItems.RoundTrip(servers[i]);
      }
    }
    SortFind(r.entries, u);
    PutAllMeaning([], parsed, u);
    LastIsFind(servers, u);
  }
}

=== FILE: string_helpers.dfy ===
/**
 * StringHelpers: random alphanumeric strings and the test that an
 * operation slug is safe to use as a path component.
 */
module StringHelpers {
  import opened Text

  /** The size of the alphabet random strings are drawn from. */
  const AlphabetSize: nat := 62

  /** The k-th character of "0-9A-Za-z", the alphabet random strings are drawn from. */
  function Alphanumeric(k: nat): (c: char)
    requires k < AlphabetSize
  {
    if k < 10 then ('0' as int + k) as char
    else if k < 36 then ('A' as int + (k - 10)) as char
    else ('a' as int + (k - 36)) as char
  }

  /** The position of an ASCII letter or digit in the alphabet. */
  function AlphanumericIndex(c: char): (k: nat)
    requires IsAsciiAlnum(c)
    ensures k < AlphabetSize && Alphanumeric(k) == c
  {
    if IsDigit(c) then c as int - '0' as int
    else if IsAsciiUpper(c) then c as int - 'A' as int + 10
    else c as int - 'a' as int + 36
  }

  lemma AlphanumericIsAlnum(k: nat)
    requires k < AlphabetSize
    ensures IsAsciiAlnum(Alphanumeric(k))
  {
  }

  /** Draws of QRandomGenerator::bounded(n): each below n. */
  predicate Draws(draws: seq<nat>, n: nat) {
    forall i :: 0 <= i < |draws| ==> draws[i] < n
  }

  /**
   * randomString: one alphabet character per draw; a non-positive length
   * gives the empty string, because the loop never runs.
   */
  function RandomString(numberOfChars: int, draws: seq<nat>): (r: string)
    requires |draws| >= numberOfChars && Draws(draws, AlphabetSize)
  {
    if numberOfChars <= 0 then ""
    else seq(numberOfChars, i requires 0 <= i < numberOfChars => Alphanumeric(draws[i]))
  }

  /** The length asked for (the default is 6), every character an ASCII letter or digit. */
  lemma RandomStringShape(numberOfChars: int, draws: seq<nat>)
    requires |draws| >= numberOfChars && Draws(draws, AlphabetSize)
    ensures var r := RandomString(numberOfChars, draws);
      |r| == (if numberOfChars < 0 then 0 else numberOfChars)
      && forall i :: 0 <= i < |r| ==> IsAsciiAlnum(r[i])
  {
    var r := RandomString(numberOfChars, draws);
    forall i | 0 <= i < |r|
      ensures IsAsciiAlnum(r[i])
    {
      AlphanumericIsAlnum(draws[i]);
    }
  }

  /** Every alphanumeric string can come out, so the alphabet is exactly the 62 letters and digits. */
  lemma RandomStringReachesAll(s: string)
    requires forall i :: 0 <= i < |s| ==> IsAsciiAlnum(s[i])
    ensures var draws := seq(|s|, i requires 0 <= i < |s| => AlphanumericIndex(s[i]));
      Draws(draws, AlphabetSize) && RandomString(|s|, draws) == s
  {
  }

  // ---------------------------------------------------------------- operation slugs

  const MaxSlugLength: nat := 128

  predicate SlugChar(c: char) {
    IsAsciiAlnum(c) || c == '_' || c == '-'
  }

  predicate AllSlugChars(s: string) {
    forall i :: 0 <= i < |s| ==> SlugChar(s[i])
  }

  /**
   * "^[a-zA-Z0-9_-]+$" as QRegularExpression matches it: without
   * DollarEndOnlyOption, "$" also matches just before a final newline.
   */
  predicate PatternMatchesAsWritten(s: string) {
    (|s| > 0 && AllSlugChars(s))
    || (|s| > 1 && s[|s| - 1] == '\n' && AllSlugChars(s[..|s| - 1]))
  }

  /** The pattern as the comment beside it means it: the whole text is slug characters. */
  predicate PatternMatches(s: string) {
    |s| > 0 && AllSlugChars(s)
  }

  /** The traversal checks: no "..", no "/" and no "\". */
  predicate HasTraversal(s: string) {
    Contains(s, "..") || Contains(s, "/") || Contains(s, "\\")
  }

  /** isValidOperationSlug as written. */
  predicate IsValidOperationSlugAsWritten(slug: string) {
    !(slug == "" || |slug| > MaxSlugLength) && PatternMatchesAsWritten(slug) && !HasTraversal(slug)
  }

  /** isValidOperationSlug with the pattern anchored at the very end. */
  predicate IsValidOperationSlug(slug: string) {
    !(slug == "" || |slug| > MaxSlugLength) && PatternMatches(slug) && !HasTraversal(slug)
  }

  /** A pattern whose first character never occurs in the text does not occur in it. */
  lemma AbsentFirstChar(s: string, p: string)
    requires |p| > 0 && p[0] !in s
    ensures !Contains(s, p)
  {
    forall j
      ensures !OccursAt(s, p, j)
    {
      if 0 <= j && j + |p| <= |s| {
        assert s[j..j + |p|][0] == s[j];
        assert s[j] in s;
      }
    }
  }

  lemma SlugCharsHaveNoTraversal(s: string)
    requires forall i :: 0 <= i < |s| ==> SlugChar(s[i]) || s[i] == '\n'
    ensures !HasTraversal(s)
  {
    AbsentFirstChar(s, "..");
    AbsentFirstChar(s, "/");
    AbsentFirstChar(s, "\\");
  }

  /**
   * The traversal checks add nothing to the pattern: a slug is valid
   * exactly when it has 1 to 128 characters, all letters, digits, '_' or '-'.
   */
  lemma ValidSlugMeaning(slug: string)
    ensures IsValidOperationSlug(slug) <==> 1 <= |slug| <= MaxSlugLength && AllSlugChars(slug)
  {
    if AllSlugChars(slug) {
      SlugCharsHaveNoTraversal(slug);
    }
  }

  /** As written, isValidOperationSlug accepts every valid slug and, besides, a valid slug plus one final newline. */
  lemma AsWrittenMeaning(slug: string)
    ensures IsValidOperationSlugAsWritten(slug) <==>
      IsValidOperationSlug(slug)
      || (|slug| <= MaxSlugLength && |slug| > 1 && slug[|slug| - 1] == '\n' && IsValidOperationSlug(slug[..|slug| - 1]))
  {
    ValidSlugMeaning(slug);
    if |slug| > 1 && slug[|slug| - 1] == '\n' {
      var init := slug[..|slug| - 1];
      ValidSlugMeaning(init);
      if AllSlugChars(init) {
        assert slug == init + "\n";
        SlugCharsHaveNoTraversal(init);
        NewlineAddsNoTraversal(init);
        assert PatternMatchesAsWritten(slug) && !HasTraversal(slug);
        assert !SlugChar(slug[|slug| - 1]) && !AllSlugChars(slug);
        assert IsValidOperationSlug(init) <==> |init| <= MaxSlugLength;
      }
    }
  }

  lemma NewlineAddsNoTraversal(s: string)
    requires AllSlugChars(s)
    ensures !HasTraversal(s + "\n")
  {
    var t := s + "\n";
    assert forall i :: 0 <= i < |t| ==> t[i] == '\n' || SlugChar(t[i]);
    SlugCharsHaveNoTraversal(t);
  }

  /** "abc\n" passes isValidOperationSlug as written although a newline is not a slug character. */
  lemma TrailingNewlineAccepted()
    ensures IsValidOperationSlugAsWritten("abc\n")
    ensures !IsValidOperationSlug("abc\n")
  {
    var s := "abc\n";
    assert s[..|s| - 1] == "abc";
    assert AllSlugChars("abc");
    NewlineAddsNoTraversal("abc");
    assert !SlugChar(s[3]);
  }
}

=== FILE: system_manifest.dfy ===
/**
 * The system manifest of an export: where the exported configuration,
 * database and evidence manifest sit, how an export fills it in and copies
 * the evidence files, and how an import applies it and migrates the
 * exported evidence into the running database.
 *
 * The file system, the databases and the random names are parameters: the
 * outcome of each copy, the rows of the exported database, and the token
 * drawn for each new file name.
 */
module SystemManifests {
  import opened Wrappers
  import opened Json
  import opened Text
  import opened Models
  import opened EvidenceManifests
  import EvidenceFilter
  import PortingOptions
  import Codeblocks
  import Screenshots

  /**
   * The manifest's fields: the exporting system's kernel type, the paths of
   * the database, configuration, servers file and evidence manifest
   * relative to the export directory, and the manifest's own location.
   */
  datatype SystemManifest = SystemManifest(
    os: string,
    dbPath: string,
    configPath: string,
    serversPath: string,
    evidenceManifestPath: string,
    pathToManifest: string)

  /** A default-constructed manifest: every field empty. */
  const Fresh: SystemManifest := SystemManifest("", "", "", "", "", "")

  const KeyOs: string := "operatingSystem"
  const KeyDb: string := "databasePath"
  const KeyConfig: string := "configPath"
  const KeyServers: string := "serversPath"
  const KeyEvidence: string := "evidenceManifestPath"

  /** serialize: the five path fields; the manifest's own location is not written. */
  function Serialize(m: SystemManifest): (o: Obj)
    ensures o.Keys == {KeyOs, KeyDb, KeyConfig, KeyServers, KeyEvidence}
  {
    map[KeyOs := Str(m.os), KeyDb := Str(m.dbPath), KeyConfig := Str(m.configPath),
        KeyServers := Str(m.serversPath), KeyEvidence := Str(m.evidenceManifestPath)]
  }

  /** deserialize: each field through toString, so a missing or non-text member reads as "". */
  function Deserialize(o: Obj): SystemManifest {
    SystemManifest(ToStr(Get(o, KeyOs)), ToStr(Get(o, KeyDb)), ToStr(Get(o, KeyConfig)),
                   ToStr(Get(o, KeyServers)), ToStr(Get(o, KeyEvidence)), "")
  }

  /** Every written field reads back; an empty object reads as the fresh manifest. */
  lemma RoundTrip(m: SystemManifest)
    ensures Deserialize(Serialize(m)) == m.(pathToManifest := "")
    ensures Deserialize(map[]) == Fresh
  {
    assert |KeyOs| == 15 && |KeyDb| == 12 && |KeyConfig| == 10 && |KeyServers| == 11 && |KeyEvidence| == 20;
  }

  /** pathToFile: a file named relative to the manifest's directory. */
  function PathToFile(m: SystemManifest, filename: string): string {
    m.pathToManifest + "/" + filename
  }

  // ---------------------------------------------------------------- file names

  /** contentSensitiveExtension: the extension each evidence kind uses, ".bin" otherwise. */
  function ContentSensitiveExtension(contentType: string): string {
    if contentType == Codeblocks.ContentType then Codeblocks.Extension
    else if contentType == Screenshots.ContentType then Screenshots.Extension
    else ".bin"
  }

  /**
   * contentSensitiveFilename: the evidence kind's own random name, or
   * "ashirt_unknown_type_<token>.bin"; `token` is the drawn random string.
   */
  function ContentSensitiveFilename(contentType: string, token: string): string {
    if contentType == Codeblocks.ContentType then Codeblocks.MkName(token)
    else if contentType == Screenshots.ContentType then Screenshots.MkName(token)
    else "ashirt_unknown_type_" + token + ".bin"
  }

  /** The name copyEvidence gives an exported file: "ashirt_evidence_<token>.<extension>". */
  function ExportName(token: string, contentType: string): string {
    "ashirt_evidence_" + token + "." + ContentSensitiveExtension(contentType)
  }

  predicate KnownType(contentType: string) {
    contentType == Codeblocks.ContentType || contentType == Screenshots.ContentType
  }

  /**
   * For code blocks and screenshots the import name and the export name end
   * in the same ".json" or ".png"; for any other kind the import name ends in
   * ".bin" while the export name, which adds its own dot to the ".bin"
   * extension, ends in "..bin".
   */
  lemma NamesAgree(contentType: string, token: string, token2: string)
    ensures contentType == Codeblocks.ContentType ==>
      ContentSensitiveExtension(contentType) == "json"
      && EndsWith(ContentSensitiveFilename(contentType, token), ".json")
      && EndsWith(ExportName(token2, contentType), ".json")
    ensures contentType == Screenshots.ContentType ==>
      ContentSensitiveExtension(contentType) == "png"
      && EndsWith(ContentSensitiveFilename(contentType, token), ".png")
      && EndsWith(ExportName(token2, contentType), ".png")
    ensures !KnownType(contentType) ==>
      ContentSensitiveExtension(contentType) == ".bin"
      && EndsWith(ContentSensitiveFilename(contentType, token), ".bin")
    ensures !KnownType(contentType) ==> EndsWith(ExportName(token2, contentType), "..bin")
  {
    Codeblocks.MkNameShape(token);
    Screenshots.MkNameShape(token);
  }

  // ---------------------------------------------------------------- import

  /** What applyManifest sets off: the configuration file to import, if any, and whether evidence is migrated. */
  datatype ApplySteps = ApplySteps(importConfigFrom: Option<string>, migrateDb: bool)

  /**
   * applyManifest as written: the configuration is imported when asked for
   * and the manifest names a configuration file, and the name is handed on
   * as stored, relative, so it resolves against the working directory
   * rather than the manifest's; the database is migrated when merging was
   * asked for and the manifest names a database. Completion is signalled in
   * every case.
   */
  function ApplyManifestAsWritten(options: PortingOptions.ImportOptions, m: SystemManifest): ApplySteps {
    ApplySteps(
      if options.importConfig && m.configPath != "" then Some(m.configPath) else None,
      options.importDb == PortingOptions.Merge && m.dbPath != "")
  }

  /**
   * applyManifest with the configuration file located next to the manifest,
   * as the database and evidence manifest are (through pathToFile).
   */
  function ApplyManifest(options: PortingOptions.ImportOptions, m: SystemManifest): ApplySteps {
    ApplySteps(
      if options.importConfig && m.configPath != "" then Some(PathToFile(m, m.configPath)) else None,
      options.importDb == PortingOptions.Merge && m.dbPath != "")
  }

  lemma ApplyMeaning(options: PortingOptions.ImportOptions, m: SystemManifest)
    ensures var steps := ApplyManifest(options, m);
      && (steps.importConfigFrom.Some? <==> options.importConfig && m.configPath != "")
      && (steps.importConfigFrom.Some? ==> steps.importConfigFrom.value == m.pathToManifest + "/" + m.configPath)
      && (steps.migrateDb <==> options.importDb == PortingOptions.Merge && m.dbPath != "")
      && (!PortingOptions.ImportIncludesAnything(options) ==> steps == ApplySteps(None, false))
      && (m.configPath == "" && m.dbPath == "" ==> steps == ApplySteps(None, false))
  {
  }

  /**
   * As written, the configuration name is passed on unresolved; otherwise
   * the as-written and the corrected applyManifest take the same steps.
   */
  lemma ApplyAsWrittenMeaning(options: PortingOptions.ImportOptions, m: SystemManifest)
    ensures var steps := ApplyManifestAsWritten(options, m);
      && (steps.importConfigFrom.Some? <==> options.importConfig && m.configPath != "")
      && (steps.importConfigFrom.Some? ==> steps.importConfigFrom.value == m.configPath)
      && steps.migrateDb == ApplyManifest(options, m).migrateDb
      && (steps.importConfigFrom.Some? <==> ApplyManifest(options, m).importConfigFrom.Some?)
  {
  }

  /** A missing row: getEvidenceDetails reports it with id -1, no tags and every other field empty. */
  const MissingRecord: Evidence := Evidence(-1, "", "", "", "", "", EvidenceFilter.InvalidDate, EvidenceFilter.InvalidDate, [])

  /**
   * getEvidenceDetails on the exported database, given as its records by
   * id (each with the tags stored for it): the record with the asked-for id,
   * or the missing-record marker.
   */
  function Details(exportDb: map<int, Evidence>, id: int): (e: Evidence)
    ensures id in exportDb ==> e.id == id
    ensures id !in exportDb ==> e.id == -1
  {
    if id in exportDb then exportDb[id].(id := id) else MissingRecord
  }

  /** What migrating the evidence does: the rows created, the progress counts signalled, and where a copy failed. */
  datatype Migration = Migration(created: seq<Evidence>, progress: seq<int>, failedAt: Option<int>)

  /** The skip test: as written only id 0 is skipped; the corrected test also skips the missing-record id -1. */
  predicate Skip(id: int, asWritten: bool) {
    if asWritten then id == 0 else id <= 0
  }

  /** Where an imported file goes: "<evidence repo>/<operation slug>/<fresh name>". */
  function NewEvidencePath(repo: string, rec: Evidence, token: string): string {
    repo + "/" + rec.operationSlug + "/" + ContentSensitiveFilename(rec.contentType, token)
  }

  /**
   * migrateDb from entry `i` on: signal `i`, look the entry up, skip it on
   * the skip test, otherwise copy its file (`copied[i]` is whether that
   * worked) and stop at the first failure, or create the record with its
   * new path; a created record carries the tags that are then stored for
   * it. After the last entry the total is signalled. A created record keeps
   * the exported record's id: createFullEvidence inserts without an id, so
   * the stored row's own id comes from the running database.
   */
  function MigrateFrom(entries: seq<EvidenceItem>, exportDb: map<int, Evidence>, repo: string,
                       tokens: seq<string>, copied: seq<bool>, i: nat, asWritten: bool): Migration
    requires i <= |entries| && |tokens| >= |entries| && |copied| >= |entries|
    decreases |entries| - i
  {
    if i == |entries| then Migration([], [|entries|], None)
    else
      var rec := Details(exportDb, entries[i].evidenceId);
      if Skip(rec.id, asWritten) then
        var rest := MigrateFrom(entries, exportDb, repo, tokens, copied, i + 1, asWritten);
        rest.(progress := [i] + rest.progress)
      else if !copied[i] then Migration([], [i], Some(i))
      else
        var rest := MigrateFrom(entries, exportDb, repo, tokens, copied, i + 1, asWritten);
        Migration([rec.(path := NewEvidencePath(repo, rec, tokens[i]))] + rest.created, [i] + rest.progress, rest.failedAt)
  }

  /** migrateDb as written. */
  function MigrateDbAsWritten(entries: seq<EvidenceItem>, exportDb: map<int, Evidence>, repo: string,
                              tokens: seq<string>, copied: seq<bool>): Migration
    requires |tokens| >= |entries| && |copied| >= |entries|
  {
    MigrateFrom(entries, exportDb, repo, tokens, copied, 0, true)
  }

  /** migrateDb with the corrected skip test. */
  function MigrateDb(entries: seq<EvidenceItem>, exportDb: map<int, Evidence>, repo: string,
                     tokens: seq<string>, copied: seq<bool>): Migration
    requires |tokens| >= |entries| && |copied| >= |entries|
  {
    MigrateFrom(entries, exportDb, repo, tokens, copied, 0, false)
  }

  /**
   * As written, a manifest entry with no row in the exported database is
   * not skipped: it is imported as an empty record with id -1 and an
   * unknown-type file name.
   */
  lemma MissingRecordImportedAsWritten(repo: string, token: string)
    ensures var m := MigrateDbAsWritten([EvidenceItem(7, "evidence/a.png")], map[], repo, [token], [true]);
      && |m.created| == 1 && m.created[0].id == -1
      && m.created[0].path == repo + "//ashirt_unknown_type_" + token + ".bin"
    ensures MigrateDb([EvidenceItem(7, "evidence/a.png")], map[], repo, [token], [true]).created == []
  {
  }

  /**
   * With the corrected test every created record is an exported record:
   * the exported record's id it carries is positive, has a row in the
   * exported database, and is the id of a manifest entry from `i` on; and
   * at most one record is created per entry.
   */
  lemma {:induction false} MigrateImportsOnlyFound(entries: seq<EvidenceItem>, exportDb: map<int, Evidence>, repo: string,
                                                   tokens: seq<string>, copied: seq<bool>, i: nat)
    requires i <= |entries| && |tokens| >= |entries| && |copied| >= |entries|
    ensures var m := MigrateFrom(entries, exportDb, repo, tokens, copied, i, false);
      && |m.created| <= |entries| - i
      && forall k :: 0 <= k < |m.created| ==>
           && m.created[k].id > 0 && m.created[k].id in exportDb
           && exists j :: i <= j < |entries| && entries[j].evidenceId == m.created[k].id
    decreases |entries| - i
  {
    if i < |entries| {
      MigrateImportsOnlyFound(entries, exportDb, repo, tokens, copied, i + 1);
    }
  }

  /** The entries from `i` on have a row with a positive id in the exported database. */
  predicate AllFound(entries: seq<EvidenceItem>, exportDb: map<int, Evidence>, i: nat) {
    forall j :: i <= j < |entries| ==> entries[j].evidenceId in exportDb && entries[j].evidenceId > 0
  }

  /**
   * When every entry is found and every copy works, each entry becomes one
   * record in order: the exported record, carrying the exported record's
   * id and its tags, differing only in a path under the evidence folder;
   * and no copy fails.
   */
  lemma {:induction false} MigrateAllFound(entries: seq<EvidenceItem>, exportDb: map<int, Evidence>, repo: string,
                                           tokens: seq<string>, copied: seq<bool>, i: nat)
    requires i <= |entries| && |tokens| >= |entries| && |copied| >= |entries|
    requires AllFound(entries, exportDb, i)
    requires forall j :: i <= j < |entries| ==> copied[j]
    ensures var m := MigrateFrom(entries, exportDb, repo, tokens, copied, i, false);
      && m.failedAt == None
      && |m.created| == |entries| - i
      && forall k :: 0 <= k < |m.created| ==>
           && m.created[k].id == entries[i + k].evidenceId && StartsWith(m.created[k].path, repo + "/")
           && m.created[k] == exportDb[entries[i + k].evidenceId].(id := m.created[k].id, path := m.created[k].path)
    decreases |entries| - i
  {
    if i < |entries| {
      MigrateAllFound(entries, exportDb, repo, tokens, copied, i + 1);
    }
  }

  /** Without skips or failures the progress signals count every index and then the total. */
  lemma {:induction false} MigrateProgress(entries: seq<EvidenceItem>, exportDb: map<int, Evidence>, repo: string,
                                           tokens: seq<string>, copied: seq<bool>, i: nat)
    requires i <= |entries| && |tokens| >= |entries| && |copied| >= |entries|
    requires forall j :: i <= j < |entries| ==> copied[j]
    ensures MigrateFrom(entries, exportDb, repo, tokens, copied, i, false).progress
      == seq(|entries| - i, k requires 0 <= k < |entries| - i => i + k) + [|entries|]
    decreases |entries| - i
  {
    if i < |entries| {
      MigrateProgress(entries, exportDb, repo, tokens, copied, i + 1);
      var m := MigrateFrom(entries, exportDb, repo, tokens, copied, i, false);
      var rest := MigrateFrom(entries, exportDb, repo, tokens, copied, i + 1, false);
      assert m.progress == [i] + rest.progress;
      var tail := seq(|entries| - (i + 1), k requires 0 <= k < |entries| - (i + 1) => i + 1 + k);
      assert seq(|entries| - i, k requires 0 <= k < |entries| - i => i + k) == [i] + tail;
  }
  }

  /** When every entry is found the two skip tests never fire, so the migration as written is the same. */
  lemma {:induction false} MigrateAgrees(entries: seq<EvidenceItem>, exportDb: map<int, Evidence>, repo: string,
                                         tokens: seq<string>, copied: seq<bool>, i: nat)
    requires i <= |entries| && |tokens| >= |entries| && |copied| >= |entries|
    requires AllFound(entries, exportDb, i)
    ensures MigrateFrom(entries, exportDb, repo, tokens, copied, i, true)
         == MigrateFrom(entries, exportDb, repo, tokens, copied, i, false)
    decreases |entries| - i
  {
    if i < |entries| {
      MigrateAgrees(entries, exportDb, repo, tokens, copied, i + 1);
    }
  }

  /** A copy failure stops the migration at that entry: nothing later is created and the total is not signalled. */
  lemma {:induction false} MigrateStopsAtFailure(entries: seq<EvidenceItem>, exportDb: map<int, Evidence>, repo: string,
                                                 tokens: seq<string>, copied: seq<bool>, i: nat, asWritten: bool)
    requires i <= |entries| && |tokens| >= |entries| && |copied| >= |entries|
    ensures var m := MigrateFrom(entries, exportDb, repo, tokens, copied, i, asWritten);
      && |m.progress| > 0
      && (m.failedAt.None? ==> m.progress[|m.progress| - 1] == |entries|)
      && (m.failedAt.Some? ==>
            && i <= m.failedAt.value < |entries| && !copied[m.failedAt.value]
            && m.progress[|m.progress| - 1] == m.failedAt.value)
    decreases |entries| - i
  {
    if i < |entries| {
      MigrateStopsAtFailure(entries, exportDb, repo, tokens, copied, i + 1, asWritten);
      var rest := MigrateFrom(entries, exportDb, repo, tokens, copied, i + 1, asWritten);
      LastOfCons(i, rest.progress);
    }
  }

  lemma LastOfCons(x: int, xs: seq<int>)
    requires |xs| > 0
    ensures ([x] + xs)[|[x] + xs| - 1] == xs[|xs| - 1]
  {
  }

  // ---------------------------------------------------------------- export

  /**
   * exportManifest on the manifest `m`: nothing happens when the options
   * include nothing, the output directory is empty or cannot be created
   * (`dirCreated`); otherwise the kernel type is recorded, the enabled
   * parts get their fixed file names, and the manifest is placed at
   * "<output>/system.json". The servers path is never set.
   */
  function ExportManifest(m: SystemManifest, options: PortingOptions.ExportOptions, outputDirPath: string,
                          kernelType: string, dirCreated: bool): Option<SystemManifest> {
    if !PortingOptions.ExportIncludesAnything(options) || outputDirPath == "" then None
    else if !dirCreated then None
    else
      var withConfig := if options.exportConfig then m.(configPath := "config.json") else m;
      var withDb := if options.exportDb then withConfig.(dbPath := "db.sqlite", evidenceManifestPath := "evidence.json")
                    else withConfig;
      Some(withDb.(os := kernelType, pathToManifest := outputDirPath + "/system.json"))
  }

  lemma ExportMeaning(m: SystemManifest, options: PortingOptions.ExportOptions, outputDirPath: string,
                      kernelType: string, dirCreated: bool)
    ensures var r := ExportManifest(m, options, outputDirPath, kernelType, dirCreated);
      && (r.None? <==> !PortingOptions.ExportIncludesAnything(options) || outputDirPath == "" || !dirCreated)
      && (r.Some? ==>
            && r.value.os == kernelType
            && r.value.configPath == (if options.exportConfig then "config.json" else m.configPath)
            && r.value.dbPath == (if options.exportDb then "db.sqlite" else m.dbPath)
            && r.value.evidenceManifestPath == (if options.exportDb then "evidence.json" else m.evidenceManifestPath)
            && r.value.serversPath == m.serversPath
            && r.value.pathToManifest == outputDirPath + "/system.json")
  {
  }

  /**
   * Exporting from a fresh manifest and importing the written file from the
   * same directory with the default import options imports the
   * configuration exactly when it was exported and migrates the evidence
   * exactly when the database was exported.
   */
  lemma ExportThenApply(options: PortingOptions.ExportOptions, outputDirPath: string, kernelType: string)
    requires PortingOptions.ExportIncludesAnything(options) && outputDirPath != ""
    ensures var written := ExportManifest(Fresh, options, outputDirPath, kernelType, true).value;
      var read := Deserialize(Serialize(written)).(pathToManifest := outputDirPath);
      var steps := ApplyManifest(PortingOptions.DefaultImport, read);
      && read.os == kernelType
      && (steps.importConfigFrom.Some? <==> options.exportConfig)
      && (options.exportConfig ==> steps.importConfigFrom.value == outputDirPath + "/config.json")
      && (steps.migrateDb <==> options.exportDb)
  {
    var written := ExportManifest(Fresh, options, outputDirPath, kernelType, true).value;
    RoundTrip(written);
  }

  /**
   * As written, importing a fresh export with the configuration included
   * reads the bare name "config.json", which is not the exported file
   * "<output>/config.json" the export wrote.
   */
  lemma ExportThenApplyAsWritten(options: PortingOptions.ExportOptions, outputDirPath: string, kernelType: string)
    requires PortingOptions.ExportIncludesAnything(options) && outputDirPath != "" && options.exportConfig
    ensures var written := ExportManifest(Fresh, options, outputDirPath, kernelType, true).value;
      var read := Deserialize(Serialize(written)).(pathToManifest := outputDirPath);
      var steps := ApplyManifestAsWritten(PortingOptions.DefaultImport, read);
      && steps.importConfigFrom == Some("config.json")
      && steps.importConfigFrom.value != outputDirPath + "/config.json"
  {
    var written := ExportManifest(Fresh, options, outputDirPath, kernelType, true).value;
    RoundTrip(written);
    assert |outputDirPath + "/config.json"| > |"config.json"|;
  }

  /** The manifest entry for evidence `i`: its id and "evidence/<export name>". */
  function ExportItem(all: seq<Evidence>, tokens: seq<string>, i: nat): EvidenceItem
    requires i < |all| && i < |tokens|
  {
    EvidenceItem(all[i].id, "evidence/" + ExportName(tokens[i], all[i].contentType))
  }

  /**
   * copyEvidence from evidence `i` on: each file gets a fresh export name;
   * an entry is added only when its copy worked (`copied[i]`), and
   * `i + 1` is signalled for every file either way.
   */
  function CopyFrom(all: seq<Evidence>, tokens: seq<string>, copied: seq<bool>, i: nat): (r: (seq<EvidenceItem>, seq<int>))
    requires i <= |all| && |tokens| >= |all| && |copied| >= |all|
    decreases |all| - i
  {
    if i == |all| then ([], [])
    else
      var rest := CopyFrom(all, tokens, copied, i + 1);
      ((if copied[i] then [ExportItem(all, tokens, i)] else []) + rest.0, [i + 1] + rest.1)
  }

  function CopyEvidence(all: seq<Evidence>, tokens: seq<string>, copied: seq<bool>): (r: (EvidenceManifest, seq<int>))
    requires |tokens| >= |all| && |copied| >= |all|
  {
    var (entries, progress) := CopyFrom(all, tokens, copied, 0);
    (EvidenceManifest(entries), progress)
  }

  /** One entry per copied file. */
  lemma {:induction false} CopyFromCount(all: seq<Evidence>, tokens: seq<string>, copied: seq<bool>, i: nat)
    requires i <= |all| && |tokens| >= |all| && |copied| >= |all|
    ensures |CopyFrom(all, tokens, copied, i).0| == multiset(copied[i..|all|])[true]
    decreases |all| - i
  {
    if i < |all| {
      CopyFromCount(all, tokens, copied, i + 1);
      assert copied[i..|all|] == [copied[i]] + copied[i + 1..|all|];
    }
  }

  /** `e` is the entry of a file from `i` on whose copy worked. */
  predicate CopiedEntry(all: seq<Evidence>, tokens: seq<string>, copied: seq<bool>, i: nat, e: EvidenceItem)
    requires |tokens| >= |all| && |copied| >= |all|
  {
    exists j :: i <= j < |all| && copied[j] && e == ExportItem(all, tokens, j)
  }

  /** Every entry is the entry of a file whose copy worked. */
  lemma {:induction false} CopyFromSound(all: seq<Evidence>, tokens: seq<string>, copied: seq<bool>, i: nat)
    requires i <= |all| && |tokens| >= |all| && |copied| >= |all|
    ensures forall e :: e in CopyFrom(all, tokens, copied, i).0 ==> CopiedEntry(all, tokens, copied, i, e)
    decreases |all| - i
  {
    if i < |all| {
      CopyFromSound(all, tokens, copied, i + 1);
      var entries := CopyFrom(all, tokens, copied, i).0;
      var rest := CopyFrom(all, tokens, copied, i + 1).0;
      var head := if copied[i] then [ExportItem(all, tokens, i)] else [];
      assert entries == head + rest;
      forall e | e in entries
        ensures CopiedEntry(all, tokens, copied, i, e)
      {
        if e in head {
          assert copied[i] && e == ExportItem(all, tokens, i);
        } else {
          assert CopiedEntry(all, tokens, copied, i + 1, e);
        }
      }
    }
  }

  /** Every file whose copy worked has its entry. */
  lemma {:induction false} CopyFromComplete(all: seq<Evidence>, tokens: seq<string>, copied: seq<bool>, i: nat)
    requires i <= |all| && |tokens| >= |all| && |copied| >= |all|
    ensures forall j :: i <= j < |all| && copied[j] ==> ExportItem(all, tokens, j) in CopyFrom(all, tokens, copied, i).0
    decreases |all| - i
  {
    if i < |all| {
      CopyFromComplete(all, tokens, copied, i + 1);
    }
  }

  /** Progress i+1, ..., |all| is signalled, one per file, whatever the copies do. */
  lemma {:induction false} CopyFromProgress(all: seq<Evidence>, tokens: seq<string>, copied: seq<bool>, i: nat)
    requires i <= |all| && |tokens| >= |all| && |copied| >= |all|
    ensures CopyFrom(all, tokens, copied, i).1 == seq(|all| - i, k requires 0 <= k < |all| - i => i + k + 1)
    decreases |all| - i
  {
    if i < |all| {
      CopyFromProgress(all, tokens, copied, i + 1);
    }
  }

  /** With every copy working, the evidence manifest lists every exported row in order. */
  lemma CopyAllEvidence(all: seq<Evidence>, tokens: seq<string>, copied: seq<bool>)
    requires |tokens| >= |all| && |copied| >= |all|
    requires forall j :: 0 <= j < |all| ==> copied[j]
    ensures var (manifest, progress) := CopyEvidence(all, tokens, copied);
      && |manifest.entries| == |all|
      && (forall k :: 0 <= k < |all| ==> manifest.entries[k].evidenceId == all[k].id)
      && |progress| == |all|
  {
    AllCopied(all, tokens, copied, 0);
    var r := CopyFrom(all, tokens, copied, 0);
    assert CopyEvidence(all, tokens, copied) == (EvidenceManifest(r.0), r.1);
    forall k | 0 <= k < |all| ensures r.0[k].evidenceId == all[k].id {
      assert r.0[k] == ExportItem(all, tokens, k);
    }
  }

  lemma {:induction false} AllCopied(all: seq<Evidence>, tokens: seq<string>, copied: seq<bool>, i: nat)
    requires i <= |all| && |tokens| >= |all| && |copied| >= |all|
    requires forall j :: i <= j < |all| ==> copied[j]
    ensures var r := CopyFrom(all, tokens, copied, i);
      && |r.0| == |all| - i && |r.1| == |all| - i
      && forall k :: 0 <= k < |r.0| ==> r.0[k] == ExportItem(all, tokens, i + k)
    decreases |all| - i
  {
    if i < |all| {
      AllCopied(all, tokens, copied, i + 1);
      var rest := CopyFrom(all, tokens, copied, i + 1);
      var r := CopyFrom(all, tokens, copied, i);
      assert r.0 == [ExportItem(all, tokens, i)] + rest.0;
      forall k | 0 <= k < |r.0| ensures r.0[k] == ExportItem(all, tokens, i + k) {
        if k > 0 {
          assert r.0[k] == rest.0[k - 1];
        }
      }
    }
  }
}

=== FILE: tag_cache.dfy ===
/**
 * One cached tag list for an operation: the tags and the time, in
 * milliseconds since the epoch, at which they go stale. The clock is a
 * parameter.
 */
module TagCache {
  import opened Wrappers
  import Models

  /** How long a stored list stays fresh. */
  const DefaultExpiryDeltaMs: int := 60000

  /**
   * The item's fields. The default constructor leaves the expiry
   * uninitialised, which is None here.
   */
  datatype CacheItem = CacheItem(tags: seq<Models.Tag>, expiry: Option<int>)

  const Fresh: CacheItem := CacheItem([], None)

  /** expire: the expiry moves to the epoch. */
  function Expire(c: CacheItem): (r: CacheItem) {
    c.(expiry := Some(0))
  }

  /** setTags: store the list, fresh for one minute from now. */
  function SetTags(c: CacheItem, tags: seq<Models.Tag>, now: int): (r: CacheItem) {
    CacheItem(tags, Some(now + DefaultExpiryDeltaMs))
  }

  /** isStale: stale once no time is left before the expiry. Needs an expiry set by setTags or expire. */
  predicate IsStale(c: CacheItem, now: int)
    requires c.expiry.Some?
  {
    c.expiry.value - now <= 0
  }

  function GetTags(c: CacheItem): seq<Models.Tag> {
    c.tags
  }

  /**
   * A list stored at time t is returned as stored and is fresh exactly while
   * the clock reads less than t plus one minute; once stale it stays stale.
   */
  lemma SetTagsMeaning(c: CacheItem, tags: seq<Models.Tag>, t: int, now: int, later: int)
    ensures GetTags(SetTags(c, tags, t)) == tags
    ensures SetTags(c, tags, t).expiry.Some?
    ensures !IsStale(SetTags(c, tags, t), now) <==> now < t + 60000
    ensures IsStale(SetTags(c, tags, t), now) && now <= later ==> IsStale(SetTags(c, tags, t), later)
  {
  }

  /** An expired item is stale at every time from the epoch on, and keeps its tags. */
  lemma ExpireMeaning(c: CacheItem, now: int)
    ensures Expire(c).expiry.Some?
    ensures now >= 0 ==> IsStale(Expire(c), now)
    ensures GetTags(Expire(c)) == GetTags(c)
    ensures GetTags(Fresh) == []
  {
  }
}

=== FILE: tag_colors.dfy ===
/**
 * The colours of tag labels: the palette shared with the web front end, the
 * random pick of a palette name for a new tag, and the choice of black or
 * white text for a background.
 */
module TagColors {
  /** A colour channel as QColor reports it. */
  newtype Channel = x: int | 0 <= x <= 255

  datatype Rgb = Rgb(red: Channel, green: Channel, blue: Channel)

  /** colorMap: every palette name and its colour (0xRRGGBB split into channels), in declaration order. */
  const Palette: seq<(string, Rgb)> := [
    ("blue", Rgb(0x0E, 0x5A, 0x8A)), ("yellow", Rgb(0xA6, 0x79, 0x08)),
    ("green", Rgb(0x0A, 0x66, 0x40)), ("indigo", Rgb(0x56, 0x42, 0xA6)),
    ("orange", Rgb(0xA6, 0x63, 0x21)), ("pink", Rgb(0xA8, 0x22, 0x55)),
    ("red", Rgb(0xA8, 0x2A, 0x2A)), ("teal", Rgb(0x00, 0x80, 0x75)),
    ("vermilion", Rgb(0x9E, 0x2B, 0x0E)), ("violet", Rgb(0x5C, 0x25, 0x5C)),
    ("lightBlue", Rgb(0x48, 0xAF, 0xF0)), ("lightYellow", Rgb(0xFF, 0xC9, 0x40)),
    ("lightGreen", Rgb(0x3D, 0xCC, 0x91)), ("lightIndigo", Rgb(0xAD, 0x99, 0xFF)),
    ("lightOrange", Rgb(0xFF, 0xB3, 0x66)), ("lightPink", Rgb(0xFF, 0x66, 0xA1)),
    ("lightRed", Rgb(0xFF, 0x73, 0x73)), ("lightTeal", Rgb(0x2E, 0xE6, 0xD6)),
    ("lightVermilion", Rgb(0xFF, 0x6E, 0x4A)), ("lightViolet", Rgb(0xC2, 0x74, 0xC2))]

  predicate IsColorName(name: string) {
    exists i :: 0 <= i < |Palette| && Palette[i].0 == name
  }

  /**
   * allColorsNames: the palette's names in the hash map's iteration order,
   * which is unspecified, so any listing of each name exactly once.
   */
  predicate ListsPalette(names: seq<string>) {
    && |names| == |Palette|
    && (forall i :: 0 <= i < |names| ==> IsColorName(names[i]))
    && (forall i :: 0 <= i < |Palette| ==> Palette[i].0 in names)
  }

  /** randomColor: the name at a position drawn uniformly below the number of names. */
  function RandomColor(names: seq<string>, draw: nat): (name: string)
    requires ListsPalette(names) && draw < |names|
    ensures IsColorName(name)
  {
    names[draw]
  }

  /** The palette has twenty names, no two alike. */
  lemma PaletteDistinct()
    ensures |Palette| == 20
    ensures forall i, j :: 0 <= i < j < |Palette| ==> Palette[i].0 != Palette[j].0
  {
  }

  /** The declaration order is one valid listing of the names drawn from. */
  lemma PaletteNames()
    ensures ListsPalette(seq(|Palette|, i requires 0 <= i < |Palette| => Palette[i].0))
  {
    var names := seq(|Palette|, i requires 0 <= i < |Palette| => Palette[i].0);
    forall i | 0 <= i < |names| ensures IsColorName(names[i]) {
      assert Palette[i].0 == names[i];
    }
    forall i | 0 <= i < |Palette| ensures Palette[i].0 in names {
      assert names[i] == Palette[i].0;
    }
  }

  datatype FontColor = White | Black

  /** The perceived brightness: (299 r + 587 g + 114 b) / 1000, in integer division. */
  function Yiq(bg: Rgb): (y: int) {
    (bg.red as int * 299 + bg.green as int * 587 + bg.blue as int * 114) / 1000
  }

  /** fontColorForBgColor: white text on dark backgrounds, black text on light ones. */
  function FontColorFor(bg: Rgb): (c: FontColor) {
    if Yiq(bg) < 128 then White else Black
  }

  /**
   * The brightness stays a channel value; the text is white exactly when the
   * weighted channel sum is below 128000; black and white backgrounds get
   * white and black text.
   */
  lemma FontColorMeaning(bg: Rgb)
    ensures 0 <= Yiq(bg) <= 255
    ensures FontColorFor(bg) == White <==> bg.red as int * 299 + bg.green as int * 587 + bg.blue as int * 114 < 128000
    ensures FontColorFor(Rgb(0, 0, 0)) == White && FontColorFor(Rgb(255, 255, 255)) == Black
  {
  }

  /** Brightening any channel never turns black text into white. */
  lemma FontColorMonotone(lo: Rgb, hi: Rgb)
    requires lo.red <= hi.red && lo.green <= hi.green && lo.blue <= hi.blue
    ensures FontColorFor(lo) == Black ==> FontColorFor(hi) == Black
  {
    FontColorMeaning(lo);
    FontColorMeaning(hi);
  }

  /** On the palette, the ten dark colours take white text and the ten light ones black. */
  lemma PaletteContrast()
    ensures forall i :: 0 <= i < 10 ==> FontColorFor(Palette[i].1) == White
    ensures forall i :: 10 <= i < 20 ==> FontColorFor(Palette[i].1) == Black
  {
  }
}

=== FILE: tags.dfy ===
/**
 * The editing state of the tag line-edit: a list of tag texts, one of which
 * is being edited, a cursor inside that tag's text and a selection inside
 * it. Painting, fonts, scrolling, the completer and cursor blinking are not
 * part of this model, so a tag is just its text.
 */
module TagsEditor {
  import opened Text

  /**
   * Tags::Impl's editing fields. The editing index is a size_t in the
   * source; the cursor and the selection are ints.
   */
  datatype Editor = Editor(
    tags: seq<string>,
    editingIndex: int,
    cursor: int,
    selectStart: int,
    selectSize: int)

  /** The constructor's state: one empty tag, being edited, cursor 0, nothing selected. */
  const Init: Editor := Editor([""], 0, 0, 0, 0)

  /**
   * The states the widget is meant to stay in: at least one tag, the editing
   * index names one of them, the cursor lies inside the text being edited,
   * and so does the selection when it is not empty (the start of an empty
   * selection is never read).
   */
  predicate Valid(e: Editor) {
    && |e.tags| >= 1
    && 0 <= e.editingIndex < |e.tags|
    && 0 <= e.cursor <= |e.tags[e.editingIndex]|
    && 0 <= e.selectSize
    && (e.selectSize > 0 ==> 0 <= e.selectStart && e.selectStart + e.selectSize <= |e.tags[e.editingIndex]|)
  }

  /** currentText(): the text of the tag being edited. */
  function Current(e: Editor): string
    requires 0 <= e.editingIndex < |e.tags|
  {
    e.tags[e.editingIndex]
  }

  function SetCurrent(e: Editor, text: string): (r: Editor)
    requires 0 <= e.editingIndex < |e.tags|
    ensures |r.tags| == |e.tags| && r.editingIndex == e.editingIndex && r.tags[e.editingIndex] == text
    ensures forall j :: 0 <= j < |e.tags| && j != e.editingIndex ==> r.tags[j] == e.tags[j]
  {
    e.(tags := e.tags[e.editingIndex := text])
  }

  /** The list without its i-th element (std::vector::erase). */
  function Erase(tags: seq<string>, i: int): (r: seq<string>)
    requires 0 <= i < |tags|
    ensures |r| == |tags| - 1
    ensures forall j :: 0 <= j < i ==> r[j] == tags[j]
    ensures forall j :: i <= j < |r| ==> r[j] == tags[j + 1]
  {
    tags[..i] + tags[i + 1..]
  }

  /**
   * QString::remove(position, n): a negative position counts from the end;
   * a position outside the text changes nothing; otherwise at most n
   * characters go, and the text is cut at the position when fewer remain.
   */
  function QRemove(s: string, pos: int, n: int): (r: string)
    ensures |r| <= |s|
  {
    var p := if pos < 0 then pos + |s| else pos;
    if p < 0 || p >= |s| then s
    else if n >= |s| - p then s[..p]
    else if n > 0 then s[..p] + s[p + n..]
    else s
  }

  /**
   * Inside the text remove deletes exactly the range [p, p + n); at
   * position -1 it deletes the last character.
   */
  lemma QRemoveMeaning(s: string, p: int, n: int)
    ensures 0 <= p && 0 <= n && p + n <= |s| ==> QRemove(s, p, n) == s[..p] + s[p + n..]
    ensures |s| > 0 ==> QRemove(s, -1, 1) == s[..|s| - 1]
    ensures n <= 0 ==> QRemove(s, p, n) == s
  {
    if 0 <= p && 0 <= n && p + n <= |s| && p < |s| && n >= |s| - p {
      assert s[p + n..] == [];
    }
    if 0 <= p && 0 <= n && p + n <= |s| && p >= |s| {
      assert s[..p] == s && s[p + n..] == [];
    }
  }

  predicate HasSelection(e: Editor) {
    e.selectSize > 0
  }

  /** selectAll: the whole current text. */
  function SelectAll(e: Editor): (r: Editor)
    requires 0 <= e.editingIndex < |e.tags|
  {
    e.(selectStart := 0, selectSize := |Current(e)|)
  }

  function DeselectAll(e: Editor): (r: Editor) {
    e.(selectStart := 0, selectSize := 0)
  }

  /**
   * The fixed end of a shift-extended selection: the far end of the
   * selection when the cursor sits at one of its ends, the cursor otherwise.
   */
  function Anchor(e: Editor): int {
    var end := e.selectStart + e.selectSize;
    if e.selectSize > 0 && e.cursor == e.selectStart then end
    else if e.selectSize > 0 && e.cursor == end then e.selectStart
    else e.cursor
  }

  /**
   * moveCursor(pos, mark): with mark the selection spans from the anchor to
   * pos; without mark the selection is dropped. Either way the cursor goes
   * to pos.
   */
  function MoveCursor(e: Editor, pos: int, mark: bool): (r: Editor)
    ensures r.tags == e.tags && r.editingIndex == e.editingIndex && r.cursor == pos
  {
    if mark then
      var a := Anchor(e);
      var start := if a <= pos then a else pos;
      var stop := if a <= pos then pos else a;
      e.(selectStart := start, selectSize := stop - start, cursor := pos)
    else
      DeselectAll(e).(cursor := pos)
  }

  /**
   * A marked move selects exactly the characters between the anchor and the
   * new cursor, and a further marked move keeps the same anchor, so that
   * moving back to where the selection started leaves nothing selected. An
   * unmarked move leaves nothing selected. A move inside the text keeps the
   * state valid.
   */
  lemma MoveCursorMeaning(e: Editor, pos: int, mark: bool)
    ensures var r := MoveCursor(e, pos, mark);
      && (!mark ==> !HasSelection(r))
      && (mark ==> (r.selectSize >= 0
            && {r.selectStart, r.selectStart + r.selectSize} == {Anchor(e), pos}))
      && (mark && pos != Anchor(e) ==> Anchor(r) == Anchor(e))
      && (mark ==> !HasSelection(MoveCursor(r, Anchor(e), true)))
      && (Valid(e) && 0 <= pos <= |Current(e)| ==> Valid(r))
  {
  }

  /** removeSelection: the selected characters go, the cursor goes to where they started. */
  function RemoveSelection(e: Editor): (r: Editor)
    requires 0 <= e.editingIndex < |e.tags|
  {
    SetCurrent(e, QRemove(Current(e), e.selectStart, e.selectSize))
      .(cursor := e.selectStart, selectStart := 0, selectSize := 0)
  }

  lemma RemoveSelectionMeaning(e: Editor)
    requires Valid(e) && HasSelection(e)
    ensures var r := RemoveSelection(e);
      && Current(r) == Current(e)[..e.selectStart] + Current(e)[e.selectStart + e.selectSize..]
      && r.cursor == e.selectStart && !HasSelection(r)
      && r.editingIndex == e.editingIndex && |r.tags| == |e.tags|
      && (forall j :: 0 <= j < |e.tags| && j != e.editingIndex ==> r.tags[j] == e.tags[j])
      && Valid(r)
  {
    QRemoveMeaning(Current(e), e.selectStart, e.selectSize);
  }

  /**
   * removeBackwardOne as written: without a selection the cursor is
   * decremented and the character at the new cursor removed, with no check
   * that the cursor was past the start.
   */
  function RemoveBackwardOneAsWritten(e: Editor): (r: Editor)
    requires 0 <= e.editingIndex < |e.tags|
  {
    if HasSelection(e) then RemoveSelection(e)
    else SetCurrent(e, QRemove(Current(e), e.cursor - 1, 1)).(cursor := e.cursor - 1)
  }

  /**
   * At cursor 0 the removal position is -1, which QString::remove counts
   * from the end: Backspace after Home deletes the LAST character of the
   * tag and leaves the cursor at -1, outside the text.
   */
  lemma BackspaceAtStartAsWritten()
    ensures var e := Editor(["ab"], 0, 2, 0, 0);
      && Valid(e)
      && KeyPress(e, Home) == Editor(["ab"], 0, 0, 0, 0)
      && RemoveBackwardOneAsWritten(KeyPress(e, Home)) == Editor(["a"], 0, -1, 0, 0)
      && !Valid(RemoveBackwardOneAsWritten(KeyPress(e, Home)))
  {
    var h := Editor(["ab"], 0, 0, 0, 0);
    assert QRemove("ab", -1, 1) == "a";
    assert h.tags[0 := "a"] == ["a"];
  }

  /** removeBackwardOne as intended: Backspace at the start of the text does nothing. */
  function RemoveBackwardOne(e: Editor): (r: Editor)
    requires 0 <= e.editingIndex < |e.tags|
  {
    if HasSelection(e) then RemoveSelection(e)
    else if e.cursor > 0 then SetCurrent(e, QRemove(Current(e), e.cursor - 1, 1)).(cursor := e.cursor - 1)
    else e
  }

  /**
   * With a selection the selection goes; otherwise the character before the
   * cursor goes and the cursor steps back, and at the start nothing
   * changes. Away from the start it agrees with the code as written, and it
   * keeps the state valid.
   */
  lemma RemoveBackwardOneMeaning(e: Editor)
    requires Valid(e)
    ensures var r := RemoveBackwardOne(e);
      && (HasSelection(e) ==> r == RemoveSelection(e))
      && (!HasSelection(e) && e.cursor > 0 ==>
            Current(r) == Current(e)[..e.cursor - 1] + Current(e)[e.cursor..] && r.cursor == e.cursor - 1)
      && (!HasSelection(e) && e.cursor == 0 ==> r == e)
      && (HasSelection(e) || e.cursor > 0 ==> r == RemoveBackwardOneAsWritten(e))
      && |r.tags| == |e.tags|
      && (forall j :: 0 <= j < |e.tags| && j != e.editingIndex ==> r.tags[j] == e.tags[j])
      && Valid(r)
  {
    if HasSelection(e) {
      RemoveSelectionMeaning(e);
    } else if e.cursor > 0 {
      QRemoveMeaning(Current(e), e.cursor - 1, 1);
    }
  }

  /** The size_t range the editing index wraps around in. */
  const SizeModulus: int := 0x1_0000_0000_0000_0000

  /**
   * setEditingIndex as written: an empty current tag is erased, and the
   * target index is decremented, modulo the size_t range, whenever the
   * erased tag was at or before it.
   */
  function SetEditingIndexAsWritten(e: Editor, i: int): (r: Editor)
    requires 0 <= e.editingIndex < |e.tags| && 0 <= i <= |e.tags|
  {
    if Current(e) == "" then
      e.(tags := Erase(e.tags, e.editingIndex),
         editingIndex := if e.editingIndex <= i then (i - 1) % SizeModulus else i)
    else
      e.(editingIndex := i)
  }

  /**
   * Home (or End) in the fresh widget, whose only tag is empty and whose
   * cursor is 0, calls editTag(0): the only tag is erased and the index
   * wraps to the largest size_t, so the next currentText() reads outside
   * the empty list.
   */
  lemma EditEmptyTagWrapsAsWritten()
    ensures Init.cursor == 0 && Init.cursor == |Current(Init)|
    ensures var r := SetEditingIndexAsWritten(Init, 0);
      && r.tags == [] && r.editingIndex == SizeModulus - 1
      && !(r.editingIndex < |r.tags|)
    ensures SetEditingIndex(Init, 0) == Init
  {
  }

  /**
   * setEditingIndex as intended: as written, except that choosing the first
   * tag while it is the empty tag being edited keeps it instead of erasing
   * it and wrapping the index below zero.
   */
  function SetEditingIndex(e: Editor, i: int): (r: Editor)
    requires 0 <= e.editingIndex < |e.tags| && 0 <= i < |e.tags|
  {
    if Current(e) == "" && !(i == 0 && e.editingIndex == 0) then
      e.(tags := Erase(e.tags, e.editingIndex),
         editingIndex := if e.editingIndex <= i then i - 1 else i)
    else
      e.(editingIndex := i)
  }

  /**
   * The tag index edited after setEditingIndex(i), counted in the list
   * before the call: i itself, except that re-choosing the empty tag being
   * edited (End on an empty last tag) erases it and lands on the tag before.
   */
  function Landing(e: Editor, i: int): int
    requires 0 <= e.editingIndex < |e.tags|
  {
    if Current(e) == "" && i == e.editingIndex && i > 0 then i - 1 else i
  }

  /**
   * The tag edited afterwards is the one at Landing(e, i); the empty tag
   * left behind is the only one removed, and the list never empties. Except
   * when the target is the first tag and it is the empty one being edited,
   * this is exactly what the code as written does.
   */
  lemma SetEditingIndexMeaning(e: Editor, i: int)
    requires 0 <= e.editingIndex < |e.tags| && 0 <= i < |e.tags|
    ensures var r := SetEditingIndex(e, i);
      && 0 <= r.editingIndex < |r.tags|
      && Current(r) == e.tags[Landing(e, i)]
      && (Current(e) == "" && !(i == 0 && e.editingIndex == 0) ==> r.tags == Erase(e.tags, e.editingIndex))
      && (Current(e) != "" || (i == 0 && e.editingIndex == 0) ==> r.tags == e.tags)
      && r.cursor == e.cursor && r.selectStart == e.selectStart && r.selectSize == e.selectSize
      && (|e.tags| <= SizeModulus && !(i == 0 && e.editingIndex == 0) ==> r == SetEditingIndexAsWritten(e, i))
      && (i == 0 && e.editingIndex == 0 && Current(e) == "" ==> r == e)
  {
  }

  /**
   * End on the widget just filled by the setter, whose last tag is the
   * empty one being edited: that tag is erased and the tag before it is
   * edited, with the cursor at its end.
   */
  lemma EndAfterSetTags(e: Editor)
    ensures var filled := SetTags(e, ["a"]);
      && filled == Editor(["a", ""], 1, 0, 0, 0)
      && KeyPress(filled, End) == Editor(["a"], 0, 1, 0, 0)
  {
    SetThenGet(e, ["a"]);
    var filled := Editor(["a", ""], 1, 0, 0, 0);
    assert Erase(filled.tags, 1) == ["a"];
  }

  /** editTag(i): edit tag i with the cursor at its end. */
  function EditTag(e: Editor, i: int): (r: Editor)
    requires 0 <= e.editingIndex < |e.tags| && 0 <= i < |e.tags|
  {
    var moved := SetEditingIndex(e, i);
    MoveCursor(moved, |Current(moved)|, false)
  }

  /** editPreviousTag: the tag before, cursor at its end; nothing at the first tag. */
  function EditPreviousTag(e: Editor): (r: Editor)
    requires 0 <= e.editingIndex < |e.tags|
  {
    if e.editingIndex > 0 then EditTag(e, e.editingIndex - 1) else e
  }

  /** editNextTag: the tag after, cursor at its start; nothing at the last tag. */
  function EditNextTag(e: Editor): (r: Editor)
    requires 0 <= e.editingIndex < |e.tags|
  {
    if e.editingIndex < |e.tags| - 1 then
      var moved := SetEditingIndex(e, e.editingIndex + 1);
      MoveCursor(moved, 0, false)
    else e
  }

  /** editNewTag: append an empty tag and edit it. */
  function EditNewTag(e: Editor): (r: Editor)
    requires 0 <= e.editingIndex < |e.tags|
  {
    var pushed := e.(tags := e.tags + [""]);
    MoveCursor(SetEditingIndex(pushed, |pushed.tags| - 1), 0, false)
  }

  /** editTag(i) edits the tag at Landing(e, i) with the cursor at its end, drops the selection and keeps the state valid. */
  lemma EditTagValid(e: Editor, i: int)
    requires 0 <= e.editingIndex < |e.tags| && 0 <= i < |e.tags|
    ensures var r := EditTag(e, i);
      Valid(r) && Current(r) == e.tags[Landing(e, i)] && r.cursor == |Current(r)| && !HasSelection(r)
  {
    SetEditingIndexMeaning(e, i);
  }

  lemma EditNeighbourValid(e: Editor)
    requires Valid(e)
    ensures Valid(EditPreviousTag(e)) && Valid(EditNextTag(e))
    ensures e.editingIndex > 0 ==> Current(EditPreviousTag(e)) == e.tags[e.editingIndex - 1]
    ensures e.editingIndex < |e.tags| - 1 ==>
      Current(EditNextTag(e)) == e.tags[e.editingIndex + 1] && EditNextTag(e).cursor == 0
  {
    if e.editingIndex > 0 {
      EditTagValid(e, e.editingIndex - 1);
    }
    if e.editingIndex < |e.tags| - 1 {
      SetEditingIndexMeaning(e, e.editingIndex + 1);
    }
  }

  /**
   * A new tag is appended and edited from an empty cursor position; the
   * tag left behind is dropped if it was empty, every other tag stays.
   */
  lemma EditNewTagMeaning(e: Editor)
    requires 0 <= e.editingIndex < |e.tags|
    ensures var r := EditNewTag(e);
      && Valid(r) && Current(r) == "" && r.editingIndex == |r.tags| - 1
      && r.cursor == 0 && !HasSelection(r)
      && r.tags == (if Current(e) == "" then Erase(e.tags, e.editingIndex) else e.tags) + [""]
  {
    var pushed := e.(tags := e.tags + [""]);
    SetEditingIndexMeaning(pushed, |pushed.tags| - 1);
    if Current(e) == "" {
      assert Erase(pushed.tags, e.editingIndex) == Erase(e.tags, e.editingIndex) + [""];
    }
  }

  /** The keys the widget handles itself; `Typed` is any other acceptable input with its text. */
  datatype Key = SelectAllKeys | SelectPreviousChar | SelectNextChar
               | Left | Right | Home | End | Backspace | Space
               | Typed(text: string) | Unhandled

  /**
   * The text layout's previous and next cursor positions, one character at
   * a time and stopping at the ends of the text.
   */
  function PreviousPosition(e: Editor): int {
    if e.cursor > 0 then e.cursor - 1 else e.cursor
  }

  function NextPosition(e: Editor): int
    requires 0 <= e.editingIndex < |e.tags|
  {
    if e.cursor < |Current(e)| then e.cursor + 1 else e.cursor
  }

  /** A new empty tag right after the one being edited (the Space key's insert). */
  function InsertAfterCurrent(e: Editor): (r: Editor)
    requires 0 <= e.editingIndex < |e.tags|
  {
    e.(tags := e.tags[..e.editingIndex + 1] + [""] + e.tags[e.editingIndex + 1..])
  }

  /** Typed text replaces the selection, if any, and goes in at the cursor, which moves past it. */
  function TypeText(e: Editor, text: string): (r: Editor)
    requires Valid(e)
  {
    var cleared := if HasSelection(e) then RemoveSelection(e) else e;
    if HasSelection(e) then RemoveSelectionMeaning(e); InsertAtCursor(cleared, text) else InsertAtCursor(cleared, text)
  }

  function InsertAtCursor(cleared: Editor, text: string): (r: Editor)
    requires Valid(cleared)
  {
    var cur := Current(cleared);
    SetCurrent(cleared, cur[..cleared.cursor] + text + cur[cleared.cursor..]).(cursor := cleared.cursor + |text|)
  }

  /** keyPressEvent's effect on the editing state. */
  function KeyPress(e: Editor, k: Key): (r: Editor)
    requires Valid(e)
  {
    match k
    case SelectAllKeys => SelectAll(e)
    case SelectPreviousChar => MoveCursor(e, PreviousPosition(e), true)
    case SelectNextChar => MoveCursor(e, NextPosition(e), true)
    case Left => if e.cursor == 0 then EditPreviousTag(e) else MoveCursor(e, PreviousPosition(e), false)
    case Right => if e.cursor == |Current(e)| then EditNextTag(e) else MoveCursor(e, NextPosition(e), false)
    case Home => if e.cursor == 0 then EditTag(e, 0) else MoveCursor(e, 0, false)
    case End => if e.cursor == |Current(e)| then EditTag(e, |e.tags| - 1) else MoveCursor(e, |Current(e)|, false)
    case Backspace =>
      if Current(e) != "" then RemoveBackwardOne(e)
      else if e.editingIndex > 0 then EditPreviousTag(e)
      else e
    case Space => if Current(e) != "" then EditNextTag(InsertAfterCurrent(e)) else e
    case Typed(text) => TypeText(e, text)
    case Unhandled => e
  }

  /**
   * Typing puts the text at the cursor, in place of the selection if there
   * is one, and leaves the cursor right after it.
   */
  lemma TypeTextMeaning(e: Editor, text: string)
    requires Valid(e) && !HasSelection(e)
    ensures var r := TypeText(e, text);
      && Current(r) == Current(e)[..e.cursor] + text + Current(e)[e.cursor..]
      && r.cursor == e.cursor + |text| && Valid(r)
  {
  }

  /** Space after a non-empty tag opens an empty tag right after it and moves there. */
  lemma SpaceMeaning(e: Editor)
    requires Valid(e) && Current(e) != ""
    ensures var r := KeyPress(e, Space);
      && r.tags == e.tags[..e.editingIndex + 1] + [""] + e.tags[e.editingIndex + 1..]
      && r.editingIndex == e.editingIndex + 1 && Current(r) == "" && r.cursor == 0
  {
    var ins := InsertAfterCurrent(e);
    assert ins.tags[e.editingIndex] == Current(e);
    assert ins.tags[e.editingIndex + 1] == "";
    SetEditingIndexMeaning(ins, e.editingIndex + 1);
  }

  /** Every key keeps the editing state valid, with the corrected SetEditingIndex and RemoveBackwardOne. */
  lemma KeyPressKeepsValid(e: Editor, k: Key)
    requires Valid(e)
    ensures Valid(KeyPress(e, k))
  {
    match k
    case SelectAllKeys =>
    case SelectPreviousChar =>
    case SelectNextChar =>
    case Left => EditNeighbourValid(e);
    case Right => EditNeighbourValid(e);
    case Home => EditTagValid(e, 0);
    case End => EditTagValid(e, |e.tags| - 1);
    case Backspace =>
      RemoveBackwardOneMeaning(e);
      EditNeighbourValid(e);
    case Space =>
      var ins := InsertAfterCurrent(e);
      if Current(e) != "" {
        assert ins.tags[e.editingIndex] == Current(e);
        EditNeighbourValid(ins);
      }
    case Typed(text) =>
      if HasSelection(e) {
        RemoveSelectionMeaning(e);
      }
    case Unhandled =>
  }

  /**
   * EmptySkipIterator: from position i, the first tag at or after i whose
   * text is not empty, or the end.
   */
  function SkipEmpty(tags: seq<string>, i: int): (j: int)
    requires 0 <= i <= |tags|
    ensures i <= j <= |tags|
    ensures j < |tags| ==> tags[j] != ""
    ensures forall k :: i <= k < j ==> tags[k] == ""
    decreases |tags| - i
  {
    if i == |tags| || tags[i] != "" then i else SkipEmpty(tags, i + 1)
  }

  /** The texts std::transform collects while stepping the skipping iterator from i to the end. */
  function Visit(tags: seq<string>, i: int): (r: seq<string>)
    requires 0 <= i <= |tags|
    decreases |tags| - i
  {
    var j := SkipEmpty(tags, i);
    if j == |tags| then [] else [tags[j]] + Visit(tags, j + 1)
  }

  /** The tags() getter. */
  function GetTags(e: Editor): seq<string> {
    Visit(e.tags, 0)
  }

  /** The tags(v) setter: v behind a leading empty tag, editing reset to it, then editNewTag. */
  function SetTags(e: Editor, v: seq<string>): (r: Editor) {
    EditNewTag(MoveCursor(e.(tags := [""] + v, editingIndex := 0), 0, false))
  }

  /** Stepping the iterator visits exactly the non-empty texts, in order. */
  lemma {:induction false} VisitIsNonEmpty(tags: seq<string>, i: int)
    requires 0 <= i <= |tags|
    ensures Visit(tags, i) == NonEmpty(tags[i..])
    decreases |tags| - i
  {
    if i < |tags| {
      VisitIsNonEmpty(tags, i + 1);
      assert tags[i..][0] == tags[i];
      assert tags[i..][1..] == tags[i + 1..];
      if tags[i] == "" {
        assert SkipEmpty(tags, i) == SkipEmpty(tags, i + 1);
      }
    }
  }

  lemma {:induction false} NonEmptyKeepsAll(v: seq<string>)
    requires forall k :: 0 <= k < |v| ==> v[k] != ""
    ensures NonEmpty(v) == v
  {
    if |v| > 0 {
      NonEmptyKeepsAll(v[1..]);
      assert v == [v[0]] + v[1..];
    }
  }

  /**
   * After the setter the list is v plus one empty tag, which is edited with
   * the cursor at 0 and nothing selected; the getter then gives back v
   * without its empty strings, so exactly v when none is empty.
   */
  lemma SetThenGet(e: Editor, v: seq<string>)
    ensures SetTags(e, v) == Editor(v + [""], |v|, 0, 0, 0)
    ensures Valid(SetTags(e, v))
    ensures GetTags(SetTags(e, v)) == NonEmpty(v)
    ensures (forall k :: 0 <= k < |v| ==> v[k] != "") ==> GetTags(SetTags(e, v)) == v
  {
    var start := MoveCursor(e.(tags := [""] + v, editingIndex := 0), 0, false);
    EditNewTagMeaning(start);
    assert Erase(start.tags, 0) == v;
    var r := SetTags(e, v);
    VisitIsNonEmpty(r.tags, 0);
    assert r.tags[0..] == v + [""];
    NonEmptyAppend(v, [""]);
    assert NonEmpty([""]) == [];
    if forall k :: 0 <= k < |v| ==> v[k] != "" {
      NonEmptyKeepsAll(v);
    }
  }

  /** The getter returns exactly the non-empty texts, in list order. */
  lemma GetTagsMeaning(e: Editor)
    ensures GetTags(e) == NonEmpty(e.tags)
    ensures forall k :: 0 <= k < |GetTags(e)| ==> GetTags(e)[k] != ""
  {
    VisitIsNonEmpty(e.tags, 0);
    assert e.tags[0..] == e.tags;
  }

  /** The fresh widget is in a valid state and holds no tags. */
  lemma InitMeaning()
    ensures Valid(Init) && Current(Init) == "" && !HasSelection(Init)
    ensures GetTags(Init) == []
  {
    GetTagsMeaning(Init);
  }
}

=== FILE: text.dfy ===
/**
 * The handful of QString operations the modelled code relies on, with the
 * semantics Qt gives them: `trimmed`, `toLower` (ASCII case mapping only),
 * `split` with and without empty parts, `indexOf`, `replace`/`remove` of a
 * substring, `simplified`, and decimal rendering and parsing of numbers.
 */
module Text {

  /**
   * Whitespace as QChar::isSpace sees it: tab to carriage return, space,
   * U+0085 and U+00A0, and the Unicode space, line and paragraph separators.
   */
  predicate IsSpace(c: char) {
    || c == ' ' || c == '\t' || c == '\n' || c == '\r' || c == '\U{B}' || c == '\U{C}'
    || c == '\U{85}' || c == '\U{A0}' || c == '\U{1680}'
    || ('\U{2000}' <= c <= '\U{200A}')
    || c == '\U{2028}' || c == '\U{2029}' || c == '\U{202F}' || c == '\U{205F}' || c == '\U{3000}'
  }

  predicate NoSpace(s: string) {
    forall i :: 0 <= i < |s| ==> !IsSpace(s[i])
  }

  predicate IsAsciiUpper(c: char) { 'A' <= c <= 'Z' }
  predicate IsAsciiLower(c: char) { 'a' <= c <= 'z' }
  predicate IsDigit(c: char) { '0' <= c <= '9' }
  predicate IsAsciiAlnum(c: char) { IsAsciiUpper(c) || IsAsciiLower(c) || IsDigit(c) }

  function Lower(c: char): (r: char)
    ensures IsAsciiUpper(c) ==> IsAsciiLower(r) && r as int == c as int + 32
    ensures !IsAsciiUpper(c) ==> r == c
  {
    if IsAsciiUpper(c) then (c as int + 32) as char else c
  }

  /** QString::toLower, with the case mapping restricted to ASCII letters. */
  function ToLower(s: string): (r: string)
    ensures |r| == |s|
    ensures forall i :: 0 <= i < |s| ==> r[i] == Lower(s[i])
  {
    seq(|s|, i requires 0 <= i < |s| => Lower(s[i]))
  }

  lemma ToLowerIdempotent(s: string)
    ensures ToLower(ToLower(s)) == ToLower(s)
  {
  }

  lemma ToLowerAppend(a: string, b: string)
    ensures ToLower(a + b) == ToLower(a) + ToLower(b)
  {
  }

  /** Text without ASCII capitals is its own lower-case form. */
  lemma ToLowerOfLower(s: string)
    requires forall i :: 0 <= i < |s| ==> !IsAsciiUpper(s[i])
    ensures ToLower(s) == s
  {
  }

  /** QString::trimmed: whitespace removed from both ends, the middle untouched. */
  function Trim(s: string): string
    decreases |s|
  {
    if |s| > 0 && IsSpace(s[0]) then Trim(s[1..])
    else if |s| > 0 && IsSpace(s[|s| - 1]) then Trim(s[..|s| - 1])
    else s
  }

  /**
   * The trimmed text is no longer than the text, starts and ends with a
   * non-blank character, and is the text itself when that already does.
   */
  lemma {:induction false} TrimSpec(s: string)
    ensures |Trim(s)| <= |s|
    ensures |Trim(s)| == 0 || (!IsSpace(Trim(s)[0]) && !IsSpace(Trim(s)[|Trim(s)| - 1]))
    ensures (|s| == 0 || (!IsSpace(s[0]) && !IsSpace(s[|s| - 1]))) ==> Trim(s) == s
    decreases |s|
  {
    if |s| > 0 && IsSpace(s[0]) {
      TrimSpec(s[1..]);
    } else if |s| > 0 && IsSpace(s[|s| - 1]) {
      TrimSpec(s[..|s| - 1]);
    }
  }

  /** Text without any blank is its own trimmed form. */
  lemma TrimNoSpace(s: string)
    requires NoSpace(s)
    ensures Trim(s) == s
  {
    TrimSpec(s);
  }

  /** Text holding a non-blank character does not trim to nothing. */
  lemma {:induction false} TrimKeepsNonSpace(s: string, i: int)
    requires 0 <= i < |s| && !IsSpace(s[i])
    ensures Trim(s) != ""
    decreases |s|
  {
    if IsSpace(s[0]) {
      TrimKeepsNonSpace(s[1..], i - 1);
    } else if IsSpace(s[|s| - 1]) {
      TrimKeepsNonSpace(s[..|s| - 1], i);
    }
  }

  /** Text only of blanks trims to nothing. */
  lemma {:induction false} TrimAllSpace(s: string)
    requires forall i :: 0 <= i < |s| ==> IsSpace(s[i])
    ensures Trim(s) == ""
    decreases |s|
  {
    if |s| > 0 {
      TrimAllSpace(s[1..]);
    }
  }

  lemma TrimLeadingSpace(s: string)
    requires |s| == 0 || (!IsSpace(s[0]) && !IsSpace(s[|s| - 1]))
    ensures Trim(" " + s) == s
  {
    assert (" " + s)[1..] == s;
    TrimSpec(s);
  }

  /** QString::split(sep) keeping empty parts: the parts between occurrences of `sep`. */
  function Split(s: string, sep: char): (parts: seq<string>)
    ensures |parts| >= 1
    ensures forall i :: 0 <= i < |parts| ==> sep !in parts[i]
  {
    if |s| == 0 then [""]
    else
      var rest := Split(s[1..], sep);
      if s[0] == sep then [""] + rest
      else [[s[0]] + rest[0]] + rest[1..]
  }

  /** Joins parts with a separator between consecutive parts (QStringList::join). */
  function Join(parts: seq<string>, sep: string): (r: string)
  {
    if |parts| == 0 then ""
    else if |parts| == 1 then parts[0]
    else parts[0] + sep + Join(parts[1..], sep)
  }

  /** The non-empty elements of a list, in order (QString::SkipEmptyParts). */
  function NonEmpty(parts: seq<string>): (r: seq<string>)
    ensures forall i :: 0 <= i < |r| ==> r[i] != "" && r[i] in parts
    ensures forall i :: 0 <= i < |parts| && parts[i] != "" ==> parts[i] in r
  {
    if |parts| == 0 then []
    else if parts[0] == "" then NonEmpty(parts[1..])
    else [parts[0]] + NonEmpty(parts[1..])
  }

  lemma NonEmptyAppend(a: seq<string>, b: seq<string>)
    ensures NonEmpty(a + b) == NonEmpty(a) + NonEmpty(b)
  {
    if |a| > 0 {
      assert (a + b)[1..] == a[1..] + b;
      NonEmptyAppend(a[1..], b);
    } else {
      assert a + b == b;
    }
  }

  /** QString::split(sep, SkipEmptyParts). */
  function SplitSkipEmpty(s: string, sep: char): (parts: seq<string>)
    ensures forall i :: 0 <= i < |parts| ==> parts[i] != "" && sep !in parts[i]
  {
    NonEmpty(Split(s, sep))
  }

  lemma SplitNoSeparator(s: string, sep: char)
    requires sep !in s
    ensures Split(s, sep) == [s]
  {
    if |s| > 0 {
      SplitNoSeparator(s[1..], sep);
      assert [s[0]] + s[1..] == s;
    }
  }

  /** Splitting distributes over a separator: the core fact behind split/join round trips. */
  lemma {:induction false} SplitAround(a: string, sep: char, b: string)
    ensures Split(a + [sep] + b, sep) == Split(a, sep) + Split(b, sep)
  {
    if |a| == 0 {
      assert a + [sep] + b == [sep] + b;
      assert ([sep] + b)[1..] == b;
    } else {
      assert (a + [sep] + b)[1..] == a[1..] + [sep] + b;
      SplitAround(a[1..], sep, b);
    }
  }

  /** Text without a separator appended to the input only extends the last part. */
  lemma {:induction false} SplitExtendLast(a: string, sep: char, b: string)
    requires sep !in b
    ensures var p := Split(a, sep);
      Split(a + b, sep) == p[..|p| - 1] + [p[|p| - 1] + b]
  {
    if |a| == 0 {
      SplitNoSeparator(b, sep);
      assert a + b == b;
    } else {
      assert (a + b)[1..] == a[1..] + b;
      SplitExtendLast(a[1..], sep, b);
      var q := Split(a[1..], sep);
      if a[0] != sep {
        assert [a[0]] + (q[0] + (if |q| == 1 then b else "")) == ([a[0]] + q[0]) + (if |q| == 1 then b else "");
      }
    }
  }

  /** Joining with a one-character separator undoes Split. */
  lemma {:induction false} JoinSplit(s: string, sep: char)
    ensures Join(Split(s, sep), [sep]) == s
  {
    if |s| > 0 {
      JoinSplit(s[1..], sep);
      var rest := Split(s[1..], sep);
      if s[0] == sep {
        assert ([""] + rest)[1..] == rest;
      } else {
        var head := [s[0]] + rest[0];
        if |rest| == 1 {
          assert s == head;
        } else {
          assert Join(rest, [sep]) == rest[0] + [sep] + Join(rest[1..], [sep]);
          assert ([head] + rest[1..])[1..] == rest[1..];
          assert s == [s[0]] + s[1..];
        }
      }
    }
  }

  /** Splitting text joined with a separator that no part contains gives back the parts. */
  lemma {:induction false} SplitJoin(parts: seq<string>, sep: char)
    requires |parts| >= 1
    requires forall i :: 0 <= i < |parts| ==> sep !in parts[i]
    ensures Split(Join(parts, [sep]), sep) == parts
  {
    if |parts| == 1 {
      SplitNoSeparator(parts[0], sep);
    } else {
      SplitJoin(parts[1..], sep);
      SplitNoSeparator(parts[0], sep);
      SplitAround(parts[0], sep, Join(parts[1..], [sep]));
      assert [parts[0]] + parts[1..] == parts;
    }
  }

  /** `p` occurs in `s` starting at `j`. */
  predicate OccursAt(s: string, p: string, j: int) {
    0 <= j && j + |p| <= |s| && s[j..j + |p|] == p
  }

  function IndexFrom(s: string, p: string, k: nat): (r: int)
    requires k <= |s| + 1
    ensures r == -1 || (k <= r && OccursAt(s, p, r))
    ensures r == -1 ==> forall j :: k <= j ==> !OccursAt(s, p, j)
    ensures r != -1 ==> forall j :: k <= j < r ==> !OccursAt(s, p, j)
    decreases |s| + 1 - k
  {
    if k + |p| > |s| then -1
    else if s[k..k + |p|] == p then k
    else IndexFrom(s, p, k + 1)
  }

  /** QString::indexOf: the first position where `p` occurs, or -1. */
  function IndexOf(s: string, p: string): (r: int)
    ensures r == -1 || OccursAt(s, p, r)
    ensures r == -1 <==> forall j :: !OccursAt(s, p, j)
    ensures forall j :: 0 <= j < r ==> !OccursAt(s, p, j)
  {
    IndexFrom(s, p, 0)
  }

  predicate Contains(s: string, p: string) {
    IndexOf(s, p) != -1
  }

  /** QString::replace(before, after) for a non-empty `before`: a left-to-right scan, matches never overlap. */
  function ReplaceAll(s: string, before: string, after: string): (r: string)
    requires before != ""
    decreases |s|
  {
    if |s| < |before| then s
    else if s[..|before|] == before then after + ReplaceAll(s[|before|..], before, after)
    else [s[0]] + ReplaceAll(s[1..], before, after)
  }

  lemma {:induction false} ReplaceAllAbsent(s: string, before: string, after: string)
    requires before != ""
    requires forall j :: !OccursAt(s, before, j)
    ensures ReplaceAll(s, before, after) == s
    decreases |s|
  {
    if |s| >= |before| {
      assert !OccursAt(s, before, 0);
      forall j ensures !OccursAt(s[1..], before, j) {
        OccursInTail(s, before, j);
      }
      ReplaceAllAbsent(s[1..], before, after);
      assert [s[0]] + s[1..] == s;
    }
  }

  lemma OccursInTail(s: string, p: string, j: int)
    requires |s| > 0
    ensures OccursAt(s[1..], p, j) ==> OccursAt(s, p, j + 1)
  {
    if OccursAt(s[1..], p, j) {
      assert s[j + 1..j + 1 + |p|] == s[1..][j..j + |p|];
    }
  }

  /** QString::remove(str): every non-overlapping occurrence deleted; removing "" changes nothing. */
  function RemoveAll(s: string, p: string): (r: string)
  {
    if p == "" then s else ReplaceAll(s, p, "")
  }

  /** `n` copies of `s` laid end to end (QString::repeated). */
  function Repeat(s: string, n: nat): (r: string)
    ensures |r| == n * |s|
  {
    if n == 0 then "" else s + Repeat(s, n - 1)
  }

  /** Number of occurrences of a character. */
  function Count(s: string, c: char): (r: nat)
    ensures r <= |s|
  {
    if |s| == 0 then 0 else (if s[0] == c then 1 else 0) + Count(s[1..], c)
  }

  lemma {:induction false} CountAppend(a: string, b: string, c: char)
    ensures Count(a + b, c) == Count(a, c) + Count(b, c)
  {
    if |a| > 0 {
      assert (a + b)[1..] == a[1..] + b;
      CountAppend(a[1..], b, c);
    } else {
      assert a + b == b;
    }
  }

  lemma CountAbsent(s: string, c: char)
    requires c !in s
    ensures Count(s, c) == 0
  {
  }

  lemma {:induction false} CountRepeat(s: string, n: nat, c: char)
    ensures Count(Repeat(s, n), c) == n * Count(s, c)
  {
    if n > 0 {
      CountRepeat(s, n - 1, c);
      CountAppend(s, Repeat(s, n - 1), c);
      assert n * Count(s, c) == Count(s, c) + (n - 1) * Count(s, c);
    }
  }

  /** The whitespace-separated words of a string. */
  function Words(s: string): (ws: seq<string>)
    decreases |s|
  {
    if |s| == 0 then []
    else if IsSpace(s[0]) then Words(s[1..])
    else
      var w := FirstWord(s);
      [w] + Words(s[|w|..])
  }

  function FirstWord(s: string): (w: string)
    requires |s| > 0 && !IsSpace(s[0])
    ensures 0 < |w| <= |s| && w == s[..|w|] && NoSpace(w)
    ensures |w| < |s| ==> IsSpace(s[|w|])
  {
    if |s| == 1 || IsSpace(s[1]) then s[..1] else [s[0]] + FirstWord(s[1..])
  }

  /** QString::simplified: trimmed, with every internal run of whitespace turned into one space. */
  function Simplified(s: string): string {
    Join(Words(s), " ")
  }

  /** Decimal digits of a natural number, without leading zeros. */
  function NatToString(n: nat): (r: string)
    ensures |r| >= 1 && forall i :: 0 <= i < |r| ==> IsDigit(r[i])
    ensures n > 0 ==> r[0] != '0'
  {
    if n < 10 then [DigitChar(n)] else NatToString(n / 10) + [DigitChar(n % 10)]
  }

  function DigitChar(d: nat): (c: char)
    requires d < 10
    ensures IsDigit(c) && c as int - '0' as int == d
  {
    ('0' as int + d) as char
  }

  /** The value of a string of decimal digits. */
  function DigitsValue(s: string): (v: nat)
    requires forall i :: 0 <= i < |s| ==> IsDigit(s[i])
  {
    if |s| == 0 then 0
    else
      var d := s[|s| - 1];
      assert IsDigit(d);
      DigitsValue(s[..|s| - 1]) * 10 + (d as int - '0' as int)
  }

  lemma {:induction false} DigitsValueOfNatToString(n: nat)
    ensures DigitsValue(NatToString(n)) == n
  {
    if n >= 10 {
      var s := NatToString(n);
      assert s[..|s| - 1] == NatToString(n / 10);
      DigitsValueOfNatToString(n / 10);
    }
  }

  /** QString::number for any int (a minus sign for negatives). */
  function IntToString(n: int): (r: string)
    ensures |r| >= 1
  {
    if n < 0 then "-" + NatToString(-n) else NatToString(n)
  }

  /** QString::lastIndexOf for one character: its last position, or -1. */
  function LastIndexOf(s: string, c: char): (r: int)
    ensures -1 <= r < |s|
    ensures r == -1 <==> forall i :: 0 <= i < |s| ==> s[i] != c
    ensures r >= 0 ==> s[r] == c && forall i :: r < i < |s| ==> s[i] != c
  {
    if |s| == 0 then -1
    else if s[|s| - 1] == c then |s| - 1
    else
      var r := LastIndexOf(s[..|s| - 1], c);
      assert forall i :: 0 <= i < |s| - 1 ==> s[..|s| - 1][i] == s[i];
      r
  }

  /** QString::left(n), and QString::mid(0, n): the first `n` characters, or everything when `n` is negative or too large. */
  function Left(s: string, n: int): (r: string)
    ensures r <= s
    ensures 0 <= n <= |s| ==> |r| == n
    ensures n < 0 || n > |s| ==> r == s
  {
    if n < 0 || n > |s| then s else s[..n]
  }

  predicate StartsWith(s: string, p: string) { p <= s }

  predicate EndsWith(s: string, p: string) {
    |p| <= |s| && s[|s| - |p|..] == p
  }
}

=== FILE: ukeysequence.dfy ===
/**
 * UKeySequence: a hotkey as a duplicate-free list of Qt key codes, built
 * from text ("Ctrl+Shift+F"), from key events, and printed back as text.
 */
module KeySequence {
  import opened Wrappers
  import opened Text

  type Key = int

  // Qt::Key codes of the four modifier keys, and the code for "no key".
  const KeyShift: Key := 0x0100_0020
  const KeyControl: Key := 0x0100_0021
  const KeyMeta: Key := 0x0100_0022
  const KeyAlt: Key := 0x0100_0023
  const KeyUnknown: Key := 0x01FF_FFFF

  // Qt::KeyboardModifier flags, one bit each.
  const NoModifier: nat := 0
  const ShiftModifier: nat := 0x0200_0000
  const ControlModifier: nat := 0x0400_0000
  const AltModifier: nat := 0x0800_0000
  const MetaModifier: nat := 0x1000_0000

  /** `mod & flag` for a one-bit flag. */
  predicate HasFlag(mod: nat, flag: nat)
    requires flag > 0
  {
    (mod / flag) % 2 == 1
  }

  predicate IsModifier(key: Key) {
    key == KeyShift || key == KeyControl || key == KeyAlt || key == KeyMeta
  }

  /** The invariant every key list built here keeps: positive codes, none twice. */
  predicate WellFormed(keys: seq<Key>) {
    && (forall i :: 0 <= i < |keys| ==> keys[i] > 0)
    && (forall i, j :: 0 <= i < j < |keys| ==> keys[i] != keys[j])
  }

  // ---------------------------------------------------------------- adding keys

  /** addKey(Qt::Key): non-positive codes and keys already present are ignored. */
  function AddKey(keys: seq<Key>, key: Key): seq<Key> {
    if key <= 0 || key in keys then keys else keys + [key]
  }

  /**
   * The list only grows at its end, by the key exactly when it is positive
   * and new, and stays duplicate-free.
   */
  lemma AddKeyMeaning(keys: seq<Key>, key: Key)
    requires WellFormed(keys)
    ensures var r := AddKey(keys, key);
      && WellFormed(r)
      && keys <= r
      && (forall k :: k in r <==> k in keys || (k == key && key > 0))
      && (|r| == |keys| + 1 <==> key > 0 && key !in keys)
      && (|r| > |keys| ==> r[|keys|] == key)
  {
  }

  /** The key for a modifier flag, in the order addModifiers tests them. */
  function ModifierKeysOf(mod: nat): seq<Key> {
    (if HasFlag(mod, ShiftModifier) then [KeyShift] else [])
    + ((if HasFlag(mod, ControlModifier) then [KeyControl] else [])
    + ((if HasFlag(mod, AltModifier) then [KeyAlt] else [])
    + (if HasFlag(mod, MetaModifier) then [KeyMeta] else [])))
  }

  /** addModifiers: Shift, Control, Alt, then Meta, each added when its flag is set. */
  function AddModifiers(keys: seq<Key>, mod: nat): seq<Key> {
    if mod == NoModifier then keys
    else
      var k1 := if HasFlag(mod, ShiftModifier) then AddKey(keys, KeyShift) else keys;
      var k2 := if HasFlag(mod, ControlModifier) then AddKey(k1, KeyControl) else k1;
      var k3 := if HasFlag(mod, AltModifier) then AddKey(k2, KeyAlt) else k2;
      if HasFlag(mod, MetaModifier) then AddKey(k3, KeyMeta) else k3
  }

  /** Adding each key of a list in turn. */
  function AddKeys(keys: seq<Key>, more: seq<Key>): seq<Key>
    decreases |more|
  {
    if |more| == 0 then keys else AddKeys(AddKey(keys, more[0]), more[1..])
  }

  lemma {:induction false} AddKeysMeaning(keys: seq<Key>, more: seq<Key>)
    requires WellFormed(keys)
    ensures var r := AddKeys(keys, more);
      && WellFormed(r)
      && keys <= r
      && (forall k :: k in r <==> k in keys || (k in more && k > 0))
    decreases |more|
  {
    if |more| > 0 {
      AddKeyMeaning(keys, more[0]);
      AddKeysMeaning(AddKey(keys, more[0]), more[1..]);
      assert more == [more[0]] + more[1..];
    }
  }

  /**
   * addModifiers adds exactly the modifier keys whose flags are set, in the
   * order Shift, Control, Alt, Meta, skipping those already present; the
   * NoModifier shortcut agrees with the general case.
   */
  lemma AddModifiersMeaning(keys: seq<Key>, mod: nat)
    requires WellFormed(keys)
    ensures AddModifiers(keys, mod) == AddKeys(keys, ModifierKeysOf(mod))
    ensures var r := AddModifiers(keys, mod);
      && WellFormed(r)
      && keys <= r
      && (forall k :: k in r <==> k in keys || k in ModifierKeysOf(mod))
  {
    var m := ModifierKeysOf(mod);
    if mod == NoModifier {
      assert m == [];
    } else {
      AddKeysOfFlags(keys, mod);
    }
    AddKeysMeaning(keys, m);
    assert forall k :: k in m ==> k > 0;
  }

  lemma AddKeysOfFlags(keys: seq<Key>, mod: nat)
    requires mod != NoModifier
    ensures AddModifiers(keys, mod) == AddKeys(keys, ModifierKeysOf(mod))
  {
    var s := if HasFlag(mod, ShiftModifier) then [KeyShift] else [];
    var c := if HasFlag(mod, ControlModifier) then [KeyControl] else [];
    var a := if HasFlag(mod, AltModifier) then [KeyAlt] else [];
    var m := if HasFlag(mod, MetaModifier) then [KeyMeta] else [];
    AddKeysAppend(keys, s, c + (a + m));
    AddKeysAppend(AddKeys(keys, s), c, a + m);
    AddKeysAppend(AddKeys(AddKeys(keys, s), c), a, m);
  }

  lemma {:induction false} AddKeysAppend(keys: seq<Key>, a: seq<Key>, b: seq<Key>)
    ensures AddKeys(keys, a + b) == AddKeys(AddKeys(keys, a), b)
    decreases |a|
  {
    if |a| > 0 {
      assert (a + b)[0] == a[0];
      assert (a + b)[1..] == a[1..] + b;
      AddKeysAppend(AddKey(keys, a[0]), a[1..], b);
    } else {
      assert a + b == b;
    }
  }

  /** A modifier set without any of the four flags adds nothing, whatever other bits it holds. */
  lemma OtherModifiersAddNothing(keys: seq<Key>, mod: nat)
    requires !HasFlag(mod, ShiftModifier) && !HasFlag(mod, ControlModifier)
    requires !HasFlag(mod, AltModifier) && !HasFlag(mod, MetaModifier)
    ensures AddModifiers(keys, mod) == keys
  {
  }

  /** addKey(QKeyEvent): the event's key, then its modifiers. */
  function AddKeyEvent(keys: seq<Key>, key: Key, mod: nat): seq<Key> {
    AddModifiers(AddKey(keys, key), mod)
  }

  lemma AddKeyEventMeaning(keys: seq<Key>, key: Key, mod: nat)
    requires WellFormed(keys)
    ensures var r := AddKeyEvent(keys, key, mod);
      && WellFormed(r)
      && AddKey(keys, key) <= r
      && (forall k :: k in r <==> k in keys || (k == key && key > 0) || k in ModifierKeysOf(mod))
  {
    AddKeyMeaning(keys, key);
    AddModifiersMeaning(AddKey(keys, key), mod);
  }

  // ---------------------------------------------------------------- text

  /** The modifier a lower-cased word names, if it is one of the accepted spellings. */
  function ModifierNamed(word: string): Option<Key> {
    if word == "alt" then Some(KeyAlt)
    else if word == "shift" || word == "shft" then Some(KeyShift)
    else if word == "control" || word == "ctrl" then Some(KeyControl)
    else if word == "win" || word == "meta" then Some(KeyMeta)
    else None
  }

  /**
   * addKey(QString). `parse` stands for QKeySequence's reading of the text:
   * the key codes of the combinations it finds. Text holding '+' or ',' is
   * refused, a modifier spelling is looked up case-insensitively, and
   * otherwise the text must read as exactly one combination.
   */
  function AddKeyText(keys: seq<Key>, key: string, parse: string -> seq<Key>): seq<Key> {
    if '+' in key || ',' in key then keys
    else
      match ModifierNamed(ToLower(key))
      case Some(m) => AddKey(keys, m)
      case None =>
        var combos := parse(key);
        if |combos| != 1 then keys else AddKey(keys, combos[0])
  }

  lemma AddKeyTextKeepsWellFormed(keys: seq<Key>, key: string, parse: string -> seq<Key>)
    requires WellFormed(keys)
    ensures WellFormed(AddKeyText(keys, key, parse)) && keys <= AddKeyText(keys, key, parse)
    ensures |AddKeyText(keys, key, parse)| <= |keys| + 1
  {
  }

  /** Text with '+' or ',' in it adds nothing, even when it would read as a key. */
  lemma SeparatorsRefused(keys: seq<Key>, key: string, parse: string -> seq<Key>)
    requires '+' in key || ',' in key
    ensures AddKeyText(keys, key, parse) == keys
  {
  }

  /** Every spelling of a modifier, in any mix of ASCII case, adds that modifier. */
  lemma ModifierSpellings(keys: seq<Key>, key: string, parse: string -> seq<Key>)
    ensures var w := ToLower(key); var r := AddKeyText(keys, key, parse);
      && (w == "alt" ==> r == AddKey(keys, KeyAlt))
      && (w == "shift" || w == "shft" ==> r == AddKey(keys, KeyShift))
      && (w == "control" || w == "ctrl" ==> r == AddKey(keys, KeyControl))
      && (w == "win" || w == "meta" ==> r == AddKey(keys, KeyMeta))
  {
    NoSeparatorUnderLower(key);
  }

  /** Lower-casing neither creates nor removes '+' and ','. */
  lemma NoSeparatorUnderLower(s: string)
    ensures ('+' in s <==> '+' in ToLower(s)) && (',' in s <==> ',' in ToLower(s))
  {
    forall i | 0 <= i < |s|
      ensures s[i] == '+' <==> ToLower(s)[i] == '+'
      ensures s[i] == ',' <==> ToLower(s)[i] == ','
    {
    }
  }

  /** fromString: split on '+' and add each part in order. */
  function FromString(keys: seq<Key>, str: string, parse: string -> seq<Key>): seq<Key> {
    AddTexts(keys, Split(str, '+'), parse)
  }

  function AddTexts(keys: seq<Key>, parts: seq<string>, parse: string -> seq<Key>): seq<Key>
    decreases |parts|
  {
    if |parts| == 0 then keys else AddTexts(AddKeyText(keys, parts[0], parse), parts[1..], parse)
  }

  // ---------------------------------------------------------------- partition and printing

  /** getSimpleKeys: the keys other than modifiers, in list order. */
  function SimpleKeys(keys: seq<Key>): (r: seq<Key>)
    ensures forall k :: k in r <==> k in keys && !IsModifier(k)
  {
    if |keys| == 0 then []
    else (if IsModifier(keys[0]) then [] else [keys[0]]) + SimpleKeys(keys[1..])
  }

  /** getModifiers: the modifier keys, in list order. */
  function Modifiers(keys: seq<Key>): (r: seq<Key>)
    ensures forall k :: k in r <==> k in keys && IsModifier(k)
  {
    if |keys| == 0 then []
    else (if IsModifier(keys[0]) then [keys[0]] else []) + Modifiers(keys[1..])
  }

  /**
   * The two lists split the key list: together they hold each key exactly
   * as often as the list does.
   */
  lemma {:induction false} Partition(keys: seq<Key>)
    ensures multiset(Modifiers(keys)) + multiset(SimpleKeys(keys)) == multiset(keys)
    ensures |Modifiers(keys)| + |SimpleKeys(keys)| == |keys|
  {
    if |keys| > 0 {
      Partition(keys[1..]);
      assert keys == [keys[0]] + keys[1..];
    }
  }

  /** Keeping only some keys keeps the list duplicate-free. */
  lemma {:induction false} FiltersWellFormed(keys: seq<Key>)
    requires WellFormed(keys)
    ensures WellFormed(Modifiers(keys)) && WellFormed(SimpleKeys(keys))
    ensures WellFormed(Modifiers(keys) + SimpleKeys(keys))
  {
    if |keys| > 0 {
      FiltersWellFormed(keys[1..]);
      assert keys[0] !in keys[1..];
    }
    var ms := Modifiers(keys);
    var ss := SimpleKeys(keys);
    var both := ms + ss;
    forall i, j | 0 <= i < j < |both|
      ensures both[i] != both[j]
    {
      if j >= |ms| && i < |ms| {
        assert both[i] in ms && both[j] in ss;
      }
    }
  }

  /** The modifiers of the printed order are the modifiers; the rest are the simple keys. */
  lemma {:induction false} FilterOfCanonical(keys: seq<Key>)
    ensures Modifiers(Modifiers(keys) + SimpleKeys(keys)) == Modifiers(keys)
    ensures SimpleKeys(Modifiers(keys) + SimpleKeys(keys)) == SimpleKeys(keys)
  {
    ModifiersAppend(Modifiers(keys), SimpleKeys(keys));
    SimpleAppend(Modifiers(keys), SimpleKeys(keys));
    OnlyModifiers(Modifiers(keys));
    NoModifiers(SimpleKeys(keys));
  }

  lemma {:induction false} ModifiersAppend(a: seq<Key>, b: seq<Key>)
    ensures Modifiers(a + b) == Modifiers(a) + Modifiers(b)
  {
    if |a| > 0 {
      assert (a + b)[1..] == a[1..] + b;
      ModifiersAppend(a[1..], b);
    } else {
      assert a + b == b;
    }
  }

  lemma {:induction false} SimpleAppend(a: seq<Key>, b: seq<Key>)
    ensures SimpleKeys(a + b) == SimpleKeys(a) + SimpleKeys(b)
  {
    if |a| > 0 {
      assert (a + b)[1..] == a[1..] + b;
      SimpleAppend(a[1..], b);
    } else {
      assert a + b == b;
    }
  }

  lemma {:induction false} OnlyModifiers(ms: seq<Key>)
    requires forall i :: 0 <= i < |ms| ==> IsModifier(ms[i])
    ensures Modifiers(ms) == ms && SimpleKeys(ms) == []
  {
    if |ms| > 0 {
      OnlyModifiers(ms[1..]);
    }
  }

  lemma {:induction false} NoModifiers(ss: seq<Key>)
    requires forall i :: 0 <= i < |ss| ==> !IsModifier(ss[i])
    ensures Modifiers(ss) == [] && SimpleKeys(ss) == ss
  {
    if |ss| > 0 {
      NoModifiers(ss[1..]);
    }
  }

  /**
   * keyToStr: the fixed names of the four modifiers; any other key is
   * printed by `name`, which stands for QKeySequence's text for it.
   */
  function KeyToStr(key: Key, name: Key -> string): string {
    if key == KeyShift then "Shift"
    else if key == KeyControl then "Ctrl"
    else if key == KeyAlt then "Alt"
    else if key == KeyMeta then "Meta"
    else name(key)
  }

  function Names(keys: seq<Key>, name: Key -> string): (r: seq<string>)
    ensures |r| == |keys|
    ensures forall i :: 0 <= i < |keys| ==> r[i] == KeyToStr(keys[i], name)
  {
    if |keys| == 0 then [] else [KeyToStr(keys[0], name)] + Names(keys[1..], name)
  }

  /** toString: the modifiers' names, then the simple keys' names, joined with '+'. */
  function ToString(keys: seq<Key>, name: Key -> string): string {
    Join(Names(Modifiers(keys) + SimpleKeys(keys), name), "+")
  }

  /**
   * QKeySequence prints key `k` as text that it reads back as `k` alone,
   * with no '+' or ',' in it and not spelling a modifier.
   */
  predicate ReadsBack(k: Key, name: Key -> string, parse: string -> seq<Key>) {
    var t := name(k);
    '+' !in t && ',' !in t && ModifierNamed(ToLower(t)).None? && parse(t) == [k]
  }

  /** Every printed name reads back as its key: the fixed modifier names through their spellings. */
  lemma NameReadsBack(acc: seq<Key>, k: Key, name: Key -> string, parse: string -> seq<Key>)
    requires IsModifier(k) || ReadsBack(k, name, parse)
    ensures AddKeyText(acc, KeyToStr(k, name), parse) == AddKey(acc, k)
    ensures '+' !in KeyToStr(k, name)
  {
    var t := KeyToStr(k, name);
    if k == KeyShift {
      assert ToLower(t) == "shift";
    } else if k == KeyControl {
      assert ToLower(t) == "ctrl";
    } else if k == KeyAlt {
      assert ToLower(t) == "alt";
    } else if k == KeyMeta {
      assert ToLower(t) == "meta";
    }
  }

  /** Every key of the list is a modifier or reads back from its printed name. */
  predicate AllReadBack(ks: seq<Key>, name: Key -> string, parse: string -> seq<Key>) {
    forall i :: 0 <= i < |ks| ==> IsModifier(ks[i]) || ReadsBack(ks[i], name, parse)
  }

  /** The next key of a duplicate-free list is new to what comes before it. */
  lemma NextIsNew(acc: seq<Key>, ks: seq<Key>)
    requires WellFormed(acc + ks) && |ks| > 0
    ensures AddKey(acc, ks[0]) == acc + [ks[0]]
    ensures WellFormed((acc + [ks[0]]) + ks[1..]) && (acc + [ks[0]]) + ks[1..] == acc + ks
  {
    var k := ks[0];
    assert (acc + ks)[|acc|] == k;
    assert k !in acc by {
      forall i | 0 <= i < |acc|
        ensures acc[i] != k
      {
        assert (acc + ks)[i] == acc[i];
      }
    }
    assert (acc + [k]) + ks[1..] == acc + ks;
  }

  lemma {:induction false} AddTextsOfNames(acc: seq<Key>, ks: seq<Key>, name: Key -> string, parse: string -> seq<Key>)
    requires WellFormed(acc + ks) && AllReadBack(ks, name, parse)
    ensures AddTexts(acc, Names(ks, name), parse) == acc + ks
    decreases |ks|
  {
    if |ks| == 0 {
      assert acc + ks == acc;
    } else {
      var names := Names(ks, name);
      NameReadsBack(acc, ks[0], name, parse);
      NextIsNew(acc, ks);
      assert names[1..] == Names(ks[1..], name);
      assert AllReadBack(ks[1..], name, parse) by {
        forall i | 0 <= i < |ks[1..]|
          ensures IsModifier(ks[1..][i]) || ReadsBack(ks[1..][i], name, parse)
        {
          assert ks[1..][i] == ks[i + 1];
        }
      }
      AddTextsOfNames(acc + [ks[0]], ks[1..], name, parse);
    }
  }

  /** The printed order holds the same keys, so each of them still reads back, and no name holds '+'. */
  lemma CanonReadsBack(keys: seq<Key>, name: Key -> string, parse: string -> seq<Key>)
    requires AllReadBack(keys, name, parse)
    ensures var canon := Modifiers(keys) + SimpleKeys(keys);
      && AllReadBack(canon, name, parse)
      && forall i :: 0 <= i < |canon| ==> '+' !in Names(canon, name)[i]
  {
    var canon := Modifiers(keys) + SimpleKeys(keys);
    forall i | 0 <= i < |canon|
      ensures IsModifier(canon[i]) || ReadsBack(canon[i], name, parse)
      ensures '+' !in Names(canon, name)[i]
    {
      var ms := Modifiers(keys);
      if i < |ms| {
        assert canon[i] == ms[i] && ms[i] in ms;
      } else {
        assert canon[i] == SimpleKeys(keys)[i - |ms|] && canon[i] in SimpleKeys(keys);
      }
      assert canon[i] in keys;
      NameReadsBack([], canon[i], name, parse);
    }
  }

  /**
   * Printing a well-formed key list and reading the text back into an
   * empty sequence gives the modifiers first and then the simple keys,
   * whenever every simple key's text reads back as that key; reading the
   * result prints the same text again.
   */
  lemma ToStringRoundTrip(keys: seq<Key>, name: Key -> string, parse: string -> seq<Key>)
    requires WellFormed(keys) && |keys| > 0
    requires AllReadBack(keys, name, parse)
    ensures FromString([], ToString(keys, name), parse) == Modifiers(keys) + SimpleKeys(keys)
    ensures ToString(FromString([], ToString(keys, name), parse), name) == ToString(keys, name)
  {
    var canon := Modifiers(keys) + SimpleKeys(keys);
    Partition(keys);
    FiltersWellFormed(keys);
    CanonReadsBack(keys, name, parse);
    SplitJoin(Names(canon, name), '+');
    assert [] + canon == canon;
    AddTextsOfNames([], canon, name, parse);
    FilterOfCanonical(keys);
  }

  /** Ctrl and Shift pressed with a simple key print as "Ctrl+Shift" before it, whatever order they came in. */
  lemma PrintsModifiersFirst(k: Key, name: Key -> string)
    requires k > 0 && !IsModifier(k)
    ensures ToString([k, KeyControl, KeyShift], name) == "Ctrl+Shift+" + name(k)
  {
    ModifiersMoveFirst(k);
    var names := Names([KeyControl, KeyShift, k], name);
    assert names == ["Ctrl", "Shift", name(k)];
    JoinThree("Ctrl", "Shift", name(k));
  }

  lemma ModifiersMoveFirst(k: Key)
    requires !IsModifier(k)
    ensures Modifiers([k, KeyControl, KeyShift]) + SimpleKeys([k, KeyControl, KeyShift]) == [KeyControl, KeyShift, k]
  {
    var keys := [k, KeyControl, KeyShift];
    var tail := [KeyControl, KeyShift];
    assert keys[1..] == tail && tail[1..] == [KeyShift] && [KeyShift][1..] == [];
    assert Modifiers([KeyShift]) == [KeyShift] && SimpleKeys([KeyShift]) == [];
    assert Modifiers(tail) == tail && SimpleKeys(tail) == [];
  }

  lemma JoinThree(a: string, b: string, c: string)
    ensures Join([a, b, c], "+") == a + "+" + b + "+" + c
  {
    assert [a, b, c][1..] == [b, c] && [b, c][1..] == [c];
    assert Join([c], "+") == c;
    assert Join([b, c], "+") == b + "+" + c;
  }

  // ---------------------------------------------------------------- indexing

  /** A size_t index converted to a 32-bit int, as `(int)n` does. */
  function AsInt32(n: nat): int {
    var m := n % 0x1_0000_0000;
    if m < 0x8000_0000 then m else m - 0x1_0000_0000
  }

  /**
   * operator[] as written: the guard `(int)n > size` lets n == size (and
   * indices whose int conversion is negative) through to the list read;
   * None marks that out-of-range read.
   */
  function IndexAsWritten(keys: seq<Key>, n: nat): Option<Key>
    requires n < 0x1_0000_0000_0000_0000
  {
    if AsInt32(n) > |keys| then Some(KeyUnknown)
    else if n < |keys| then Some(keys[n])
    else None
  }

  /** operator[] with the guard it evidently means: every index past the end gives Key_unknown. */
  function Index(keys: seq<Key>, n: nat): Key {
    if n >= |keys| then KeyUnknown else keys[n]
  }

  /** The index just past the end reads out of range, for every list. */
  lemma IndexAtSizeFaults(keys: seq<Key>)
    requires |keys| < 0x8000_0000
    ensures IndexAsWritten(keys, |keys|) == None
    ensures Index(keys, |keys|) == KeyUnknown
  {
  }

  /** Where the as-written operator does not fault it agrees with the corrected one; it faults only past the end. */
  lemma IndexAgrees(keys: seq<Key>, n: nat)
    requires n < 0x1_0000_0000_0000_0000
    ensures IndexAsWritten(keys, n).Some? ==> IndexAsWritten(keys, n).value == Index(keys, n)
    ensures IndexAsWritten(keys, n).None? <==> n >= |keys| && AsInt32(n) <= |keys|
  {
  }

  /** A key that addKey appends is found at the old size. */
  lemma IndexOfAdded(keys: seq<Key>, key: Key)
    requires key > 0 && key !in keys
    ensures Index(AddKey(keys, key), |keys|) == key
    ensures forall i :: 0 <= i < |keys| ==> Index(AddKey(keys, key), i) == Index(keys, i)
  {
  }
}

=== FILE: wrappers.dfy ===
/** Failure-carrying result types shared by every module of the model. */
module Wrappers {

  /** A value that may be missing: a lookup that found nothing, a parse that failed. */
  datatype Option<+T> = None | Some(value: T) {

    /** The carried value, or `default` when there is none. */
    function GetOr(default: T): (r: T)
      ensures Some? ==> r == value
      ensures None? ==> r == default
    {
      match this
      case Some(v) => v
      case None => default
    }
  }

  /** The outcome of an operation that either produces a value or reports why it could not. */
  datatype Result<+T, +E> = Success(value: T) | Failure(error: E)
}
